=== FILE: README.md ===
# Micro-analytics core in Dafny

A model of the decision and aggregation logic of a small self-hosted web
analytics service with a Google Search Console (GSC) add-on. Every table is a
sequence of rows given as input. The model has no database, network, browser
or clock of its own, and proves what each piece computes.

- **Beacon** (`beacon.dfy`, `session.dfy`, `payload.dfy`, `snippet.dfy`).
  The tracking script:
  - reads its tracking id from its own script URL;
  - picks the endpoint;
  - hashes text with the 32-bit rolling hash and prints it in base 36;
  - keeps a 30-minute session in `sessionStorage`;
  - classifies the device, browser and OS;
  - fills in the payload defaults;
  - sends a page view only when the URL changes.

  The dashboard snippet builds the script URL that the beacon parses back.
- **Ingestion** (`schema.dfy`, `ingest.dfy`). The `/track` endpoint checks
  the required fields, finds the site by its tracking id, stores one row, and
  answers the CORS preflight. `schema.dfy` holds the tables and their
  invariants: the generated date and hour columns, the unique tracking ids
  and the `gsc_data` key.
- **Stats** (`stats.dfy`, `sources.dfy`, `overview.dfy`). These cover:
  - the visitors, page views, pages, sources, devices and realtime routes;
  - the period-to-window mapping;
  - distinct counts and group-bys;
  - the sources view's merging of referrers into domains;
  - the overview cards' "previous period" value and percentage change.
- **Search Console** (`gsc_sync.dfy`, `gsc_connect.dfy`, `token_refresh.dfy`).
  These cover:
  - the nightly sync's keyed update-or-insert and its per-site error isolation;
  - linking a site to a GSC property and unlinking it;
  - the access-token expiry decision and refresh.
- **Search Console views** (`gsc_summary.dfy`, `seo_views.dfy`,
  `health_score.dfy`, `improvement.dfy`, `pages_change.dfy`,
  `trend_chart.dfy`). These cover:
  - the GSC summary route;
  - the positions, keywords and CTR views;
  - the health score;
  - the improvement candidates;
  - the per-page changes against a previous period;
  - the position trend chart.
- **Insights, sites and onboarding** (`insights.dfy`, `sites.dfy`,
  `onboarding.dfy`). These cover:
  - the AI insights route, with its model call, fenced-JSON extraction and
    rule-based fallback;
  - site registration with domain normalisation and ownership checks;
  - the onboarding draft kept in session storage.
- **Shared** (`common.dfy`, `grouping.dfy`, `radix.dfy`). Options and
  results, JavaScript string helpers, first-occurrence group-by, a stable
  sort, and number-to-text conversion.

A missing session in the routes that call the auth guard is modelled as the
guard throwing. In most routes the throw lands in the route's `try`, so the
reply is a 500. The Search Console connect and disconnect routes catch it
themselves and reply 401.
A `demo` site id short-circuits every stats route.

The code has a token helper, `getValidAccessToken`
(src/lib/gsc/token-refresh.ts:81), that refreshes an expired Google token.
The nightly sync route never calls it: it builds its client from the access
token stored in the site's configuration (src/app/api/sync/gsc/route.ts:47-56).
The model follows the route, and the first finding below follows from it. SQL `ORDER BY` leaves the
order of ties open; the model keeps ties in first-occurrence order.

## Model

| member | source | states |
|---|---|---|
| Common.JsonOrNull | src/app/track/route.ts:50 | `v \|\| null` keeps a truthy JSON value and turns every falsy one into null |
| Common.OrNull | src/app/track/route.ts:40-49 | `s \|\| null` is null exactly for the empty string and the text itself otherwise |
| Common.ErrorMessage | src/app/api/connect/gsc/route.ts:119 | an `Error`'s message is reported as it is, any other thrown value as "不明なエラー" |
| Common.IndexOf | src/app/api/connect/gsc/route.ts:124-126 | `indexOf` finds an occurrence, the leftmost one, and reports none only when the pattern occurs nowhere |
| Common.ContainsIff | src/app/api/connect/gsc/route.ts:124-126 | `includes` holds exactly when the pattern occurs at some position |
| Common.ReplaceFirst | src/app/api/stats/sources/route.ts:82 | `replace` with a string pattern rewrites only its leftmost occurrence and leaves text without it unchanged |
| Common.StripPrefix | src/app/api/connect/gsc/route.ts:180-182 | an anchored literal prefix is removed once when present and the text is kept otherwise |
| Common.StripHttpScheme | src/app/api/sites/route.ts:46 | a leading `https://` or `http://` (case-sensitive) is removed and any other text is kept |
| Common.StripTrailingSlash | src/app/api/sites/route.ts:47 | exactly one '/' at the very end is removed |
| Common.LowerAscii | src/app/api/sites/route.ts:48 | `toLowerCase` maps each ASCII capital to its small letter and keeps every other character, keeping the length |
| Common.TrimStart | src/app/api/sites/route.ts:49 | the leading white space (ECMA-262 WhiteSpace and LineTerminator) is removed and the rest starts with a non-space |
| Common.TrimEnd | src/app/api/sites/route.ts:49 | the trailing white space is removed and the rest ends with a non-space |
| Common.Trim | src/app/api/sites/route.ts:49 | `trim` gives the piece of the text left after removing the white space at both ends: it starts and ends with a non-space, and everything before and after it is white space |
| Common.TrimKeeps | src/app/api/sites/route.ts:49 | text that neither starts nor ends with white space is unchanged by `trim` |
| Common.Split | public/ca.js:91 | `split` on one character gives at least one piece and no piece contains the separator |
| Common.JoinSplit | public/ca.js:91 | joining the pieces of `split` with the separator gives the text back |
| Common.SplitNoSep | public/ca.js:91 | text without the separator splits into itself alone |
| Common.SplitFirst | public/ca.js:91 | splitting at the first separator peels off the text before it as the first piece |
| Common.SumRealAppend | src/components/dashboard/health-score.tsx:120-122 | a sum over two parts is the sum of the parts' sums |
| Common.SumIntAppend | src/app/api/gsc/stats/route.ts:81-87 | a sum over two parts is the sum of the parts' sums |
| Common.Take | src/app/api/ai/insights/route.ts:220 | the first `n` elements, fewer when the sequence is shorter and none for `n <= 0` |
| Common.JsSlice | src/components/seo/gsc-pages-list.tsx:111 | `slice(0, end)` keeps a prefix: `end` elements (at most all) for a non-negative end, and all but `-end` for a negative one |
| Common.SqlLimit | src/app/api/stats/pages/route.ts:77 | SQL `LIMIT n` keeps a prefix of `n` rows (at most all) and all rows for a negative `n`, as SQLite reads it |
| Common.BuilderLimit | src/app/api/stats/pages/route.ts:77 | the limit written is the parsed one, and a NaN limit is one that keeps every row |
| Common.Round | src/components/dashboard/health-score.tsx:152 | `Math.round` gives the nearest integer, halves rounded up |
| Common.RoundMono | src/components/dashboard/health-score.tsx:152 | rounding never reverses the order of two numbers |
| Common.RoundOfInt | src/components/dashboard/health-score.tsx:152 | an integer rounds to itself |
| Common.Round1 | src/components/seo/seo-stats-trend-chart.tsx:67 | `Number(x.toFixed(1))` is a whole number of tenths within 0.05 of `x`, which leaves only one value |
| Common.Round2 | src/components/dashboard/health-score.tsx:149 | `Number(x.toFixed(2))` is a whole number of hundredths within 0.005 of `x`, which leaves only one value |
| Common.Ceil | src/components/seo/seo-stats-trend-chart.tsx:182 | `Math.ceil` gives the least integer at or above `x` |
| Grouping.Filter | src/app/api/stats/pages/route.ts:68-74 | `WHERE p` keeps exactly the rows satisfying `p`, never more rows than there were |
| Grouping.FirstIndex | src/components/seo/gsc-pages-list.tsx:96 | `find` stops at the first element satisfying the test, and finds nothing only when no element does |
| Grouping.FilterNone | src/app/api/stats/pages/route.ts:68-74 | a test no row passes selects nothing |
| Grouping.FilterAll | src/app/api/stats/pages/route.ts:68-74 | a test every row passes selects all rows, in order |
| Grouping.FilterSplit | src/app/api/stats/devices/route.ts:64-75 | selecting by the disjoint union of two tests counts as many rows as the two selections together |
| Grouping.KeySetMono | src/app/api/stats/visitors/route.ts:65-73 | fewer rows never have more distinct values |
| Grouping.KeySetCard | src/app/api/stats/visitors/route.ts:65-73 | a list has no more distinct values than rows, and a non-empty list has at least one |
| Grouping.Dedup | src/app/api/stats/visitors/route.ts:66 | `SELECT DISTINCT` lists every value of the rows and each only once |
| Grouping.GroupKeys | src/app/api/stats/visitors/route.ts:88 | `GROUP BY key` gives each key value of the rows once and nothing else |
| Grouping.Members | src/app/api/stats/visitors/route.ts:88 | a group holds exactly the rows with its key |
| Grouping.MembersNonEmpty | src/app/api/stats/visitors/route.ts:79-88 | a group that exists has a row, so its row count and its distinct count are at least one |
| Grouping.MemberCounts | src/app/api/stats/pages/route.ts:64 | `count(*)` per group is the size of that group |
| Grouping.MemberDistinct | src/app/api/stats/visitors/route.ts:79 | `count(distinct f)` per group is the number of distinct values in that group |
| Grouping.GroupCountsSum | src/app/api/stats/pageviews/route.ts:76-89 | the counts of groups with distinct keys add up to the number of rows whose key is listed |
| Grouping.GroupCountsPartition | src/app/api/stats/pageviews/route.ts:76-89 | when every row's key is listed once, the per-group counts add up to the total row count |
| Grouping.GroupDistinctSum | src/app/api/stats/visitors/route.ts:65-89 | the distinct values over the listed groups are at most the sum of the per-group distinct counts, since a visitor seen on two days counts on both |
| Grouping.GroupDistinctCover | src/app/api/stats/visitors/route.ts:65-89 | the period's distinct visitors are at most the sum of the daily distinct visitors |
| Grouping.GroupDistinctBound | src/app/api/stats/visitors/route.ts:65-89 | no day has more distinct visitors than the whole period |
| Grouping.InsertAsc | src/app/api/stats/visitors/route.ts:88-89 | adding a value to an ascending list of distinct values keeps it ascending and holds exactly the old values and the new one |
| Grouping.AscendingKeys | src/app/api/stats/visitors/route.ts:88-89 | `GROUP BY d ORDER BY d` lists each value once, in strictly ascending order |
| Grouping.InsertDesc | src/app/api/stats/pages/route.ts:76 | inserting into a list sorted by descending rank keeps it sorted and adds exactly that row |
| Grouping.SortDesc | src/app/api/stats/pages/route.ts:76 | `ORDER BY rank DESC` is a permutation of the rows with the highest rank first |
| Grouping.SortDescStable | src/app/api/stats/sources/route.ts:111 | the sort is stable: the rows of any one rank come out in their input order, as JavaScript's `sort` keeps them |
| Grouping.DistinctKeysCountOne | src/app/api/stats/pages/route.ts:75 | rows with pairwise distinct keys hold each row at most once |
| Grouping.PermutationKeepsDistinctKeys | src/app/api/stats/pages/route.ts:75-76 | reordering rows keeps their group keys pairwise distinct |
| Grouping.TopNFromInput | src/app/api/stats/pages/route.ts:76-77 | the sorted and limited rows are still sorted and all come from the input |
| Grouping.AvgSome | src/app/api/seo/positions/route.ts:54 | `Number(AVG(f)) \|\| 0` is 0 for a group without values, and otherwise the value that times the count of non-NULL values gives their sum |
| Grouping.SumSomeSnoc | src/app/api/gsc/stats/route.ts:81-87 | adding a row adds its value to `SUM`, or nothing when the value is NULL |
| Grouping.FilterSumSplit | src/app/api/seo/positions/route.ts:50-65 | summing over the disjoint union of two selections is the sum of the two sums |
| Grouping.GroupSums | src/app/api/seo/positions/route.ts:55-56 | `SUM(f)` per group is the sum over that group's rows |
| Grouping.GroupSumsTotal | src/app/api/seo/positions/route.ts:50-65 | the per-group sums of groups with distinct keys add up to the sum over the rows whose key is listed |
| Grouping.GroupSumsPartition | src/app/api/seo/positions/route.ts:50-65 | when every row's key is listed once, the per-group sums add up to the whole sum |
| Grouping.SumSomeRealBounds | src/app/api/seo/positions/route.ts:54 | non-NULL values within `[lo, hi]` sum to between `count * lo` and `count * hi` |
| Grouping.AvgSomeWithin | src/app/api/seo/positions/route.ts:54 | an average of values within `[lo, hi]` lies within `[lo, hi]` |
| Radix.DigitChar | public/ca.js:59 | every digit below 36 has a character worth that digit |
| Radix.ToBase | public/ca.js:59 | the text of a number in base 10 or 36 is non-empty, uses only that base's digits, is `0` exactly for zero and has no leading zero otherwise |
| Radix.FromToBase | public/ca.js:59 | reading back the text of a number in its base gives the number |
| Radix.ToBaseInjective | public/ca.js:59 | different numbers have different texts |
| Radix.IntToString | public/ca.js:86 | the decimal text of an integer is non-empty and starts with `-` exactly for a negative one |
| Radix.LeadingDigits | public/ca.js:93 | the longest prefix of digits of the radix, followed by no such digit |
| Radix.LeadingDigitsRun | public/ca.js:93 | a run of digits followed by a non-digit or the end is exactly the leading digits |
| Radix.ParseUnsigned | src/app/api/stats/pages/route.ts:11 | an unsigned number is read in base 16 after `0x` or `0X` and in base 10 otherwise; it fails on an empty text |
| Radix.ParseInt | src/app/api/stats/pages/route.ts:11 | `parseInt` without a radix fails on text that is empty after the leading white space, and gives a negative value only after a `-` |
| Radix.UnsignedDecimal | src/app/api/stats/sources/route.ts:11 | decimal digits followed by a non-digit, and not an `0x` prefix, read as their decimal value |
| Radix.UnsignedHex | src/app/api/seo/keywords/route.ts:15 | `0x` or `0X` followed by hexadecimal digits reads as their base-16 value |
| Radix.ParseIntUnsigned | src/app/api/stats/pages/route.ts:11 | text starting with neither white space nor a sign reads as the unsigned number |
| Radix.ParseIntSigned | src/app/api/stats/pages/route.ts:11 | a leading `-` negates the unsigned number and a leading `+` keeps it |
| Radix.ParseIntDecimalPrefix | public/ca.js:93 | `parseInt` reads the leading decimal digits and ignores the rest of the text |
| Radix.ParseIntHex | src/app/api/stats/sources/route.ts:11 | `parseInt` reads `0x` or `0X` and hexadecimal digits in base 16 |
| Radix.ParseIntDigits | src/app/api/stats/pages/route.ts:11 | `parseInt` reads a plain digit string as its decimal value |
| Radix.ParseIntToString | public/ca.js:89-93 | `parseInt` of any integer's decimal text gives the integer back |
| Beacon.RunLength | public/ca.js:12 | the greedy `[^.]+` run from a position ends right before the first dot after it, or at the end of the text, and holds no dot |
| Beacon.RunLengthExact | public/ca.js:12 | a run of `m` non-dot characters followed by a dot is consumed as exactly `m` characters |
| Beacon.PatternGivesMatch | public/ca.js:12 | wherever `ca-<id>.js` occurs with a non-empty dot-free id, the match attempt at that position captures exactly that id |
| Beacon.MatchGivesPattern | public/ca.js:12 | a successful attempt captures an id that really forms `ca-<id>.js` at that position |
| Beacon.MatchAtIff | public/ca.js:12 | the attempt at a position captures `id` if and only if `ca-<id>.js` occurs there, so the capture is the only possible one |
| Beacon.NoMatchAt | public/ca.js:12 | where the attempt fails, no id at all forms the pattern |
| Beacon.MatchStart | public/ca.js:12 | the regular expression's match is the leftmost position where an attempt succeeds: every earlier attempt fails, and with none the whole text fails |
| Beacon.TrackingId | public/ca.js:10-14 | the tracking id is the capture of the leftmost `ca-<id>.js` in the script URL; there is none (and the script stops) exactly when the pattern occurs nowhere; a found id is non-empty |
| Beacon.AttributeEndpoint | public/ca.js:38-48 | without a `data-endpoint` attribute the beacon posts to `<page origin>/track`; an absolute http(s) attribute is used as it is; an attribute starting with '/' is appended to the page origin as it is, and any other is appended after one added '/' |
| Beacon.Endpoint | public/ca.js:19-49 | a non-empty script URL that parses posts to its own origin plus `/track`; an empty or unparsable one falls back on the attribute rule |
| Beacon.EndpointOfRunningScript | public/ca.js:11-36 | once a tracking id was found the script URL is non-empty, so the empty-URL branch is dead: a parsable URL always gives its own origin's `/track` |
| Beacon.ToInt32 | public/ca.js:57 | `hash & hash` maps any integer into the signed 32-bit range while keeping it congruent modulo 2^32 |
| Beacon.ToInt32Congruent | public/ca.js:56-57 | the 32-bit reduction depends only on the value modulo 2^32 |
| Beacon.HashStepRolling | public/ca.js:55-57 | one loop iteration `(hash << 5) - hash + char`, reduced to 32 bits, is the 31-multiplier rolling hash step and stays a signed 32-bit value |
| Beacon.Utf16 | public/ca.js:54-55 | `charCodeAt` walks over UTF-16 code units: at least one per character, each below 0x10000 |
| Beacon.HashCode | public/ca.js:52-58 | the folded hash is always a signed 32-bit value |
| Beacon.Hash | public/ca.js:52-60 | `hash(str)` is a non-empty lower-case base-36 text whose value is at most 2^31 (the absolute value of a 32-bit integer); the empty string hashes to "0" |
| Beacon.HashLoop | public/ca.js:52-60 | the loop over the code units computes exactly the hash text |
| Beacon.HashHasNoSeparators | public/ca.js:59 | a hash never contains '_' or '.', so it survives the `hash_time` session record and the `ca-<id>.js` pattern |
| Beacon.DeviceType | public/ca.js:110-113 | a user agent matching `mobile\|android\|iphone\|ipad` (any case) is "mobile" below 768 pixels wide and "tablet" otherwise; every other one is "desktop" |
| Beacon.Browser | public/ca.js:115-119 | the browser is the first of Chrome, Firefox, Safari, Edge that the user agent contains, "unknown" without any, each case in both directions |
| Beacon.Os | public/ca.js:121-126 | the system is the first of Windows, Mac, Linux, Android, iOS/iPhone/iPad that the user agent contains, "unknown" without any, each case in both directions |
| Beacon.ScreenSize | public/ca.js:130 | the screen size text splits at an 'x' into the decimal width and the decimal height |
| Beacon.GetDeviceInfo | public/ca.js:105-134 | the device record combines the device type, screen size, browser and system rules |
| Beacon.CheckUrl | public/ca.js:174-181 | a history check remembers the current URL and sends a pageview exactly when it differs from the last one |
| Beacon.RepeatedCheckSendsOnce | public/ca.js:175-204 | any number of history events on the same URL send at most one pageview, and none when it already was the last URL |
| Session.Fingerprint | public/ca.js:63-79 | the visitor hash is a non-empty hash text of the joined fingerprint signals |
| Session.MintHash | public/ca.js:88 | a freshly minted session hash is non-empty and contains no '_' |
| Session.StoredParts | public/ca.js:91-93 | the stored record's hash is its first '_'-separated piece, and its mint time the `parseInt` of the second piece, NaN when missing |
| Session.Mint | public/ca.js:87-89 | minting returns the new hash and stores `hash_now` under `ca_session`, leaving the other keys alone |
| Session.GetSessionAsWritten | public/ca.js:82-102 | as written: no stored session mints one; an unexpired one is reused without touching storage; an expired one throws, because the destructured `hash` string shadows the hash function, and nothing is stored |
| Session.GetSession | public/ca.js:82-102 | as intended: every call yields a session; no stored or an expired session mints and stores a new one, an unexpired one is reused |
| Session.RecordParts | public/ca.js:89-93 | the record `hash_now` reads back as exactly that hash and mint time |
| Session.ReuseWithinWindow | public/ca.js:91-98 | within 30 minutes of minting both versions return the minted hash and leave storage as it was |
| Session.WindowAnchoredToMint | public/ca.js:91-98 | reads inside the window never refresh the stored time, so the first read more than 30 minutes after minting expires the session however often it was read in between |
| Session.ExpiredSessionThrows | public/ca.js:91-95 | a session stored more than 30 minutes ago makes the as-written code throw, while the corrected one stores a fresh record minted now |
| Session.AsWrittenAgreesUnlessExpired | public/ca.js:82-102 | the two versions agree on every storage whose session is not expired |
| Payload.EventTypeOrPageview | public/ca.js:140 | the event type sent is the caller's when truthy and "pageview" otherwise, and is always truthy |
| Payload.Build | public/ca.js:137-151 | the body carries the tracking id, the fingerprint, the session hash, the page's URL, path and title, the referrer or "", the device fields, the event fields or null, and the clock in whole seconds rounded down |
| Payload.TrackAsWritten | public/ca.js:137-166 | as written a thrown session read sends nothing and leaves storage as it was; otherwise one body with that session's hash is sent |
| Payload.Track | public/ca.js:137-166 | with the corrected session rule every call sends one body, with the session hash and storage the session rule gives |
| Payload.GetSessionKeepsStorage | public/ca.js:82-102 | every session read keeps the stored record well formed: empty, missing, or not starting with '_' |
| Payload.TrackedBodyHasRequiredFields | public/ca.js:137-151 | a body from the beacon always has a non-empty site id, a truthy event type and non-empty visitor and session hashes, which are the four fields the ingestion endpoint requires |
| Payload.SessionHeadNonEmpty | public/ca.js:91 | the first '_'-separated piece of a record that does not start with '_' is non-empty |
| Snippet.ServerUrl | src/components/dashboard/tracking-code-display.tsx:30-34 | the server URL is the prop when set, else the environment URL, else the window origin in a browser and `http://localhost:3000` on the server |
| Snippet.NoEarlierCa | src/components/dashboard/tracking-code-display.tsx:37 | with a server URL free of "ca-", no "ca-" starts in the tag's script URL before the one the snippet writes |
| Snippet.SnippetRoundTrip | src/components/dashboard/tracking-code-display.tsx:37 | the beacon reads back from the snippet's script URL exactly the tracking id the snippet wrote, for any non-empty dot-free id and a server URL free of "ca-" |
| Snippet.MatchStartFirst | public/ca.js:12 | the leftmost search finds the first position where an attempt succeeds |
| Snippet.NextStepAction | src/components/dashboard/tracking-code-display.tsx:49-57 | the next-step button calls the handler when one is given, else goes to a non-empty `nextStepPath`, else to the site's dashboard when there is a site id, and otherwise does nothing |
| Schema.EventDate | src/lib/db/schema.ts:89 | the generated `date` column is the UTC day that contains the timestamp |
| Schema.EventHour | src/lib/db/schema.ts:90-92 | the generated `hour` column is between 0 and 23 and is the hour of that day that contains the timestamp |
| Schema.SiteByTrackingId | src/app/track/route.ts:21-25 | the lookup by tracking id finds a stored site with that tracking id, and finds none only when no site has it |
| Schema.SiteById | src/app/api/gsc/stats/route.ts:27-31 | the lookup by id finds a stored site with that id, and finds none only when no site has it |
| Schema.DefaultTrackingId | src/lib/db/schema.ts:33-35 | `lower(hex(randomblob(8)))` is two lower-case hexadecimal digits per random byte |
| Schema.HexByte | src/lib/db/schema.ts:35 | a byte is written as two lower-case hexadecimal digits |
| Schema.NewSite | src/lib/db/schema.ts:24-56 | a new site row has the declared defaults: tracking on, GSC off, no GSC configuration, and a 16-digit tracking id without dots |
| Schema.SiteWideDuplicatesAllowed | src/lib/db/schema.ts:156-161 | two identical site-wide rows (no query, no page) for one site and day satisfy the unique index, because SQLite never lets NULLs collide, so the index does not stop the duplicate |
| Schema.DeleteSite | src/lib/db/schema.ts:61-63 | deleting a site removes exactly that site, its events and its GSC rows (`ON DELETE CASCADE`) and keeps everything else |
| Schema.DeleteKeepsIntegrity | src/lib/db/schema.ts:98-100 | after a cascading delete every event and GSC row still references an existing site |
| Ingest.EventRow | src/app/track/route.ts:35-52 | the inserted row carries the site's internal id, the three required texts, null for every optional text left empty, the event value or null, and the timestamp |
| Ingest.Track | src/app/track/route.ts:8-65 | an unparsable body answers 500; a body missing any of site id, event type, visitor hash or session hash answers 400; an unknown or disabled site answers 404; a complete body for an enabled site whose timestamp gives an invalid date answers 500; exactly a complete body for an enabled site whose timestamp JavaScript coerces to a valid date appends one row, stored at that date's seconds, and answers 200; nothing else changes the log |
| Ingest.StoredSeconds | src/app/track/route.ts:51 | `new Date(seconds * 1000)` is a valid date exactly when the milliseconds lie within the Date range, and then a non-negative time is stored at its whole seconds |
| Ingest.IntegerSecondsKept | src/app/track/route.ts:51 | an integer number of seconds within the Date range is stored unchanged |
| Ingest.CoercedTimestamps | src/app/track/route.ts:51 | a `null` or `false` timestamp is stored as the epoch and `true` as second 1, while an absent timestamp answers 500 and stores nothing |
| Ingest.TrackKeepsLogInvariant | src/app/track/route.ts:13-55 | the log stays made of rows with the required texts present and no empty optional text, and every new row belongs to an existing site with tracking enabled |
| Ingest.UnknownAndDisabledLookAlike | src/app/track/route.ts:27-32 | a disabled site and an unknown tracking id get the same 404 and store nothing |
| Ingest.Options | src/app/track/route.ts:68-77 | the preflight answers 200 with exactly the three CORS headers allowing any origin, POST and OPTIONS, and `Content-Type` |
| Ingest.WireBody | public/ca.js:138-162 | for a beacon whose event type is a string, the endpoint parses from its JSON the site id, event type, hashes, referrer, path and the timestamp as a JSON number |
| Ingest.BeaconEventIsStored | src/app/track/route.ts:13-55 | a beacon body for an enabled site, sent at a time within the Date range, is always stored as exactly one new row with the site's internal id, the beacon's hashes and its timestamp, an empty referrer becoming NULL |
| Stats.PeriodParam | src/app/api/stats/visitors/route.ts:10 | the period token is the query value when one is given and non-empty, and `7d` when it is missing or empty |
| Stats.PeriodDays | src/app/api/stats/visitors/route.ts:61 | 7 days exactly for `7d`, 30 exactly for `30d`, 90 for every other token |
| Stats.WindowStart | src/app/api/stats/visitors/route.ts:62 | the window start lies exactly `days` days of seconds before the current second |
| Stats.InWindow | src/app/api/stats/visitors/route.ts:68-73 | an event is in the window exactly when it is in the log, belongs to the site and is no older than the start |
| Stats.InWindowWidens | src/app/api/stats/visitors/route.ts:62-73 | an earlier start keeps every event of a later one |
| Stats.Pageviews | src/app/api/stats/pageviews/route.ts:68-73 | the filter keeps exactly the window's `pageview` events |
| Stats.Dates | src/app/api/stats/visitors/route.ts:88-89 | the grouped dates are strictly ascending and are exactly the dates some windowed event carries |
| Stats.DailyVisitors | src/app/api/stats/visitors/route.ts:76-89 | one row per window date, ascending, each carrying the distinct visitors of that date |
| Stats.DailyCounts | src/app/api/stats/pageviews/route.ts:77-91 | one row per window date, ascending, each carrying the number of rows of that date |
| Stats.Resolve | src/app/api/stats/visitors/route.ts:12-58 | a missing or empty id is the 400 case, exactly `demo` the demo case, an id with no site by tracking id the 404 case, and otherwise the site found carries that tracking id |
| Stats.VisitorsRoute | src/app/api/stats/visitors/route.ts:6-98 | 400 exactly without an id, 404 exactly for an unknown tracking id, the demo series for `demo`, and otherwise the window's distinct visitors with the daily rows and the period token |
| Stats.VisitorsDailyBounds | src/app/api/stats/visitors/route.ts:65-93 | no day has more distinct visitors than the window total, and the total is at most the sum over days |
| Stats.VisitorsMonotone | src/app/api/stats/visitors/route.ts:62-73 | a wider window never reports fewer distinct visitors |
| Stats.VisitorsMonotoneInPeriod | src/app/api/stats/visitors/route.ts:61-73 | a period token with more days never reports fewer distinct visitors |
| Stats.DemoValue | src/app/api/stats/visitors/route.ts:30-32 | a demo value is never below its floor |
| Stats.DemoSeries | src/app/api/stats/visitors/route.ts:25-37 | one row per day of the window, oldest first, ending today, each at least the floor |
| Stats.DemoVisitors | src/app/api/stats/visitors/route.ts:20-46 | the demo total is the sum of the demo days and the period token is echoed |
| Stats.DemoVisitorsShape | src/app/api/stats/visitors/route.ts:21-44 | the demo visitors have one row per period day ending today, each at least 500, so the total is at least 500 per day |
| Stats.PageviewsRoute | src/app/api/stats/pageviews/route.ts:6-101 | 400 and 404 exactly as for visitors, the demo series for `demo`, and otherwise the count of the window's pageviews with their daily counts |
| Stats.PageviewsTotalIsSum | src/app/api/stats/pageviews/route.ts:65-95 | the total pageviews equal the sum of the daily counts |
| Stats.DemoPageviews | src/app/api/stats/pageviews/route.ts:20-47 | the demo total is the sum of the demo days and the period token is echoed |
| Stats.DemoPageviewsShape | src/app/api/stats/pageviews/route.ts:20-47 | the demo pageviews have one row per period day, each at least 1200 |
| Stats.LimitParam | src/app/api/stats/pages/route.ts:11 | a missing or empty limit reads as 10, and any other limit is read by `parseInt` |
| Stats.HexLimit | src/app/api/stats/pages/route.ts:11 | `0x5` reads as a limit of five rows and `-0x5` as a negative limit, as `parseInt` reads them |
| Stats.PageGroups | src/app/api/stats/pages/route.ts:60-75 | one row per distinct (path, title) pair of the window, in first-seen order, each summarising its pair |
| Stats.PageGroupsFacts | src/app/api/stats/pages/route.ts:60-75 | each (path, title) pair appears once, every windowed event's pair has a row, and each row has at least one visitor and no more visitors than views |
| Stats.TopPagesFacts | src/app/api/stats/pages/route.ts:60-77 | the top pages are groups of the window, most viewed first, each pair once, at most `limit` of them (all for a negative limit), never more visitors than views |
| Stats.PathWithTwoTitles | src/app/api/stats/pages/route.ts:75 | one path seen under two titles yields two rows |
| Stats.DemoPages | src/app/api/stats/pages/route.ts:22-33 | the demo pages are ten rows, most viewed first |
| Stats.PagesRoute | src/app/api/stats/pages/route.ts:6-85 | 400 and 404 as for visitors and a reply for every other site: the sliced demo rows for `demo`, otherwise the top pages of the window's pageviews, every page when the limit is not a number |
| Stats.Buckets | src/app/api/stats/devices/route.ts:62-74 | one bucket per distinct field value of the window, NULL included, in first-seen order |
| Stats.BucketBounds | src/app/api/stats/devices/route.ts:62-104 | each value has one bucket, every event's value has one, each bucket counts between one and the window's distinct visitors, and together they count every visitor at least once |
| Stats.BucketsCover | src/app/api/stats/devices/route.ts:62-74 | bucket values are pairwise distinct and cover every windowed event |
| Stats.BucketCountRange | src/app/api/stats/devices/route.ts:62-74 | each bucket counts at least one and at most the window's distinct visitors |
| Stats.BucketsCountEveryone | src/app/api/stats/devices/route.ts:62-74 | the buckets together count at least the window's distinct visitors |
| Stats.DevicesRoute | src/app/api/stats/devices/route.ts:6-114 | 400 and 404 as for visitors, the fixed demo body for `demo`, otherwise the device, browser and OS buckets of one window |
| Stats.ActiveSessionsFacts | src/app/api/stats/realtime/route.ts:39-51 | any recent event of the site, of any type, has its session counted, and there are at most as many sessions as recent events |
| Stats.DemoActive | src/app/api/stats/realtime/route.ts:21-25 | the demo active count lies between 5 and 14 |
| Stats.RealtimeRoute | src/app/api/stats/realtime/route.ts:8-53 | 400 and 404 as for visitors, a demo count from 5 to 14 for `demo`, otherwise the distinct sessions of the site's last thirty minutes |
| Sources.ReferrerGroups | src/app/api/stats/sources/route.ts:58-72 | one group per distinct referrer of the window's referrer-carrying rows, in first-seen order, each summarising its referrer |
| Sources.WwwRemovedAnywhere | src/app/api/stats/sources/route.ts:82 | the first `www.` is removed even from the middle of a hostname |
| Sources.ToRows | src/app/api/stats/sources/route.ts:77-91 | each group becomes one row under its display domain with its counts unchanged |
| Sources.FindDomain | src/app/api/stats/sources/route.ts:95 | the index found is the first row with that domain, and none is found exactly when no row has it |
| Sources.AddSource | src/app/api/stats/sources/route.ts:94-106 | one reduce step keeps domains distinct, adds the row's domain, and adds its counts to that domain alone |
| Sources.FindDistinct | src/app/api/stats/sources/route.ts:95 | among distinct domains, `find` returns the row holding the domain |
| Sources.FindInPrefixOrLast | src/app/api/stats/sources/route.ts:99-104 | appending a new domain keeps domains distinct and finds it at the end, every other domain where it was |
| Sources.SameDomainsSameFind | src/app/api/stats/sources/route.ts:96-98 | updating counts in place never moves a domain's row |
| Sources.Merge | src/app/api/stats/sources/route.ts:94-107 | the merged list never holds a domain twice |
| Sources.HasDomainSplit | src/app/api/stats/sources/route.ts:94-107 | a domain occurs in the rows exactly when it occurs before the last one or is the last one's |
| Sources.MergeTotals | src/app/api/stats/sources/route.ts:94-107 | a domain has a merged row exactly when some input row has it, and that row carries the sums of the domain's visitors and pageviews |
| Sources.SourcesFacts | src/app/api/stats/sources/route.ts:94-111 | the answer lists each domain once, most visitors first, at most `limit` rows, each carrying its domain's summed counts |
| Sources.ExampleGroups | src/app/api/stats/sources/route.ts:73 | the example groups are ordered by visitors as the SQL orders them |
| Sources.TruncationBeforeMerge | src/app/api/stats/sources/route.ts:73-111 | with limit 1 the answer is a.com with 2 visitors although b.com has 3 in total, because the limit is applied before the domains are merged |
| Sources.ExampleTopGroup | src/app/api/stats/sources/route.ts:74-111 | limit 1 keeps only the a.com group |
| Sources.ExampleRows | src/app/api/stats/sources/route.ts:77-91 | the four example groups map to a.com and three b.com rows |
| Sources.NoEmptyReferrerGroups | src/app/api/stats/sources/route.ts:68-79 | over a log with no empty referrer no group has an empty referrer, so `Direct` never comes from the empty case |
| Sources.SourcesRoute | src/app/api/stats/sources/route.ts:6-115 | 400 and 404 as the other stats routes and a reply for every other site: the sliced demo rows for `demo`, otherwise the limited referrer groups merged by domain, sorted and sliced, and no source when the limit is not a number |
| Overview.Change | src/components/dashboard/stats-overview.tsx:38-48 | the change is 0 when either total is missing or the previous-week figure is not positive, otherwise the percentage change against the previous-week figure; it is positive exactly when this week beats a positive previous week, negative exactly when it falls below one, and never below -100% |
| Overview.PercentSign | src/components/dashboard/stats-overview.tsx:41-48 | the change is positive, zero or negative exactly as this week is above, equal to or below the previous week, and never below -100% |
| Overview.OverviewCards | src/components/dashboard/stats-overview.tsx:7-88 | the error cards are shown exactly when one of the four fetches throws; otherwise each card shows the 7-day total and its change |
| Overview.EventsBetween | src/components/dashboard/stats-overview.tsx:37-39 | the events between two instants are exactly the site's events with the timestamp in that half-open range |
| Overview.PageviewsSnoc | src/app/api/stats/pageviews/route.ts:65-74 | one more log entry adds one to the pageviews since a start exactly when it is a pageview of the site in the window |
| Overview.PageviewsSplit | src/components/dashboard/stats-overview.tsx:37-39 | pageviews since an earlier start are those since the later start plus those in between |
| Overview.VisitorsSplitBound | src/components/dashboard/stats-overview.tsx:37-38 | the wider window has at least as many distinct visitors and exceeds the narrower by at most the distinct visitors in between |
| Overview.OverviewUsesNinetyDays | src/components/dashboard/stats-overview.tsx:25-48 | for a tracked site the pageviews card shows the 7-day count and compares it with the 90-day count, so its "last week" is the 90-day count minus this week |
| Overview.OldPageviewCountsAsLastWeek | src/components/dashboard/stats-overview.tsx:26-39 | a single pageview 30 days ago counts as last week as written, though no pageview lies in the seven days before this week |
| Overview.PreviousWeekIsLastSevenDays | src/components/dashboard/stats-overview.tsx:37-39 | as intended, last week's pageviews are exactly those of the seven days before this week, and last week's visitor figure is between zero and that week's distinct visitors |
| GscSync.FindRow | src/app/api/sync/gsc/route.ts:79-92 | the lookup finds the first row of the slot (same site, date and query, NULL page, country and device), and nothing exactly when the slot has no row |
| GscSync.Stamp | src/app/api/sync/gsc/route.ts:96-104 | the update writes the metrics and keeps the row in its slot |
| GscSync.NewRow | src/app/api/sync/gsc/route.ts:107-114 | the inserted row lies in the slot and carries the metrics |
| GscSync.Upsert | src/app/api/sync/gsc/route.ts:78-115 | afterwards the slot holds the metrics, no row outside the slot changes, and a row is appended exactly when the slot had none |
| GscSync.FindRowIs | src/app/api/sync/gsc/route.ts:79-92 | the first matching row is the one `limit 1` returns |
| GscSync.UpsertElsewhere | src/app/api/sync/gsc/route.ts:78-115 | an upsert leaves every other slot's lookup and row as they were |
| GscSync.UpsertHeld | src/app/api/sync/gsc/route.ts:94-104 | rewriting metrics a slot already holds changes nothing |
| GscSync.UpsertIdempotent | src/app/api/sync/gsc/route.ts:78-115 | writing the same row twice is writing it once |
| GscSync.UpsertKeepsUnique | src/app/api/sync/gsc/route.ts:78-115 | the upsert never creates a second sync row in a slot |
| GscSync.Apply | src/app/api/sync/gsc/route.ts:74-166 | a batch of upserts adds at most one row per write |
| GscSync.ApplyKeepsOthers | src/app/api/sync/gsc/route.ts:74-166 | rows of sites no write names stay where and as they were |
| GscSync.ApplyAddsMatching | src/app/api/sync/gsc/route.ts:105-115 | every appended row sits in the slot of one of the writes |
| GscSync.ApplyAppend | src/app/api/sync/gsc/route.ts:74-166 | applying two batches in turn is applying their concatenation |
| GscSync.ApplyKeepsUnique | src/app/api/sync/gsc/route.ts:74-166 | a batch never creates a second row in a slot |
| GscSync.ApplyHoldsAll | src/app/api/sync/gsc/route.ts:74-166 | after a batch with distinct slots the table holds every write of it |
| GscSync.ApplyHeld | src/app/api/sync/gsc/route.ts:94-104 | a batch the table already holds changes nothing |
| GscSync.ReplayIsIdempotent | src/app/api/sync/gsc/route.ts:74-166 | replaying a batch with distinct slots leaves the table as the first run left it |
| GscSync.DailyWrites | src/app/api/sync/gsc/route.ts:74-116 | one write per daily row, in the row's own day (the end day when it has none) with a NULL query |
| GscSync.QueryWrites | src/app/api/sync/gsc/route.ts:126-166 | one write per query row, all filed under the end day with the row's query |
| GscSync.FetchResult | src/app/api/sync/gsc/route.ts:67-175 | a site syncs exactly when both fetches return, and a failed daily fetch reports that fetch's error message |
| GscSync.FetchWrites | src/app/api/sync/gsc/route.ts:74-166 | every write of a site's fetches is filed under that site |
| GscSync.SiteResultOf | src/app/api/sync/gsc/route.ts:46-175 | a site syncs exactly when its configuration has a token and a URL and both fetches return; an incomplete configuration reports `GSC設定が不完全です` |
| GscSync.SiteWrites | src/app/api/sync/gsc/route.ts:47-166 | a site's writes are filed under it, and an incomplete configuration issues none |
| GscSync.SiteStep | src/app/api/sync/gsc/route.ts:45-176 | one iteration pushes the site's result and applies its writes, leaving the table as it was for an incomplete configuration |
| GscSync.SiteWritesShape | src/app/api/sync/gsc/route.ts:66-166 | a failed query fetch leaves exactly the daily writes; the query writes all sit in the end day with a query; the daily writes all have a NULL query |
| GscSync.SyncWrites | src/app/api/sync/gsc/route.ts:45-176 | every write of the job is filed under one of the visited sites |
| GscSync.ResultsForAppend | src/app/api/sync/gsc/route.ts:45-176 | pushing the last site's result extends the per-site results |
| GscSync.SyncSites | src/app/api/sync/gsc/route.ts:45-176 | the loop pushes one result per site |
| GscSync.SyncSitesResults | src/app/api/sync/gsc/route.ts:45-176 | the i-th result is what the i-th site's own configuration and fetches give |
| GscSync.SyncSitesWrites | src/app/api/sync/gsc/route.ts:45-176 | the interleaved upserts leave the table as applying all the sites' writes in order does |
| GscSync.SyncedIds | src/app/api/sync/gsc/route.ts:168 | there are at most as many synced ids as sites |
| GscSync.Errors | src/app/api/sync/gsc/route.ts:49-52 | errors and synced ids together account for every site, and there are no errors exactly when every site synced |
| GscSync.EnabledSites | src/app/api/sync/gsc/route.ts:28-31 | the visited sites are exactly those whose `gscEnabled` is true |
| GscSync.Sync | src/app/api/sync/gsc/route.ts:14-183 | 401 exactly when a secret is set and the header differs, the empty reply exactly when no site is enabled (the table untouched), otherwise a count and errors that account for every enabled site, no errors exactly when each synced, and the count in the message |
| GscSync.SummaryOf | src/app/api/sync/gsc/route.ts:178-183 | the reply accounts for every site, omits errors exactly when all synced, and puts the count in the message |
| GscSync.SyncIsolation | src/app/api/sync/gsc/route.ts:14-183 | the job never removes rows, never touches rows of sites that are not enabled, and never puts a second row into a slot |
| GscSync.SyncTwice | src/app/api/sync/gsc/route.ts:14-183 | a second run against an unchanged Search Console gives the same reply and table as the first, when the run's slots are distinct |
| GscSync.SyncSitesTwice | src/app/api/sync/gsc/route.ts:45-176 | the loop run again on its own output writes nothing new and reports the same results |
| GscSync.LinkedSiteNeverSyncs | src/app/api/connect/gsc/route.ts:237-250 | as written, a site just linked is enabled but reports an incomplete configuration and writes nothing, whatever Search Console answers |
| GscSync.SiteResultWithToken | src/lib/gsc/token-refresh.ts:81-108 | with the owner's token a site without a URL is incomplete, a token error is reported as such, and otherwise it syncs exactly when both fetches return |
| GscSync.SiteWritesWithToken | src/app/api/sync/gsc/route.ts:74-166 | the writes are filed under the site, and none without a URL or a token |
| GscSync.ResultsWithTokenForAppend | src/app/api/sync/gsc/route.ts:45-176 | pushing the last site's result extends the per-site results |
| GscSync.SyncSitesWithToken | src/app/api/sync/gsc/route.ts:45-176 | the loop with the owners' tokens pushes each site's own result and leaves other sites' rows untouched |
| GscSync.KeepsOtherSitesStep | src/app/api/sync/gsc/route.ts:45-176 | one more site's writes keep the rows of every other site untouched |
| GscSync.LinkedSiteSyncsWithToken | src/app/api/connect/gsc/route.ts:237-250 | as intended, a site just linked syncs when the owner's token is valid and Search Console answers for the linked property |
| GscSync.UnlinkedSiteIsSkipped | src/app/api/connect/gsc/route.ts:315-322 | after an unlink the job no longer visits the site |
| GscConnect.ScopeList | src/app/api/connect/gsc/route.ts:58-61 | the scope list holds exactly the non-empty trimmed comma-separated parts of the stored scope |
| GscConnect.TrimAll | src/app/api/connect/gsc/route.ts:60 | the trimmed list holds exactly the trims of the parts |
| GscConnect.MapMembers | src/app/api/connect/gsc/route.ts:60 | a list mapped index by index, as `map(s => s.trim())` does, holds exactly the images of the parts |
| GscConnect.ExtractDomain | src/app/api/connect/gsc/route.ts:177-184 | the domain is never longer than the URL and holds no upper-case ASCII letter |
| GscConnect.ExtractDomainCanonical | src/app/api/connect/gsc/route.ts:177-184 | a domain written with any mix of an http(s) scheme, `sc-domain:`, `www.` and one trailing slash gives the bare domain, lower-cased |
| GscConnect.NormalizedInput | src/app/api/connect/gsc/route.ts:168-172 | the normalised input is never longer than the input |
| GscConnect.ThirdTestRepeatsFirst | src/app/api/connect/gsc/route.ts:186-214 | without an `sc-domain:` prefix the third test repeats the first, so a property matches exactly on equal domains or on equal text ignoring case |
| GscConnect.FirstMatch | src/app/api/connect/gsc/route.ts:186-214 | the property chosen is the first that matches, and none exactly when none matches |
| GscConnect.LowerAsciiKeeps | src/app/api/connect/gsc/route.ts:183 | text with no upper-case letter is its own lower case |
| GscConnect.DomainOfDomainProperty | src/app/api/connect/gsc/route.ts:180 | the domain of `sc-domain:example.com` is `example.com` |
| GscConnect.DomainOfUrlPrefix | src/app/api/connect/gsc/route.ts:179-183 | the domain of `https://www.example.com/` is `example.com` |
| GscConnect.DomainPropertyMatchesUrl | src/app/api/connect/gsc/route.ts:186-197 | a domain property matches the URL-prefix spelling of the same site |
| GscConnect.UpperCasePrefixesSurvive | src/app/api/connect/gsc/route.ts:177-184 | a URL starting with a capital keeps its scheme and `www.`: its domain is the whole URL lower-cased |
| GscConnect.LongPhraseImpliesShort | src/app/api/connect/gsc/route.ts:124-125 | any text with the first scope phrase also has the second |
| GscConnect.ListFailureReply | src/app/api/connect/gsc/route.ts:118-153 | a failed listing is a 403 exactly when the message mentions `insufficient authentication` or `403`, a 401 otherwise, and the 401 asks to sign in again exactly on `unauthorized`, `Unauthorized` or `401` |
| GscConnect.ConnectGate | src/app/api/connect/gsc/route.ts:14-109 | the checks before Search Console in order: 401 without a session, 500 for an unreadable body, 400 without both fields, sign in again without a token or with an expired one, 404 for an unknown site, 403 for another user's site |
| GscConnect.LinkedConfig | src/app/api/connect/gsc/route.ts:237-241 | the stored configuration has the matched URL and permission and the link time, and no access token |
| GscConnect.SetGsc | src/app/api/connect/gsc/route.ts:243-250 | only the site with the id gets the new GSC columns; every other site is unchanged |
| GscConnect.Connect | src/app/api/connect/gsc/route.ts:12-267 | a failed check replies with that check and changes nothing; the link succeeds exactly when the checks pass, the listing returns and some property matches, and then the site stores the first match's configuration |
| GscConnect.ScopeNeverBlocks | src/app/api/connect/gsc/route.ts:52-77 | two accounts differing only in their scope text get the same status and the same sites |
| GscConnect.ListFailureIgnoresScopes | src/app/api/connect/gsc/route.ts:127-153 | the scope text never changes a failed listing's status |
| GscConnect.Disconnect | src/app/api/connect/gsc/route.ts:273-330 | the same sign-in, 400, 404 and 403 checks; on success only the named site is switched off with its configuration cleared |
| TokenRefresh.FirstAccount | src/lib/gsc/token-refresh.ts:23-27 | the account read is the user's first, and none exactly when the user has no account |
| TokenRefresh.ExpiresIn | src/lib/gsc/token-refresh.ts:62 | the granted lifetime is used when given and non-zero, 3600 seconds otherwise |
| TokenRefresh.Refreshed | src/lib/gsc/token-refresh.ts:64-72 | the refreshed account keeps its id, user and refresh token, gets the new token and expiry, and takes the scope only when one was granted |
| TokenRefresh.UpdateById | src/lib/gsc/token-refresh.ts:64-73 | only rows with the account's id are refreshed; every other row is unchanged |
| TokenRefresh.Refresh | src/lib/gsc/token-refresh.ts:19-76 | a refresh yields a token exactly when the user has an account with a refresh token, the client is configured and the endpoint grants one; then only that account gets the token, its expiry and any granted scope; a failure writes nothing; no account or refresh token is its own error |
| TokenRefresh.ValidAccessToken | src/lib/gsc/token-refresh.ts:81-108 | no account or no token is an error; a token not due for refresh is returned as stored; a due token without a refresh token is an error; otherwise the refresh decides |
| TokenRefresh.NoCallUnlessDue | src/lib/gsc/token-refresh.ts:92-107 | the endpoint is consulted only when a refresh is due and possible: otherwise any endpoint gives the same answer and nothing is written |
| TokenRefresh.RefreshedTokenIsReused | src/lib/gsc/token-refresh.ts:61-107 | after a refresh granting a token that outlives the five-minute margin, asking again at the same instant returns it without refreshing again |
| TokenRefresh.SameUsersSameFirst | src/lib/gsc/token-refresh.ts:23-27 | tables with the same users row by row have the same first account |
| GscSummary.SummaryPeriodDays | src/app/api/gsc/stats/route.ts:20-87 | 30 days exactly for `30d`, 90 exactly for `90d`, and 7 for every other token or none |
| GscSummary.Summarize | src/app/api/gsc/stats/route.ts:119-142 | clicks and impressions are the sums, the rate is the percent of clicks per impression to two decimals (0 without impressions), and the position is the mean of the rows to one decimal (all zero without rows) |
| GscSummary.TotalsAdd | src/app/api/gsc/stats/route.ts:120-130 | the totals add up over any split of the rows |
| GscSummary.ClicksWithinImpressions | src/app/api/gsc/stats/route.ts:120-124 | with no row clicking more than it is shown, total clicks lie between zero and total impressions |
| GscSummary.CtrIsPercent | src/app/api/gsc/stats/route.ts:125-140 | under the same condition the rate lies between 0 and 100 |
| GscSummary.PositionTotalBounds | src/app/api/gsc/stats/route.ts:127-130 | the summed position lies between the row count times the least and the greatest bound |
| GscSummary.PositionWithinRange | src/app/api/gsc/stats/route.ts:127-141 | the mean position lies between the least and greatest daily position, up to rounding |
| GscSummary.PositionIsUnweighted | src/app/api/gsc/stats/route.ts:131 | the mean position ignores impressions: positions 1 and 50 average to 25.5 whatever their impressions |
| GscSummary.StatsGate | src/app/api/gsc/stats/route.ts:14-53 | the checks in order: a missing session ends in the 500 reply, no id is a 400, an unknown site a 404, another user's site a 403, and a site without GSC enabled and configured a 400 |
| GscSummary.GscStats | src/app/api/gsc/stats/route.ts:13-156 | a failed check replies with it and writes nothing; otherwise a token error asks to sign in again, and a success carries the period's dates, the three listings fetched with the valid token for the site's property, and the summary of the daily rows |
| SeoViews.Gate | src/app/api/seo/positions/route.ts:17-40 | 400 exactly without a site id, 404 exactly for an unknown id, the GSC-off 400 exactly for a site that has not turned GSC on, otherwise the site with that id |
| SeoViews.PeriodOr | src/app/api/seo/positions/route.ts:15 | a given non-empty period is used, else the route's default |
| SeoViews.SeoPeriodDays | src/app/api/seo/positions/route.ts:43 | 7 days exactly for `7d`, 30 exactly for `30d`, 90 for every other token |
| SeoViews.RowDates | src/app/api/seo/positions/route.ts:70 | the dates of the rows, index by index |
| SeoViews.DaysOf | src/app/api/seo/positions/route.ts:70-71 | the grouped dates are strictly ascending and are exactly the dates of the rows |
| SeoViews.SliceRows | src/app/api/seo/positions/route.ts:60-69 | a row is aggregated exactly when it is the site's, has the given query (or NULL), NULL page, country and device, and is dated from the start on |
| SeoViews.QueryRows | src/app/api/seo/keywords/route.ts:58-64 | a row is ranked exactly when it is the site's, has a query and is dated from the start on, whatever its page, country or device |
| SeoViews.PositionSeries | src/app/api/seo/positions/route.ts:52-103 | one point per grouped date, each summarising that date's rows |
| SeoViews.PositionSeriesFacts | src/app/api/seo/positions/route.ts:52-103 | the trend's dates ascend strictly, every row's date has a point, every point comes from a row, and the points' clicks and impressions add up to the rows' totals |
| SeoViews.SeriesDates | src/app/api/seo/positions/route.ts:70-71 | the points' dates are the grouped dates |
| SeoViews.SeriesSums | src/app/api/seo/positions/route.ts:56-57 | the points' clicks and impressions are the per-date sums |
| SeoViews.PositionWithinStored | src/app/api/seo/positions/route.ts:55-100 | each point's position is 0 or within the range of the stored positions |
| SeoViews.QueryFilter | src/app/api/seo/positions/route.ts:50-94 | a non-empty query selects its own rows, otherwise the site-wide rows |
| SeoViews.PositionsRoute | src/app/api/seo/positions/route.ts:10-108 | the three guards exactly as the gate decides, and otherwise the period (default `30d`), the query or `全体`, and the position trend of the selected rows |
| SeoViews.CtrSeries | src/app/api/seo/ctr/route.ts:48-78 | one point per grouped date, each summarising that date's rows |
| SeoViews.CtrRoute | src/app/api/seo/ctr/route.ts:10-82 | the three guards exactly as the gate decides, and otherwise the period and one point per day of the site-wide rows |
| SeoViews.OverallTrendMatchesCtr | src/app/api/seo/ctr/route.ts:48-78 | without a query the position trend and the click-through series list the same days with the same clicks, impressions and positions |
| SeoViews.KeywordGroups | src/app/api/seo/keywords/route.ts:49-65 | one row per distinct query, in first-seen order, each summarising its query |
| SeoViews.TopKeywordsFacts | src/app/api/seo/keywords/route.ts:49-67 | the ranking lists distinct queries of the rows with their own totals, most clicked first, at most `limit`, and every query when there is room |
| SeoViews.TopKeywordsOrder | src/app/api/seo/keywords/route.ts:65-67 | most clicked first, at most `limit`, each query once |
| SeoViews.TopKeywordsTotals | src/app/api/seo/keywords/route.ts:52-65 | each ranked row carries the totals of its own query's rows, and that query occurs in the rows |
| SeoViews.TopKeywordsComplete | src/app/api/seo/keywords/route.ts:65-67 | with room for every query, every row's query is ranked |
| SeoViews.TopKeywordsAll | src/app/api/seo/keywords/route.ts:65-67 | with room for every query nothing is cut |
| SeoViews.DistinctCard | src/app/api/seo/keywords/route.ts:65-67 | distinct values drawn from a set are no more than the set |
| SeoViews.KeywordsRoute | src/app/api/seo/keywords/route.ts:10-81 | the three guards exactly as the gate decides and a reply for every open site: the period (default `7d`) and the top keywords of the window, every keyword when the limit is not a number |
| SeoViews.KeywordsDefaults | src/app/api/seo/keywords/route.ts:14-15 | without parameters the ranking is at most the top ten of the last seven days |
| SeoViews.SnapshotsAddUp | src/app/api/sync/gsc/route.ts:126-128 | two sync runs' snapshots of one query in the window both count: 5 clicks in each rank with 10 |
| HealthScore.CtrScore | src/components/dashboard/health-score.tsx:120-127 | the rate part is 100 from 2%, 0 at 0% or below, and linear in between |
| HealthScore.PositionScore | src/components/dashboard/health-score.tsx:131-141 | the position part is 100 at first place or better, falls linearly to 50 at 10th and to 0 at 20th, and is 0 beyond |
| HealthScore.RawScore | src/components/dashboard/health-score.tsx:145 | the weighted score lies between 0 and 100 |
| HealthScore.SeoScore | src/components/dashboard/health-score.tsx:145-152 | the rounded score lies between 0 and 100 |
| HealthScore.PositionScoreMonotone | src/components/dashboard/health-score.tsx:131-141 | a better position never scores less, and the pieces meet at 100, 50 and 0 |
| HealthScore.CtrScoreMonotone | src/components/dashboard/health-score.tsx:120-127 | a higher rate never scores less |
| HealthScore.SeoScoreMonotone | src/components/dashboard/health-score.tsx:120-152 | improving either metric never lowers the score |
| HealthScore.ScoreAnchors | src/components/dashboard/health-score.tsx:118-145 | first place with 2% scores 100, 20th with 0% scores 0, 10th with 1% scores 50 |
| HealthScore.EmptySummaryScoresSixty | src/components/dashboard/health-score.tsx:71-152 | an empty summary's position 0 reads as first place, so it scores 60 rather than 0 |
| HealthScore.PreviousPeriod | src/components/dashboard/health-score.tsx:76-78 | the comparison request asks for `14d`, `60d` or `180d` |
| HealthScore.ClicksChange | src/components/dashboard/health-score.tsx:114-115 | the change is 0 unless the previous clicks are positive, and then positive or zero exactly as clicks rose or held |
| HealthScore.Metrics | src/components/dashboard/health-score.tsx:31-154 | exactly a failed request or a missing summary gives the all-zero metrics; whenever a summary is at hand the card shows the summary's score, clicks, rounded position and rate, a previous score from 0 to 100, and 0 for both when the comparison request fails; when it succeeds, the click change is the rounded percentage change against the previous clicks (the comparison total minus the current clicks) and the previous score is the rounded score of the comparison summary, or of an empty one |
| HealthScore.EmptySummaryShowsScore | src/components/dashboard/health-score.tsx:173 | an empty summary does not reach the placeholder: the card shows 60 |
| HealthScore.ScoreBand | src/components/dashboard/health-score.tsx:189-194 | green exactly from 80, yellow exactly from 60 to 79, red exactly below 60 |
| HealthScore.ScoreChange | src/components/dashboard/health-score.tsx:203-206 | the shown change is the score minus the previous score, 0 without one |
| HealthScore.ClicksChangeAlwaysZero | src/components/dashboard/health-score.tsx:76-115 | as written the comparison request is read by the stats route as seven days, so with clicks that do not shrink as the window grows the change is always 0, and a 7-day card compares its score with itself |
| HealthScore.LastWeekIsInvisible | src/components/dashboard/health-score.tsx:76-115 | 100 clicks this week after 50 the week before should show +100%; the card shows 0 |
| HealthScore.ExtendedPeriodDays | src/app/api/gsc/stats/route.ts:79-87 | a stats route that also knows `14d`, `60d` and `180d` reads them as that many days and the other periods as before |
| HealthScore.ClicksChangeComparesPeriods | src/components/dashboard/health-score.tsx:76-115 | with such a route the previous clicks are those of the period just before the current one, and the change is positive exactly when this period beat that one |
| Improvement.ExpectedCtr | src/components/seo/gsc-improvement-list.tsx:81-82 | the expected rate is 10% up to 12th, 7% up to 18th, 5% up to 24th and 3% beyond |
| Improvement.GapScore | src/components/seo/gsc-improvement-list.tsx:83-90 | the rate part is never negative and is positive exactly when the row earns less than expected |
| Improvement.RankScore | src/components/seo/gsc-improvement-list.tsx:93-94 | the rank part is never negative and at least 32 minus the position |
| Improvement.ClickScore | src/components/seo/gsc-improvement-list.tsx:98-100 | the click part lies between 0 and 5, and is 0 without clicks |
| Improvement.ImpressionScore | src/components/seo/gsc-improvement-list.tsx:101-104 | the impression part is at most 6, and 0 below 30 impressions |
| Improvement.ImpactThirdDisjunctRedundant | src/components/seo/gsc-improvement-list.tsx:125-128 | the impact test holds exactly with at least 2 clicks or at least 50 impressions: its third disjunct adds nothing |
| Improvement.ScoreBounds | src/components/seo/gsc-improvement-list.tsx:75-110 | in the rank band with a non-negative rate, the score without its impression part is at least 2, and the whole score at most 50 |
| Improvement.Candidates | src/components/seo/gsc-improvement-list.tsx:65-136 | the candidates are exactly the input rows that pass the filter, each with its score |
| Improvement.ImprovementListFacts | src/components/seo/gsc-improvement-list.tsx:62-140 | every listed query is an input row in the rank band that passes the rate and impact tests and scores at least 10, best first, at most `limit`, and with room for all every qualifying row is listed |
| Improvement.PastThirtiethNeverListed | src/components/seo/gsc-improvement-list.tsx:75-79 | a row past 30th is never listed |
| Improvement.LaggingQueryListed | src/components/seo/gsc-improvement-list.tsx:62-140 | a query at 10th with no clicks, 60 impressions and a 0% rate is listed on its own, scoring at least 37 |
| Improvement.SourceRows | src/components/seo/gsc-improvement-list.tsx:35-57 | a non-empty explicit list wins; otherwise the route's queries, and nothing when the request fails |
| Improvement.FailedFetchShowsNothing | src/components/seo/gsc-improvement-list.tsx:44-63 | a failed request shows an empty list |
| PagesChange.PreviousOf | src/components/seo/gsc-pages-list.tsx:80-81 | the previous row found is the first with the page's key; a row without keys matches nothing |
| PagesChange.WithChange | src/components/seo/gsc-pages-list.tsx:79-104 | a page has changes exactly when a previous row exists: then the position change is the previous minus the current position, the rate change is in percentage points, and the score weighs them 1 and 0.5; otherwise the score is 0 |
| PagesChange.WithChanges | src/components/seo/gsc-pages-list.tsx:79-104 | each current page, in order, with its changes |
| PagesChange.PagesListFacts | src/components/seo/gsc-pages-list.tsx:79-111 | the list holds current pages only, most clicked first, at most `limit`, each with the changes against its own previous row, and every page when there is room |
| PagesChange.NoPreviousNoChanges | src/components/seo/gsc-pages-list.tsx:61-76 | a failed previous request leaves every page without changes and with score 0 |
| PagesChange.PeriodDays | src/components/seo/gsc-pages-list.tsx:51 | a period is 7, 30 or 90 days |
| PagesChange.PreviousWindow | src/components/seo/gsc-pages-list.tsx:49-59 | the intended previous window ends the day before the current period starts and is as long as the period |
| PagesChange.SevenDayListComparesWithItself | src/components/seo/gsc-pages-list.tsx:64-72 | as written the previous request is answered with the current seven days, so a 7-day list compares every page with itself and all changes are 0 |
| PagesChange.SelfChangeIsZero | src/components/seo/gsc-pages-list.tsx:87-96 | a page compared with its own row has no change |
| PagesChange.FirstMatchIsItself | src/components/seo/gsc-pages-list.tsx:81 | among rows with distinct keys, the previous row found for a page is the page itself |
| PagesChange.IntendedComparesPrecedingPeriod | src/components/seo/gsc-pages-list.tsx:47-76 | as intended the previous rows come from the period just before the current one, not overlapping it |
| PagesChange.ClimbIsInvisible | src/components/seo/gsc-pages-list.tsx:64-96 | a page at 5th now and 9th the week before climbed 4 places; the list as written reports 0 |
| PagesChange.SinglePageList | src/components/seo/gsc-pages-list.tsx:79-111 | a list of one page is that page with its change |
| TrendChart.PlottedPosition | src/components/seo/seo-stats-trend-chart.tsx:65-68 | a point has a position exactly when the row's position is positive, and then it is that position to one decimal |
| TrendChart.Points | src/components/seo/seo-stats-trend-chart.tsx:54-74 | every point comes from a row with a key, and there are no more points than rows |
| TrendChart.ChartData | src/components/seo/seo-stats-trend-chart.tsx:54-83 | the chart data are the points, none lost or added, in ascending date order |
| TrendChart.ChartDataFacts | src/components/seo/seo-stats-trend-chart.tsx:54-83 | every point comes from a keyed row and every keyed row is plotted |
| TrendChart.KeyedRowPlotted | src/components/seo/seo-stats-trend-chart.tsx:55-74 | a row with a key gives a point |
| TrendChart.LastWithValue | src/components/seo/seo-stats-trend-chart.tsx:87-91 | the index found is the latest point with a position, and none exactly when no point has one |
| TrendChart.CurrentPosition | src/components/seo/seo-stats-trend-chart.tsx:85-107 | the current position is the latest plotted one, else the summary's, each to one decimal, and none exactly when neither exists |
| TrendChart.CompareDays | src/components/seo/seo-stats-trend-chart.tsx:138-139 | 1 day exactly for `1d`, 7 exactly for `7d`, 30 otherwise |
| TrendChart.Nearest | src/components/seo/seo-stats-trend-chart.tsx:150-165 | the point chosen has a position, lies within three days of the target, is no farther than any other such point, and is the earliest of the equally near; none exactly when no point qualifies |
| TrendChart.ComparePoint | src/components/seo/seo-stats-trend-chart.tsx:144-165 | the compared point has a position within three days of the target, lies on the target day whenever some point with a position does, and none exactly when no point qualifies |
| TrendChart.Delta | src/components/seo/seo-stats-trend-chart.tsx:122-173 | no change without data, a current position or a latest point; otherwise a change exactly when a point to compare exists, and then it is the latest minus the compared position to one decimal |
| TrendChart.LatestComparedWithItself | src/components/seo/seo-stats-trend-chart.tsx:145-169 | with only the latest point, the one-day comparison falls back on that point itself and the change is 0 |
| TrendChart.DeltaVerdict | src/components/seo/seo-stats-trend-chart.tsx:168-169 | hidden exactly without a change or at 0, improved exactly for a negative change |
| TrendChart.ImprovedIffBetter | src/components/seo/seo-stats-trend-chart.tsx:168-169 | the chart shows an improvement exactly when the latest position beats the compared one by more than 0.05 |
| TrendChart.PlottedValues | src/components/seo/seo-stats-trend-chart.tsx:176-178 | the values are exactly the positions of the points that have one |
| TrendChart.MinOf | src/components/seo/seo-stats-trend-chart.tsx:180 | the minimum is one of the values and no value is smaller |
| TrendChart.MaxOf | src/components/seo/seo-stats-trend-chart.tsx:182 | the maximum is one of the values and no value is larger |
| TrendChart.YDomain | src/components/seo/seo-stats-trend-chart.tsx:176-186 | the axis starts at 0 or above, spans at least 5, is 0 to 20 without positions, and contains every non-negative plotted position |
| Insights.HeadPiece | src/lib/ai/gemini.ts:126 | the first piece of a split is a prefix free of the separator, ending where the separator first occurs, and the whole text without one |
| Insights.JsonFencePayload | src/lib/ai/gemini.ts:124-126 | an answer with one `json` fence yields the trimmed text between it and the next fence, or the end |
| Insights.PlainFencePayload | src/lib/ai/gemini.ts:127-128 | an answer with only plain fences yields the trimmed text between the first and the second, or the end |
| Insights.UnfencedPayload | src/lib/ai/gemini.ts:124-129 | an answer without fences is parsed as it is |
| Insights.AskModels | src/lib/ai/gemini.ts:105-121 | the primary model is asked first; the fallback is asked exactly when the primary raises a not-found error, and then its reply decides; any other error gives no text |
| Insights.GenerateInsights | src/lib/ai/gemini.ts:53-137 | at most three insights; none and no call without a key; none when the call that counts raises or the text does not parse; otherwise the first three parsed |
| Insights.InsightsArePrefixOfAnswer | src/lib/ai/gemini.ts:123-132 | every insight returned is among the first the model listed, in its order |
| Insights.AnsweringModelIsAskedOnce | src/lib/ai/gemini.ts:105-109 | a model that answers first time is the only one asked |
| Insights.OtherErrorsAreNotRetried | src/lib/ai/gemini.ts:110-135 | a quota error is not retried and gives no insights |
| Insights.TotalOrZero | src/app/api/ai/insights/route.ts:80-91 | a failed request reads as a total of 0, a successful one as its total |
| Insights.PagesForAi | src/app/api/ai/insights/route.ts:196-200 | one entry per page returned, with its path (or empty), its views and the fixed 45% bounce rate; none when the request failed |
| Insights.SourcesForAi | src/app/api/ai/insights/route.ts:201-204 | one entry per source returned, each with an empty source name, because the route reads a field the sources reply does not have |
| Insights.DevicesForAi | src/app/api/ai/insights/route.ts:205-209 | the device breakdown is always zero, because the devices reply has lists, not the fields read |
| Insights.QueryOf | src/app/api/ai/insights/route.ts:176-182 | a top query carries the row's key (or empty), its counts or 0, its position, and its rate as a percent |
| Insights.GscForSite | src/app/api/ai/insights/route.ts:157-188 | Search Console data exist exactly for a linked site whose request succeeded, with the summary's figures (0 without one) and the first five queries |
| Insights.Analytics | src/app/api/ai/insights/route.ts:129-211 | the model gets the routes' totals (0 when refused), 45% and 120 s placeholders when there are events, the Search Console data and a zero device breakdown |
| Insights.MobileBounce | src/app/api/ai/insights/route.ts:139-152 | the mobile figure lies between 0 and 100, is positive exactly with mobile events, and exceeds 60 exactly when more than 60% of the events are mobile |
| Insights.Share | src/app/api/ai/insights/route.ts:152 | a part of a whole as a percent: within 0 to 100, positive exactly for a positive part, above 60 exactly when the part exceeds 60% |
| Insights.ShareWithin | src/app/api/ai/insights/route.ts:152 | a positive part's percent lies in (0, 100], scales back to the part, and exceeds 60 exactly when the part does |
| Insights.SignOfExcess | src/app/api/ai/insights/route.ts:232 | a quotient's percent exceeds 60 exactly when the part exceeds 60% of the whole |
| Insights.RuleInsights | src/app/api/ai/insights/route.ts:231-257 | the rules give exactly one insight: the mobile one exactly when the mobile figure exceeds 60, else the data-collection notice |
| Insights.SeoFirst | src/app/api/ai/insights/route.ts:218-220 | at most three insights, a prefix of the SEO ones followed by the others |
| Insights.PartitionPermutes | src/app/api/ai/insights/route.ts:218-220 | SEO ones followed by the others is a reordering of the model's list |
| Insights.SeoFirstFacts | src/app/api/ai/insights/route.ts:216-224 | the reordering keeps every insight, puts no other category before an SEO one, keeps the model's order within each group, and keeps all of a list of three or fewer |
| Insights.SeoFirstNonEmpty | src/app/api/ai/insights/route.ts:216-220 | a non-empty model list keeps one to three insights |
| Insights.CountedEvents | src/app/api/ai/insights/route.ts:130-133 | the counted events are exactly the site's events since the period start |
| Insights.Answer | src/app/api/ai/insights/route.ts:214-257 | one to three insights: the model's list with SEO first when it is non-empty, else the rules |
| Insights.InsightsRoute | src/app/api/ai/insights/route.ts:17-263 | 400 exactly without an id, the demo reply for `demo`, a 500 without a session, 404 exactly for an unknown or foreign site, and otherwise one to three insights |
| Insights.OwnedAnswer | src/app/api/ai/insights/route.ts:60-258 | an owned site always gets one to three insights |
| Insights.FallbackIsOneRule | src/app/api/ai/insights/route.ts:139-257 | without an API key an owned site gets exactly one insight, about mobile visitors exactly when more than 60% of the period's events are mobile |
| Insights.ModelAnswerIsShown | src/app/api/ai/insights/route.ts:213-224 | the model's non-empty list reaches the reply, SEO ones first |
| Insights.StatsRequestedUnderWrongId | src/app/api/ai/insights/route.ts:71-127 | as written the stats are requested under the internal id, which the stats routes look up as a tracking id, so the model is told of no visitors, no pageviews, no pages and no sources |
| Insights.StatsUnderTrackingId | src/app/api/stats/visitors/route.ts:50-93 | requested under the tracking id, a tracked site's totals are the stats routes' own figures over its events |
| Insights.SiteByTrackingIdUnique | src/lib/db/schema.ts:33-35 | with unique tracking ids, the lookup by a site's tracking id finds that site |
| Sites.ListSites | src/app/api/sites/route.ts:8-25 | a 500 exactly without a session; otherwise exactly the caller's sites, in table order |
| Sites.Normalize | src/app/api/sites/route.ts:45-49 | a normalised domain is no longer than the input, has no capital letters and no white space at either end |
| Sites.NormalizeCanonical | src/app/api/sites/route.ts:45-49 | a domain written with or without an http(s) scheme and one trailing slash normalises to the bare domain lower-cased, and a leading `www.` stays |
| Sites.LoweredCanonical | src/app/api/sites/route.ts:45-48 | the scheme and trailing-slash steps remove exactly the scheme and the slash written around the domain |
| Sites.Lowered | src/app/api/sites/route.ts:46-48 | the steps before trimming do not lengthen the domain and leave no capital letters |
| Sites.NormalizeDropsSchemeAndSlash | src/app/api/sites/route.ts:45-49 | `https://Example.com/` is registered as `example.com` |
| Sites.LeadingSpaceKeepsScheme | src/app/api/sites/route.ts:45-49 | a domain behind one leading space comes out trimmed but otherwise unchanged, so a scheme behind the space is kept |
| Sites.SlashNormalisesToEmpty | src/app/api/sites/route.ts:37-49 | a lone slash passes the presence check and is registered as the empty domain |
| Sites.SiteByDomain | src/app/api/sites/route.ts:52-56 | the lookup finds a site with the domain when one exists, and none otherwise |
| Sites.DomainOf | src/app/api/sites/route.ts:35-49 | a body has a usable domain exactly when it is a non-empty string, and it is used normalised |
| Sites.NameOf | src/app/api/sites/route.ts:82 | any truthy name is kept: a string as it is, another value as the text the driver stores; a falsy name gives the domain |
| Sites.Register | src/app/api/sites/route.ts:29-94 | only a creation changes the table; a 500 without a session or a JSON body, or when the driver refuses the name; 400 exactly without a usable domain; the existing site for the owner's own domain, 400 for another user's; a fresh domain with a storable name is created exactly when its new row collides with no id or tracking id, and is a 500 otherwise; a created site is appended, is new, is the caller's, carries the chosen name, tracks and has Search Console off |
| Sites.CreatedIsListed | src/app/api/sites/route.ts:8-87 | a site just registered appears in its owner's list |
| Sites.FreshDomainIsCreated | src/app/api/sites/route.ts:51-86 | a domain nobody has registered, with a name the driver stores and random ids no row holds, is created under those ids, appended, and listed for its owner |
| Sites.RegisterTwice | src/app/api/sites/route.ts:52-68 | registering the same domain twice returns the first site and inserts nothing more |
| Sites.SiteByDomainAppend | src/app/api/sites/route.ts:52-85 | a domain not yet in the table is found in the row appended for it |
| Sites.OthersDomainRefused | src/app/api/sites/route.ts:58-74 | another user's domain is refused and the table is left unchanged |
| Sites.RegisterKeepsTrackingIdsUnique | src/lib/db/schema.ts:33-35 | registration keeps the tracking ids unique |
| Onboarding.Merge | src/lib/onboarding-storage.ts:24 | every field present in the new data wins, every absent one keeps its stored value; the features are replaced whole |
| Onboarding.GetDraft | src/lib/onboarding-storage.ts:31-42 | nothing outside a browser or when the key is missing or empty; otherwise what the stored text parses to, nothing when it does not parse |
| Onboarding.SaveDraft | src/lib/onboarding-storage.ts:20-26 | outside a browser nothing changes; otherwise the key holds the stored draft (or an empty one) merged with the data |
| Onboarding.ClearDraft | src/lib/onboarding-storage.ts:47-50 | in a browser the key is gone and every other key is kept; outside one nothing changes |
| Onboarding.SaveThenGet | src/lib/onboarding-storage.ts:20-42 | a save followed by a read gives the earlier draft merged with the saved fields |
| Onboarding.SavesAccumulate | src/lib/onboarding-storage.ts:20-42 | from empty storage, two saves read back as the first merged with the second |
| Onboarding.SaveKeepsOtherKeys | src/lib/onboarding-storage.ts:25 | a save touches no other key |
| Onboarding.ClearThenGet | src/lib/onboarding-storage.ts:31-50 | after clearing there is no draft |
| Onboarding.UnparsableDraftIsDropped | src/lib/onboarding-storage.ts:23-41 | a draft that does not parse reads as none and the next save keeps only the saved fields |
| Onboarding.Substring | src/lib/onboarding-storage.ts:56 | the clamped substring is no longer than the range asked for |
| Onboarding.TempSiteId | src/lib/onboarding-storage.ts:55-57 | a temporary id starts with `temp_` |
| Onboarding.TempIdIsNeverASiteId | src/lib/db/schema.ts:25-27 | a temporary id never equals a generated site id, which is lower-case hex |

## Left out

- Browser plumbing in the tracking script is not modelled: canvas, navigator and screen reads, `sendBeacon`/`fetch`, history patching, timers and the `window.ca` globals. The fingerprint signals, clock, URL and user agent are inputs, and `sessionStorage` is a map.
- The clock, `Math.random` and `randomblob` are parameters: instants are integers, and random bytes and texts are inputs.
- Calendar dates are day numbers. ISO date formatting and time zones are not modelled, because they only name the same days.
- Floating point is modelled as exact `real` arithmetic. `toFixed` and `Math.round` are modelled as round-half-up to the stated number of decimals.
- URL parsing (`new URL`, origin and hostname) and `Math.log10` are function parameters, because their algorithms lie outside this code.
- `JSON.stringify` and `JSON.parse` are parameters. The onboarding store assumes only that the text reads back as what was written.
- The Google APIs and the Gemini client are modelled as functions from request to reply or error. Their wire formats and the prompt text are not modelled.
- `toLowerCase` is modelled on ASCII letters only; other characters pass unchanged.
- Database failures are not modelled. The modelled 500 replies are these:
  - a thrown auth guard, outside the connect routes;
  - an unparsable body in ingestion and in the connect route;
  - a registration without a JSON body, whose row would collide, or whose name the driver refuses;
  - an event timestamp that gives an invalid date.

  The insights route's model and parse errors are not among them: they fall back to the rule-based insights.
- The UI rendering is not modelled: cards, charts, the "エラー" placeholder, toasts and loading states. Only the values those views compute are modelled.
- No route in the modelled core deletes a site. The schema's cascading delete is modelled on its own by `Schema.DeleteSite`.
- The auth provider behind `requireAuthForAPI` is not part of this model. A session is an optional user id.
- GscSync.ReplayIsIdempotent: proved only for a batch of writes with pairwise distinct keys. That holds when Search Console returns each date and each query once per run.
- GscSync.SyncTwice: proved only when the run's writes have distinct keys, for the same reason.
- Insights.JsonFencePayload: stated only for answers with a single `json` fence; the first-fence rule for several is covered by `Insights.HeadPiece`.
- The insights route's device breakdown is zero for every input, and the model says so. The devices route replies with lists, not the `mobile`/`desktop`/`tablet` fields the insights route reads.
- Every source name the insights route passes on is empty, and the model says so. The route reads `source` while the sources route replies with `domain`.
- The stats routes do not check `trackingEnabled` or the caller's session, and the model follows them.
- The positions, keywords and CTR routes do not check a session, and the model follows them.
- PagesChange.CtrOf and GscSummary.PositionOf read a search row without a CTR or position as 0. The summary route, the health score, the improvement list and the performance chart do the same in their code (`|| 0`). The pages list does not (src/components/seo/gsc-pages-list.tsx:89-91): there a missing value makes the change NaN. Reading it as 0 there is a modelling choice; the search API sends both fields on every row.
- A domain of `/` is registered as the empty domain. The model keeps this behaviour of the code.
- Stats.PagesRoute: the query builder's `.limit(n)` is not part of this model. `Common.BuilderLimit` assumes it writes no `LIMIT` clause for a NaN limit (a `limit` that does not parse), so every page is listed.
- Sources.SourcesRoute: the same assumption for the referrer groups' `LIMIT`. The route's own `slice(0, NaN)` then leaves no source.
- SeoViews.KeywordsRoute: the same assumption, so a NaN limit ranks every query of the window.
- Radix.ParseInt: the result is an exact integer. JavaScript rounds a value above 2^53 to the nearest double, and it reads `-0` as negative zero. Both differences are invisible at the modelled call sites, which compare with a small bound or use the value as a row count.
- Ingest.Track: the number a string or an array or object timestamp coerces to is an input (`textNumber`, `compositeNumber`), not a model of StringToNumber. The database driver's refusal of an invalid date's NaN is assumed, not modelled.
- Ingest.Track: the body's text fields are modelled as strings. A field holding a JSON number or object is outside the model, because the route passes it on to the database as it is. The same holds for the `siteId` and `siteUrl` of the connect route's body.
- The trend chart's one-day comparison can pick the latest point itself; `TrendChart.LatestComparedWithItself` shows the change is then 0 and is hidden.

## Findings

| source | as written | input that shows it | evidently intended | confidence | as-written member | corrected member |
|---|---|---|---|---|---|---|
| src/app/api/connect/gsc/route.ts:237-241 | linking stores the property's URL, permission and time but no access token, and the sync skips a site whose configuration lacks one (src/app/api/sync/gsc/route.ts:47-54) | any site linked through the connect route, then a sync run | the sync uses the owner's stored Google token, so a linked site syncs | not executed | GscSync.LinkedSiteNeverSyncs | GscSync.LinkedSiteSyncsWithToken |
| public/ca.js:91-95 | the expiry branch destructures a `const hash` that shadows the hash function, so calling `hash(...)` throws | a session stored more than 30 minutes before the page view | an expired session mints and stores a new one | not executed | Session.ExpiredSessionThrows | Session.GetSession |
| src/components/dashboard/stats-overview.tsx:26-39 | the previous week is the `14d` total minus the `7d` one, and the stats routes read `14d` as 90 days | one page view 30 days ago and none since | last week is the seven days before this week | not executed | Overview.OldPageviewCountsAsLastWeek | Overview.PreviousWeekIsLastSevenDays |
| src/components/dashboard/health-score.tsx:76-88 | the previous period is requested as a doubled period (`14d`) that the summary route maps back to 7 days (src/app/api/gsc/stats/route.ts:77-87) | 100 clicks this week after 50 the week before | the change compares this period with the one before | not executed | HealthScore.LastWeekIsInvisible | HealthScore.ClicksChangeComparesPeriods |
| src/components/seo/gsc-pages-list.tsx:64-72 | the previous rows are requested with start and end dates the summary route ignores, so they are this week's rows | a page 5th now and 9th the week before | the previous rows come from the period just before the current one | not executed | PagesChange.ClimbIsInvisible | PagesChange.IntendedComparesPrecedingPeriod |
| src/app/api/ai/insights/route.ts:71-127 | the stats are requested under the site's internal id, while the stats routes look sites up by tracking id | any owned, tracked site with events | the stats are requested under the tracking id | not executed | Insights.StatsRequestedUnderWrongId | Insights.StatsUnderTrackingId |

=== FILE: beacon.dfy ===
/** The browser beacon's pure decisions: which tracking id the script URL
    carries, where events are posted, the 32-bit rolling string hash, device
    classification and the "send only on URL change" check. Browser reads
    (script element, location, user agent, screen) are inputs. */
module Beacon {
  import opened Common
  import opened Radix

  // ---------------------------------------------------------------------
  // Tracking id: the first capture of /ca-([^.]+)\.js/ in the script src

  /** `ca-<id>.js` occurs at `i` with a non-empty, dot-free `id`: a match of the
      pattern at `i` with `id` as its capture group. */
  predicate PatternAt(s: string, i: int, id: string)
  {
    |id| > 0 && (forall j :: 0 <= j < |id| ==> id[j] != '.') && OccursAt(s, "ca-" + id + ".js", i)
  }

  /** The number of non-dot characters starting at `k` (what `[^.]+` consumes greedily). */
  function RunLength(s: string, k: nat): (n: nat)
    requires k <= |s|
    ensures k + n <= |s|
    ensures forall j :: k <= j < k + n ==> s[j] != '.'
    ensures k + n < |s| ==> s[k + n] == '.'
    decreases |s| - k
  {
    if k < |s| && s[k] != '.' then 1 + RunLength(s, k + 1) else 0
  }

  lemma {:induction false} RunLengthExact(s: string, k: nat, m: nat)
    requires k + m < |s|
    requires forall j :: k <= j < k + m ==> s[j] != '.'
    requires s[k + m] == '.'
    ensures RunLength(s, k) == m
    decreases m
  {
    if m > 0 {
      RunLengthExact(s, k + 1, m - 1);
    }
  }

  /** The regular expression's attempt at start position `i`. Greedy `[^.]+`
      stops at the first dot, and backtracking cannot help because a shorter
      run is followed by a non-dot. */
  function MatchAt(s: string, i: nat): (r: Option<string>)
    requires i <= |s|
  {
    if OccursAt(s, "ca-", i) then
      var n := RunLength(s, i + 3);
      if n > 0 && OccursAt(s, ".js", i + 3 + n) then Some(s[i + 3..i + 3 + n]) else None
    else None
  }

  lemma {:induction false} PatternGivesMatch(s: string, i: nat, id: string)
    requires i <= |s| && PatternAt(s, i, id)
    ensures MatchAt(s, i) == Some(id)
  {
    var w := "ca-" + id + ".js";
    var m := |id|;
    PatternPieces(id);
    PieceOf(s, w, i, 0, 3);
    PieceOf(s, w, i, 3, 3 + m);
    PieceOf(s, w, i, 3 + m, m + 6);
    forall j | i + 3 <= j < i + 3 + m ensures s[j] != '.' {
      CharOf(s, w, i, j - i);
    }
    CharOf(s, w, i, 3 + m);
    RunLengthExact(s, i + 3, m);
  }

  /** The three parts of `ca-<id>.js`. */
  lemma {:induction false} PatternPieces(id: string)
    ensures var w := "ca-" + id + ".js";
      |w| == |id| + 6 && w[..3] == "ca-" && w[3..3 + |id|] == id && w[3 + |id|..] == ".js"
      && (forall j :: 3 <= j < 3 + |id| ==> w[j] == id[j - 3]) && w[3 + |id|] == '.'
  {
  }

  /** A piece of an occurrence is a piece of the text. */
  lemma {:induction false} PieceOf(s: string, w: string, i: int, a: int, b: int)
    requires OccursAt(s, w, i) && 0 <= a <= b <= |w|
    ensures s[i + a..i + b] == w[a..b]
  {
    forall k | 0 <= k < b - a ensures s[i + a..i + b][k] == w[a..b][k] {
      assert s[i + a + k] == s[i..i + |w|][a + k];
    }
  }

  lemma {:induction false} CharOf(s: string, w: string, i: int, a: int)
    requires OccursAt(s, w, i) && 0 <= a < |w|
    ensures s[i + a] == w[a]
  {
    assert s[i + a] == s[i..i + |w|][a];
  }

  lemma MatchGivesPattern(s: string, i: nat)
    requires i <= |s| && MatchAt(s, i).Some?
    ensures PatternAt(s, i, MatchAt(s, i).value)
  {
    var n := RunLength(s, i + 3);
    var id := s[i + 3..i + 3 + n];
    assert s[i..i + n + 6] == s[i..i + 3] + id + s[i + 3 + n..i + n + 6];
  }

  /** The attempt at `i` succeeds exactly when the pattern occurs there, and
      then its capture is the pattern's only possible `id`. */
  lemma MatchAtIff(s: string, i: nat, id: string)
    requires i <= |s|
    ensures MatchAt(s, i) == Some(id) <==> PatternAt(s, i, id)
  {
    if PatternAt(s, i, id) {
      PatternGivesMatch(s, i, id);
    }
    if MatchAt(s, i) == Some(id) {
      MatchGivesPattern(s, i);
    }
  }

  lemma NoMatchAt(s: string, i: nat, id: string)
    requires i <= |s| && MatchAt(s, i).None?
    ensures !PatternAt(s, i, id)
  {
    MatchAtIff(s, i, id);
  }

  /** The leftmost start position at or after `from` where the pattern matches. */
  function MatchStart(s: string, from: nat): (r: Option<nat>)
    requires from <= |s|
    ensures r.Some? ==> from <= r.value <= |s| && MatchAt(s, r.value).Some?
    ensures r.Some? ==> forall j :: from <= j < r.value ==> MatchAt(s, j).None?
    ensures r.None? ==> forall j :: from <= j <= |s| ==> MatchAt(s, j).None?
    decreases |s| - from
  {
    if MatchAt(s, from).Some? then Some(from)
    else if from == |s| then None
    else MatchStart(s, from + 1)
  }

  /** `scriptUrl.match(/ca-([^.]+)\.js/)?.[1]`; `None` means the script stops at once. */
  function TrackingId(src: string): (r: Option<string>)
    ensures r.Some? <==> MatchStart(src, 0).Some?
    ensures r.Some? ==> PatternAt(src, MatchStart(src, 0).value, r.value)
    ensures r.Some? ==> forall j, id :: 0 <= j < MatchStart(src, 0).value ==> !PatternAt(src, j, id)
    ensures r.None? ==> forall j, id :: 0 <= j <= |src| ==> !PatternAt(src, j, id)
    ensures r.Some? ==> |src| >= 7 && r.value != ""
  {
    match MatchStart(src, 0)
    case None =>
      assert forall j, id :: 0 <= j <= |src| ==> !PatternAt(src, j, id) by {
        forall j, id | 0 <= j <= |src| ensures !PatternAt(src, j, id) {
          NoMatchAt(src, j, id);
        }
      }
      None
    case Some(i) =>
      var id := MatchAt(src, i).value;
      MatchAtIff(src, i, id);
      assert forall j, id' :: 0 <= j < i ==> !PatternAt(src, j, id') by {
        forall j, id' | 0 <= j < i ensures !PatternAt(src, j, id') {
          NoMatchAt(src, j, id');
        }
      }
      Some(id)
  }

  // ---------------------------------------------------------------------
  // Endpoint

  /** The `data-endpoint` fallback: an absolute http(s) URL verbatim, otherwise a
      path on the page's own origin joined with exactly one '/'; without the
      attribute, `<page origin>/track`. */
  function AttributeEndpoint(attr: Option<string>, pageOrigin: string): (r: string)
    ensures (attr.None? || attr.value == "") ==> r == pageOrigin + "/track"
    ensures attr.Some? && ("http://" <= attr.value || "https://" <= attr.value) ==> r == attr.value
    ensures attr.Some? && attr.value != "" && !("http://" <= attr.value) && !("https://" <= attr.value) ==>
      (attr.value[0] == '/' ==> r == pageOrigin + attr.value)
      && (attr.value[0] != '/' ==> r == pageOrigin + "/" + attr.value)
  {
    match attr
    case None => pageOrigin + "/track"
    case Some(a) =>
      if a == "" then pageOrigin + "/track"
      else if "http://" <= a || "https://" <= a then a
      else
        if a[0] == '/' then pageOrigin + a else pageOrigin + "/" + a
  }

  /** The endpoint: `new URL(src).origin + '/track'` when the src parses
      (`srcOrigin` is that origin, `None` when the constructor throws),
      otherwise the attribute fallback. */
  function Endpoint(src: string, srcOrigin: Option<string>, attr: Option<string>, pageOrigin: string): (r: string)
    ensures src != "" && srcOrigin.Some? ==> r == srcOrigin.value + "/track"
    ensures src == "" || srcOrigin.None? ==> r == AttributeEndpoint(attr, pageOrigin)
  {
    if src != "" then
      match srcOrigin
      case Some(o) => o + "/track"
      case None => AttributeEndpoint(attr, pageOrigin)
    else AttributeEndpoint(attr, pageOrigin)
  }

  /** The empty-src branch is dead: the script only gets this far with a tracking
      id, which needs a non-empty src; so a parsable src always posts to its own origin. */
  lemma EndpointOfRunningScript(src: string, srcOrigin: Option<string>, attr: Option<string>, pageOrigin: string)
    requires TrackingId(src).Some?
    ensures srcOrigin.Some? ==> Endpoint(src, srcOrigin, attr, pageOrigin) == srcOrigin.value + "/track"
    ensures srcOrigin.None? ==> Endpoint(src, srcOrigin, attr, pageOrigin) == AttributeEndpoint(attr, pageOrigin)
  {
  }

  // ---------------------------------------------------------------------
  // The rolling hash

  const TWO32: int := 0x1_0000_0000
  const TWO31: int := 0x8000_0000

  /** ECMA-262 ToInt32 (section 7.1.6) on an integer: reduce modulo 2^32 into [-2^31, 2^31). */
  function ToInt32(x: int): (r: int)
    ensures -TWO31 <= r < TWO31
    ensures (x - r) % TWO32 == 0
  {
    var m := x % TWO32;
    if m >= TWO31 then m - TWO32 else m
  }

  /** ToInt32 only sees its argument modulo 2^32. */
  lemma ToInt32Congruent(x: int, y: int)
    requires (x - y) % TWO32 == 0
    ensures ToInt32(x) == ToInt32(y)
  {
    assert x % TWO32 == y % TWO32;
  }

  /** One iteration as written: `hash = (hash << 5) - hash + char; hash = hash & hash`.
      The shift is a 32-bit operation, the subtraction and addition are exact
      in double precision, and `hash & hash` applies ToInt32. */
  function HashStep(h: int, unit: int): int
  {
    ToInt32(ToInt32(h * 32) - h + unit)
  }

  /** The step is the classic 31-multiplier rolling hash reduced to 32 bits. */
  lemma HashStepRolling(h: int, unit: int)
    ensures HashStep(h, unit) == ToInt32(31 * h + unit)
    ensures -TWO31 <= HashStep(h, unit) < TWO31
  {
    var s := ToInt32(h * 32);
    assert (h * 32 - s) % TWO32 == 0;
    assert (s - h + unit) - (31 * h + unit) == s - h * 32;
    ToInt32Congruent(s - h + unit, 31 * h + unit);
  }

  /** UTF-16 code units of a string, what `charCodeAt` walks over. */
  function Utf16(s: string): (u: seq<int>)
    ensures |u| >= |s|
    ensures forall i :: 0 <= i < |u| ==> 0 <= u[i] < 0x1_0000
  {
    if |s| == 0 then []
    else
      var c := s[0] as int;
      var head := if c < 0x1_0000 then [c] else [0xD800 + (c - 0x1_0000) / 0x400, 0xDC00 + (c - 0x1_0000) % 0x400];
      head + Utf16(s[1..])
  }

  /** The 32-bit hash after folding the code units from 0. */
  function HashCode(units: seq<int>): (h: int)
    ensures -TWO31 <= h < TWO31
  {
    if |units| == 0 then 0
    else HashStep(HashCode(units[..|units| - 1]), units[|units| - 1])
  }

  function Abs(x: int): (r: nat)
    ensures r == x || r == -x
  {
    if x < 0 then -x else x
  }

  /** `hash(str)`: `Math.abs` of the 32-bit hash in lower-case base 36. */
  function Hash(str: string): (r: string)
    ensures |r| >= 1
    ensures forall i :: 0 <= i < |r| ==> IsDigitOf(r[i], 36)
    ensures str == "" ==> r == "0"
    ensures FromBase(r, 36) <= TWO31
  {
    var h := HashCode(Utf16(str));
    FromToBase(Abs(h), 36);
    ToBase(Abs(h), 36)
  }

  /** The loop of `hash` as the script runs it, one code unit at a time. */
  method HashLoop(str: string) returns (r: string)
    ensures r == Hash(str)
  {
    var units := Utf16(str);
    var h := 0;
    var i := 0;
    while i < |units|
      invariant 0 <= i <= |units|
      invariant h == HashCode(units[..i])
    {
      assert units[..i + 1][..i] == units[..i];
      h := HashStep(h, units[i]);
      i := i + 1;
    }
    assert units[..i] == units;
    r := ToBase(Abs(h), 36);
  }

  /** Hash text never contains '_' or '.', so it survives the session encoding. */
  lemma HashHasNoSeparators(str: string)
    ensures forall i :: 0 <= i < |Hash(str)| ==> Hash(str)[i] != '_' && Hash(str)[i] != '.'
  {
    var r := Hash(str);
    forall i | 0 <= i < |r| ensures r[i] != '_' && r[i] != '.' {
      assert IsDigitOf(r[i], 36);
    }
  }

  // ---------------------------------------------------------------------
  // Device information

  datatype DeviceInfo = DeviceInfo(deviceType: string, screenSize: string, browser: string, os: string)

  /** `/mobile|android|iphone|ipad/i.test(ua)`; the pattern is ASCII, so the
      case-insensitive test is an ASCII-lower-cased substring test. */
  predicate MobileUserAgent(ua: string)
  {
    var l := LowerAscii(ua);
    Contains(l, "mobile") || Contains(l, "android") || Contains(l, "iphone") || Contains(l, "ipad")
  }

  function DeviceType(ua: string, width: int): (r: string)
    ensures r == "desktop" <==> !MobileUserAgent(ua)
    ensures r == "mobile" <==> MobileUserAgent(ua) && width < 768
    ensures r == "tablet" <==> MobileUserAgent(ua) && width >= 768
  {
    if MobileUserAgent(ua) then (if width < 768 then "mobile" else "tablet") else "desktop"
  }

  /** First match in the order Chrome, Firefox, Safari, Edge. */
  function Browser(ua: string): (r: string)
    ensures r == "chrome" <==> Contains(ua, "Chrome")
    ensures r == "firefox" <==> !Contains(ua, "Chrome") && Contains(ua, "Firefox")
    ensures r == "safari" <==> !Contains(ua, "Chrome") && !Contains(ua, "Firefox") && Contains(ua, "Safari")
    ensures r == "edge" <==> !Contains(ua, "Chrome") && !Contains(ua, "Firefox") && !Contains(ua, "Safari") && Contains(ua, "Edge")
    ensures r == "unknown" <==> !Contains(ua, "Chrome") && !Contains(ua, "Firefox") && !Contains(ua, "Safari") && !Contains(ua, "Edge")
  {
    if Contains(ua, "Chrome") then "chrome"
    else if Contains(ua, "Firefox") then "firefox"
    else if Contains(ua, "Safari") then "safari"
    else if Contains(ua, "Edge") then "edge"
    else "unknown"
  }

  predicate IosUserAgent(ua: string)
  {
    Contains(ua, "iOS") || Contains(ua, "iPhone") || Contains(ua, "iPad")
  }

  /** First match in the order Windows, Mac, Linux, Android, iOS/iPhone/iPad. */
  function Os(ua: string): (r: string)
    ensures r == "windows" <==> Contains(ua, "Windows")
    ensures r == "macos" <==> !Contains(ua, "Windows") && Contains(ua, "Mac")
    ensures r == "linux" <==> !Contains(ua, "Windows") && !Contains(ua, "Mac") && Contains(ua, "Linux")
    ensures r == "android" <==> !Contains(ua, "Windows") && !Contains(ua, "Mac") && !Contains(ua, "Linux") && Contains(ua, "Android")
    ensures r == "ios" <==> !Contains(ua, "Windows") && !Contains(ua, "Mac") && !Contains(ua, "Linux") && !Contains(ua, "Android") && IosUserAgent(ua)
    ensures r == "unknown" <==> !Contains(ua, "Windows") && !Contains(ua, "Mac") && !Contains(ua, "Linux") && !Contains(ua, "Android") && !IosUserAgent(ua)
  {
    if Contains(ua, "Windows") then "windows"
    else if Contains(ua, "Mac") then "macos"
    else if Contains(ua, "Linux") then "linux"
    else if Contains(ua, "Android") then "android"
    else if IosUserAgent(ua) then "ios"
    else "unknown"
  }

  /** `width + 'x' + height`. */
  function ScreenSize(width: int, height: int): (r: string)
    ensures exists k :: 0 <= k < |r| && r[k] == 'x' && r[..k] == IntToString(width) && r[k + 1..] == IntToString(height)
  {
    var w := IntToString(width);
    var r := w + "x" + IntToString(height);
    assert r[|w|] == 'x' && r[..|w|] == w && r[|w| + 1..] == IntToString(height);
    r
  }

  function GetDeviceInfo(ua: string, width: int, height: int): (d: DeviceInfo)
    ensures d.deviceType == DeviceType(ua, width) && d.browser == Browser(ua) && d.os == Os(ua)
    ensures d.screenSize == ScreenSize(width, height)
  {
    DeviceInfo(DeviceType(ua, width), ScreenSize(width, height), Browser(ua), Os(ua))
  }

  // ---------------------------------------------------------------------
  // SPA navigation

  /** `checkUrl`: returns the new `lastUrl` and whether a pageview is sent. */
  function CheckUrl(lastUrl: string, currentUrl: string): (r: (string, bool))
    ensures r.0 == currentUrl
    ensures r.1 <==> currentUrl != lastUrl
  {
    if currentUrl != lastUrl then (currentUrl, true) else (lastUrl, false)
  }

  /** Runs `checkUrl` over the URLs seen at each history event and counts the pageviews sent. */
  function SentCount(lastUrl: string, urls: seq<string>): (n: nat)
    ensures n <= |urls|
    decreases |urls|
  {
    if |urls| == 0 then 0
    else
      var (last', sent) := CheckUrl(lastUrl, urls[0]);
      (if sent then 1 else 0) + SentCount(last', urls[1..])
  }

  /** Checking the same URL repeatedly sends at most once, and not at all when it
      is already the last URL. */
  lemma {:induction false} RepeatedCheckSendsOnce(lastUrl: string, url: string, k: nat)
    ensures SentCount(lastUrl, seq(k, _ => url)) == if k > 0 && url != lastUrl then 1 else 0
    decreases k
  {
    if k > 0 {
      var urls := seq(k, _ => url);
      assert urls[1..] == seq(k - 1, _ => url);
      RepeatedCheckSendsOnce(url, url, k - 1);
    }
  }
}

=== FILE: common.dfy ===
/** Shared vocabulary: optional values, JavaScript truthiness of JSON values,
    the string operations the TypeScript and JavaScript code uses, sums,
    slicing and rounding. */
module Common {

  datatype Option<T> = None | Some(value: T)

  /** A JSON value as it arrives in a request body. Arrays and objects are
      not looked into by the code modelled here, so they share one case. */
  datatype Json = JNull | JBool(b: bool) | JNum(n: real) | JStr(s: string) | JComposite

  /** JavaScript truthiness of a JSON value (`if (v)`, `v || d`). */
  predicate Truthy(v: Json)
  {
    match v
    case JNull => false
    case JBool(b) => b
    case JNum(n) => n != 0.0
    case JStr(s) => s != ""
    case JComposite => true
  }

  /** `v || null` on a JSON value. */
  function JsonOrNull(v: Json): (r: Json)
    ensures Truthy(v) ==> r == v
    ensures !Truthy(v) ==> r == JNull
  {
    if Truthy(v) then v else JNull
  }

  /** `s || null` on a string: the empty string becomes null. */
  function OrNull(s: string): (r: Option<string>)
    ensures r.None? <==> s == ""
    ensures r.Some? ==> r.value == s
  {
    if s == "" then None else Some(s)
  }

  /** `s || d` on a string. */
  function OrElse(s: string, d: string): (r: string)
    ensures s != "" ==> r == s
    ensures s == "" ==> r == d
  {
    if s == "" then d else s
  }

  /** A call into code outside the model that either throws (with the
      `Error`'s message, `None` when the thrown value is not an `Error`) or
      returns a value. */
  datatype Call<T> = Threw(message: Option<string>) | Returned(value: T)

  const UnknownError: string := "不明なエラー"

  /** `error instanceof Error ? error.message : "不明なエラー"`. */
  function ErrorMessage(message: Option<string>): (r: string)
    ensures message.Some? ==> r == message.value
    ensures message.None? ==> r == UnknownError
  {
    if message.Some? then message.value else UnknownError
  }

  /** JavaScript truthiness of a nullable text value: present and non-empty. */
  predicate Filled(s: Option<string>)
  {
    s.Some? && s.value != ""
  }

  // ---------------------------------------------------------------------
  // Substrings

  predicate OccursAt(s: string, t: string, k: int)
  {
    0 <= k && k + |t| <= |s| && s[k..k + |t|] == t
  }

  /** Leftmost occurrence of `t` in `s` at or after `from` (`s.indexOf(t, from)`). */
  function IndexOfFrom(s: string, t: string, from: nat): (r: Option<nat>)
    ensures r.Some? ==> from <= r.value && OccursAt(s, t, r.value)
    ensures r.Some? ==> forall k :: from <= k < r.value ==> !OccursAt(s, t, k)
    ensures r.None? ==> forall k :: from <= k ==> !OccursAt(s, t, k)
    decreases |s| - from
  {
    if from + |t| > |s| then None
    else if s[from..from + |t|] == t then Some(from)
    else IndexOfFrom(s, t, from + 1)
  }

  function IndexOf(s: string, t: string): (r: Option<nat>)
    ensures r.Some? ==> OccursAt(s, t, r.value)
    ensures r.Some? ==> forall k :: 0 <= k < r.value ==> !OccursAt(s, t, k)
    ensures r.None? ==> forall k :: !OccursAt(s, t, k)
  {
    IndexOfFrom(s, t, 0)
  }

  /** `s.includes(t)`. */
  predicate Contains(s: string, t: string)
  {
    IndexOf(s, t).Some?
  }

  lemma ContainsIff(s: string, t: string)
    ensures Contains(s, t) <==> exists k :: OccursAt(s, t, k)
  {
    if !Contains(s, t) {
      assert forall k :: !OccursAt(s, t, k);
    }
  }

  /** A substring found at an index is contained. */
  lemma ContainsAt(s: string, t: string, k: int)
    requires OccursAt(s, t, k)
    ensures Contains(s, t)
  {
    ContainsIff(s, t);
  }

  /** A pattern cannot start where its first character is missing. */
  lemma NotAt(s: string, t: string, k: int)
    requires 0 <= k < |s| && |t| > 0 && s[k] != t[0]
    ensures !OccursAt(s, t, k)
  {
    if k + |t| <= |s| {
      assert s[k..k + |t|][0] == s[k];
    }
  }

  /** A string without the pattern's first character does not contain it. */
  lemma NoFirstChar(s: string, t: string)
    requires |t| > 0 && forall i :: 0 <= i < |s| ==> s[i] != t[0]
    ensures !Contains(s, t)
  {
    forall k ensures !OccursAt(s, t, k) {
      if 0 <= k < |s| {
        NotAt(s, t, k);
      }
    }
    ContainsIff(s, t);
  }

  /** `s.replace(t, r)` with a string pattern: only the first occurrence. */
  function ReplaceFirst(s: string, t: string, r: string): (res: string)
    ensures !Contains(s, t) ==> res == s
    ensures Contains(s, t) ==>
      var i := IndexOf(s, t).value; res == s[..i] + r + s[i + |t|..]
  {
    match IndexOf(s, t)
    case None => s
    case Some(i) => s[..i] + r + s[i + |t|..]
  }

  /** `s.replace(/^p/, "")` for a literal prefix `p`. */
  function StripPrefix(s: string, p: string): (r: string)
    ensures p <= s ==> s == p + r
    ensures !(p <= s) ==> r == s
  {
    if p <= s then s[|p|..] else s
  }

  /** `s.replace(/^https?:\/\//, "")`: the scheme test is case-sensitive. */
  function StripHttpScheme(s: string): (r: string)
    ensures "https://" <= s ==> s == "https://" + r
    ensures "http://" <= s ==> s == "http://" + r
    ensures !("https://" <= s) && !("http://" <= s) ==> r == s
  {
    if "https://" <= s then
      assert !("http://" <= s) by { assert s[4] == 's'; }
      s[8..]
    else if "http://" <= s then s[7..]
    else s
  }

  /** `s.replace(/\/$/, "")`: one trailing slash at the very end. */
  function StripTrailingSlash(s: string): (r: string)
    ensures |s| > 0 && s[|s| - 1] == '/' ==> s == r + "/"
    ensures !(|s| > 0 && s[|s| - 1] == '/') ==> r == s
  {
    if |s| > 0 && s[|s| - 1] == '/' then s[..|s| - 1] else s
  }

  /** Each strip undoes exactly the piece it is written for. */
  lemma {:induction false} StripSchemeOf(scheme: string, y: string)
    requires scheme == "" || scheme == "http://" || scheme == "https://"
    requires scheme == "" ==> !("http://" <= y) && !("https://" <= y)
    ensures StripHttpScheme(scheme + y) == y
  {
    var x := scheme + y;
    if scheme == "" {
      assert x == y;
    } else if scheme == "http://" {
      assert !("https://" <= x) by { assert x[4] == ':'; }
      assert "http://" <= x;
    } else {
      assert "https://" <= x;
    }
  }

  lemma {:induction false} StripPrefixOf(p: string, q: string, y: string)
    requires q == p || (q == "" && !(p <= y))
    ensures StripPrefix(q + y, p) == y
  {
    if q == "" {
      assert q + y == y;
    } else {
      assert p <= q + y;
    }
  }

  lemma {:induction false} StripSlashOf(y: string, slash: string)
    requires slash == "" || slash == "/"
    requires slash == "" && |y| > 0 ==> y[|y| - 1] != '/'
    ensures StripTrailingSlash(y + slash) == y
  {
    if slash == "" {
      assert y + slash == y;
    } else {
      assert (y + slash)[|y + slash| - 1] == '/';
    }
  }

  /** A prefix that does not start `u` does not start `u` plus a slash,
      unless `u` ends in a slash itself or the prefix is `u` and a slash with
      no slash before it. */
  lemma {:induction false} NotPrefixOfSlashed(p: string, u: string, slash: string)
    requires slash == "" || slash == "/"
    requires |p| >= 2 && (p[|p| - 1] != '/' || p[|p| - 2] == '/')
    requires !(p <= u)
    requires |u| > 0 ==> u[|u| - 1] != '/'
    ensures !(p <= u + slash)
  {
    if slash == "" {
      assert u + slash == u;
    }
  }

  // ---------------------------------------------------------------------
  // Case and whitespace

  function LowerChar(c: char): (r: char)
    ensures 'A' <= c <= 'Z' ==> r as int == c as int + 32
    ensures !('A' <= c <= 'Z') ==> r == c
  {
    if 'A' <= c <= 'Z' then (c as int + 32) as char else c
  }

  /** `s.toLowerCase()` restricted to the ASCII letters. */
  function LowerAscii(s: string): (r: string)
    ensures |r| == |s|
    ensures forall i :: 0 <= i < |s| ==> r[i] == LowerChar(s[i])
  {
    seq(|s|, i requires 0 <= i < |s| => LowerChar(s[i]))
  }

  /** WhiteSpace and LineTerminator code points of ECMA-262, section 12.2 and 12.3,
      as `String.prototype.trim` strips them. */
  predicate IsJsSpace(c: char)
  {
    c == '\t' || c == '\n' || c == '\U{0B}' || c == '\U{0C}' || c == '\r' || c == ' '
    || c == '\U{A0}' || c == '\U{1680}' || ('\U{2000}' <= c <= '\U{200A}')
    || c == '\U{2028}' || c == '\U{2029}' || c == '\U{202F}' || c == '\U{205F}'
    || c == '\U{3000}' || c == '\U{FEFF}'
  }

  function TrimStart(s: string): (r: string)
    ensures |r| <= |s| && r == s[|s| - |r|..]
    ensures forall i :: 0 <= i < |s| - |r| ==> IsJsSpace(s[i])
    ensures |r| > 0 ==> !IsJsSpace(r[0])
  {
    if |s| > 0 && IsJsSpace(s[0]) then TrimStart(s[1..]) else s
  }

  function TrimEnd(s: string): (r: string)
    ensures |r| <= |s| && r == s[..|r|]
    ensures forall i :: |r| <= i < |s| ==> IsJsSpace(s[i])
    ensures |r| > 0 ==> !IsJsSpace(r[|r| - 1])
  {
    if |s| > 0 && IsJsSpace(s[|s| - 1]) then TrimEnd(s[..|s| - 1]) else s
  }

  /** Neither end is white space. */
  predicate SpaceFreeEnds(s: string)
  {
    |s| > 0 ==> !IsJsSpace(s[0]) && !IsJsSpace(s[|s| - 1])
  }

  /** `r` sits at offset `k` of `s` with nothing but white space around it. */
  predicate TrimmedAt(s: string, r: string, k: int)
  {
    0 <= k <= |s| - |r| && r == s[k..k + |r|]
    && (forall i :: 0 <= i < k ==> IsJsSpace(s[i]))
    && (forall i :: k + |r| <= i < |s| ==> IsJsSpace(s[i]))
  }

  /** `s.trim()`: the text between the white space at its two ends. */
  function Trim(s: string): (r: string)
    ensures SpaceFreeEnds(r)
    ensures |r| <= |s| && Contains(s, r)
    ensures exists k :: TrimmedAt(s, r, k)
  {
    var t := TrimStart(s);
    var r := TrimEnd(t);
    Around(s, t, r);
    r
  }

  /** A prefix `r` of a suffix `t` of `s`, with white space cut at both seams. */
  lemma {:induction false} Around(s: string, t: string, r: string)
    requires |t| <= |s| && t == s[|s| - |t|..]
    requires forall i :: 0 <= i < |s| - |t| ==> IsJsSpace(s[i])
    requires |t| > 0 ==> !IsJsSpace(t[0])
    requires |r| <= |t| && r == t[..|r|]
    requires forall i :: |r| <= i < |t| ==> IsJsSpace(t[i])
    requires |r| > 0 ==> !IsJsSpace(r[|r| - 1])
    ensures SpaceFreeEnds(r) && Contains(s, r)
    ensures TrimmedAt(s, r, |s| - |t|)
  {
    var k := |s| - |t|;
    assert r == s[k..k + |r|];
    forall i | k + |r| <= i < |s|
      ensures IsJsSpace(s[i])
    {
      assert s[i] == t[i - k];
    }
    ContainsAt(s, r, k);
  }

  /** Trimming keeps text whose ends are not white space. */
  lemma {:induction false} TrimKeeps(s: string)
    requires SpaceFreeEnds(s)
    ensures Trim(s) == s
  {
    var k :| TrimmedAt(s, Trim(s), k);
    if 0 < k {
      assert false;
    }
    if k + |Trim(s)| < |s| {
      assert false;
    }
  }

  // ---------------------------------------------------------------------
  // Splitting on one character

  /** `s.split(c)` for a one-character separator. */
  function Split(s: string, c: char): (r: seq<string>)
    ensures |r| >= 1
    ensures forall i, j :: 0 <= i < |r| && 0 <= j < |r[i]| ==> r[i][j] != c
    decreases |s|
  {
    match IndexOf(s, [c])
    case None =>
      assert forall j :: 0 <= j < |s| ==> s[j] != c by {
        forall j | 0 <= j < |s| ensures s[j] != c {
          assert !OccursAt(s, [c], j);
          assert s[j..j + 1] == [s[j]];
        }
      }
      [s]
    case Some(i) =>
      assert forall j :: 0 <= j < i ==> s[j] != c by {
        forall j | 0 <= j < i ensures s[j] != c {
          assert !OccursAt(s, [c], j);
          assert s[j..j + 1] == [s[j]];
        }
      }
      [s[..i]] + Split(s[i + 1..], c)
  }

  /** `parts.join(c)`. */
  function Join(parts: seq<string>, c: char): string
  {
    if |parts| == 0 then ""
    else if |parts| == 1 then parts[0]
    else parts[0] + [c] + Join(parts[1..], c)
  }

  lemma {:induction false} JoinSplit(s: string, c: char)
    ensures Join(Split(s, c), c) == s
    decreases |s|
  {
    match IndexOf(s, [c])
    case None =>
    case Some(i) =>
      var rest := s[i + 1..];
      JoinSplit(rest, c);
      assert s[i..i + 1] == [c];
      assert s == s[..i] + [c] + rest;
  }

  /** Text without the separator splits into itself. */
  lemma SplitNoSep(s: string, c: char)
    requires forall j :: 0 <= j < |s| ==> s[j] != c
    ensures Split(s, c) == [s]
  {
    forall k ensures !OccursAt(s, [c], k) {
      if 0 <= k < |s| {
        assert s[k..k + 1] == [s[k]];
      }
    }
    assert IndexOf(s, [c]).None?;
  }

  /** Splitting at the first separator peels off the text before it. */
  lemma SplitFirst(a: string, b: string, c: char)
    requires forall j :: 0 <= j < |a| ==> a[j] != c
    ensures Split(a + [c] + b, c) == [a] + Split(b, c)
  {
    var s := a + [c] + b;
    assert s[|a|..|a| + 1] == [c];
    assert OccursAt(s, [c], |a|);
    match IndexOf(s, [c])
    case None =>
    case Some(i) =>
      assert i <= |a|;
      assert s[i..i + 1] == [s[i]];
      assert i == |a|;
      assert s[..i] == a;
      assert s[i + 1..] == b;
  }

  // ---------------------------------------------------------------------
  // Sums, bounds and slicing

  function SumReal(xs: seq<real>): real
  {
    if |xs| == 0 then 0.0 else SumReal(xs[..|xs| - 1]) + xs[|xs| - 1]
  }

  function SumInt(xs: seq<int>): int
  {
    if |xs| == 0 then 0 else SumInt(xs[..|xs| - 1]) + xs[|xs| - 1]
  }

  lemma {:induction false} SumRealAppend(xs: seq<real>, ys: seq<real>)
    ensures SumReal(xs + ys) == SumReal(xs) + SumReal(ys)
    decreases |ys|
  {
    if |ys| == 0 {
      assert xs + ys == xs;
    } else {
      assert (xs + ys)[..|xs + ys| - 1] == xs + ys[..|ys| - 1];
      SumRealAppend(xs, ys[..|ys| - 1]);
    }
  }

  lemma {:induction false} SumIntAppend(xs: seq<int>, ys: seq<int>)
    ensures SumInt(xs + ys) == SumInt(xs) + SumInt(ys)
    decreases |ys|
  {
    if |ys| == 0 {
      assert xs + ys == xs;
    } else {
      assert (xs + ys)[..|xs + ys| - 1] == xs + ys[..|ys| - 1];
      SumIntAppend(xs, ys[..|ys| - 1]);
    }
  }

  function Take<T>(xs: seq<T>, n: int): (r: seq<T>)
    ensures |r| == if n <= 0 then 0 else if n < |xs| then n else |xs|
    ensures r <= xs
  {
    if n <= 0 then [] else if n < |xs| then xs[..n] else xs
  }

  /** `xs.slice(0, end)`: a negative end counts from the back. */
  function JsSlice<T>(xs: seq<T>, end: int): (r: seq<T>)
    ensures r <= xs
    ensures end >= 0 ==> |r| == if end < |xs| then end else |xs|
    ensures end < 0 ==> |r| == if |xs| + end > 0 then |xs| + end else 0
  {
    if end >= 0 then Take(xs, end) else Take(xs, |xs| + end)
  }

  /** SQL `LIMIT n`: SQLite reads a negative limit as "no limit". */
  function SqlLimit<T>(xs: seq<T>, n: int): (r: seq<T>)
    ensures r <= xs
    ensures n >= 0 ==> |r| == if n < |xs| then n else |xs|
    ensures n < 0 ==> r == xs
  {
    if n < 0 then xs else Take(xs, n)
  }

  /** The `LIMIT` that the query builder's `.limit(n)` writes: a NaN limit
      (`None`) writes no clause, which lists every row as a negative `LIMIT`
      does. */
  function BuilderLimit(n: Option<int>): (k: int)
    ensures n.Some? ==> k == n.value
    ensures n.None? ==> k < 0
  {
    match n
    case Some(v) => v
    case None => -1
  }

  function MaxReal(a: real, b: real): (r: real)
    ensures r >= a && r >= b && (r == a || r == b)
  {
    if a >= b then a else b
  }

  function MinReal(a: real, b: real): (r: real)
    ensures r <= a && r <= b && (r == a || r == b)
  {
    if a <= b then a else b
  }

  function AbsReal(x: real): (r: real)
    ensures r >= 0.0 && (r == x || r == -x)
  {
    if x >= 0.0 then x else -x
  }

  /** `Math.round(x)`: the nearest integer, halves rounded up. */
  function Round(x: real): (r: int)
    ensures x - 0.5 < r as real <= x + 0.5
  {
    (x + 0.5).Floor
  }

  lemma RoundMono(x: real, y: real)
    requires x <= y
    ensures Round(x) <= Round(y)
  {
  }

  lemma RoundOfInt(n: int)
    ensures Round(n as real) == n
  {
  }

  /** `Number(x.toFixed(1))`, with the decimal value rounded half up. */
  function Round1(x: real): (r: real)
    ensures x - 0.05 < r <= x + 0.05
    ensures (r * 10.0).Floor as real == r * 10.0
  {
    Round(x * 10.0) as real / 10.0
  }

  /** `Number(x.toFixed(2))`, with the decimal value rounded half up. */
  function Round2(x: real): (r: real)
    ensures x - 0.005 < r <= x + 0.005
    ensures (r * 100.0).Floor as real == r * 100.0
  {
    Round(x * 100.0) as real / 100.0
  }

  /** `Math.ceil`. */
  function Ceil(x: real): (r: int)
    ensures x <= r as real < x + 1.0
  {
    -((-x).Floor)
  }
}

=== FILE: grouping.dfy ===
/** Relational building blocks shared by the stats and SEO routes: filtering,
    `GROUP BY` over a key, `COUNT(DISTINCT …)`, `ORDER BY … DESC` and the
    partition facts that relate per-group aggregates to whole-window ones. */
module Grouping {
  import opened Common

  predicate NoDup<K(==,!new)>(ks: seq<K>)
  {
    forall i, j :: 0 <= i < j < |ks| ==> ks[i] != ks[j]
  }

  /** `WHERE p`: the rows satisfying `p`, in their original order. */
  function Filter<T(!new)>(xs: seq<T>, p: T -> bool): (r: seq<T>)
    ensures |r| <= |xs|
    ensures forall x :: x in r <==> x in xs && p(x)
  {
    if |xs| == 0 then []
    else
      var ys := xs[..|xs| - 1];
      var x := xs[|xs| - 1];
      assert xs == ys + [x];
      Filter(ys, p) + (if p(x) then [x] else [])
  }

  /** The index of the first element at or after `from` satisfying `p` (`find`, `findIndex`). */
  function FirstIndex<T>(xs: seq<T>, p: T -> bool, from: nat): (r: Option<nat>)
    requires from <= |xs|
    ensures r.Some? ==> (from <= r.value < |xs| && p(xs[r.value])
      && forall j :: from <= j < r.value ==> !p(xs[j]))
    ensures r.None? ==> forall j :: from <= j < |xs| ==> !p(xs[j])
    decreases |xs| - from
  {
    if from == |xs| then None
    else if p(xs[from]) then Some(from)
    else FirstIndex(xs, p, from + 1)
  }

  lemma {:induction false} FilterNone<T(!new)>(xs: seq<T>, p: T -> bool)
    requires forall x :: x in xs ==> !p(x)
    ensures Filter(xs, p) == []
  {
    if |xs| > 0 {
      var ys := xs[..|xs| - 1];
      assert xs == ys + [xs[|xs| - 1]];
      FilterNone(ys, p);
    }
  }

  lemma {:induction false} FilterAll<T(!new)>(xs: seq<T>, p: T -> bool)
    requires forall x :: x in xs ==> p(x)
    ensures Filter(xs, p) == xs
  {
    if |xs| > 0 {
      var ys := xs[..|xs| - 1];
      assert xs == ys + [xs[|xs| - 1]];
      FilterAll(ys, p);
    }
  }

  /** Filtering by a predicate that is the disjoint union of two others
      splits the row count accordingly. */
  lemma {:induction false} FilterSplit<T(!new)>(xs: seq<T>, p: T -> bool, q: T -> bool, r: T -> bool)
    requires forall x :: r(x) == (p(x) || q(x))
    requires forall x :: !(p(x) && q(x))
    ensures |Filter(xs, r)| == |Filter(xs, p)| + |Filter(xs, q)|
  {
    if |xs| > 0 {
      FilterSplit(xs[..|xs| - 1], p, q, r);
    }
  }

  /** The distinct values of `f` over the rows (`COUNT(DISTINCT f)` is its size). */
  function KeySet<T(!new), K(==,!new)>(xs: seq<T>, f: T -> K): set<K>
  {
    set i | 0 <= i < |xs| :: f(xs[i])
  }

  /** Fewer rows never have more distinct values. */
  lemma KeySetMono<T(!new), K(!new)>(xs: seq<T>, ys: seq<T>, f: T -> K)
    requires forall x :: x in xs ==> x in ys
    ensures KeySet(xs, f) <= KeySet(ys, f)
    ensures |KeySet(xs, f)| <= |KeySet(ys, f)|
  {
    forall v | v in KeySet(xs, f) ensures v in KeySet(ys, f) {
      var i :| 0 <= i < |xs| && f(xs[i]) == v;
      assert xs[i] in ys;
      var j :| 0 <= j < |ys| && ys[j] == xs[i];
    }
    SubsetCard(KeySet(xs, f), KeySet(ys, f));
  }

  lemma KeySetHas<T(!new), K(!new)>(xs: seq<T>, f: T -> K, x: T)
    requires x in xs
    ensures f(x) in KeySet(xs, f)
  {
    var i :| 0 <= i < |xs| && xs[i] == x;
  }

  /** A row adds at most one distinct value, and a non-empty list has one. */
  lemma {:induction false} KeySetCard<T(!new), K(!new)>(xs: seq<T>, f: T -> K)
    ensures |KeySet(xs, f)| <= |xs|
    ensures |xs| > 0 ==> |KeySet(xs, f)| >= 1
    decreases |xs|
  {
    if |xs| == 0 {
      assert KeySet(xs, f) == {};
    } else {
      var ys := xs[..|xs| - 1];
      var x := xs[|xs| - 1];
      KeySetCard(ys, f);
      assert KeySet(xs, f) == KeySet(ys, f) + {f(x)} by {
        forall v | v in KeySet(xs, f) ensures v in KeySet(ys, f) + {f(x)} {
          var i :| 0 <= i < |xs| && f(xs[i]) == v;
          if i < |xs| - 1 {
            assert xs[i] == ys[i];
          }
        }
        forall v | v in KeySet(ys, f) ensures v in KeySet(xs, f) {
          var i :| 0 <= i < |ys| && f(ys[i]) == v;
          assert xs[i] == ys[i];
        }
        assert f(xs[|xs| - 1]) in KeySet(xs, f);
      }
    }
  }

  /** The values of `xs`, each once, in order of first occurrence. */
  function Dedup<K(==,!new)>(xs: seq<K>): (r: seq<K>)
    ensures NoDup(r)
    ensures forall k :: k in r <==> k in xs
  {
    if |xs| == 0 then []
    else
      var ys := xs[..|xs| - 1];
      var x := xs[|xs| - 1];
      assert xs == ys + [x];
      var r0 := Dedup(ys);
      if x in r0 then r0 else r0 + [x]
  }

  /** The `GROUP BY key` groups: each key value of the rows once, in
      first-seen order. */
  function GroupKeys<T(!new), K(==,!new)>(xs: seq<T>, key: T -> K): (ks: seq<K>)
    ensures NoDup(ks)
    ensures forall k :: k in ks <==> k in KeySet(xs, key)
  {
    var vs := seq(|xs|, i requires 0 <= i < |xs| => key(xs[i]));
    var ks := Dedup(vs);
    forall k ensures k in ks <==> k in KeySet(xs, key) {
      if k in KeySet(xs, key) {
        var i :| 0 <= i < |xs| && key(xs[i]) == k;
        assert vs[i] == k;
      }
    }
    ks
  }

  /** The rows of one group: `WHERE key = k`. */
  function Members<T(!new), K(==,!new)>(xs: seq<T>, key: T -> K, k: K): (r: seq<T>)
    ensures forall x :: x in r <==> x in xs && key(x) == k
  {
    Filter(xs, x => key(x) == k)
  }

  /** A group that every row belongs to is all the rows. */
  lemma MembersAll<T(!new), K(!new)>(xs: seq<T>, key: T -> K, k: K)
    requires forall x :: x in xs ==> key(x) == k
    ensures Members(xs, key, k) == xs
  {
    FilterAll(xs, x => key(x) == k);
  }

  /** A group that exists has a row, so a row count and a distinct count of at least one. */
  lemma MembersNonEmpty<T(!new), K(!new), V(!new)>(xs: seq<T>, key: T -> K, k: K, f: T -> V)
    requires k in KeySet(xs, key)
    ensures |Members(xs, key, k)| >= 1 && |KeySet(Members(xs, key, k), f)| >= 1
  {
    var i :| 0 <= i < |xs| && key(xs[i]) == k;
    assert xs[i] in Members(xs, key, k);
    KeySetCard(Members(xs, key, k), f);
  }

  /** `COUNT(*) … GROUP BY key`, one count per listed key. */
  function MemberCounts<T(!new), K(==,!new)>(xs: seq<T>, key: T -> K, ks: seq<K>): (r: seq<int>)
    ensures |r| == |ks|
    ensures forall i :: 0 <= i < |ks| ==> r[i] == |Members(xs, key, ks[i])|
  {
    seq(|ks|, i requires 0 <= i < |ks| => |Members(xs, key, ks[i])|)
  }

  /** `COUNT(DISTINCT f) … GROUP BY key`, one count per listed key. */
  function MemberDistinct<T(!new), K(==,!new), V(==,!new)>(xs: seq<T>, key: T -> K, ks: seq<K>, f: T -> V): (r: seq<int>)
    ensures |r| == |ks|
    ensures forall i :: 0 <= i < |ks| ==> r[i] == |KeySet(Members(xs, key, ks[i]), f)|
  {
    seq(|ks|, i requires 0 <= i < |ks| => |KeySet(Members(xs, key, ks[i]), f)|)
  }

  lemma {:induction false} MemberCountsInit<T(!new), K(!new)>(xs: seq<T>, key: T -> K, ks: seq<K>)
    requires |ks| > 0
    ensures MemberCounts(xs, key, ks) == MemberCounts(xs, key, ks[..|ks| - 1]) + [|Members(xs, key, ks[|ks| - 1])|]
  {
  }

  /** The groups of distinct keys split the rows they cover: their counts add up
      to the number of rows whose key is listed. */
  lemma {:induction false} GroupCountsSum<T(!new), K(!new)>(xs: seq<T>, key: T -> K, ks: seq<K>)
    requires NoDup(ks)
    ensures SumInt(MemberCounts(xs, key, ks)) == |Filter(xs, x => key(x) in ks)|
    decreases |ks|
  {
    if |ks| == 0 {
      FilterNone(xs, x => key(x) in ks);
    } else {
      var init := ks[..|ks| - 1];
      var k := ks[|ks| - 1];
      MemberCountsInit(xs, key, ks);
      GroupCountsSum(xs, key, init);
      assert k !in init;
      FilterSplit(xs, x => key(x) in init, x => key(x) == k, x => key(x) in ks);
    }
  }

  /** `total = Σ per-group counts` when every row's key is listed exactly once. */
  lemma GroupCountsPartition<T(!new), K(!new)>(xs: seq<T>, key: T -> K, ks: seq<K>)
    requires NoDup(ks)
    requires forall x :: x in xs ==> key(x) in ks
    ensures SumInt(MemberCounts(xs, key, ks)) == |xs|
  {
    GroupCountsSum(xs, key, ks);
    FilterAll(xs, x => key(x) in ks);
  }

  lemma {:induction false} MemberDistinctInit<T(!new), K(!new), V(!new)>(xs: seq<T>, key: T -> K, ks: seq<K>, f: T -> V)
    requires |ks| > 0
    ensures MemberDistinct(xs, key, ks, f)
         == MemberDistinct(xs, key, ks[..|ks| - 1], f) + [|KeySet(Members(xs, key, ks[|ks| - 1]), f)|]
  {
  }

  /** Distinct values over the covered rows are at most the sum of the per-group
      distinct counts: a value seen in two groups is counted in both. */
  lemma {:induction false} GroupDistinctSum<T(!new), K(!new), V(!new)>(xs: seq<T>, key: T -> K, ks: seq<K>, f: T -> V)
    ensures |KeySet(Filter(xs, x => key(x) in ks), f)| <= SumInt(MemberDistinct(xs, key, ks, f))
    decreases |ks|
  {
    var all := Filter(xs, x => key(x) in ks);
    if |ks| == 0 {
      FilterNone(xs, x => key(x) in ks);
      assert KeySet(all, f) == {};
    } else {
      var init := ks[..|ks| - 1];
      var k := ks[|ks| - 1];
      MemberDistinctInit(xs, key, ks, f);
      GroupDistinctSum(xs, key, init, f);
      var a := KeySet(Filter(xs, x => key(x) in init), f);
      var b := KeySet(Members(xs, key, k), f);
      assert KeySet(all, f) <= a + b by {
        forall v | v in KeySet(all, f) ensures v in a + b {
          var i :| 0 <= i < |all| && f(all[i]) == v;
          var x := all[i];
          assert x in all;
          if key(x) == k {
            KeySetHas(Members(xs, key, k), f, x);
          } else {
            assert key(x) in init;
            KeySetHas(Filter(xs, x => key(x) in init), f, x);
          }
        }
      }
      assert |a + b| <= |a| + |b|;
      assert |KeySet(all, f)| <= |a + b| by {
        SubsetCard(KeySet(all, f), a + b);
      }
    }
  }

  lemma SubsetCard<V(!new)>(a: set<V>, b: set<V>)
    requires a <= b
    ensures |a| <= |b|
  {
    assert b == a + (b - a);
  }

  /** `total ≤ Σ per-group distinct counts` when every row's key is listed. */
  lemma GroupDistinctCover<T(!new), K(!new), V(!new)>(xs: seq<T>, key: T -> K, ks: seq<K>, f: T -> V)
    requires forall x :: x in xs ==> key(x) in ks
    ensures |KeySet(xs, f)| <= SumInt(MemberDistinct(xs, key, ks, f))
  {
    GroupDistinctSum(xs, key, ks, f);
    FilterAll(xs, x => key(x) in ks);
  }

  /** Every group's distinct count is at most the distinct count over all rows. */
  lemma GroupDistinctBound<T(!new), K(!new), V(!new)>(xs: seq<T>, key: T -> K, k: K, f: T -> V)
    ensures |KeySet(Members(xs, key, k), f)| <= |KeySet(xs, f)|
  {
    KeySetMono(Members(xs, key, k), xs, f);
  }

  // ---------------------------------------------------------------------
  // Ordering

  predicate StrictlyAscending(ds: seq<int>)
  {
    forall i, j :: 0 <= i < j < |ds| ==> ds[i] < ds[j]
  }

  /** Adds `d` to an ascending list of distinct values, if not already present. */
  function InsertAsc(d: int, ds: seq<int>): (r: seq<int>)
    requires StrictlyAscending(ds)
    ensures StrictlyAscending(r)
    ensures forall e :: e in r <==> e == d || e in ds
  {
    if |ds| == 0 then [d]
    else if d < ds[0] then [d] + ds
    else if d == ds[0] then ds
    else
      var rest := InsertAsc(d, ds[1..]);
      assert forall e :: e in ds[1..] ==> ds[0] < e;
      assert forall e :: e in ds ==> e == ds[0] || e in ds[1..];
      PrependAscending(ds[0], rest);
      [ds[0]] + rest
  }

  lemma PrependAscending(x: int, ds: seq<int>)
    requires StrictlyAscending(ds)
    requires forall e :: e in ds ==> x < e
    ensures StrictlyAscending([x] + ds)
  {
    var r := [x] + ds;
    forall i, j | 0 <= i < j < |r| ensures r[i] < r[j] {
      assert r[j] == ds[j - 1] && ds[j - 1] in ds;
      if i > 0 {
        assert r[i] == ds[i - 1];
      } else {
        assert r[i] == x;
      }
    }
  }

  /** The distinct values, ascending (`GROUP BY d ORDER BY d`). */
  function AscendingKeys(xs: seq<int>): (r: seq<int>)
    ensures StrictlyAscending(r)
    ensures forall e :: e in r <==> e in xs
  {
    if |xs| == 0 then []
    else
      var ys := xs[..|xs| - 1];
      assert xs == ys + [xs[|xs| - 1]];
      InsertAsc(xs[|xs| - 1], AscendingKeys(ys))
  }

  lemma AscendingNoDup(ds: seq<int>)
    requires StrictlyAscending(ds)
    ensures NoDup(ds)
  {
  }

  predicate SortedDesc<T(!new)>(xs: seq<T>, rank: T -> real)
  {
    forall i, j :: 0 <= i < j < |xs| ==> rank(xs[i]) >= rank(xs[j])
  }

  /** Inserts `x` after every element ranked at least as high, which keeps
      the sort stable (`InsertDescStable`). */
  function InsertDesc<T(!new)>(x: T, xs: seq<T>, rank: T -> real): (r: seq<T>)
    requires SortedDesc(xs, rank)
    ensures SortedDesc(r, rank)
    ensures multiset(r) == multiset(xs) + multiset{x}
  {
    if |xs| == 0 then [x]
    else if rank(x) > rank(xs[0]) then [x] + xs
    else
      var t := InsertDesc(x, xs[1..], rank);
      assert xs == [xs[0]] + xs[1..];
      HeadOutranks(x, xs, t, rank);
      PrependDesc(xs[0], t, rank);
      [xs[0]] + t
  }

  /** The head of a sorted sequence outranks the rest with `x` put in, when
      it outranks `x`. */
  lemma HeadOutranks<T(!new)>(x: T, xs: seq<T>, t: seq<T>, rank: T -> real)
    requires |xs| > 0 && SortedDesc(xs, rank) && rank(x) <= rank(xs[0])
    requires multiset(t) == multiset(xs[1..]) + multiset{x}
    ensures forall j :: 0 <= j < |t| ==> rank(xs[0]) >= rank(t[j])
  {
    forall j | 0 <= j < |t| ensures rank(xs[0]) >= rank(t[j]) {
      assert t[j] in multiset(t);
      if t[j] != x {
        assert t[j] in multiset(xs[1..]);
        var k :| 0 <= k < |xs[1..]| && xs[1..][k] == t[j];
        assert xs[k + 1] == t[j];
      }
    }
  }

  lemma PrependDesc<T(!new)>(x: T, ds: seq<T>, rank: T -> real)
    requires SortedDesc(ds, rank)
    requires forall j :: 0 <= j < |ds| ==> rank(x) >= rank(ds[j])
    ensures SortedDesc([x] + ds, rank)
  {
    var r := [x] + ds;
    forall i, j | 0 <= i < j < |r| ensures rank(r[i]) >= rank(r[j]) {
      assert r[j] == ds[j - 1];
      if i > 0 {
        assert r[i] == ds[i - 1];
      }
    }
  }

  /** `ORDER BY rank DESC`: a permutation of the rows, highest rank first,
      rows of equal rank in input order (`SortDescStable`). */
  function SortDesc<T(!new)>(xs: seq<T>, rank: T -> real): (r: seq<T>)
    ensures SortedDesc(r, rank)
    ensures multiset(r) == multiset(xs)
    ensures |r| == |xs|
  {
    if |xs| == 0 then []
    else
      var ys := xs[..|xs| - 1];
      assert xs == ys + [xs[|xs| - 1]];
      var r := InsertDesc(xs[|xs| - 1], SortDesc(ys, rank), rank);
      assert |r| == |multiset(r)|;
      r
  }

  /** Filtering a concatenation filters each part. */
  lemma {:induction false} FilterConcat<T(!new)>(a: seq<T>, b: seq<T>, p: T -> bool)
    ensures Filter(a + b, p) == Filter(a, p) + Filter(b, p)
    decreases |b|
  {
    if |b| == 0 {
      assert a + b == a;
    } else {
      var c := b[..|b| - 1];
      assert (a + b)[..|a + b| - 1] == a + c;
      FilterConcat(a, c, p);
    }
  }

  /** The rows ranked exactly `v`. */
  function RankIs<T>(rank: T -> real, v: real): T -> bool
  {
    (y: T) => rank(y) == v
  }

  /** Inserting `x` puts it after every row of its own rank, so each rank's
      rows keep their order, `x` last among its own. */
  lemma {:induction false} InsertDescStable<T(!new)>(x: T, xs: seq<T>, rank: T -> real, v: real)
    requires SortedDesc(xs, rank)
    ensures Filter(InsertDesc(x, xs, rank), RankIs(rank, v))
         == Filter(xs, RankIs(rank, v)) + (if rank(x) == v then [x] else [])
    decreases |xs|
  {
    var p := RankIs(rank, v);
    var own: seq<T> := if rank(x) == v then [x] else [];
    if |xs| == 0 {
      FilterSingle(x, p);
      assert InsertDesc(x, xs, rank) == [x];
      assert Filter(xs, p) + own == own;
    } else if rank(x) > rank(xs[0]) {
      InsertFrontStable(x, xs, rank, v);
    } else {
      SortedTail(xs, rank);
      InsertDescStable(x, xs[1..], rank, v);
      InsertBehind(x, xs, rank);
      StableStep(xs, InsertDesc(x, xs[1..], rank), own, p);
    }
  }

  /** A row ranked above the head goes first, and no row of its rank precedes it. */
  lemma {:induction false} InsertFrontStable<T(!new)>(x: T, xs: seq<T>, rank: T -> real, v: real)
    requires |xs| > 0 && SortedDesc(xs, rank) && rank(x) > rank(xs[0])
    ensures Filter(InsertDesc(x, xs, rank), RankIs(rank, v))
         == Filter(xs, RankIs(rank, v)) + (if rank(x) == v then [x] else [])
  {
    var p := RankIs(rank, v);
    var own: seq<T> := if rank(x) == v then [x] else [];
    FilterSingle(x, p);
    assert InsertDesc(x, xs, rank) == [x] + xs;
    FilterConcat([x], xs, p);
    if rank(x) == v {
      forall y | y in xs ensures !p(y) {
        var k :| 0 <= k < |xs| && xs[k] == y;
        assert k == 0 || rank(xs[0]) >= rank(xs[k]);
      }
      FilterNone(xs, p);
    }
    assert own + Filter(xs, p) == Filter(xs, p) + own;
  }

  lemma {:induction false} SortedTail<T(!new)>(xs: seq<T>, rank: T -> real)
    requires |xs| > 0 && SortedDesc(xs, rank)
    ensures SortedDesc(xs[1..], rank)
  {
    forall i, j | 0 <= i < j < |xs[1..]| ensures rank(xs[1..][i]) >= rank(xs[1..][j]) {
      assert xs[1..][i] == xs[i + 1] && xs[1..][j] == xs[j + 1];
    }
  }

  /** A row ranked no higher than the head is inserted behind it. */
  lemma {:induction false} InsertBehind<T(!new)>(x: T, xs: seq<T>, rank: T -> real)
    requires |xs| > 0 && SortedDesc(xs, rank) && rank(x) <= rank(xs[0])
    requires SortedDesc(xs[1..], rank)
    ensures InsertDesc(x, xs, rank) == [xs[0]] + InsertDesc(x, xs[1..], rank)
  {
  }

  /** Putting the head of `xs` in front of a list whose filter is that of
      the rest of `xs` followed by `own` gives the filter of `xs` followed by `own`. */
  lemma {:induction false} StableStep<T(!new)>(xs: seq<T>, t: seq<T>, own: seq<T>, p: T -> bool)
    requires |xs| > 0 && Filter(t, p) == Filter(xs[1..], p) + own
    ensures Filter([xs[0]] + t, p) == Filter(xs, p) + own
  {
    FilterConcat([xs[0]], t, p);
    assert xs == [xs[0]] + xs[1..];
    FilterConcat([xs[0]], xs[1..], p);
    var f0, f1 := Filter([xs[0]], p), Filter(xs[1..], p);
    assert f0 + (f1 + own) == (f0 + f1) + own;
  }

  /** Filtering a single row keeps it exactly when it qualifies. */
  lemma {:induction false} FilterSingle<T(!new)>(x: T, p: T -> bool)
    ensures Filter([x], p) == if p(x) then [x] else []
  {
    assert [x][..0] == [];
  }

  /** The sort is stable: the rows of any one rank come out in input order. */
  lemma {:induction false} SortDescStable<T(!new)>(xs: seq<T>, rank: T -> real, v: real)
    ensures Filter(SortDesc(xs, rank), RankIs(rank, v)) == Filter(xs, RankIs(rank, v))
    decreases |xs|
  {
    if |xs| > 0 {
      var ys := xs[..|xs| - 1];
      SortDescStable(ys, rank, v);
      InsertDescStable(xs[|xs| - 1], SortDesc(ys, rank), rank, v);
    }
  }

  /** Rows with pairwise distinct keys hold every value at most once. */
  lemma {:induction false} DistinctKeysCountOne<T(!new), K(!new)>(b: seq<T>, key: T -> K, x: T)
    requires forall i, j :: 0 <= i < j < |b| ==> key(b[i]) != key(b[j])
    ensures multiset(b)[x] <= 1
    decreases |b|
  {
    if |b| > 0 {
      var p := b[..|b| - 1];
      assert b == p + [b[|b| - 1]];
      DistinctKeysCountOne(p, key, x);
      if b[|b| - 1] == x {
        assert forall i :: 0 <= i < |p| ==> p[i] != x by {
          forall i | 0 <= i < |p| ensures p[i] != x {
            assert b[i] == p[i];
          }
        }
        assert multiset(p)[x] == 0;
      }
    }
  }

  /** A value at two positions occurs at least twice. */
  lemma TwoOccurrences<T>(a: seq<T>, i: int, j: int)
    requires 0 <= i < j < |a|
    ensures a[i] == a[j] ==> multiset(a)[a[j]] >= 2
  {
    assert a == a[..j] + [a[j]] + a[j + 1..];
    assert a[i] == a[..j][i];
    assert a[i] in multiset(a[..j]);
  }

  /** Reordering rows keeps their keys pairwise distinct. */
  lemma PermutationKeepsDistinctKeys<T(!new), K(!new)>(a: seq<T>, b: seq<T>, key: T -> K)
    requires multiset(a) == multiset(b)
    requires forall i, j :: 0 <= i < j < |b| ==> key(b[i]) != key(b[j])
    ensures forall i, j :: 0 <= i < j < |a| ==> key(a[i]) != key(a[j])
  {
    forall i, j | 0 <= i < j < |a| ensures key(a[i]) != key(a[j]) {
      TwoOccurrences(a, i, j);
      DistinctKeysCountOne(b, key, a[j]);
      assert a[i] != a[j];
      assert a[i] in multiset(b) && a[j] in multiset(b);
      var k :| 0 <= k < |b| && b[k] == a[i];
      var l :| 0 <= l < |b| && b[l] == a[j];
      assert k != l;
    }
  }

  /** A prefix of a descending list is descending. */
  lemma TopNSorted<T(!new)>(xs: seq<T>, rank: T -> real, n: int)
    ensures SortedDesc(SqlLimit(SortDesc(xs, rank), n), rank)
  {
    var s := SortDesc(xs, rank);
    var t := SqlLimit(s, n);
    assert t == s[..|t|];
  }

  lemma TopNFromInput<T(!new)>(xs: seq<T>, rank: T -> real, n: int)
    ensures SortedDesc(SqlLimit(SortDesc(xs, rank), n), rank)
    ensures forall y :: y in SqlLimit(SortDesc(xs, rank), n) ==> y in xs
  {
    var s := SortDesc(xs, rank);
    var t := SqlLimit(s, n);
    assert t == s[..|t|];
    forall y | y in t ensures y in xs {
      assert y in s;
      assert y in multiset(s);
    }
  }

  /** Ordering and truncating rows with distinct keys keeps the keys distinct. */
  lemma {:induction false} TopNDistinct<T(!new), K(!new)>(xs: seq<T>, rank: T -> real, n: int, key: T -> K, t: seq<T>)
    requires t == SqlLimit(SortDesc(xs, rank), n)
    requires forall i, j :: 0 <= i < j < |xs| ==> key(xs[i]) != key(xs[j])
    ensures forall i, j :: 0 <= i < j < |t| ==> key(t[i]) != key(t[j])
  {
    var s := SortDesc(xs, rank);
    PermutationKeepsDistinctKeys(s, xs, key);
    assert t == s[..|t|];
    forall i, j | 0 <= i < j < |t| ensures key(t[i]) != key(t[j]) {
      assert t[i] == s[i] && t[j] == s[j];
    }
  }

  /** Ordering loses no row. */
  lemma SortedHasEach<T(!new)>(xs: seq<T>, rank: T -> real, k: int)
    requires 0 <= k < |xs|
    ensures exists i :: 0 <= i < |SortDesc(xs, rank)| && SortDesc(xs, rank)[i] == xs[k]
  {
    var s := SortDesc(xs, rank);
    assert xs[k] in multiset(xs);
    assert xs[k] in s;
  }

  /** Every row of an ordered, truncated list is an input row, so it keeps
      any property all input rows have. */
  lemma TopNKeeps<T(!new)>(xs: seq<T>, rank: T -> real, n: int, p: T -> bool)
    requires forall i :: 0 <= i < |xs| ==> p(xs[i])
    ensures var t := SqlLimit(SortDesc(xs, rank), n);
      forall i :: 0 <= i < |t| ==> t[i] in xs && p(t[i])
  {
    var t := SqlLimit(SortDesc(xs, rank), n);
    TopNFromInput(xs, rank, n);
    forall i | 0 <= i < |t| ensures t[i] in xs && p(t[i]) {
      assert t[i] in t;
      var k :| 0 <= k < |xs| && xs[k] == t[i];
    }
  }

  // ---------------------------------------------------------------------
  // SUM and AVG over nullable columns

  /** `SUM(f)` with the NULLs skipped, 0 where SQL would give NULL (the routes
      read both as 0). */
  function SumSome<T>(xs: seq<T>, f: T -> Option<int>): int
  {
    if |xs| == 0 then 0
    else SumSome(xs[..|xs| - 1], f) + (match f(xs[|xs| - 1]) case Some(v) => v case None => 0)
  }

  function SumSomeReal<T>(xs: seq<T>, f: T -> Option<real>): real
  {
    if |xs| == 0 then 0.0
    else SumSomeReal(xs[..|xs| - 1], f) + (match f(xs[|xs| - 1]) case Some(v) => v case None => 0.0)
  }

  /** `COUNT(f)`: the rows where `f` is not NULL. */
  function CountSome<T>(xs: seq<T>, f: T -> Option<real>): nat
  {
    if |xs| == 0 then 0
    else CountSome(xs[..|xs| - 1], f) + (if f(xs[|xs| - 1]).Some? then 1 else 0)
  }

  /** `Number(AVG(f)) || 0`: the mean of the non-NULL values, 0 when there are none. */
  function AvgSome<T>(xs: seq<T>, f: T -> Option<real>): (r: real)
    ensures CountSome(xs, f) == 0 ==> r == 0.0
    ensures CountSome(xs, f) > 0 ==> r * CountSome(xs, f) as real == SumSomeReal(xs, f)
  {
    if CountSome(xs, f) == 0 then 0.0 else SumSomeReal(xs, f) / CountSome(xs, f) as real
  }

  lemma SumSomeSnoc<T>(xs: seq<T>, x: T, f: T -> Option<int>)
    ensures SumSome(xs + [x], f) == SumSome(xs, f) + (match f(x) case Some(v) => v case None => 0)
  {
    assert (xs + [x])[..|xs|] == xs;
  }

  /** Filtering by the disjoint union of two predicates splits the sum. */
  lemma {:induction false} FilterSumSplit<T(!new)>(xs: seq<T>, p: T -> bool, q: T -> bool, r: T -> bool, f: T -> Option<int>)
    requires forall x :: r(x) == (p(x) || q(x))
    requires forall x :: !(p(x) && q(x))
    ensures SumSome(Filter(xs, r), f) == SumSome(Filter(xs, p), f) + SumSome(Filter(xs, q), f)
    decreases |xs|
  {
    if |xs| > 0 {
      var ys := xs[..|xs| - 1];
      var x := xs[|xs| - 1];
      FilterSumSplit(ys, p, q, r, f);
      if p(x) {
        assert Filter(xs, r) == Filter(ys, r) + [x] && Filter(xs, p) == Filter(ys, p) + [x];
        assert !q(x);
        assert Filter(xs, q) == Filter(ys, q);
        SumSomeSnoc(Filter(ys, r), x, f);
        SumSomeSnoc(Filter(ys, p), x, f);
      } else if q(x) {
        assert Filter(xs, r) == Filter(ys, r) + [x] && Filter(xs, q) == Filter(ys, q) + [x];
        assert !p(x);
        assert Filter(xs, p) == Filter(ys, p);
        SumSomeSnoc(Filter(ys, r), x, f);
        SumSomeSnoc(Filter(ys, q), x, f);
      } else {
        assert !r(x);
        assert Filter(xs, r) == Filter(ys, r);
        assert Filter(xs, p) == Filter(ys, p);
        assert Filter(xs, q) == Filter(ys, q);
      }
    }
  }

  /** `SUM(f) … GROUP BY key`, one sum per listed key. */
  function GroupSums<T(!new), K(==,!new)>(xs: seq<T>, key: T -> K, ks: seq<K>, f: T -> Option<int>): (r: seq<int>)
    ensures |r| == |ks|
    ensures forall i :: 0 <= i < |ks| ==> r[i] == SumSome(Members(xs, key, ks[i]), f)
  {
    seq(|ks|, i requires 0 <= i < |ks| => SumSome(Members(xs, key, ks[i]), f))
  }

  lemma {:induction false} GroupSumsTotal<T(!new), K(!new)>(xs: seq<T>, key: T -> K, ks: seq<K>, f: T -> Option<int>)
    requires NoDup(ks)
    ensures SumInt(GroupSums(xs, key, ks, f)) == SumSome(Filter(xs, x => key(x) in ks), f)
    decreases |ks|
  {
    if |ks| == 0 {
      FilterNone(xs, x => key(x) in ks);
    } else {
      var init := ks[..|ks| - 1];
      var k := ks[|ks| - 1];
      assert GroupSums(xs, key, ks, f) == GroupSums(xs, key, init, f) + [SumSome(Members(xs, key, k), f)];
      GroupSumsTotal(xs, key, init, f);
      assert k !in init;
      FilterSumSplit(xs, x => key(x) in init, x => key(x) == k, x => key(x) in ks, f);
    }
  }

  /** The per-group sums add up to the whole sum when every row's key is listed
      exactly once. */
  lemma GroupSumsPartition<T(!new), K(!new)>(xs: seq<T>, key: T -> K, ks: seq<K>, f: T -> Option<int>)
    requires NoDup(ks)
    requires forall x :: x in xs ==> key(x) in ks
    ensures SumInt(GroupSums(xs, key, ks, f)) == SumSome(xs, f)
  {
    GroupSumsTotal(xs, key, ks, f);
    FilterAll(xs, x => key(x) in ks);
  }

  /** Non-NULL values within `[lo, hi]` sum to between `count * lo` and `count * hi`. */
  lemma {:induction false} SumSomeRealBounds<T>(xs: seq<T>, f: T -> Option<real>, lo: real, hi: real)
    requires forall i :: 0 <= i < |xs| && f(xs[i]).Some? ==> lo <= f(xs[i]).value <= hi
    ensures CountSome(xs, f) as real * lo <= SumSomeReal(xs, f) <= CountSome(xs, f) as real * hi
    decreases |xs|
  {
    if |xs| > 0 {
      var ys := xs[..|xs| - 1];
      assert forall i :: 0 <= i < |ys| ==> ys[i] == xs[i];
      SumSomeRealBounds(ys, f, lo, hi);
      LastBounds(xs, f, lo, hi);
    }
  }

  /** The step of `SumSomeRealBounds`: one more row within bounds. */
  lemma LastBounds<T>(xs: seq<T>, f: T -> Option<real>, lo: real, hi: real)
    requires |xs| > 0
    requires var ys := xs[..|xs| - 1];
      CountSome(ys, f) as real * lo <= SumSomeReal(ys, f) <= CountSome(ys, f) as real * hi
    requires f(xs[|xs| - 1]).Some? ==> lo <= f(xs[|xs| - 1]).value <= hi
    ensures CountSome(xs, f) as real * lo <= SumSomeReal(xs, f) <= CountSome(xs, f) as real * hi
  {
    var ys := xs[..|xs| - 1];
    var v := f(xs[|xs| - 1]);
    var w := if v.Some? then v.value else 0.0;
    var d := if v.Some? then 1.0 else 0.0;
    StepBounds(CountSome(ys, f) as real, SumSomeReal(ys, f), d, w, lo, hi, CountSome(xs, f) as real, SumSomeReal(xs, f));
  }

  /** Adding no value, or one value within `[lo, hi]`, keeps a sum of `c` such values within bounds. */
  lemma StepBounds(c: real, s: real, d: real, w: real, lo: real, hi: real, count: real, sum: real)
    requires c * lo <= s <= c * hi
    requires (d == 1.0 && lo <= w <= hi) || (d == 0.0 && w == 0.0)
    requires count == c + d && sum == s + w
    ensures count * lo <= sum <= count * hi
  {
    assert (c + d) * lo == c * lo + d * lo;
    assert (c + d) * hi == c * hi + d * hi;
  }

  /** An average of values within `[lo, hi]` lies within `[lo, hi]`. */
  lemma AvgSomeWithin<T>(xs: seq<T>, f: T -> Option<real>, lo: real, hi: real)
    requires forall i :: 0 <= i < |xs| && f(xs[i]).Some? ==> lo <= f(xs[i]).value <= hi
    requires CountSome(xs, f) > 0
    ensures lo <= AvgSome(xs, f) <= hi
  {
    var n := CountSome(xs, f) as real;
    var total := SumSomeReal(xs, f);
    assert AvgSome(xs, f) == total / n;
    SumSomeRealBounds(xs, f, lo, hi);
    QuotientWithin(total, n, lo, hi);
  }

  lemma QuotientWithin(s: real, n: real, lo: real, hi: real)
    requires n > 0.0 && n * lo <= s <= n * hi
    ensures lo <= s / n <= hi
  {
    assert s / n - lo == (s - n * lo) / n;
    assert hi - s / n == (n * hi - s) / n;
  }

}

=== FILE: gsc_connect.dfy ===
/** `/api/connect/gsc`: linking a site to a Search Console property (POST)
    and unlinking it (DELETE). The signed-in user, the `account` and `sites`
    tables, the request body and the property list the client returns are
    inputs; the `sites` table afterwards is part of the result. */
module GscConnect {
  import opened Common
  import opened Schema
  import opened Grouping
  import opened TokenRefresh

  datatype ConnectBody = ConnectBody(siteId: Option<string>, siteUrl: Option<string>)

  /** One entry of `listSites()`. */
  datatype Property = Property(siteUrl: string, permissionLevel: string)

  /** `listSites()` throws (with the `Error`'s message, `None` for a non-`Error`) or lists properties. */
  datatype Listing = ListFailed(message: Option<string>) | Listed(properties: seq<Property>)

  datatype Reply =
    | Unauthenticated
    | BadRequest
    | Reauth(message: string)
    | NotFound
    | Forbidden
    | ScopeDenied(currentScopes: string)
    | ApiError(status: int, requiresReauth: bool, message: string)
    | Unmatched(normalizedInput: string)
    | Connected(siteUrl: string)
    | Disconnected
    | ServerError

  function Status(r: Reply): int
  {
    match r
    case Unauthenticated => 401
    case BadRequest => 400
    case Reauth(_) => 401
    case NotFound => 404
    case Forbidden => 403
    case ScopeDenied(_) => 403
    case ApiError(status, _, _) => status
    case Unmatched(_) => 404
    case Connected(_) => 200
    case Disconnected => 200
    case ServerError => 500
  }

  const RequiredScope: string := "https://www.googleapis.com/auth/webmasters.readonly"
  const NoGoogleAccount: string := "Googleアカウントの連携が見つかりません。再度ログインしてください。"
  const TokenExpired: string := "アクセストークンの有効期限が切れています。再度ログインしてください。"

  // ---------------------------------------------------------------------
  // Scopes

  /** `scope.split(',').map(s => s.trim()).filter(s => s.length > 0)`. */
  function ScopeList(scope: string): (r: seq<string>)
    ensures forall x :: x in r <==> x != "" && exists p :: p in Split(scope, ',') && Trim(p) == x
  {
    var trimmed := TrimAll(Split(scope, ','));
    var r := Filter(trimmed, NonEmpty);
    assert forall x :: x in r <==> x in trimmed && NonEmpty(x);
    r
  }

  function NonEmpty(s: string): bool { |s| > 0 }

  /** `parts.map(s => s.trim())`. */
  function TrimAll(parts: seq<string>): (r: seq<string>)
    ensures forall x :: x in r <==> exists p :: p in parts && Trim(p) == x
  {
    var r := seq(|parts|, i requires 0 <= i < |parts| => Trim(parts[i]));
    MapMembers(parts, r, Trim);
    r
  }

  /** The elements of a mapped list are the images of the list's elements. */
  lemma {:induction false} MapMembers<A, B>(parts: seq<A>, r: seq<B>, f: A -> B)
    requires |r| == |parts| && forall i :: 0 <= i < |parts| ==> r[i] == f(parts[i])
    ensures forall x :: x in r <==> exists p :: p in parts && f(p) == x
  {
    forall x | x in r ensures exists p :: p in parts && f(p) == x {
      var i :| 0 <= i < |r| && r[i] == x;
      assert parts[i] in parts;
    }
    forall x | exists p :: p in parts && f(p) == x ensures x in r {
      var p :| p in parts && f(p) == x;
      var i :| 0 <= i < |parts| && parts[i] == p;
      assert r[i] == x;
    }
  }

  /** Only logged: the route goes on without the scope. */
  predicate HasRequiredScope(scope: Option<string>)
  {
    RequiredScope in ScopeList(if scope.Some? then scope.value else "")
  }

  // ---------------------------------------------------------------------
  // Matching the requested URL against the listed properties

  /** `extractDomain`: strip a leading `http(s)://`, then a leading
      `sc-domain:`, then one trailing `/`, then a leading `www.`, and lower
      the case last. Each test is case-sensitive. */
  function ExtractDomain(url: string): (d: string)
    ensures |d| <= |url|
    ensures forall i :: 0 <= i < |d| ==> !('A' <= d[i] <= 'Z')
  {
    LowerAscii(StripPrefix(StripTrailingSlash(StripPrefix(StripHttpScheme(url), "sc-domain:")), "www."))
  }

  /** A property or input written as any mix of a scheme, `sc-domain:`,
      `www.` and one trailing slash around the domain part `u` yields `u`
      lower-cased: the forms `https://www.example.com/`,
      `sc-domain:example.com` and `example.com` all meet. */
  lemma {:induction false} ExtractDomainCanonical(scheme: string, sc: string, www: string, u: string, slash: string)
    requires scheme == "" || scheme == "http://" || scheme == "https://"
    requires sc == "" || sc == "sc-domain:"
    requires www == "" || www == "www."
    requires slash == "" || slash == "/"
    requires !("http://" <= u) && !("https://" <= u) && !("sc-domain:" <= u) && !("www." <= u)
    requires |u| > 0 ==> u[|u| - 1] != '/'
    ensures ExtractDomain(scheme + sc + www + u + slash) == LowerAscii(u)
  {
    Regroup(scheme + sc + www, u, slash);
    Regroup(scheme + sc, www, u + slash);
    Regroup(scheme, sc, www + (u + slash));
    Regroup(www, u, slash);
    SchemeStep(scheme, sc, www, u, slash);
    ScDomainStep(sc, www, u, slash);
    SlashStep(www, u, slash);
    StripPrefixOf("www.", www, u);
  }

  lemma {:induction false} Regroup(a: string, b: string, c: string)
    ensures a + b + c == a + (b + c)
  {
  }

  lemma {:induction false} SchemeStep(scheme: string, sc: string, www: string, u: string, slash: string)
    requires scheme == "" || scheme == "http://" || scheme == "https://"
    requires sc == "" || sc == "sc-domain:"
    requires www == "" || www == "www."
    requires slash == "" || slash == "/"
    requires !("http://" <= u) && !("https://" <= u)
    requires |u| > 0 ==> u[|u| - 1] != '/'
    ensures StripHttpScheme(scheme + (sc + (www + u + slash))) == sc + (www + u + slash)
  {
    var y1 := sc + (www + u + slash);
    if scheme == "" {
      if sc != "" {
        assert y1[0] == 's';
      } else if www != "" {
        assert y1[0] == 'w';
      } else {
        assert y1 == u + slash;
        NotPrefixOfSlashed("http://", u, slash);
        NotPrefixOfSlashed("https://", u, slash);
      }
    }
    StripSchemeOf(scheme, y1);
  }

  lemma {:induction false} ScDomainStep(sc: string, www: string, u: string, slash: string)
    requires sc == "" || sc == "sc-domain:"
    requires www == "" || www == "www."
    requires slash == "" || slash == "/"
    requires !("sc-domain:" <= u)
    requires |u| > 0 ==> u[|u| - 1] != '/'
    ensures StripPrefix(sc + (www + u + slash), "sc-domain:") == www + u + slash
  {
    var y2 := www + u + slash;
    if sc == "" {
      if www != "" {
        assert y2[0] == 'w';
      } else {
        assert y2 == u + slash;
        NotPrefixOfSlashed("sc-domain:", u, slash);
      }
    }
    StripPrefixOf("sc-domain:", sc, y2);
  }

  lemma {:induction false} SlashStep(www: string, u: string, slash: string)
    requires www == "" || www == "www."
    requires slash == "" || slash == "/"
    requires |u| > 0 ==> u[|u| - 1] != '/'
    ensures StripTrailingSlash(www + u + slash) == www + u
  {
    var y := www + u;
    if |u| > 0 {
      assert y[|y| - 1] == u[|u| - 1];
    } else if www != "" {
      assert y == www;
    }
    StripSlashOf(y, slash);
  }

  /** `normalizedInputUrl`: the same steps without the `sc-domain:` one. */
  function NormalizedInput(url: string): (d: string)
    ensures |d| <= |url|
  {
    LowerAscii(StripPrefix(StripTrailingSlash(StripHttpScheme(url)), "www."))
  }

  /** The `find` predicate: equal domains, or equal text ignoring case, or
      the property's domain equal to the normalised input. */
  predicate PropertyMatches(gscUrl: string, input: string)
  {
    ExtractDomain(gscUrl) == ExtractDomain(input)
    || LowerAscii(gscUrl) == LowerAscii(input)
    || ExtractDomain(gscUrl) == NormalizedInput(input)
  }

  /** Without an `sc-domain:` prefix (after the scheme) the input's domain is
      its normalised form, so the third test repeats the first. */
  lemma ThirdTestRepeatsFirst(input: string)
    requires !("sc-domain:" <= StripHttpScheme(input))
    ensures NormalizedInput(input) == ExtractDomain(input)
    ensures forall g :: PropertyMatches(g, input) <==> ExtractDomain(g) == ExtractDomain(input) || LowerAscii(g) == LowerAscii(input)
  {
  }

  function MatchesInput(input: string): Property -> bool
  {
    (p: Property) => PropertyMatches(p.siteUrl, input)
  }

  /** `gscSites.find(...)`: the index of the first matching property. */
  function FirstMatch(ps: seq<Property>, input: string): (r: Option<nat>)
    ensures r.Some? ==> (r.value < |ps| && PropertyMatches(ps[r.value].siteUrl, input)
      && forall j :: 0 <= j < r.value ==> !PropertyMatches(ps[j].siteUrl, input))
    ensures r.None? ==> forall j :: 0 <= j < |ps| ==> !PropertyMatches(ps[j].siteUrl, input)
  {
    var r := FirstIndex(ps, MatchesInput(input), 0);
    assert forall p :: MatchesInput(input)(p) == PropertyMatches(p.siteUrl, input);
    r
  }

  /** Text without upper-case ASCII letters is its own lower case. */
  lemma LowerAsciiKeeps(s: string)
    requires forall i :: 0 <= i < |s| ==> !('A' <= s[i] <= 'Z')
    ensures LowerAscii(s) == s
  {
  }

  lemma DomainOfDomainProperty()
    ensures ExtractDomain("sc-domain:example.com") == "example.com"
  {
    var a := "sc-domain:example.com";
    assert !("https://" <= a) && !("http://" <= a) by { assert a[0] == 's'; }
    assert "sc-domain:" <= a;
    var e := a[10..];
    assert e == "example.com";
    assert StripTrailingSlash(e) == e by { assert e[|e| - 1] == 'm'; }
    assert !("www." <= e) by { assert e[0] == 'e'; }
    LowerAsciiKeeps(e);
  }

  lemma DomainOfUrlPrefix()
    ensures ExtractDomain("https://www.example.com/") == "example.com"
  {
    var b := "https://www.example.com/";
    assert "https://" <= b;
    var b1 := b[8..];
    assert b1 == "www.example.com/";
    assert !("sc-domain:" <= b1) by { assert b1[0] == 'w'; }
    var b2 := b1[..|b1| - 1];
    assert b2 == "www.example.com";
    assert StripTrailingSlash(b1) == b2;
    assert "www." <= b2;
    var e := b2[4..];
    assert e == "example.com";
    LowerAsciiKeeps(e);
  }

  /** A domain property matches the URL-prefix spelling of the same site. */
  lemma DomainPropertyMatchesUrl()
    ensures PropertyMatches("sc-domain:example.com", "https://www.example.com/")
  {
    DomainOfDomainProperty();
    DomainOfUrlPrefix();
  }

  /** Lowering comes last, so a URL that starts with a capital (such as
      `HTTPS://WWW.Example.com`) passes every strip untouched: its domain is
      the whole URL lower-cased, scheme and `www.` included. */
  lemma UpperCasePrefixesSurvive(url: string)
    requires |url| > 0 && 'A' <= url[0] <= 'Z' && url[|url| - 1] != '/'
    ensures ExtractDomain(url) == LowerAscii(url)
  {
    assert StripHttpScheme(url) == url by { assert url[0] != "h"[0]; }
    assert StripPrefix(url, "sc-domain:") == url by { assert url[0] != "s"[0]; }
    assert StripPrefix(url, "www.") == url by { assert url[0] != "w"[0]; }
  }

  // ---------------------------------------------------------------------
  // listSites failures

  /** `errorMessage.includes(...)` on the three scope-denial phrases. */
  predicate ScopeDenial(text: string)
  {
    Contains(text, "insufficient authentication scopes") || Contains(text, "insufficient authentication") || Contains(text, "403")
  }

  /** The first phrase adds nothing: it contains the second. */
  lemma LongPhraseImpliesShort(text: string)
    ensures Contains(text, "insufficient authentication scopes") ==> Contains(text, "insufficient authentication")
  {
    var long := "insufficient authentication scopes";
    var short := "insufficient authentication";
    if Contains(text, long) {
      var k := IndexOf(text, long).value;
      assert long[..|short|] == short;
      assert text[k..k + |short|] == text[k..k + |long|][..|short|];
      ContainsAt(text, short, k);
    }
  }

  /** The reply to a failed `listSites()`: a scope denial is a 403 asking to
      sign in again; anything else is a 401 (its `'403'` test can never
      succeed there), asking to sign in again only when the text mentions
      `unauthorized`, `Unauthorized` or `401`. */
  function ListFailureReply(message: Option<string>, currentScopes: string): (r: Reply)
    ensures var text := ErrorMessage(message);
      (Status(r) == 403 <==> Contains(text, "insufficient authentication") || Contains(text, "403"))
      && (Status(r) == 401 <==> !ScopeDenial(text))
      && (r.ApiError? ==> (r.requiresReauth <==> Contains(text, "unauthorized") || Contains(text, "Unauthorized") || Contains(text, "401")))
      && (r.ScopeDenied? || r.ApiError?)
  {
    var text := ErrorMessage(message);
    LongPhraseImpliesShort(text);
    if ScopeDenial(text) then ScopeDenied(currentScopes)
    else
      ApiError(if Contains(text, "403") then 403 else 401,
        Contains(text, "unauthorized") || Contains(text, "Unauthorized") || Contains(text, "401"),
        "GSC API認証エラー: " + text)
  }

  // ---------------------------------------------------------------------
  // POST

  /** The account holds a token (`userAccount && userAccount.accessToken`). */
  predicate HasToken(accounts: seq<Account>, userId: string)
  {
    var i := FirstAccount(accounts, userId);
    i.Some? && Filled(accounts[i.value].accessToken)
  }

  /** `accessTokenExpiresAt && new Date(accessTokenExpiresAt) < new Date()`: no refresh here. */
  predicate Expired(a: Account, nowMs: int)
  {
    a.accessTokenExpiresAt.Some? && a.accessTokenExpiresAt.value < nowMs
  }

  /** The checks before any call to Search Console, in the route's order; `None` when all pass. */
  function ConnectGate(sites: seq<Site>, accounts: seq<Account>, session: Option<string>, body: Option<ConnectBody>, nowMs: int): (r: Option<Reply>)
    ensures session.None? ==> r == Some(Unauthenticated)
    ensures session.Some? && body.None? ==> r == Some(ServerError)
    ensures session.Some? && body.Some? && (!Filled(body.value.siteId) || !Filled(body.value.siteUrl)) ==> r == Some(BadRequest)
    ensures session.Some? && body.Some? && Filled(body.value.siteId) && Filled(body.value.siteUrl) ==>
      (!HasToken(accounts, session.value) ==> r == Some(Reauth(NoGoogleAccount)))
      && (HasToken(accounts, session.value) && Expired(accounts[FirstAccount(accounts, session.value).value], nowMs) ==> r == Some(Reauth(TokenExpired)))
      && (HasToken(accounts, session.value) && !Expired(accounts[FirstAccount(accounts, session.value).value], nowMs) ==>
            (SiteById(sites, body.value.siteId.value).None? ==> r == Some(NotFound))
            && (SiteById(sites, body.value.siteId.value).Some? ==>
                  (SiteById(sites, body.value.siteId.value).value.userId != session.value ==> r == Some(Forbidden))
                  && (SiteById(sites, body.value.siteId.value).value.userId == session.value ==> r == None)))
  {
    if session.None? then Some(Unauthenticated)
    else if body.None? then Some(ServerError)
    else if !Filled(body.value.siteId) || !Filled(body.value.siteUrl) then Some(BadRequest)
    else if !HasToken(accounts, session.value) then Some(Reauth(NoGoogleAccount))
    else if Expired(accounts[FirstAccount(accounts, session.value).value], nowMs) then Some(Reauth(TokenExpired))
    else
      match SiteById(sites, body.value.siteId.value)
      case None => Some(NotFound)
      case Some(site) => if site.userId != session.value then Some(Forbidden) else None
  }

  /** The configuration a successful link stores: the matched entry's URL and
      permission and the link time, and no access token. */
  function LinkedConfig(p: Property, connectedAt: string): (c: GscConfig)
    ensures c.siteUrl == Some(p.siteUrl) && c.permissionLevel == Some(p.permissionLevel)
    ensures c.connectedAt == Some(connectedAt) && c.accessToken.None?
  {
    GscConfig(Some(p.siteUrl), None, Some(p.permissionLevel), Some(connectedAt))
  }

  /** `update sites set … where id = ?` with the GSC columns given. */
  function SetGsc(sites: seq<Site>, id: string, enabled: bool, config: Option<GscConfig>): (r: seq<Site>)
    ensures |r| == |sites|
    ensures forall j :: 0 <= j < |sites| ==>
      r[j] == (if sites[j].id == id then sites[j].(gscEnabled := Some(enabled), gscConfig := config) else sites[j])
  {
    seq(|sites|, j requires 0 <= j < |sites| =>
      if sites[j].id == id then sites[j].(gscEnabled := Some(enabled), gscConfig := config) else sites[j])
  }

  /** `POST /api/connect/gsc`. `listing` answers `listSites()` for the
      account's token; `connectedAt` is the link time as text. */
  function Connect(sites: seq<Site>, accounts: seq<Account>, session: Option<string>, body: Option<ConnectBody>, nowMs: int,
                   listing: string -> Listing, connectedAt: string): (r: (Reply, seq<Site>))
    ensures ConnectGate(sites, accounts, session, body, nowMs).Some? ==> r == (ConnectGate(sites, accounts, session, body, nowMs).value, sites)
    ensures !r.0.Connected? ==> r.1 == sites
    ensures r.0.Connected? <==> (ConnectGate(sites, accounts, session, body, nowMs).None?
      && listing(accounts[FirstAccount(accounts, session.value).value].accessToken.value).Listed?
      && FirstMatch(listing(accounts[FirstAccount(accounts, session.value).value].accessToken.value).properties, body.value.siteUrl.value).Some?)
    ensures r.0.Connected? ==>
      var ps := listing(accounts[FirstAccount(accounts, session.value).value].accessToken.value).properties;
      var p := ps[FirstMatch(ps, body.value.siteUrl.value).value];
      r.0.siteUrl == p.siteUrl && r.1 == SetGsc(sites, body.value.siteId.value, true, Some(LinkedConfig(p, connectedAt)))
  {
    match ConnectGate(sites, accounts, session, body, nowMs)
    case Some(reply) => (reply, sites)
    case None =>
      var a := accounts[FirstAccount(accounts, session.value).value];
      var siteUrl := body.value.siteUrl.value;
      var currentScopes := if a.scope.Some? then a.scope.value else "";
      match listing(a.accessToken.value)
      case ListFailed(m) => (ListFailureReply(m, currentScopes), sites)
      case Listed(ps) =>
        match FirstMatch(ps, siteUrl)
        case None => (Unmatched(NormalizedInput(siteUrl)), sites)
        case Some(i) => (Connected(ps[i].siteUrl), SetGsc(sites, body.value.siteId.value, true, Some(LinkedConfig(ps[i], connectedAt))))
  }

  /** The stored scope never decides the outcome: two accounts that differ
      only in their scope text get the same status. */
  lemma ScopeNeverBlocks(sites: seq<Site>, accounts: seq<Account>, session: Option<string>, body: Option<ConnectBody>, nowMs: int,
                         listing: string -> Listing, connectedAt: string, j: nat, scope: Option<string>)
    requires j < |accounts|
    ensures var other := accounts[j := accounts[j].(scope := scope)];
      Status(Connect(sites, other, session, body, nowMs, listing, connectedAt).0) == Status(Connect(sites, accounts, session, body, nowMs, listing, connectedAt).0)
      && Connect(sites, other, session, body, nowMs, listing, connectedAt).1 == Connect(sites, accounts, session, body, nowMs, listing, connectedAt).1
  {
    var other := accounts[j := accounts[j].(scope := scope)];
    if session.Some? {
      SameUsersSameFirst(accounts, other, session.value);
      var i := FirstAccount(accounts, session.value);
      if i.Some? {
        assert other[i.value].accessToken == accounts[i.value].accessToken;
        assert other[i.value].accessTokenExpiresAt == accounts[i.value].accessTokenExpiresAt;
      }
      assert HasToken(other, session.value) == HasToken(accounts, session.value);
      assert ConnectGate(sites, other, session, body, nowMs) == ConnectGate(sites, accounts, session, body, nowMs);
      if ConnectGate(sites, accounts, session, body, nowMs).None? {
        var token := accounts[i.value].accessToken.value;
        assert other[i.value].accessToken.value == token;
        if listing(token).ListFailed? {
          ListFailureIgnoresScopes(listing(token).message,
            if other[i.value].scope.Some? then other[i.value].scope.value else "",
            if accounts[i.value].scope.Some? then accounts[i.value].scope.value else "");
        }
      }
    }
  }

  lemma ListFailureIgnoresScopes(m: Option<string>, x: string, y: string)
    ensures Status(ListFailureReply(m, x)) == Status(ListFailureReply(m, y))
  {
  }

  // ---------------------------------------------------------------------
  // DELETE

  /** `DELETE /api/connect/gsc?siteId=…`: the same sign-in, 400, 404 and 403
      checks, then GSC switched off and its configuration cleared. */
  function Disconnect(sites: seq<Site>, session: Option<string>, siteId: Option<string>): (r: (Reply, seq<Site>))
    ensures session.None? ==> r.0 == Unauthenticated
    ensures session.Some? && !Filled(siteId) ==> r.0 == BadRequest
    ensures session.Some? && Filled(siteId) && SiteById(sites, siteId.value).None? ==> r.0 == NotFound
    ensures session.Some? && Filled(siteId) && SiteById(sites, siteId.value).Some? ==>
      r.0 == (if SiteById(sites, siteId.value).value.userId != session.value then Forbidden else Disconnected)
    ensures !r.0.Disconnected? ==> r.1 == sites
    ensures r.0.Disconnected? ==> |r.1| == |sites| && forall j :: 0 <= j < |sites| ==>
      (sites[j].id != siteId.value ==> r.1[j] == sites[j])
      && (sites[j].id == siteId.value ==>
            r.1[j].gscEnabled == Some(false) && r.1[j].gscConfig.None?
            && r.1[j] == sites[j].(gscEnabled := Some(false), gscConfig := None))
  {
    if session.None? then (Unauthenticated, sites)
    else if !Filled(siteId) then (BadRequest, sites)
    else
      match SiteById(sites, siteId.value)
      case None => (NotFound, sites)
      case Some(site) =>
        if site.userId != session.value then (Forbidden, sites)
        else (Disconnected, SetGsc(sites, siteId.value, false, None))
  }
}

=== FILE: gsc_summary.dfy ===
/** `/api/gsc/stats`: the signed-in owner's Search Console totals for one
    site over 7, 30 or 90 days, fetched live with the owner's valid access
    token, together with the raw daily, query and page rows. */
module GscSummary {
  import opened Common
  import opened Schema
  import opened TokenRefresh

  /** A Search Analytics row as the API returns it; a missing metric reads
      as 0 (`row.clicks || 0`). */
  datatype SearchRow = SearchRow(keys: seq<string>, clicks: Option<int>, impressions: Option<int>, ctr: Option<real>, position: Option<real>)

  /** The three client calls: token, property URL, start day, end day (and a row limit). */
  datatype StatsClient = StatsClient(
    daily: (string, string, Day, Day) -> Call<seq<SearchRow>>,
    queries: (string, string, Day, Day, int) -> Call<seq<SearchRow>>,
    pages: (string, string, Day, Day, int) -> Call<seq<SearchRow>>)

  const ListLimit: int := 20
  const GscDisabled: string := "GSC連携が有効になっていません"
  const StatsErrorPrefix: string := "GSC統計取得エラー: "

  /** `period || "7d"`, then 7, 30 or 90 days, and 7 for anything else. */
  function SummaryPeriodDays(period: Option<string>): (d: int)
    ensures d == 30 <==> period == Some("30d")
    ensures d == 90 <==> period == Some("90d")
    ensures d == 7 <==> period != Some("30d") && period != Some("90d")
  {
    var p := if period.Some? && period.value != "" then period.value else "7d";
    if p == "7d" then 7 else if p == "30d" then 30 else if p == "90d" then 90 else 7
  }

  // ---------------------------------------------------------------------
  // Totals

  function ClicksOf(r: SearchRow): int { if r.clicks.Some? then r.clicks.value else 0 }
  function ImpressionsOf(r: SearchRow): int { if r.impressions.Some? then r.impressions.value else 0 }
  function PositionOf(r: SearchRow): real { if r.position.Some? then r.position.value else 0.0 }

  function TotalClicks(rows: seq<SearchRow>): int
  {
    if |rows| == 0 then 0 else TotalClicks(rows[..|rows| - 1]) + ClicksOf(rows[|rows| - 1])
  }

  function TotalImpressions(rows: seq<SearchRow>): int
  {
    if |rows| == 0 then 0 else TotalImpressions(rows[..|rows| - 1]) + ImpressionsOf(rows[|rows| - 1])
  }

  function TotalPosition(rows: seq<SearchRow>): real
  {
    if |rows| == 0 then 0.0 else TotalPosition(rows[..|rows| - 1]) + PositionOf(rows[|rows| - 1])
  }

  datatype Summary = Summary(clicks: int, impressions: int, ctr: real, position: real)

  /** The summary: summed clicks and impressions, the click-through rate as a
      percent to two decimals, and the plain mean of the daily positions to
      one decimal. Empty rows, or no impressions, give a zero rate. */
  function Summarize(rows: seq<SearchRow>): (s: Summary)
    ensures s.clicks == TotalClicks(rows) && s.impressions == TotalImpressions(rows)
    ensures s.impressions <= 0 ==> s.ctr == 0.0
    ensures s.impressions > 0 ==> AbsReal(s.ctr - s.clicks as real / s.impressions as real * 100.0) <= 0.005
    ensures |rows| == 0 ==> s == Summary(0, 0, 0.0, 0.0)
    ensures |rows| > 0 ==> AbsReal(s.position - TotalPosition(rows) / |rows| as real) <= 0.05
  {
    var clicks := TotalClicks(rows);
    var impressions := TotalImpressions(rows);
    var ctr := if impressions > 0 then clicks as real / impressions as real * 100.0 else 0.0;
    var position := if |rows| > 0 then TotalPosition(rows) / |rows| as real else 0.0;
    RoundOfInt(0);
    Summary(clicks, impressions, Round2(ctr), Round1(position))
  }

  /** Totals add up over any split of the rows. */
  lemma {:induction false} TotalsAdd(a: seq<SearchRow>, b: seq<SearchRow>)
    ensures TotalClicks(a + b) == TotalClicks(a) + TotalClicks(b)
    ensures TotalImpressions(a + b) == TotalImpressions(a) + TotalImpressions(b)
    ensures TotalPosition(a + b) == TotalPosition(a) + TotalPosition(b)
    decreases |b|
  {
    if |b| == 0 {
      assert a + b == a;
    } else {
      assert (a + b)[..|a + b| - 1] == a + b[..|b| - 1];
      TotalsAdd(a, b[..|b| - 1]);
    }
  }

  /** Clicks never exceed impressions on any row, so in total. */
  lemma {:induction false} ClicksWithinImpressions(rows: seq<SearchRow>)
    requires forall i :: 0 <= i < |rows| ==> 0 <= ClicksOf(rows[i]) <= ImpressionsOf(rows[i])
    ensures 0 <= TotalClicks(rows) <= TotalImpressions(rows)
    decreases |rows|
  {
    if |rows| > 0 {
      ClicksWithinImpressions(rows[..|rows| - 1]);
    }
  }

  /** With no row clicking more often than it is shown, the rate is a percent. */
  lemma CtrIsPercent(rows: seq<SearchRow>)
    requires forall i :: 0 <= i < |rows| ==> 0 <= ClicksOf(rows[i]) <= ImpressionsOf(rows[i])
    ensures 0.0 <= Summarize(rows).ctr <= 100.0
  {
    ClicksWithinImpressions(rows);
    var c := TotalClicks(rows);
    var n := TotalImpressions(rows);
    if n > 0 {
      var x := c as real / n as real * 100.0;
      assert c as real <= n as real;
      assert c as real / n as real <= 1.0;
      assert 0.0 <= x <= 100.0;
      RoundMono(0.0, x * 100.0);
      RoundMono(x * 100.0, 10000.0);
      RoundOfInt(0);
      RoundOfInt(10000);
    }
  }

  lemma {:induction false} PositionTotalBounds(rows: seq<SearchRow>, lo: real, hi: real)
    requires forall i :: 0 <= i < |rows| ==> lo <= PositionOf(rows[i]) <= hi
    ensures |rows| as real * lo <= TotalPosition(rows) <= |rows| as real * hi
    decreases |rows|
  {
    if |rows| > 0 {
      PositionTotalBounds(rows[..|rows| - 1], lo, hi);
    }
  }

  /** The mean position lies between the smallest and largest daily
      position, up to the one-decimal rounding. */
  lemma PositionWithinRange(rows: seq<SearchRow>, lo: real, hi: real)
    requires |rows| > 0
    requires forall i :: 0 <= i < |rows| ==> lo <= PositionOf(rows[i]) <= hi
    ensures Round1(lo) <= Summarize(rows).position <= Round1(hi)
  {
    PositionTotalBounds(rows, lo, hi);
    var n := |rows| as real;
    var m := TotalPosition(rows) / n;
    assert lo <= m <= hi by {
      assert m * n == TotalPosition(rows);
    }
    RoundMono(lo * 10.0, m * 10.0);
    RoundMono(m * 10.0, hi * 10.0);
  }

  /** The position is the plain mean of the days, not weighted by impressions:
      a day at position 1 with 1000 impressions and a day at position 50 with
      one impression average to 25.5. */
  lemma PositionIsUnweighted()
    ensures Summarize([SearchRow([], Some(10), Some(1000), None, Some(1.0)), SearchRow([], Some(0), Some(1), None, Some(50.0))]).position == 25.5
  {
    var a := SearchRow([], Some(10), Some(1000), None, Some(1.0));
    var b := SearchRow([], Some(0), Some(1), None, Some(50.0));
    assert [a, b][..1] == [a];
    assert [a][..0] == [];
    assert TotalPosition([a]) == 1.0;
    assert TotalPosition([a, b]) == 51.0;
    assert Round(25.5 * 10.0) == 255;
  }

  // ---------------------------------------------------------------------
  // The route

  datatype StatsReply =
    | ServerError(message: string)
    | BadRequest(message: string)
    | NotFound
    | Forbidden
    | Reauth
    | Ok(period: string, startDate: Day, endDate: Day, summary: Summary,
         daily: seq<SearchRow>, queries: seq<SearchRow>, pages: seq<SearchRow>)

  function Status(r: StatsReply): int
  {
    match r
    case ServerError(_) => 500
    case BadRequest(_) => 400
    case NotFound => 404
    case Forbidden => 403
    case Reauth => 401
    case Ok(_, _, _, _, _, _, _) => 200
  }

  /** The checks before the token is fetched, in order; `None` when all pass. */
  function StatsGate(sites: seq<Site>, session: Option<string>, siteId: Option<string>): (r: Option<StatsReply>)
    ensures session.None? ==> r == Some(ServerError(StatsErrorPrefix + "認証が必要です"))
    ensures session.Some? && !Filled(siteId) ==> r == Some(BadRequest("siteId が必要です"))
    ensures session.Some? && Filled(siteId) ==>
      var site := SiteById(sites, siteId.value);
      (site.None? ==> r == Some(NotFound))
      && (site.Some? && site.value.userId != session.value ==> r == Some(Forbidden))
      && (site.Some? && site.value.userId == session.value ==>
            r == (if site.value.gscEnabled != Some(true) || site.value.gscConfig.None? then Some(BadRequest(GscDisabled)) else None))
  {
    if session.None? then Some(ServerError(StatsErrorPrefix + "認証が必要です"))
    else if !Filled(siteId) then Some(BadRequest("siteId が必要です"))
    else
      match SiteById(sites, siteId.value)
      case None => Some(NotFound)
      case Some(site) =>
        if site.userId != session.value then Some(Forbidden)
        else if site.gscEnabled != Some(true) || site.gscConfig.None? then Some(BadRequest(GscDisabled))
        else None
  }

  /** The property URL as the client receives it (`undefined` prints as such). */
  function PropertyUrl(c: GscConfig): string
  {
    if c.siteUrl.Some? then c.siteUrl.value else "undefined"
  }

  /** `GET /api/gsc/stats?siteId=…&period=…`, with the `account` table after
      any token refresh. Only `siteId` and `period` are read. */
  function GscStats(sites: seq<Site>, accounts: seq<Account>, session: Option<string>, siteId: Option<string>, period: Option<string>,
                    oauth: OAuthClient, endpoint: RefreshRequest -> TokenResponse, nowMs: int, today: Day, client: StatsClient): (r: (StatsReply, seq<Account>))
    ensures StatsGate(sites, session, siteId).Some? ==> r == (StatsGate(sites, session, siteId).value, accounts)
    ensures StatsGate(sites, session, siteId).None? ==>
      var t := ValidAccessToken(accounts, session.value, oauth, endpoint, nowMs);
      r.1 == t.1 && (r.0 == Reauth <==> t.0.TokenError?)
    ensures r.0 == Reauth ==> r.1 == accounts
    ensures r.0.Ok? ==>
      var t := ValidAccessToken(accounts, session.value, oauth, endpoint, nowMs).0;
      var url := PropertyUrl(SiteById(sites, siteId.value).value.gscConfig.value);
      var days := SummaryPeriodDays(period);
      t.Valid? && r.0.startDate == today - days && r.0.endDate == today
      && client.daily(t.token, url, today - days, today) == Returned(r.0.daily)
      && client.queries(t.token, url, today - days, today, ListLimit) == Returned(r.0.queries)
      && client.pages(t.token, url, today - days, today, ListLimit) == Returned(r.0.pages)
      && r.0.summary == Summarize(r.0.daily)
      && r.0.period == (if period.Some? && period.value != "" then period.value else "7d")
  {
    match StatsGate(sites, session, siteId)
    case Some(reply) => (reply, accounts)
    case None =>
      var site := SiteById(sites, siteId.value).value;
      var url := PropertyUrl(site.gscConfig.value);
      var t := ValidAccessToken(accounts, session.value, oauth, endpoint, nowMs);
      match t.0
      case TokenError(_) => (Reauth, t.1)
      case Valid(token) =>
        var days := SummaryPeriodDays(period);
        var start := today - days;
        match client.daily(token, url, start, today)
        case Threw(m) => (ServerError(StatsErrorPrefix + ErrorMessage(m)), t.1)
        case Returned(daily) =>
          match client.queries(token, url, start, today, ListLimit)
          case Threw(m) => (ServerError(StatsErrorPrefix + ErrorMessage(m)), t.1)
          case Returned(queries) =>
            match client.pages(token, url, start, today, ListLimit)
            case Threw(m) => (ServerError(StatsErrorPrefix + ErrorMessage(m)), t.1)
            case Returned(pages) =>
              (Ok(if period.Some? && period.value != "" then period.value else "7d", start, today, Summarize(daily), daily, queries, pages), t.1)
  }
}

=== FILE: gsc_sync.dfy ===
/** The `/api/sync/gsc` batch job: for every site with GSC enabled it fetches
    thirty days of Search Analytics rows (one per day, and the top queries)
    and upserts them into `gsc_data`, keyed by site, date and query with NULL
    page, country and device. The Search Console client is a parameter: what
    each call answers for a given token, property and date range. */
module GscSync {
  import opened Common
  import opened Schema
  import opened Radix
  import opened Grouping
  import opened TokenRefresh
  import GscConnect

  datatype Metrics = Metrics(clicks: int, impressions: int, ctr: real, position: real)

  /** A row of the `date` dimension: the day in `keys[0]`, `None` when it is
      absent or empty. */
  datatype DailyRow = DailyRow(date: Option<Day>, metrics: Metrics)

  /** A row of the `query` dimension: the query in `keys[0]`. */
  datatype QueryRow = QueryRow(query: string, metrics: Metrics)

  /** The two client calls the job makes: token, property URL, start day,
      end day (and the row limit for queries). A call that returns gives
      `rows || []`. */
  datatype Client = Client(
    daily: (string, string, Day, Day) -> Call<seq<DailyRow>>,
    queries: (string, string, Day, Day, int) -> Call<seq<QueryRow>>)

  const SyncDays: int := 30
  const QueryRowLimit: int := 100
  const IncompleteConfig: string := "GSC設定が不完全です"

  // ---------------------------------------------------------------------
  // The keyed upsert

  /** The slot a sync row is written to. `query == None` is the site-wide row. */
  datatype Key = Key(siteId: string, date: Day, query: Option<string>)

  /** One upsert: a slot and the metrics written to it. */
  datatype Write = Write(key: Key, metrics: Metrics)

  /** The existence check's `where`: same site, date and query (`IS NULL` for
      a site-wide key) and NULL page, country and device. */
  predicate Matches(r: GscRow, k: Key)
  {
    r.siteId == k.siteId && r.date == k.date && r.query == k.query
    && r.page.None? && r.country.None? && r.device.None?
  }

  function SlotOf(r: GscRow): Key
  {
    Key(r.siteId, r.date, r.query)
  }

  /** `select … limit 1`: the first matching row at or after `from`. */
  function FindFrom(t: seq<GscRow>, k: Key, from: nat): (r: Option<nat>)
    requires from <= |t|
    ensures r.Some? ==> (from <= r.value < |t| && Matches(t[r.value], k)
      && forall i :: from <= i < r.value ==> !Matches(t[i], k))
    ensures r.None? ==> forall i :: from <= i < |t| ==> !Matches(t[i], k)
    decreases |t| - from
  {
    if from == |t| then None
    else if Matches(t[from], k) then Some(from)
    else FindFrom(t, k, from + 1)
  }

  function FindRow(t: seq<GscRow>, k: Key): (r: Option<nat>)
    ensures r.Some? ==> (r.value < |t| && Matches(t[r.value], k)
      && forall i :: 0 <= i < r.value ==> !Matches(t[i], k))
    ensures r.None? ==> forall i :: 0 <= i < |t| ==> !Matches(t[i], k)
  {
    FindFrom(t, k, 0)
  }

  /** The table holds the metrics in the slot: its first matching row carries them. */
  predicate Holds(t: seq<GscRow>, w: Write)
  {
    var i := FindRow(t, w.key);
    i.Some? && Carries(t[i.value], w.metrics)
  }

  predicate Carries(r: GscRow, m: Metrics)
  {
    r.clicks == Some(m.clicks) && r.impressions == Some(m.impressions)
    && r.ctr == Some(m.ctr) && r.position == Some(m.position)
  }

  /** The `update … set clicks, impressions, ctr, position`. */
  function Stamp(r: GscRow, m: Metrics): (s: GscRow)
    ensures Carries(s, m) && SlotOf(s) == SlotOf(r)
    ensures forall k :: Matches(s, k) <==> Matches(r, k)
  {
    r.(clicks := Some(m.clicks), impressions := Some(m.impressions), ctr := Some(m.ctr), position := Some(m.position))
  }

  /** The insert: the slot's columns, the metrics, and NULL page, country and device. */
  function NewRow(k: Key, m: Metrics): (r: GscRow)
    ensures Matches(r, k) && Carries(r, m)
  {
    GscRow(k.siteId, k.date, k.query, None, None, None, Some(m.clicks), Some(m.impressions), Some(m.ctr), Some(m.position))
  }

  /** Update the first matching row in place, or append a new one. Afterwards
      the slot holds the metrics; no row outside the slot changes; a row is
      added exactly when the slot had none. */
  function Upsert(t: seq<GscRow>, w: Write): (r: seq<GscRow>)
    ensures Holds(r, w)
    ensures |r| == (if FindRow(t, w.key).Some? then |t| else |t| + 1)
    ensures forall j :: 0 <= j < |t| ==> r[j] == t[j] || (Matches(t[j], w.key) && r[j] == Stamp(t[j], w.metrics))
    ensures |r| == |t| + 1 ==> Matches(r[|t|], w.key)
  {
    match FindRow(t, w.key)
    case Some(i) =>
      var r := t[i := Stamp(t[i], w.metrics)];
      FindRowIs(r, w.key, i);
      r
    case None =>
      var r := t + [NewRow(w.key, w.metrics)];
      FindRowIs(r, w.key, |t|);
      r
  }

  /** The lookup finds the first matching row. */
  lemma FindRowIs(t: seq<GscRow>, k: Key, i: nat)
    requires i < |t| && Matches(t[i], k) && forall l :: 0 <= l < i ==> !Matches(t[l], k)
    ensures FindRow(t, k) == Some(i)
  {
  }

  /** An upsert leaves every other slot's lookup, and the row it finds, as it was. */
  lemma UpsertElsewhere(t: seq<GscRow>, w: Write, k: Key)
    requires k != w.key
    ensures FindRow(Upsert(t, w), k) == FindRow(t, k)
    ensures FindRow(t, k).Some? ==> Upsert(t, w)[FindRow(t, k).value] == t[FindRow(t, k).value]
  {
    var r := Upsert(t, w);
    forall j | 0 <= j < |r| ensures Matches(r[j], k) <==> j < |t| && Matches(t[j], k) {
      if j < |t| {
        assert r[j] == t[j] || (Matches(t[j], w.key) && r[j] == Stamp(t[j], w.metrics));
      } else {
        assert Matches(r[j], w.key);
      }
    }
    match FindRow(t, k)
    case Some(i) =>
      assert Matches(t[i], k);
      assert r[i] == t[i];
    case None =>
  }

  /** A slot that already holds the metrics is not changed by writing them again. */
  lemma UpsertHeld(t: seq<GscRow>, w: Write)
    requires Holds(t, w)
    ensures Upsert(t, w) == t
  {
    var i := FindRow(t, w.key).value;
    assert Stamp(t[i], w.metrics) == t[i];
  }

  /** Writing the same row twice is writing it once. */
  lemma UpsertIdempotent(t: seq<GscRow>, w: Write)
    ensures Upsert(Upsert(t, w), w) == Upsert(t, w)
  {
    UpsertHeld(Upsert(t, w), w);
  }

  /** At most one sync-shaped row (NULL page, country and device) per slot. */
  predicate UniqueSlots(t: seq<GscRow>)
  {
    forall i, j :: 0 <= i < j < |t| && Matches(t[i], SlotOf(t[i])) ==> !Matches(t[j], SlotOf(t[i]))
  }

  /** The upsert never creates a second row in a slot. (The unique index does
      not guarantee this for site-wide rows, whose NULL query never collides.) */
  lemma UpsertKeepsUnique(t: seq<GscRow>, w: Write)
    requires UniqueSlots(t)
    ensures UniqueSlots(Upsert(t, w))
  {
    var r := Upsert(t, w);
    forall j | 0 <= j < |t| ensures SlotOf(r[j]) == SlotOf(t[j]) && (forall k :: Matches(r[j], k) <==> Matches(t[j], k)) {
      assert r[j] == t[j] || r[j] == Stamp(t[j], w.metrics);
    }
    if |r| == |t| + 1 {
      assert FindRow(t, w.key).None?;
      forall i | 0 <= i < |t| ensures !Matches(t[i], w.key) {
      }
    }
  }

  /** The upserts one after another, as the loops issue them. */
  function Apply(t: seq<GscRow>, ws: seq<Write>): (r: seq<GscRow>)
    ensures |t| <= |r| <= |t| + |ws|
  {
    if |ws| == 0 then t
    else Upsert(Apply(t, ws[..|ws| - 1]), ws[|ws| - 1])
  }

  /** A row whose site no write names is left where it was, as it was. */
  lemma {:induction false} ApplyKeepsOthers(t: seq<GscRow>, ws: seq<Write>)
    ensures forall j :: 0 <= j < |t| && (forall w :: w in ws ==> w.key.siteId != t[j].siteId) ==> Apply(t, ws)[j] == t[j]
    decreases |ws|
  {
    if |ws| > 0 {
      var init := ws[..|ws| - 1];
      var last := ws[|ws| - 1];
      ApplyKeepsOthers(t, init);
      var mid := Apply(t, init);
      assert Apply(t, ws) == Upsert(mid, last);
      forall j | 0 <= j < |t| && (forall w :: w in ws ==> w.key.siteId != t[j].siteId) ensures Apply(t, ws)[j] == t[j] {
        assert forall w :: w in init ==> w in ws;
        assert last in ws;
        assert mid[j] == t[j];
        assert !Matches(mid[j], last.key);
      }
    }
  }

  /** Every appended row sits in the slot of one of the writes. */
  lemma {:induction false} ApplyAddsMatching(t: seq<GscRow>, ws: seq<Write>)
    ensures forall j :: |t| <= j < |Apply(t, ws)| ==> exists w :: w in ws && Matches(Apply(t, ws)[j], w.key)
    decreases |ws|
  {
    if |ws| > 0 {
      var init := ws[..|ws| - 1];
      var last := ws[|ws| - 1];
      ApplyAddsMatching(t, init);
      var mid := Apply(t, init);
      var r := Apply(t, ws);
      assert r == Upsert(mid, last);
      forall j | |t| <= j < |r| ensures exists w :: w in ws && Matches(r[j], w.key) {
        assert forall w :: w in init ==> w in ws;
        assert last in ws;
        if j < |mid| {
          var w :| w in init && Matches(mid[j], w.key);
          assert r[j] == mid[j] || (Matches(mid[j], last.key) && r[j] == Stamp(mid[j], last.metrics));
          assert w in ws && Matches(r[j], w.key);
        } else {
          assert |r| == |mid| + 1 && j == |mid|;
          assert last in ws && Matches(r[j], last.key);
        }
      }
    } else {
      assert Apply(t, ws) == t;
    }
  }

  lemma ApplyAppend(t: seq<GscRow>, a: seq<Write>, b: seq<Write>)
    ensures Apply(Apply(t, a), b) == Apply(t, a + b)
    decreases |b|
  {
    if |b| > 0 {
      assert (a + b)[..|a + b| - 1] == a + b[..|b| - 1];
      ApplyAppend(t, a, b[..|b| - 1]);
    } else {
      assert a + b == a;
    }
  }

  lemma {:induction false} ApplyKeepsUnique(t: seq<GscRow>, ws: seq<Write>)
    requires UniqueSlots(t)
    ensures UniqueSlots(Apply(t, ws))
    decreases |ws|
  {
    if |ws| > 0 {
      ApplyKeepsUnique(t, ws[..|ws| - 1]);
      UpsertKeepsUnique(Apply(t, ws[..|ws| - 1]), ws[|ws| - 1]);
    }
  }

  predicate DistinctKeys(ws: seq<Write>)
  {
    forall i, j :: 0 <= i < j < |ws| ==> ws[i].key != ws[j].key
  }

  /** After a batch with distinct slots, the table holds every row of the batch. */
  lemma {:induction false} ApplyHoldsAll(t: seq<GscRow>, ws: seq<Write>)
    requires DistinctKeys(ws)
    ensures forall i :: 0 <= i < |ws| ==> Holds(Apply(t, ws), ws[i])
    decreases |ws|
  {
    if |ws| > 0 {
      var init := ws[..|ws| - 1];
      var last := ws[|ws| - 1];
      ApplyHoldsAll(t, init);
      var mid := Apply(t, init);
      forall i | 0 <= i < |ws| ensures Holds(Apply(t, ws), ws[i]) {
        if i < |ws| - 1 {
          assert Holds(mid, init[i]);
          UpsertElsewhere(mid, last, ws[i].key);
        }
      }
    }
  }

  /** Writing a batch the table already holds changes nothing. */
  lemma {:induction false} ApplyHeld(t: seq<GscRow>, ws: seq<Write>)
    requires forall i :: 0 <= i < |ws| ==> Holds(t, ws[i])
    ensures Apply(t, ws) == t
    decreases |ws|
  {
    if |ws| > 0 {
      ApplyHeld(t, ws[..|ws| - 1]);
      UpsertHeld(t, ws[|ws| - 1]);
    }
  }

  /** Replaying a batch with distinct slots leaves the table as the first run left it. */
  lemma ReplayIsIdempotent(t: seq<GscRow>, ws: seq<Write>)
    requires DistinctKeys(ws)
    ensures Apply(Apply(t, ws), ws) == Apply(t, ws)
  {
    ApplyHoldsAll(t, ws);
    ApplyHeld(Apply(t, ws), ws);
  }

  // ---------------------------------------------------------------------
  // One site

  /** `!config?.accessToken || !config?.siteUrl` fails; the empty string is falsy. */
  predicate ConfigComplete(site: Site)
  {
    site.gscConfig.Some? && Filled(site.gscConfig.value.accessToken) && Filled(site.gscConfig.value.siteUrl)
  }

  /** The daily rows' slots: `keys[0] || endDateStr` and a NULL query. */
  function DailyWrites(siteId: string, rows: seq<DailyRow>, endDate: Day): (ws: seq<Write>)
    ensures |ws| == |rows|
    ensures forall i :: 0 <= i < |rows| ==>
      ws[i] == Write(Key(siteId, if rows[i].date.Some? then rows[i].date.value else endDate, None), rows[i].metrics)
  {
    if |rows| == 0 then []
    else
      var d := rows[0].date;
      [Write(Key(siteId, if d.Some? then d.value else endDate, None), rows[0].metrics)]
        + DailyWrites(siteId, rows[1..], endDate)
  }

  /** The query rows' slots: every one filed under the end day of the window. */
  function QueryWrites(siteId: string, rows: seq<QueryRow>, endDate: Day): (ws: seq<Write>)
    ensures |ws| == |rows|
    ensures forall i :: 0 <= i < |rows| ==> ws[i] == Write(Key(siteId, endDate, Some(rows[i].query)), rows[i].metrics)
  {
    if |rows| == 0 then []
    else [Write(Key(siteId, endDate, Some(rows[0].query)), rows[0].metrics)] + QueryWrites(siteId, rows[1..], endDate)
  }

  datatype SiteResult = Synced | Failed(message: string)

  /** The two fetches for a token and property URL: the first call that
      throws decides the error text. */
  function FetchResult(token: string, url: string, client: Client, today: Day): (r: SiteResult)
    ensures r.Synced? <==> (client.daily(token, url, today - SyncDays, today).Returned?
      && client.queries(token, url, today - SyncDays, today, QueryRowLimit).Returned?)
    ensures client.daily(token, url, today - SyncDays, today).Threw? ==>
      r == Failed(ErrorMessage(client.daily(token, url, today - SyncDays, today).message))
  {
    match client.daily(token, url, today - SyncDays, today)
    case Threw(m) => Failed(ErrorMessage(m))
    case Returned(_) =>
      match client.queries(token, url, today - SyncDays, today, QueryRowLimit)
      case Threw(m) => Failed(ErrorMessage(m))
      case Returned(_) => Synced
  }

  /** The upserts the two fetches lead to: none after a failed daily fetch;
      the daily rows alone when the query fetch fails after them; both
      batches otherwise. */
  function FetchWrites(siteId: string, token: string, url: string, client: Client, today: Day): (ws: seq<Write>)
    ensures forall w :: w in ws ==> w.key.siteId == siteId
  {
    match client.daily(token, url, today - SyncDays, today)
    case Threw(_) => []
    case Returned(days) =>
      var dw := DailyWrites(siteId, days, today);
      match client.queries(token, url, today - SyncDays, today, QueryRowLimit)
      case Threw(_) => dw
      case Returned(qs) => dw + QueryWrites(siteId, qs, today)
  }

  /** What the loop pushes for a site: it depends only on the site's own
      configuration and the client's answers for it. */
  function SiteResultOf(site: Site, client: Client, today: Day): (r: SiteResult)
    ensures r.Synced? <==> (ConfigComplete(site)
      && client.daily(site.gscConfig.value.accessToken.value, site.gscConfig.value.siteUrl.value, today - SyncDays, today).Returned?
      && client.queries(site.gscConfig.value.accessToken.value, site.gscConfig.value.siteUrl.value, today - SyncDays, today, QueryRowLimit).Returned?)
    ensures r == Failed(IncompleteConfig) <== !ConfigComplete(site)
  {
    if !ConfigComplete(site) then Failed(IncompleteConfig)
    else FetchResult(site.gscConfig.value.accessToken.value, site.gscConfig.value.siteUrl.value, client, today)
  }

  /** The upserts a site's sync issues; none for an incomplete configuration. */
  function SiteWrites(site: Site, client: Client, today: Day): (ws: seq<Write>)
    ensures forall w :: w in ws ==> w.key.siteId == site.id
    ensures !ConfigComplete(site) ==> ws == []
  {
    if !ConfigComplete(site) then []
    else FetchWrites(site.id, site.gscConfig.value.accessToken.value, site.gscConfig.value.siteUrl.value, client, today)
  }

  /** One iteration of the loop, with the branches in the order the route
      takes them. */
  function SiteStep(t: seq<GscRow>, site: Site, client: Client, today: Day): (r: (seq<GscRow>, SiteResult))
    ensures r.1 == SiteResultOf(site, client, today)
    ensures r.0 == Apply(t, SiteWrites(site, client, today))
    ensures !ConfigComplete(site) ==> r.0 == t
  {
    if !ConfigComplete(site) then (t, Failed(IncompleteConfig))
    else
      var token := site.gscConfig.value.accessToken.value;
      var url := site.gscConfig.value.siteUrl.value;
      match client.daily(token, url, today - SyncDays, today)
      case Threw(m) => (t, Failed(ErrorMessage(m)))
      case Returned(days) =>
        var t1 := Apply(t, DailyWrites(site.id, days, today));
        match client.queries(token, url, today - SyncDays, today, QueryRowLimit)
        case Threw(m) => (t1, Failed(ErrorMessage(m)))
        case Returned(qs) =>
          ApplyAppend(t, DailyWrites(site.id, days, today), QueryWrites(site.id, qs, today));
          (Apply(t1, QueryWrites(site.id, qs, today)), Synced)
  }

  /** A synced site's query rows all sit in the window's last day, one slot
      per query; a failed query fetch still leaves the daily rows written. */
  lemma SiteWritesShape(site: Site, client: Client, today: Day)
    requires ConfigComplete(site)
    ensures var token := site.gscConfig.value.accessToken.value;
      var url := site.gscConfig.value.siteUrl.value;
      var d := client.daily(token, url, today - SyncDays, today);
      var q := client.queries(token, url, today - SyncDays, today, QueryRowLimit);
      var ws := SiteWrites(site, client, today);
      (d.Returned? && q.Threw? ==> ws == DailyWrites(site.id, d.value, today))
      && (d.Returned? && q.Returned? ==>
            forall i :: |d.value| <= i < |ws| ==> ws[i].key.date == today && ws[i].key.query.Some?)
      && (d.Returned? ==> forall i :: 0 <= i < |d.value| ==> ws[i].key.query.None?)
  {
  }

  // ---------------------------------------------------------------------
  // The loop and the response

  function SyncWrites(sites: seq<Site>, client: Client, today: Day): (ws: seq<Write>)
    ensures forall w :: w in ws ==> exists s :: s in sites && s.id == w.key.siteId
  {
    if |sites| == 0 then []
    else
      var init := sites[..|sites| - 1];
      var last := sites[|sites| - 1];
      var a := SyncWrites(init, client, today);
      var b := SiteWrites(last, client, today);
      assert forall w :: w in a + b ==> w in a || w in b;
      assert forall s :: s in init ==> s in sites;
      a + b
  }

  /** `results[i]` is what the loop pushed for `sites[i]`. */
  predicate ResultsFor(sites: seq<Site>, results: seq<SiteResult>, client: Client, today: Day)
  {
    |results| == |sites| && forall i :: 0 <= i < |sites| ==> results[i] == SiteResultOf(sites[i], client, today)
  }

  lemma ResultsForAppend(sites: seq<Site>, results: seq<SiteResult>, client: Client, today: Day)
    requires |sites| > 0 && ResultsFor(sites[..|sites| - 1], results, client, today)
    ensures ResultsFor(sites, results + [SiteResultOf(sites[|sites| - 1], client, today)], client, today)
  {
    var init := sites[..|sites| - 1];
    var rs := results + [SiteResultOf(sites[|sites| - 1], client, today)];
    forall i | 0 <= i < |sites| ensures rs[i] == SiteResultOf(sites[i], client, today) {
      if i < |init| {
        assert rs[i] == results[i] && sites[i] == init[i];
      }
    }
  }

  /** The `for … of` loop over the enabled sites, each in its own `try`. */
  function SyncSites(t: seq<GscRow>, sites: seq<Site>, client: Client, today: Day): (r: (seq<GscRow>, seq<SiteResult>))
    ensures |r.1| == |sites|
  {
    if |sites| == 0 then (t, [])
    else
      var before := SyncSites(t, sites[..|sites| - 1], client, today);
      var step := SiteStep(before.0, sites[|sites| - 1], client, today);
      (step.0, before.1 + [step.1])
  }

  /** The loop pushes, in order, each site's own result. */
  lemma {:induction false} SyncSitesResults(t: seq<GscRow>, sites: seq<Site>, client: Client, today: Day)
    ensures ResultsFor(sites, SyncSites(t, sites, client, today).1, client, today)
    decreases |sites|
  {
    if |sites| > 0 {
      var init := sites[..|sites| - 1];
      SyncSitesResults(t, init, client, today);
      ResultsForAppend(sites, SyncSites(t, init, client, today).1, client, today);
    }
  }

  /** The interleaved upserts of the loop leave the table as applying all
      the sites' writes in order does. */
  lemma {:induction false} SyncSitesWrites(t: seq<GscRow>, sites: seq<Site>, client: Client, today: Day)
    ensures SyncSites(t, sites, client, today).0 == Apply(t, SyncWrites(sites, client, today))
    decreases |sites|
  {
    if |sites| > 0 {
      var init := sites[..|sites| - 1];
      var last := sites[|sites| - 1];
      SyncSitesWrites(t, init, client, today);
      var mid := SyncSites(t, init, client, today).0;
      assert SyncSites(t, sites, client, today).0 == SiteStep(mid, last, client, today).0;
      ApplyAppend(t, SyncWrites(init, client, today), SiteWrites(last, client, today));
    }
  }

  datatype SyncError = SyncError(siteId: string, error: string)

  datatype SyncReply =
    | Unauthorized
    | NothingEnabled
    | Summary(synced: int, message: string, errors: Option<seq<SyncError>>)

  function SyncedIds(sites: seq<Site>, results: seq<SiteResult>): (ids: seq<string>)
    requires |results| == |sites|
    ensures |ids| <= |sites|
  {
    if |sites| == 0 then []
    else (if results[0].Synced? then [sites[0].id] else []) + SyncedIds(sites[1..], results[1..])
  }

  function Errors(sites: seq<Site>, results: seq<SiteResult>): (es: seq<SyncError>)
    requires |results| == |sites|
    ensures |es| + |SyncedIds(sites, results)| == |sites|
    ensures |es| == 0 <==> forall i :: 0 <= i < |sites| ==> results[i].Synced?
  {
    if |sites| == 0 then []
    else
      var rest := Errors(sites[1..], results[1..]);
      assert forall i :: 1 <= i < |sites| ==> results[i] == results[1..][i - 1];
      if results[0].Failed? then [SyncError(sites[0].id, results[0].message)] + rest else rest
  }

  /** `eq(sites.gscEnabled, true)`. */
  function EnabledSites(sites: seq<Site>): (r: seq<Site>)
    ensures forall s :: s in r <==> s in sites && s.gscEnabled == Some(true)
  {
    Filter(sites, (s: Site) => s.gscEnabled == Some(true))
  }

  /** `cronSecret && authHeader !== \`Bearer ${cronSecret}\``. */
  predicate Rejected(cronSecret: Option<string>, authHeader: Option<string>)
  {
    cronSecret.Some? && cronSecret.value != "" && authHeader != Some("Bearer " + cronSecret.value)
  }

  /** `POST /api/sync/gsc`: the reply and the `gsc_data` table afterwards. */
  function Sync(sites: seq<Site>, t: seq<GscRow>, cronSecret: Option<string>, authHeader: Option<string>, client: Client, today: Day): (r: (SyncReply, seq<GscRow>))
    ensures r.0 == Unauthorized <==> Rejected(cronSecret, authHeader)
    ensures r.0 == NothingEnabled <==> !Rejected(cronSecret, authHeader) && forall s :: s in sites ==> s.gscEnabled != Some(true)
    ensures !r.0.Summary? ==> r.1 == t
    ensures r.0.Summary? ==>
      r.0.synced + (if r.0.errors.Some? then |r.0.errors.value| else 0) == |EnabledSites(sites)|
      && (r.0.errors.None? <==> forall s :: s in EnabledSites(sites) ==> SiteResultOf(s, client, today).Synced?)
      && r.0.message == IntToString(r.0.synced) + "件のサイトを同期しました"
  {
    if Rejected(cronSecret, authHeader) then (Unauthorized, t)
    else
      var enabled := EnabledSites(sites);
      if |enabled| == 0 then (NothingEnabled, t)
      else
        var run := SyncSites(t, enabled, client, today);
        SyncSitesResults(t, enabled, client, today);
        assert (forall i :: 0 <= i < |enabled| ==> run.1[i].Synced?) <==> forall s :: s in enabled ==> SiteResultOf(s, client, today).Synced?;
        (SummaryOf(enabled, run.1), run.0)
  }

  /** The reply of a run: the count of synced sites, the message, and the
      errors when there are any. */
  function SummaryOf(enabled: seq<Site>, results: seq<SiteResult>): (r: SyncReply)
    requires |results| == |enabled|
    ensures r.Summary?
    ensures r.synced + (if r.errors.Some? then |r.errors.value| else 0) == |enabled|
    ensures r.errors.None? <==> forall i :: 0 <= i < |enabled| ==> results[i].Synced?
    ensures r.message == IntToString(r.synced) + "件のサイトを同期しました"
  {
    var ids := SyncedIds(enabled, results);
    var errs := Errors(enabled, results);
    Summary(|ids|, IntToString(|ids|) + "件のサイトを同期しました", if |errs| > 0 then Some(errs) else None)
  }

  /** The rows of sites that are not enabled are never touched, and the job
      never puts a second row into a slot. */
  lemma SyncIsolation(sites: seq<Site>, t: seq<GscRow>, cronSecret: Option<string>, authHeader: Option<string>, client: Client, today: Day)
    ensures var t' := Sync(sites, t, cronSecret, authHeader, client, today).1;
      |t'| >= |t|
      && (forall j :: 0 <= j < |t| && (forall s :: s in sites && s.id == t[j].siteId ==> s.gscEnabled != Some(true)) ==> t'[j] == t[j])
      && (UniqueSlots(t) ==> UniqueSlots(t'))
  {
    if !Rejected(cronSecret, authHeader) && |EnabledSites(sites)| > 0 {
      SyncSitesWrites(t, EnabledSites(sites), client, today);
      ApplyKeepsOthers(t, SyncWrites(EnabledSites(sites), client, today));
      if UniqueSlots(t) {
        ApplyKeepsUnique(t, SyncWrites(EnabledSites(sites), client, today));
      }
    }
  }

  /** Running the job twice against an unchanged Search Console leaves the
      table as one run left it, as long as the run's slots are distinct. */
  lemma SyncTwice(sites: seq<Site>, t: seq<GscRow>, cronSecret: Option<string>, authHeader: Option<string>, client: Client, today: Day)
    requires DistinctKeys(SyncWrites(EnabledSites(sites), client, today))
    ensures var once := Sync(sites, t, cronSecret, authHeader, client, today);
      var twice := Sync(sites, once.1, cronSecret, authHeader, client, today);
      twice == (once.0, once.1)
  {
    if !Rejected(cronSecret, authHeader) && |EnabledSites(sites)| > 0 {
      SyncSitesTwice(t, EnabledSites(sites), client, today);
    }
  }

  /** The per-site loop run again on its own output writes nothing new and
      reports the same results. */
  lemma SyncSitesTwice(t: seq<GscRow>, enabled: seq<Site>, client: Client, today: Day)
    requires DistinctKeys(SyncWrites(enabled, client, today))
    ensures var first := SyncSites(t, enabled, client, today);
      SyncSites(first.0, enabled, client, today) == first
  {
    var ws := SyncWrites(enabled, client, today);
    var first := SyncSites(t, enabled, client, today);
    var second := SyncSites(first.0, enabled, client, today);
    SyncSitesWrites(t, enabled, client, today);
    SyncSitesWrites(first.0, enabled, client, today);
    SyncSitesResults(t, enabled, client, today);
    SyncSitesResults(first.0, enabled, client, today);
    ReplayIsIdempotent(t, ws);
    ResultsForUnique(enabled, first.1, second.1, client, today);
  }

  lemma ResultsForUnique(sites: seq<Site>, a: seq<SiteResult>, b: seq<SiteResult>, client: Client, today: Day)
    requires ResultsFor(sites, a, client, today) && ResultsFor(sites, b, client, today)
    ensures a == b
  {
  }

  // ---------------------------------------------------------------------
  // Linked sites and their token

  /** As written, linking a site through `/api/connect/gsc` stores no access
      token in its configuration, so the job reports every linked site as
      incomplete, whatever Search Console would answer. */
  lemma LinkedSiteNeverSyncs(sites: seq<Site>, accounts: seq<Account>, session: Option<string>, body: Option<GscConnect.ConnectBody>,
                             nowMs: int, listing: string -> GscConnect.Listing, connectedAt: string, client: Client, today: Day, j: nat)
    requires var r := GscConnect.Connect(sites, accounts, session, body, nowMs, listing, connectedAt);
      r.0.Connected? && j < |r.1| && r.1[j].id == body.value.siteId.value
    ensures var s := GscConnect.Connect(sites, accounts, session, body, nowMs, listing, connectedAt).1[j];
      s in EnabledSites(GscConnect.Connect(sites, accounts, session, body, nowMs, listing, connectedAt).1)
      && SiteResultOf(s, client, today) == Failed(IncompleteConfig)
      && SiteWrites(s, client, today) == []
  {
    var r := GscConnect.Connect(sites, accounts, session, body, nowMs, listing, connectedAt);
    assert r.1[j] in r.1;
  }

  /** As intended: only the property URL comes from the configuration, and
      the token is the owner's, as `getValidAccessToken` returns it. */
  predicate UrlConfigured(site: Site)
  {
    site.gscConfig.Some? && Filled(site.gscConfig.value.siteUrl)
  }

  function SiteResultWithToken(site: Site, token: TokenResult, client: Client, today: Day): (r: SiteResult)
    ensures !UrlConfigured(site) ==> r == Failed(IncompleteConfig)
    ensures UrlConfigured(site) && token.TokenError? ==> r == Failed(token.message)
    ensures r.Synced? <==> (UrlConfigured(site) && token.Valid?
      && client.daily(token.token, site.gscConfig.value.siteUrl.value, today - SyncDays, today).Returned?
      && client.queries(token.token, site.gscConfig.value.siteUrl.value, today - SyncDays, today, QueryRowLimit).Returned?)
  {
    if !UrlConfigured(site) then Failed(IncompleteConfig)
    else
      match token
      case TokenError(m) => Failed(m)
      case Valid(t) => FetchResult(t, site.gscConfig.value.siteUrl.value, client, today)
  }

  function SiteWritesWithToken(site: Site, token: TokenResult, client: Client, today: Day): (ws: seq<Write>)
    ensures forall w :: w in ws ==> w.key.siteId == site.id
    ensures !UrlConfigured(site) || token.TokenError? ==> ws == []
  {
    if !UrlConfigured(site) || token.TokenError? then []
    else FetchWrites(site.id, token.token, site.gscConfig.value.siteUrl.value, client, today)
  }

  /** `results[i]` is what the loop pushed for `sites[i]` with its token. */
  predicate ResultsWithTokenFor(sites: seq<Site>, results: seq<SiteResult>, tokenFor: Site -> TokenResult, client: Client, today: Day)
  {
    |results| == |sites| && forall i :: 0 <= i < |sites| ==> results[i] == SiteResultWithToken(sites[i], tokenFor(sites[i]), client, today)
  }

  lemma ResultsWithTokenForAppend(init: seq<Site>, last: Site, results: seq<SiteResult>, tokenFor: Site -> TokenResult, client: Client, today: Day)
    requires ResultsWithTokenFor(init, results, tokenFor, client, today)
    ensures ResultsWithTokenFor(init + [last], results + [SiteResultWithToken(last, tokenFor(last), client, today)], tokenFor, client, today)
  {
    var sites := init + [last];
    var rs := results + [SiteResultWithToken(last, tokenFor(last), client, today)];
    forall i | 0 <= i < |sites| ensures rs[i] == SiteResultWithToken(sites[i], tokenFor(sites[i]), client, today) {
      if i < |init| {
        assert rs[i] == results[i] && sites[i] == init[i];
      }
    }
  }

  /** The rows of `t` whose site is not in `sites` are unchanged in `t'`. */
  predicate KeepsOtherSites(t: seq<GscRow>, sites: seq<Site>, t': seq<GscRow>)
  {
    |t| <= |t'| && forall j :: 0 <= j < |t| && (forall s :: s in sites ==> s.id != t[j].siteId) ==> t'[j] == t[j]
  }

  /** The loop with each site's token supplied by `tokenFor`. */
  function SyncSitesWithToken(t: seq<GscRow>, sites: seq<Site>, tokenFor: Site -> TokenResult, client: Client, today: Day): (r: (seq<GscRow>, seq<SiteResult>))
    ensures ResultsWithTokenFor(sites, r.1, tokenFor, client, today)
    ensures KeepsOtherSites(t, sites, r.0)
  {
    if |sites| == 0 then (t, [])
    else
      var init := sites[..|sites| - 1];
      var last := sites[|sites| - 1];
      var before := SyncSitesWithToken(t, init, tokenFor, client, today);
      var ws := SiteWritesWithToken(last, tokenFor(last), client, today);
      var after := Apply(before.0, ws);
      assert init + [last] == sites;
      ResultsWithTokenForAppend(init, last, before.1, tokenFor, client, today);
      KeepsOtherSitesStep(t, init, last, before.0, ws, after);
      (after, before.1 + [SiteResultWithToken(last, tokenFor(last), client, today)])
  }

  lemma KeepsOtherSitesStep(t: seq<GscRow>, init: seq<Site>, last: Site, mid: seq<GscRow>, ws: seq<Write>, after: seq<GscRow>)
    requires KeepsOtherSites(t, init, mid)
    requires forall w :: w in ws ==> w.key.siteId == last.id
    requires after == Apply(mid, ws)
    ensures KeepsOtherSites(t, init + [last], after)
  {
    var sites := init + [last];
    ApplyKeepsOthers(mid, ws);
    forall j | 0 <= j < |t| && (forall s :: s in sites ==> s.id != t[j].siteId) ensures after[j] == t[j] {
      assert forall s :: s in init ==> s in sites;
      assert last in sites;
    }
  }

  /** With the owner's token, a freshly linked site syncs as soon as the token
      is valid and Search Console answers for the linked property. */
  lemma LinkedSiteSyncsWithToken(sites: seq<Site>, accounts: seq<Account>, session: Option<string>, body: Option<GscConnect.ConnectBody>,
                                 nowMs: int, listing: string -> GscConnect.Listing, connectedAt: string, client: Client, today: Day,
                                 j: nat, token: string)
    requires var r := GscConnect.Connect(sites, accounts, session, body, nowMs, listing, connectedAt);
      r.0.Connected? && j < |r.1| && r.1[j].id == body.value.siteId.value && r.0.siteUrl != ""
      && client.daily(token, r.0.siteUrl, today - SyncDays, today).Returned?
      && client.queries(token, r.0.siteUrl, today - SyncDays, today, QueryRowLimit).Returned?
    ensures var s := GscConnect.Connect(sites, accounts, session, body, nowMs, listing, connectedAt).1[j];
      UrlConfigured(s) && SiteResultWithToken(s, Valid(token), client, today) == Synced
  {
  }

  /** After an unlink the site is no longer among the sites the job visits. */
  lemma UnlinkedSiteIsSkipped(sites: seq<Site>, session: Option<string>, siteId: Option<string>)
    requires GscConnect.Disconnect(sites, session, siteId).0.Disconnected?
    ensures forall s :: s in EnabledSites(GscConnect.Disconnect(sites, session, siteId).1) ==> s.id != siteId.value
  {
    var r := GscConnect.Disconnect(sites, session, siteId).1;
    forall s | s in EnabledSites(r) ensures s.id != siteId.value {
      var j :| 0 <= j < |r| && r[j] == s;
    }
  }
}

=== FILE: health_score.dfy ===
/** The dashboard's SEO score card: a 0–100 score from the average search
    position and click-through rate of the GSC summary, the click change
    against the previous period and the previous period's score. The two
    `fetch` calls to `/api/gsc/stats` are the input `fetch`, keyed by the
    `period` query parameter. */
module HealthScore {
  import opened Common
  import GscSummary

  type Summary = GscSummary.Summary

  /** What the component gets from one request: not OK, or the body's
      `summary` (absent in an error body). */
  datatype Fetch = NotOk | Fetched(summary: Option<Summary>)

  datatype ScoreMetrics = ScoreMetrics(
    avgPosition: real,
    avgCtr: real,
    clicks: int,
    clicksChange: real,
    seoScore: int,
    previousScore: Option<int>)

  // ---------------------------------------------------------------------
  // The score

  /** The CTR part: full marks from 2%, linear below, nothing at 0% or less. */
  function CtrScore(ctr: real): (s: real)
    ensures 0.0 <= s <= 100.0
    ensures ctr >= 2.0 ==> s == 100.0
    ensures ctr <= 0.0 ==> s == 0.0
    ensures 0.0 < ctr < 2.0 ==> s == 50.0 * ctr
  {
    if ctr >= 2.0 then 100.0 else if ctr > 0.0 then ctr / 2.0 * 100.0 else 0.0
  }

  /** The position part: full marks at position 1 or better, 50 at 10, 0 at
      20, linear in between and 0 below 20. */
  function PositionScore(p: real): (s: real)
    ensures 0.0 <= s <= 100.0
    ensures p <= 1.0 ==> s == 100.0
    ensures p > 20.0 ==> s == 0.0
    ensures 1.0 < p <= 10.0 ==> s == 100.0 - 50.0 * (p - 1.0) / 9.0
    ensures 10.0 < p <= 20.0 ==> s == 50.0 - 5.0 * (p - 10.0)
  {
    if p <= 1.0 then 100.0
    else if p <= 10.0 then 100.0 - (p - 1.0) / 9.0 * 50.0
    else if p <= 20.0 then 50.0 - (p - 10.0) / 10.0 * 50.0
    else 0.0
  }

  /** Position weighs 60%, CTR 40%. */
  function RawScore(ctr: real, position: real): (s: real)
    ensures 0.0 <= s <= 100.0
  {
    PositionScore(position) * 0.6 + CtrScore(ctr) * 0.4
  }

  /** `Math.round` of the weighted score. */
  function SeoScore(ctr: real, position: real): (s: int)
    ensures 0 <= s <= 100
  {
    var raw := RawScore(ctr, position);
    RoundMono(0.0, raw);
    RoundMono(raw, 100.0);
    RoundOfInt(0);
    RoundOfInt(100);
    Round(raw)
  }

  /** A better (lower) position never scores less, and the position part is
      continuous where its pieces meet: 100 at 1, 50 at 10, 0 at 20. */
  lemma PositionScoreMonotone(p: real, q: real)
    requires p <= q
    ensures PositionScore(p) >= PositionScore(q)
    ensures PositionScore(1.0) == 100.0 && PositionScore(10.0) == 50.0 && PositionScore(20.0) == 0.0
  {
  }

  /** A higher CTR never scores less. */
  lemma CtrScoreMonotone(c: real, d: real)
    requires c <= d
    ensures CtrScore(c) <= CtrScore(d)
  {
  }

  /** Improving either metric never lowers the score. */
  lemma SeoScoreMonotone(c: real, p: real, c': real, p': real)
    requires c <= c' && p' <= p
    ensures SeoScore(c, p) <= SeoScore(c', p')
  {
    PositionScoreMonotone(p', p);
    CtrScoreMonotone(c, c');
    RoundMono(RawScore(c, p), RawScore(c', p'));
  }

  /** The anchor points: top position with 2% CTR is 100, position 20 with no
      clicks is 0, and position 10 with 1% CTR is 50. */
  lemma ScoreAnchors()
    ensures SeoScore(2.0, 1.0) == 100
    ensures SeoScore(0.0, 20.0) == 0
    ensures SeoScore(1.0, 10.0) == 50
  {
    RoundOfInt(100);
    RoundOfInt(0);
    RoundOfInt(50);
  }

  /** A summary without data reports position 0, which the position part reads
      as "first place": an empty summary scores 60, not 0. */
  lemma EmptySummaryScoresSixty()
    ensures SeoScore(0.0, 0.0) == 60
  {
    RoundOfInt(60);
  }

  // ---------------------------------------------------------------------
  // The component

  const ZeroMetrics: ScoreMetrics := ScoreMetrics(0.0, 0.0, 0, 0.0, 0, None)

  /** `prevDays`: twice the period, as a period parameter. */
  function PreviousPeriod(period: string): (p: string)
    ensures period == "7d" ==> p == "14d"
    ensures period == "30d" ==> p == "60d"
    ensures period != "7d" && period != "30d" ==> p == "180d"
  {
    if period == "7d" then "14d" else if period == "30d" then "60d" else "180d"
  }

  /** `((current - prev) / prev) * 100` when the previous clicks are positive, else 0. */
  function ClicksChange(current: int, prev: int): (r: real)
    ensures prev <= 0 ==> r == 0.0
    ensures prev > 0 ==> (r > 0.0 <==> current > prev) && (r == 0.0 <==> current == prev)
  {
    if prev > 0 then
      var d := (current - prev) as real / prev as real;
      assert d * prev as real == (current - prev) as real;
      d * 100.0
    else 0.0
  }

  /** `calculateSEOScore`: the metrics the card shows. A failed first request
      or a missing summary gives the all-zero metrics; a failed second request
      leaves the previous clicks and score at 0. */
  function Metrics(period: string, initial: Option<Summary>, fetch: string -> Fetch): (m: ScoreMetrics)
    ensures initial.None? && fetch(period).NotOk? ==> m == ZeroMetrics
    ensures initial.None? && fetch(period) == Fetched(None) ==> m == ZeroMetrics
    ensures m == ZeroMetrics <==> initial.None? && (fetch(period).NotOk? || fetch(period).summary.None?)
    ensures initial.Some? || (fetch(period).Fetched? && fetch(period).summary.Some?) ==>
      var s := if initial.Some? then initial.value else fetch(period).summary.value;
      m.seoScore == SeoScore(s.ctr, s.position) && m.clicks == s.clicks
      && m.avgPosition == Round1(s.position) && m.avgCtr == Round2(s.ctr)
      && m.previousScore.Some? && 0 <= m.previousScore.value <= 100
      && (fetch(PreviousPeriod(period)).NotOk? ==> m.previousScore == Some(0) && m.clicksChange == 0.0)
      && (fetch(PreviousPeriod(period)).Fetched? ==>
            var prev := fetch(PreviousPeriod(period)).summary;
            var prevClicks := (if prev.Some? then prev.value.clicks else 0) - s.clicks;
            var prevRaw := if prev.Some? then RawScore(prev.value.ctr, prev.value.position) else RawScore(0.0, 0.0);
            m.clicksChange == Round1(ClicksChange(s.clicks, prevClicks)) && m.previousScore == Some(Round(prevRaw)))
  {
    var data := if initial.Some? then initial
                else if fetch(period).NotOk? then None
                else fetch(period).summary;
    match data
    case None => ZeroMetrics
    case Some(s) =>
      var prev := fetch(PreviousPeriod(period));
      var prevClicks := if prev.Fetched? then (if prev.summary.Some? then prev.summary.value.clicks else 0) - s.clicks else 0;
      var prevScore := if prev.Fetched? then
                         (if prev.summary.Some? then RawScore(prev.summary.value.ctr, prev.summary.value.position)
                          else RawScore(0.0, 0.0))
                       else 0.0;
      RoundMono(0.0, prevScore);
      RoundMono(prevScore, 100.0);
      RoundOfInt(0);
      RoundOfInt(100);
      ScoreMetrics(Round1(s.position), Round2(s.ctr), s.clicks, Round1(ClicksChange(s.clicks, prevClicks)),
                   SeoScore(s.ctr, s.position), Some(Round(prevScore)))
  }

  /** An empty summary does not reach the placeholder: the card shows 60. */
  lemma EmptySummaryShowsScore(period: string, fetch: string -> Fetch)
    ensures var m := Metrics(period, Some(GscSummary.Summary(0, 0, 0.0, 0.0)), fetch);
      !ShowsPlaceholder(Some(m)) && m.seoScore == 60
  {
    EmptySummaryScoresSixty();
  }

  datatype Band = Green | Yellow | Red

  /** The score colour: green from 80, yellow from 60, red below. */
  function ScoreBand(score: int): (b: Band)
    ensures b == Green <==> score >= 80
    ensures b == Yellow <==> 60 <= score < 80
    ensures b == Red <==> score < 60
  {
    if score >= 80 then Green else if score >= 60 then Yellow else Red
  }

  /** The card shows the "GSC連携が必要です" placeholder when there are no
      metrics or the score is 0. */
  predicate ShowsPlaceholder(m: Option<ScoreMetrics>)
  {
    m.None? || m.value.seoScore == 0
  }

  /** The score change shown next to the score. */
  function ScoreChange(m: ScoreMetrics): (d: int)
    ensures m.previousScore.None? ==> d == 0
    ensures m.previousScore.Some? ==> m.seoScore == m.previousScore.value + d
  {
    if m.previousScore.Some? then m.seoScore - m.previousScore.value else 0
  }

  // ---------------------------------------------------------------------
  // The previous period, as written and as intended

  /** The stats route's answer for a period when `clicksIn(n)` are the clicks
      and `summaryOf(n)` the summary of the last `n` days: it knows only
      `"30d"` and `"90d"`, and reads every other period as seven days. */
  function RouteFetch(summaryOf: int -> Summary): string -> Fetch
  {
    (p: string) => Fetched(Some(summaryOf(GscSummary.SummaryPeriodDays(Some(p)))))
  }

  /** As written, a 7-day card's "previous" request is another 7-day request,
      and a 30- or 90-day card's is also a 7-day one; with clicks that do not
      shrink as the window grows the click change is always 0, and a 7-day
      card's previous score is its own score. */
  lemma ClicksChangeAlwaysZero(period: string, summaryOf: int -> Summary)
    requires period == "7d" || period == "30d" || period == "90d"
    requires summaryOf(7).clicks <= summaryOf(GscSummary.SummaryPeriodDays(Some(period))).clicks
    ensures var m := Metrics(period, None, RouteFetch(summaryOf));
      m.clicksChange == 0.0
      && (period == "7d" ==> m.previousScore == Some(m.seoScore))
  {
    var fetch := RouteFetch(summaryOf);
    assert GscSummary.SummaryPeriodDays(Some(PreviousPeriod(period))) == 7;
    var s := summaryOf(GscSummary.SummaryPeriodDays(Some(period)));
    assert fetch(period) == Fetched(Some(s));
    assert fetch(PreviousPeriod(period)) == Fetched(Some(summaryOf(7)));
    Round1Zero();
  }

  lemma Round1Zero()
    ensures Round1(0.0) == 0.0
  {
    RoundOfInt(0);
  }

  /** 100 clicks this week after 50 the week before should show +100%; the
      card shows 0. */
  lemma LastWeekIsInvisible()
    ensures var summaryOf := (n: int) => GscSummary.Summary(if n == 7 then 100 else 150, 1000, 1.0, 5.0);
      Metrics("7d", None, RouteFetch(summaryOf)).clicksChange == 0.0
      && ClicksChange(100, 150 - 100) == 100.0
  {
    var summaryOf := (n: int) => GscSummary.Summary(if n == 7 then 100 else 150, 1000, 1.0, 5.0);
    ClicksChangeAlwaysZero("7d", summaryOf);
  }

  /** The periods the previous-period request needs: the route's own three
      plus their doubles, read as that many days. */
  function ExtendedPeriodDays(period: string): (days: int)
    ensures period == "14d" ==> days == 14
    ensures period == "60d" ==> days == 60
    ensures period == "180d" ==> days == 180
    ensures period != "14d" && period != "60d" && period != "180d" ==> days == GscSummary.SummaryPeriodDays(Some(period))
  {
    if period == "14d" then 14 else if period == "60d" then 60 else if period == "180d" then 180
    else GscSummary.SummaryPeriodDays(Some(period))
  }

  function ExtendedRouteFetch(summaryOf: int -> Summary): string -> Fetch
  {
    (p: string) => Fetched(Some(summaryOf(ExtendedPeriodDays(p))))
  }

  function PeriodLength(period: string): int
  {
    GscSummary.SummaryPeriodDays(Some(period))
  }

  /** With a route that honours the doubled periods, the "previous" clicks are
      the clicks of the `n` days before the current `n`, and the change is
      positive exactly when this period beat that one. */
  lemma ClicksChangeComparesPeriods(period: string, summaryOf: int -> Summary)
    requires period == "7d" || period == "30d" || period == "90d"
    ensures var n := PeriodLength(period);
      var prev := summaryOf(2 * n).clicks - summaryOf(n).clicks;
      var m := Metrics(period, None, ExtendedRouteFetch(summaryOf));
      m.clicks == summaryOf(n).clicks
      && m.clicksChange == Round1(ClicksChange(summaryOf(n).clicks, prev))
      && (prev > 0 ==> (ClicksChange(summaryOf(n).clicks, prev) > 0.0 <==> summaryOf(n).clicks > prev))
  {
    var fetch := ExtendedRouteFetch(summaryOf);
    var n := PeriodLength(period);
    assert ExtendedPeriodDays(PreviousPeriod(period)) == 2 * n;
    assert ExtendedPeriodDays(period) == n;
    assert fetch(period) == Fetched(Some(summaryOf(n)));
    assert fetch(PreviousPeriod(period)) == Fetched(Some(summaryOf(2 * n)));
  }
}

=== FILE: improvement.dfy ===
/** The "queries to improve" list: search queries ranked 8th to 30th whose
    click-through rate lags what their position should earn, scored and
    listed best first. `Math.log10` is the input `log10`. */
module Improvement {
  import opened Common
  import opened Grouping
  import opened GscSummary

  const DefaultLimit: int := 5

  datatype Candidate = Candidate(row: SearchRow, score: real)

  /** `query.ctr || 0`. */
  function CtrOf(r: SearchRow): real { if r.ctr.Some? then r.ctr.value else 0.0 }

  /** The click-through rate as a percent. */
  function CtrPercent(r: SearchRow): real { CtrOf(r) * 100.0 }

  predicate InRankBand(position: real)
  {
    8.0 <= position <= 30.0
  }

  /** The percent a position is expected to earn: 10 up to 12th, 7 up to
      18th, 5 up to 24th, 3 beyond. */
  function ExpectedCtr(position: real): (e: real)
    ensures position <= 12.0 ==> e == 10.0
    ensures 12.0 < position <= 18.0 ==> e == 7.0
    ensures 18.0 < position <= 24.0 ==> e == 5.0
    ensures position > 24.0 ==> e == 3.0
  {
    if position <= 12.0 then 10.0 else if position <= 18.0 then 7.0 else if position <= 24.0 then 5.0 else 3.0
  }

  /** The shortfall against the expected rate, weighted 1.5. */
  function GapScore(r: SearchRow): (s: real)
    ensures s >= 0.0
    ensures s > 0.0 <==> ExpectedCtr(PositionOf(r)) > CtrPercent(r)
  {
    var gap := ExpectedCtr(PositionOf(r)) - CtrPercent(r);
    if gap > 0.0 then gap * 1.5 else 0.0
  }

  /** `max(0, 32 - position)`: the closer to the first page, the more. */
  function RankScore(r: SearchRow): (s: real)
    ensures s >= 0.0 && s >= 32.0 - PositionOf(r)
  {
    MaxReal(0.0, 32.0 - PositionOf(r))
  }

  /** Up to 5 points for clicks. */
  function ClickScore(r: SearchRow): (s: real)
    ensures 0.0 <= s <= 5.0
    ensures ClicksOf(r) <= 0 ==> s == 0.0
  {
    if ClicksOf(r) > 0 then (if ClicksOf(r) < 5 then ClicksOf(r) as real else 5.0) else 0.0
  }

  /** Up to 6 points for at least 30 impressions, `3·log10(impressions + 1)`. */
  function ImpressionScore(r: SearchRow, log10: real -> real): (s: real)
    ensures s <= 6.0
    ensures ImpressionsOf(r) < 30 ==> s == 0.0
  {
    if ImpressionsOf(r) >= 30 then MinReal(log10(ImpressionsOf(r) as real + 1.0) * 3.0, 6.0) else 0.0
  }

  function Score(r: SearchRow, log10: real -> real): real
  {
    GapScore(r) + RankScore(r) + ClickScore(r) + ImpressionScore(r, log10)
  }

  /** `meetsCTR`: below 8% up to 15th, below 5% up to 22nd, below 4% anywhere. */
  predicate MeetsCtr(r: SearchRow)
  {
    (PositionOf(r) <= 15.0 && CtrPercent(r) < 8.0) || (PositionOf(r) <= 22.0 && CtrPercent(r) < 5.0) || CtrPercent(r) < 4.0
  }

  /** `hasImpact`, with its three disjuncts as written. */
  predicate HasImpact(r: SearchRow)
  {
    ClicksOf(r) >= 2 || ImpressionsOf(r) >= 50 || (ClicksOf(r) == 0 && ImpressionsOf(r) >= 100)
  }

  predicate Qualifies(r: SearchRow, log10: real -> real)
  {
    InRankBand(PositionOf(r)) && MeetsCtr(r) && HasImpact(r) && Score(r, log10) >= 10.0
  }

  /** The third impact disjunct adds nothing: 100 impressions are already 50. */
  lemma ImpactThirdDisjunctRedundant(r: SearchRow)
    ensures HasImpact(r) <==> ClicksOf(r) >= 2 || ImpressionsOf(r) >= 50
  {
  }

  /** In the rank band and with a non-negative rate a score lies between 2
      and 50, whatever `log10` gives. */
  lemma ScoreBounds(r: SearchRow, log10: real -> real)
    requires InRankBand(PositionOf(r)) && CtrOf(r) >= 0.0
    ensures 2.0 <= Score(r, log10) - ImpressionScore(r, log10)
    ensures Score(r, log10) <= 50.0
  {
    assert ExpectedCtr(PositionOf(r)) <= 10.0;
  }

  /** The candidates in input order: the qualifying rows with their scores. */
  function Candidates(rows: seq<SearchRow>, log10: real -> real): (cs: seq<Candidate>)
    ensures |cs| <= |rows|
    ensures forall c :: c in cs <==> c.row in rows && Qualifies(c.row, log10) && c.score == Score(c.row, log10)
  {
    if |rows| == 0 then []
    else
      var init := rows[..|rows| - 1];
      var r := rows[|rows| - 1];
      assert rows == init + [r];
      Candidates(init, log10) + (if Qualifies(r, log10) then [Candidate(r, Score(r, log10))] else [])
  }

  function ScoreRank(c: Candidate): real { c.score }

  /** The `useMemo`: candidates by descending score (ties in input order),
      `slice(0, limit)`. */
  function ImprovementList(rows: seq<SearchRow>, limit: int, log10: real -> real): seq<Candidate>
  {
    JsSlice(SortDesc(Candidates(rows, log10), ScoreRank), limit)
  }

  /** Every listed query is an input row in the rank band that meets the rate
      and impact tests and scores at least 10; the list is best first and at
      most `limit` long; with room for all, every qualifying row is listed. */
  lemma ImprovementListFacts(rows: seq<SearchRow>, limit: int, log10: real -> real)
    ensures var out := ImprovementList(rows, limit, log10);
      SortedDesc(out, ScoreRank)
      && (limit >= 0 ==> |out| <= limit)
      && (forall c :: c in out ==> c.row in rows && Qualifies(c.row, log10) && c.score == Score(c.row, log10)
                                   && InRankBand(PositionOf(c.row)) && c.score >= 10.0)
      && (limit >= |rows| ==> forall r :: r in rows && Qualifies(r, log10) ==> Candidate(r, Score(r, log10)) in out)
  {
    var cs := Candidates(rows, log10);
    var s := SortDesc(cs, ScoreRank);
    var out := ImprovementList(rows, limit, log10);
    assert out <= s;
    assert out == s[..|out|];
    forall i, j | 0 <= i < j < |out| ensures ScoreRank(out[i]) >= ScoreRank(out[j]) {
      assert out[i] == s[i] && out[j] == s[j];
    }
    forall c | c in out ensures c in cs {
      assert c in s;
      assert c in multiset(s);
    }
    if limit >= |rows| {
      assert out == s;
      forall r | r in rows && Qualifies(r, log10) ensures Candidate(r, Score(r, log10)) in out {
        assert Candidate(r, Score(r, log10)) in multiset(cs);
      }
    }
  }

  /** A row past 30th is never listed, however low its rate. */
  lemma PastThirtiethNeverListed(rows: seq<SearchRow>, limit: int, log10: real -> real, r: SearchRow)
    requires PositionOf(r) > 30.0
    ensures forall c :: c in ImprovementList(rows, limit, log10) ==> c.row != r
  {
    ImprovementListFacts(rows, limit, log10);
  }

  /** A query at 10th with no clicks, 60 impressions and a 0% rate is listed
      when it is the only row (for any `log10` that is non-negative there). */
  lemma LaggingQueryListed(log10: real -> real)
    requires log10(61.0) >= 0.0
    ensures var r := SearchRow(["q"], Some(0), Some(60), Some(0.0), Some(10.0));
      ImprovementList([r], DefaultLimit, log10) == [Candidate(r, Score(r, log10))]
      && Score(r, log10) >= 37.0
  {
    var r := SearchRow(["q"], Some(0), Some(60), Some(0.0), Some(10.0));
    assert Qualifies(r, log10);
    assert Candidates([r], log10) == [Candidate(r, Score(r, log10))] by {
      assert [r][..0] == [];
    }
  }

  /** What the component gets: an explicit non-empty list wins; otherwise the
      stats route's `queries`, or nothing when the request fails. */
  datatype QueryFetch = FetchFailed | Body(queries: Option<seq<SearchRow>>)

  function SourceRows(initial: seq<SearchRow>, fetched: QueryFetch): (rows: seq<SearchRow>)
    ensures |initial| > 0 ==> rows == initial
    ensures |initial| == 0 && fetched.FetchFailed? ==> rows == []
    ensures |initial| == 0 && fetched.Body? && fetched.queries.Some? ==> rows == fetched.queries.value
  {
    if |initial| > 0 then initial
    else match fetched
      case FetchFailed => []
      case Body(qs) => if qs.Some? then qs.value else []
  }

  /** A failed request shows an empty list. */
  lemma FailedFetchShowsNothing(limit: int, log10: real -> real)
    ensures ImprovementList(SourceRows([], FetchFailed), limit, log10) == []
  {
  }
}

=== FILE: ingest.dfy ===
/** The `/track` endpoint: validates a beacon body, resolves the site by its
    public tracking id, and appends one event row. The request body, the
    sites table and the event log are inputs; the log after the call is part
    of the result. */
module Ingest {
  import opened Common
  import opened Schema
  import Payload

  /** A parsed JSON request body. Text fields are strings keyed by name (an
      absent key reads as `undefined`); `timestamp` is the JSON value sent
      under that key, `None` when the key is absent. */
  datatype Body = Body(text: map<string, string>, eventValue: Json, timestamp: Option<Json>)

  datatype Outcome = MissingFields | SiteUnavailable | Stored | ServerError

  function Status(o: Outcome): int
  {
    match o
    case MissingFields => 400
    case SiteUnavailable => 404
    case Stored => 200
    case ServerError => 500
  }

  /** `data.<name>`, with `undefined` read as the empty string (both are falsy). */
  function Field(b: Body, name: string): string
  {
    if name in b.text then b.text[name] else ""
  }

  /** `!data.siteId || !data.eventType || !data.visitorHash || !data.sessionHash`. */
  predicate MissingRequired(b: Body)
  {
    Field(b, "siteId") == "" || Field(b, "eventType") == "" || Field(b, "visitorHash") == "" || Field(b, "sessionHash") == ""
  }

  /** `!site || !site.trackingEnabled`: an unknown site and a disabled one look the same. */
  predicate Accepting(site: Option<Site>)
  {
    site.Some? && site.value.trackingEnabled == Some(true)
  }

  /** The row the endpoint inserts: the internal site id, the four required
      fields, and `|| null` on every optional one. */
  function EventRow(site: Site, b: Body, timestamp: int): (e: Event)
    ensures e.siteId == site.id
    ensures e.eventType == Field(b, "eventType") && e.visitorHash == Field(b, "visitorHash") && e.sessionHash == Field(b, "sessionHash")
    ensures e.referrer == OrNull(Field(b, "referrer")) && e.path == OrNull(Field(b, "path")) && e.url == OrNull(Field(b, "url"))
    ensures e.title == OrNull(Field(b, "title")) && e.country == OrNull(Field(b, "country")) && e.eventName == OrNull(Field(b, "eventName"))
    ensures e.deviceType == OrNull(Field(b, "deviceType")) && e.screenSize == OrNull(Field(b, "screenSize"))
    ensures e.browser == OrNull(Field(b, "browser")) && e.os == OrNull(Field(b, "os"))
    ensures e.eventValue == JsonOrNull(b.eventValue) && e.timestamp == timestamp
  {
    Event(
      site.id,
      Field(b, "eventType"),
      Field(b, "visitorHash"),
      Field(b, "sessionHash"),
      OrNull(Field(b, "url")),
      OrNull(Field(b, "path")),
      OrNull(Field(b, "title")),
      OrNull(Field(b, "referrer")),
      OrNull(Field(b, "deviceType")),
      OrNull(Field(b, "screenSize")),
      OrNull(Field(b, "browser")),
      OrNull(Field(b, "os")),
      OrNull(Field(b, "country")),
      OrNull(Field(b, "eventName")),
      JsonOrNull(b.eventValue),
      timestamp)
  }

  // ---------------------------------------------------------------------
  // The timestamp: `new Date(data.timestamp * 1000)`

  /** The largest magnitude of a time value, in milliseconds (ECMA-262,
      section 21.4.1.1, Time Values and Time Range), and the same in seconds. */
  const MaxTimeMs: int := 8_640_000_000_000_000
  const MaxSeconds: int := 8_640_000_000_000

  /** `Number(v)` (ECMA-262, section 7.1.4, ToNumber) on a body field; `None`
      is NaN or an infinity. An absent field is `undefined`, hence NaN; `null`
      and `false` are 0 and `true` is 1. The number a string denotes (section
      7.1.4.1.1, StringToNumber) is `textNumber`, and that of an array or an
      object, through its primitive value, is `compositeNumber`: both are inputs. */
  function JsNumber(v: Option<Json>, textNumber: string -> Option<real>, compositeNumber: Option<real>): Option<real>
  {
    match v
    case None => None
    case Some(JNull) => Some(0.0)
    case Some(JBool(b)) => Some(if b then 1.0 else 0.0)
    case Some(JNum(n)) => Some(n)
    case Some(JStr(s)) => textNumber(s)
    case Some(JComposite) => compositeNumber
  }

  /** Rounding toward zero (ECMA-262, section 7.1.5, ToIntegerOrInfinity, on a finite number). */
  function Truncate(x: real): (t: int)
    ensures x >= 0.0 ==> t as real <= x < t as real + 1.0
    ensures x < 0.0 ==> t as real - 1.0 < x <= t as real
  {
    if x >= 0.0 then x.Floor else -((-x).Floor)
  }

  /** The Unix seconds the not-null `timestamp` column receives for
      `new Date(seconds * 1000)`: the Date constructor clips the millisecond
      value (ECMA-262, section 21.4.1.31, TimeClip) and the column stores
      `Math.floor(ms / 1000)`. `None` is the invalid date, whose NaN the column
      refuses, which surfaces as the route's 500 branch. */
  function StoredSeconds(seconds: Option<real>): (r: Option<int>)
    ensures r.Some? <==> seconds.Some? && -(MaxTimeMs as real) <= seconds.value * 1000.0 <= MaxTimeMs as real
    ensures r.Some? && seconds.value >= 0.0 ==> r.value == seconds.value.Floor
  {
    match seconds
    case None => None
    case Some(x) =>
      if x * 1000.0 < -(MaxTimeMs as real) || MaxTimeMs as real < x * 1000.0 then None
      else
        var ms := Truncate(x * 1000.0);
        if x >= 0.0 then FloorOfMillis(x, ms); Some(ms / 1000)
        else Some(ms / 1000)
  }

  /** Whole seconds of a non-negative time survive the round trip through milliseconds. */
  lemma {:induction false} FloorOfMillis(x: real, ms: int)
    requires x >= 0.0 && ms as real <= x * 1000.0 < ms as real + 1.0
    ensures ms / 1000 == x.Floor
  {
    var k := x.Floor;
    assert k as real <= x < k as real + 1.0;
    assert (1000 * k) as real <= x * 1000.0 < (1000 * k + 1000) as real;
    assert 1000 * k <= ms < 1000 * k + 1000;
    assert ms == 1000 * k + (ms - 1000 * k);
  }

  /** An integer number of seconds within the time range is stored unchanged. */
  lemma {:induction false} IntegerSecondsKept(n: int)
    requires -MaxSeconds <= n <= MaxSeconds
    ensures StoredSeconds(Some(n as real)) == Some(n)
  {
    assert (n as real) * 1000.0 == (n * 1000) as real;
    assert Truncate((n * 1000) as real) == n * 1000;
  }

  /** The seconds a body's timestamp is stored at, `None` for the invalid date. */
  function TimestampOf(b: Body, textNumber: string -> Option<real>, compositeNumber: Option<real>): Option<int>
  {
    StoredSeconds(JsNumber(b.timestamp, textNumber, compositeNumber))
  }

  // ---------------------------------------------------------------------
  // The endpoint

  /** `POST /track`. `body` is `None` when `request.json()` throws. The
      timestamp is coerced as `data.timestamp * 1000` does (`TimestampOf`); an
      invalid date is the 500 branch. */
  function Track(sites: seq<Site>, log: seq<Event>, body: Option<Body>,
                 textNumber: string -> Option<real>, compositeNumber: Option<real>): (r: (Outcome, seq<Event>))
    ensures r.0 != Stored ==> r.1 == log
    ensures r.0 == Stored ==> |r.1| == |log| + 1 && r.1[..|log|] == log
    ensures body.None? ==> r.0 == ServerError
    ensures body.Some? && MissingRequired(body.value) ==> r.0 == MissingFields
    ensures body.Some? && !MissingRequired(body.value) && !Accepting(SiteByTrackingId(sites, Field(body.value, "siteId")))
      ==> r.0 == SiteUnavailable
    ensures body.Some? && !MissingRequired(body.value) && Accepting(SiteByTrackingId(sites, Field(body.value, "siteId")))
      && TimestampOf(body.value, textNumber, compositeNumber).None?
      ==> r.0 == ServerError
    ensures r.0 == Stored <==>
      body.Some? && !MissingRequired(body.value) && Accepting(SiteByTrackingId(sites, Field(body.value, "siteId")))
      && TimestampOf(body.value, textNumber, compositeNumber).Some?
    ensures r.0 == Stored ==>
      r.1[|log|] == EventRow(SiteByTrackingId(sites, Field(body.value, "siteId")).value, body.value,
                             TimestampOf(body.value, textNumber, compositeNumber).value)
  {
    match body
    case None => (ServerError, log)
    case Some(b) =>
      if MissingRequired(b) then (MissingFields, log)
      else
        var site := SiteByTrackingId(sites, Field(b, "siteId"));
        if !Accepting(site) then (SiteUnavailable, log)
        else
          match TimestampOf(b, textNumber, compositeNumber)
          case None => (ServerError, log)
          case Some(t) =>
            var log' := log + [EventRow(site.value, b, t)];
            assert log'[..|log|] == log;
            (Stored, log')
  }

  /** Rows the endpoint writes: required text present and optional text never the empty string. */
  predicate IngestedRow(e: Event)
  {
    e.eventType != "" && e.visitorHash != "" && e.sessionHash != ""
    && e.url != Some("") && e.path != Some("") && e.title != Some("") && e.referrer != Some("")
    && e.deviceType != Some("") && e.screenSize != Some("") && e.browser != Some("") && e.os != Some("")
    && e.country != Some("") && e.eventName != Some("")
  }

  /** The endpoint keeps the log made only of such rows, and every new row
      belongs to a site that exists and has tracking enabled. */
  lemma TrackKeepsLogInvariant(sites: seq<Site>, log: seq<Event>, body: Option<Body>,
                                textNumber: string -> Option<real>, compositeNumber: Option<real>)
    requires forall e :: e in log ==> IngestedRow(e)
    ensures forall e :: e in Track(sites, log, body, textNumber, compositeNumber).1 ==> IngestedRow(e)
    ensures Track(sites, log, body, textNumber, compositeNumber).0 == Stored ==>
      var e := Track(sites, log, body, textNumber, compositeNumber).1[|log|];
      exists s :: s in sites && s.id == e.siteId && s.trackingEnabled == Some(true)
  {
    var r := Track(sites, log, body, textNumber, compositeNumber);
    if r.0 == Stored {
      var b := body.value;
      var s := SiteByTrackingId(sites, Field(b, "siteId")).value;
      assert r.1 == log + [r.1[|log|]];
      assert IngestedRow(r.1[|log|]);
      assert s in sites;
    }
  }

  /** An unknown tracking id and a disabled site give the same answer. */
  lemma UnknownAndDisabledLookAlike(sites: seq<Site>, log: seq<Event>, b: Body, disabled: Site,
                                     textNumber: string -> Option<real>, compositeNumber: Option<real>)
    requires !MissingRequired(b)
    requires SiteByTrackingId(sites, Field(b, "siteId")) == Some(disabled) && disabled.trackingEnabled != Some(true)
    ensures Track(sites, log, Some(b), textNumber, compositeNumber)
         == Track([], log, Some(b), textNumber, compositeNumber) == (SiteUnavailable, log)
  {
  }

  /** JavaScript's coercion of the timestamp: `null` and `false` are stored
      as the epoch and `true` as one second after it, while an absent
      timestamp is NaN, so the insert fails. */
  lemma CoercedTimestamps(sites: seq<Site>, log: seq<Event>, b: Body,
                          textNumber: string -> Option<real>, compositeNumber: Option<real>)
    requires !MissingRequired(b) && Accepting(SiteByTrackingId(sites, Field(b, "siteId")))
    ensures b.timestamp == Some(JNull) || b.timestamp == Some(JBool(false)) ==>
      var r := Track(sites, log, Some(b), textNumber, compositeNumber);
      r.0 == Stored && r.1[|log|].timestamp == 0
    ensures b.timestamp == Some(JBool(true)) ==>
      var r := Track(sites, log, Some(b), textNumber, compositeNumber);
      r.0 == Stored && r.1[|log|].timestamp == 1
    ensures b.timestamp.None? ==> Track(sites, log, Some(b), textNumber, compositeNumber) == (ServerError, log)
  {
  }

  /** The CORS preflight answer (Fetch Standard, section 3.2, CORS protocol). */
  datatype Preflight = Preflight(status: int, headers: map<string, string>)

  function Options(): (r: Preflight)
    ensures r.status == 200
    ensures r.headers.Keys == {"Access-Control-Allow-Origin", "Access-Control-Allow-Methods", "Access-Control-Allow-Headers"}
    ensures r.headers["Access-Control-Allow-Origin"] == "*"
    ensures r.headers["Access-Control-Allow-Methods"] == "POST, OPTIONS"
    ensures r.headers["Access-Control-Allow-Headers"] == "Content-Type"
  {
    Preflight(200, map[
      "Access-Control-Allow-Origin" := "*",
      "Access-Control-Allow-Methods" := "POST, OPTIONS",
      "Access-Control-Allow-Headers" := "Content-Type"])
  }

  // ---------------------------------------------------------------------
  // Beacon to endpoint

  /** The JSON body the beacon sends, as the endpoint parses it, for a beacon
      whose event type is a string. Its event name is a string or `null`: a
      string becomes a text field, and `null` is left out of the text fields,
      which `data.eventName || null` reads the same as `null`. */
  function WireBody(p: Payload.Payload): (b: Body)
    requires p.eventType.JStr?
    ensures Field(b, "siteId") == p.siteId && Field(b, "eventType") == p.eventType.s
    ensures Field(b, "visitorHash") == p.visitorHash && Field(b, "sessionHash") == p.sessionHash
    ensures Field(b, "referrer") == p.referrer && Field(b, "path") == p.path
    ensures b.timestamp == Some(JNum(p.timestamp as real))
  {
    var base := map[
      "siteId" := p.siteId, "eventType" := p.eventType.s, "visitorHash" := p.visitorHash,
      "sessionHash" := p.sessionHash, "url" := p.url, "path" := p.path, "title" := p.title,
      "referrer" := p.referrer, "deviceType" := p.deviceType, "screenSize" := p.screenSize,
      "browser" := p.browser, "os" := p.os];
    var text := if p.eventName.JStr? then base["eventName" := p.eventName.s] else base;
    Body(text, p.eventValue, Some(JNum(p.timestamp as real)))
  }

  /** A beacon body for an enabled site, sent at a time within the Date
      range, is always stored, as exactly one row carrying the beacon's hashes
      and timestamp under the site's internal id; an empty referrer is stored
      as NULL. */
  lemma BeaconEventIsStored(sites: seq<Site>, log: seq<Event>, p: Payload.Payload,
                            textNumber: string -> Option<real>, compositeNumber: Option<real>)
    requires p.eventType.JStr? && p.eventType.s != ""
    requires p.siteId != "" && p.visitorHash != "" && p.sessionHash != ""
    requires Accepting(SiteByTrackingId(sites, p.siteId))
    requires -MaxSeconds <= p.timestamp <= MaxSeconds
    ensures var r := Track(sites, log, Some(WireBody(p)), textNumber, compositeNumber);
      r.0 == Stored && r.1 == log + [r.1[|log|]]
      && r.1[|log|].siteId == SiteByTrackingId(sites, p.siteId).value.id
      && r.1[|log|].visitorHash == p.visitorHash && r.1[|log|].sessionHash == p.sessionHash
      && r.1[|log|].timestamp == p.timestamp
      && (p.referrer == "" ==> r.1[|log|].referrer.None?)
  {
    var b := WireBody(p);
    assert !MissingRequired(b);
    IntegerSecondsKept(p.timestamp);
    var r := Track(sites, log, Some(b), textNumber, compositeNumber);
    assert r.1 == log + [r.1[|log|]];
  }
}

=== FILE: insights.dfy ===
/** The AI insights: `generateAIInsights` asks Gemini for at most three
    suggestions about a site's analytics and reads a JSON list from its answer;
    `GET /api/ai/insights` gathers the analytics, puts the model's SEO
    suggestions first and falls back on built-in rules when the model gives
    nothing. The model is the input `ask(data, model)`: the text it answers
    for the prompt built from `data`, or the error it raises; `JSON.parse` is
    the input `parse`. */
module Insights {
  import opened Common
  import opened Schema
  import opened Grouping
  import Stats
  import Sources
  import GscSummary

  datatype Insight = Insight(category: string, priority: string, title: string, description: string, actionItems: seq<string>)

  const PrimaryModel: string := "gemini-2.5-pro"
  const FallbackModel: string := "gemini-1.5-flash"
  const MaxInsights: int := 3

  /** What a `generateContent` call gives: the response text, or a raised
      error with its `status` and `message` when it has them. */
  datatype ModelReply = Raised(status: Option<int>, message: Option<string>) | Answered(text: string)

  // ---------------------------------------------------------------------
  // The analytics handed to the model

  datatype PageForAi = PageForAi(path: string, pageviews: int, bounceRate: int)
  datatype SourceForAi = SourceForAi(source: string, visitors: int)
  datatype DeviceShare = DeviceShare(mobile: int, desktop: int, tablet: int)
  datatype QueryForAi = QueryForAi(query: string, clicks: int, impressions: int, ctr: real, position: real)
  datatype GscForAi = GscForAi(clicks: int, impressions: int, ctr: real, position: real, topQueries: Option<seq<QueryForAi>>)

  datatype AnalyticsData = AnalyticsData(
    totalVisitors: int,
    totalPageviews: int,
    avgBounceRate: int,
    avgSessionDuration: int,
    topPages: seq<PageForAi>,
    topSources: seq<SourceForAi>,
    deviceBreakdown: DeviceShare,
    gscData: Option<GscForAi>)

  // ---------------------------------------------------------------------
  // Reading the answer

  /** `s.split(t)[0]` for a non-empty `t`: the text before the first `t`, all
      of `s` without one. */
  function HeadPiece(s: string, t: string): (r: string)
    requires |t| > 0
    ensures r <= s && !Contains(r, t)
    ensures Contains(s, t) ==> OccursAt(s, t, |r|)
    ensures !Contains(s, t) ==> r == s
  {
    match IndexOf(s, t)
    case None => s
    case Some(i) =>
      assert forall k :: !OccursAt(s[..i], t, k) by {
        forall k ensures !OccursAt(s[..i], t, k) {
          if 0 <= k && k + |t| <= i {
            assert !OccursAt(s, t, k);
            assert s[..i][k..k + |t|] == s[k..k + |t|];
          }
        }
      }
      ContainsIff(s[..i], t);
      s[..i]
  }

  /** `s.split(t)[1]` when `s` contains a non-empty `t`: the text between the
      first `t` and the next one, or the end. */
  function SecondPiece(s: string, t: string): (r: string)
    requires |t| > 0 && Contains(s, t)
    ensures !Contains(r, t)
  {
    var i := IndexOf(s, t).value;
    HeadPiece(s[i + |t|..], t)
  }

  const JsonFence: string := "```json"
  const Fence: string := "```"

  /** The JSON text in an already trimmed answer: inside a ```` ```json ````
      fence, else inside a plain fence, else the whole answer. */
  function Payload(j: string): (p: string)
  {
    if Contains(j, JsonFence) then Trim(HeadPiece(SecondPiece(j, JsonFence), Fence))
    else if Contains(j, Fence) then Trim(HeadPiece(SecondPiece(j, Fence), Fence))
    else j
  }

  /** An answer with a single ```` ```json ```` fence yields the trimmed text
      between that fence and the next ```` ``` ````. */
  lemma JsonFencePayload(j: string)
    requires Contains(j, JsonFence)
    requires !Contains(j[IndexOf(j, JsonFence).value + |JsonFence|..], JsonFence)
    ensures var rest := j[IndexOf(j, JsonFence).value + |JsonFence|..];
      var m := HeadPiece(rest, Fence);
      Payload(j) == Trim(m) && m <= rest && !Contains(m, Fence)
      && (Contains(rest, Fence) ==> OccursAt(rest, Fence, |m|))
  {
  }

  /** An answer with a plain fence yields the trimmed text between the first
      fence and the second (or the end). */
  lemma PlainFencePayload(j: string)
    requires !Contains(j, JsonFence) && Contains(j, Fence)
    ensures var rest := j[IndexOf(j, Fence).value + |Fence|..];
      var m := HeadPiece(rest, Fence);
      Payload(j) == Trim(m) && m <= rest && !Contains(m, Fence)
      && (Contains(rest, Fence) ==> OccursAt(rest, Fence, |m|))
  {
    var m := SecondPiece(j, Fence);
    assert HeadPiece(m, Fence) == m;
  }

  /** An answer without fences is parsed as it is. */
  lemma UnfencedPayload(j: string)
    requires !Contains(j, Fence)
    ensures Payload(j) == j
  {
    if Contains(j, JsonFence) {
      var i := IndexOf(j, JsonFence).value;
      assert j[i..i + 3] == j[i..i + |JsonFence|][..3];
      assert OccursAt(j, Fence, i);
      ContainsAt(j, Fence, i);
    }
  }

  // ---------------------------------------------------------------------
  // generateAIInsights

  /** `e?.status === 404 || e?.message?.includes("not found")`. */
  predicate Unavailable(e: ModelReply)
    requires e.Raised?
  {
    e.status == Some(404) || (e.message.Some? && Contains(e.message.value, "not found"))
  }

  /** The models asked in order and the answer text, `None` when the call
      that counts raised. */
  function AskModels(data: AnalyticsData, ask: (AnalyticsData, string) -> ModelReply): (r: (Option<string>, seq<string>))
    ensures r.1 == [PrimaryModel] || r.1 == [PrimaryModel, FallbackModel]
    ensures r.1 == [PrimaryModel, FallbackModel] <==> ask(data, PrimaryModel).Raised? && Unavailable(ask(data, PrimaryModel))
    ensures ask(data, PrimaryModel).Answered? ==> r.0 == Some(ask(data, PrimaryModel).text)
    ensures ask(data, PrimaryModel).Raised? && !Unavailable(ask(data, PrimaryModel)) ==> r.0.None?
    ensures |r.1| == 2 ==>
      (r.0.Some? <==> ask(data, FallbackModel).Answered?)
      && (r.0.Some? ==> r.0.value == ask(data, FallbackModel).text)
  {
    match ask(data, PrimaryModel)
    case Answered(text) => (Some(text), [PrimaryModel])
    case Raised(status, message) =>
      if !Unavailable(ask(data, PrimaryModel)) then (None, [PrimaryModel])
      else match ask(data, FallbackModel)
        case Answered(text) => (Some(text), [PrimaryModel, FallbackModel])
        case Raised(_, _) => (None, [PrimaryModel, FallbackModel])
  }

  /** `generateAIInsights(data)`: the parsed list, at most three long, and
      the models asked. Without an API key nothing is asked and the list is
      empty; a raised error or unparsable text gives an empty list too. */
  function GenerateInsights(data: AnalyticsData, hasKey: bool, ask: (AnalyticsData, string) -> ModelReply,
                            parse: string -> Option<seq<Insight>>): (r: (seq<Insight>, seq<string>))
    ensures |r.0| <= MaxInsights
    ensures !hasKey ==> r == ([], [])
    ensures hasKey ==> r.1 == AskModels(data, ask).1
    ensures hasKey ==>
      var text := AskModels(data, ask).0;
      (text.None? ==> r.0 == [])
      && (text.Some? && parse(Payload(Trim(text.value))).None? ==> r.0 == [])
      && (text.Some? && parse(Payload(Trim(text.value))).Some? ==>
            r.0 == Take(parse(Payload(Trim(text.value))).value, MaxInsights))
  {
    if !hasKey then ([], [])
    else
      var (text, calls) := AskModels(data, ask);
      match text
      case None => ([], calls)
      case Some(t) =>
        match parse(Payload(Trim(t)))
        case None => ([], calls)
        case Some(list) => (Take(list, MaxInsights), calls)
  }

  /** Every suggestion returned is one of the first three the model listed,
      in the model's order. */
  lemma InsightsArePrefixOfAnswer(data: AnalyticsData, hasKey: bool, ask: (AnalyticsData, string) -> ModelReply,
                                  parse: string -> Option<seq<Insight>>)
    ensures var r := GenerateInsights(data, hasKey, ask, parse);
      r.0 == [] || (hasKey && AskModels(data, ask).0.Some?
        && parse(Payload(Trim(AskModels(data, ask).0.value))).Some?
        && r.0 <= parse(Payload(Trim(AskModels(data, ask).0.value))).value)
  {
  }

  /** A model that answers first time is the only one asked. */
  lemma AnsweringModelIsAskedOnce(data: AnalyticsData, ask: (AnalyticsData, string) -> ModelReply,
                                  parse: string -> Option<seq<Insight>>)
    requires ask(data, PrimaryModel).Answered?
    ensures GenerateInsights(data, true, ask, parse).1 == [PrimaryModel]
  {
  }

  /** A quota error (status 429) is not retried and gives no insights. */
  lemma OtherErrorsAreNotRetried(data: AnalyticsData, ask: (AnalyticsData, string) -> ModelReply,
                                 parse: string -> Option<seq<Insight>>)
    requires ask(data, PrimaryModel) == Raised(Some(429), Some("quota exceeded"))
    ensures GenerateInsights(data, true, ask, parse) == ([], [PrimaryModel])
  {
    assert !Contains("quota exceeded", "not found") by {
      NoFirstChar("quota exceeded", "not found");
    }
  }

  // ---------------------------------------------------------------------
  // The analytics, from the stats routes' replies

  function TotalOrZero<T>(r: Stats.Reply<T>, total: T -> int): (n: int)
    ensures r.Ok? ==> n == total(r.body)
    ensures !r.Ok? ==> n == 0
  {
    if r.Ok? then total(r.body) else 0
  }

  function VisitorTotal(s: Stats.VisitorStats): int { s.total }
  function PageviewTotal(s: Stats.PageviewStats): int { s.total }

  /** `p.path || ""`, `p.pageviews || 0` and the fixed 45% bounce rate. */
  function PagesForAi(r: Stats.Reply<Stats.PagesBody>): (ps: seq<PageForAi>)
    ensures r.Ok? ==> |ps| == |r.body.pages|
    ensures r.Ok? ==> forall i :: 0 <= i < |ps| ==>
      ps[i] == PageForAi(OrElse(if r.body.pages[i].path.Some? then r.body.pages[i].path.value else "", ""),
                         r.body.pages[i].pageviews, 45)
    ensures !r.Ok? ==> ps == []
  {
    if !r.Ok? then []
    else
      var pages := r.body.pages;
      seq(|pages|, i requires 0 <= i < |pages| =>
        PageForAi(OrElse(if pages[i].path.Some? then pages[i].path.value else "", ""), pages[i].pageviews, 45))
  }

  /** `s.source || ""`: the sources route names the field `domain`, so the
      source is always empty; `s.visitors || 0`. */
  function SourcesForAi(r: Stats.Reply<Sources.SourcesBody>): (ss: seq<SourceForAi>)
    ensures r.Ok? ==> |ss| == |r.body.sources|
    ensures r.Ok? ==> forall i :: 0 <= i < |ss| ==> ss[i] == SourceForAi("", r.body.sources[i].visitors)
    ensures !r.Ok? ==> ss == []
  {
    if !r.Ok? then []
    else seq(|r.body.sources|, i requires 0 <= i < |r.body.sources| => SourceForAi("", r.body.sources[i].visitors))
  }

  /** `devicesData.mobile || 0` and so on: the devices route answers with
      `devices`, `browsers` and `os` lists and no such fields. */
  function DevicesForAi(r: Stats.Reply<Stats.DevicesBody>): (d: DeviceShare)
    ensures d == DeviceShare(0, 0, 0)
  {
    DeviceShare(0, 0, 0)
  }

  /** What `/api/gsc/stats` gave the route: a failed or refused request, or
      the body's `summary` and `queries` when present. */
  datatype GscFetch = GscUnavailable | GscBody(summary: Option<GscSummary.Summary>, queries: Option<seq<GscSummary.SearchRow>>)

  /** One top query: `keys[0] || ""`, zero for missing counts, the rate as
      a percent. */
  function QueryOf(q: GscSummary.SearchRow): (r: QueryForAi)
    ensures r.clicks == GscSummary.ClicksOf(q) && r.impressions == GscSummary.ImpressionsOf(q)
    ensures r.position == GscSummary.PositionOf(q)
    ensures r.ctr == (if q.ctr.Some? then q.ctr.value * 100.0 else 0.0)
    ensures |q.keys| > 0 ==> r.query == q.keys[0]
    ensures |q.keys| == 0 ==> r.query == ""
  {
    QueryForAi(if |q.keys| > 0 then q.keys[0] else "", GscSummary.ClicksOf(q), GscSummary.ImpressionsOf(q),
               if q.ctr.Some? then q.ctr.value * 100.0 else 0.0, GscSummary.PositionOf(q))
  }

  predicate GscLinked(site: Site)
  {
    site.gscEnabled == Some(true) && site.gscConfig.Some?
  }

  /** `gscDataForAI`: only for a linked site whose request succeeded; the
      first five queries. */
  function GscForSite(site: Site, fetched: GscFetch): (g: Option<GscForAi>)
    ensures g.Some? <==> GscLinked(site) && fetched.GscBody?
    ensures g.Some? && fetched.summary.Some? ==>
      var s := fetched.summary.value;
      g.value.clicks == s.clicks && g.value.impressions == s.impressions && g.value.ctr == s.ctr && g.value.position == s.position
    ensures g.Some? && fetched.summary.None? ==> g.value.clicks == 0 && g.value.impressions == 0 && g.value.ctr == 0.0
    ensures g.Some? ==> (g.value.topQueries.Some? <==> fetched.queries.Some?)
    ensures g.Some? && fetched.queries.Some? ==>
      var qs := fetched.queries.value;
      |g.value.topQueries.value| == (if |qs| < 5 then |qs| else 5)
      && forall i :: 0 <= i < |g.value.topQueries.value| ==> g.value.topQueries.value[i] == QueryOf(qs[i])
  {
    if !GscLinked(site) || fetched.GscUnavailable? then None
    else
      var s := if fetched.summary.Some? then fetched.summary.value else GscSummary.Summary(0, 0, 0.0, 0.0);
      var top := if fetched.queries.Some? then
                   var qs := Take(fetched.queries.value, 5);
                   Some(seq(|qs|, i requires 0 <= i < |qs| => QueryOf(qs[i])))
                 else None;
      Some(GscForAi(s.clicks, s.impressions, s.ctr, s.position, top))
  }

  /** The replies of the four stats routes the route requests for a site id. */
  datatype StatsReplies = StatsReplies(
    visitors: Stats.Reply<Stats.VisitorStats>,
    pageviews: Stats.Reply<Stats.PageviewStats>,
    pages: Stats.Reply<Stats.PagesBody>,
    devices: Stats.Reply<Stats.DevicesBody>,
    sources: Stats.Reply<Sources.SourcesBody>)

  /** The requests `?siteId=<siteIdParam>&period=<period>` (pages with
      `limit=10`), answered by the stats routes over the same database. */
  function StatsFor(sites: seq<Site>, log: seq<Event>, siteIdParam: string, period: string, nowMs: int,
                    today: Day, random: int -> real, host: string -> Option<string>): StatsReplies
  {
    StatsReplies(
      Stats.VisitorsRoute(sites, log, Some(siteIdParam), Some(period), nowMs, today, random),
      Stats.PageviewsRoute(sites, log, Some(siteIdParam), Some(period), nowMs, today, random),
      Stats.PagesRoute(sites, log, Some(siteIdParam), Some(period), Some("10"), nowMs),
      Stats.DevicesRoute(sites, log, Some(siteIdParam), Some(period), nowMs),
      Sources.SourcesRoute(sites, log, Some(siteIdParam), Some(period), None, nowMs, host))
  }

  /** `analyticsData`, with the event-count placeholders for the bounce rate
      and session length. */
  function Analytics(replies: StatsReplies, totalEvents: int, gsc: Option<GscForAi>): (d: AnalyticsData)
    ensures d.totalVisitors == TotalOrZero(replies.visitors, VisitorTotal)
    ensures d.totalPageviews == TotalOrZero(replies.pageviews, PageviewTotal)
    ensures d.avgBounceRate == (if totalEvents > 0 then 45 else 0)
    ensures d.avgSessionDuration == (if totalEvents > 0 then 120 else 0)
    ensures d.gscData == gsc && d.deviceBreakdown == DeviceShare(0, 0, 0)
  {
    AnalyticsData(
      TotalOrZero(replies.visitors, VisitorTotal),
      TotalOrZero(replies.pageviews, PageviewTotal),
      if totalEvents > 0 then 45 else 0,
      if totalEvents > 0 then 120 else 0,
      PagesForAi(replies.pages),
      SourcesForAi(replies.sources),
      DevicesForAi(replies.devices),
      gsc)
  }

  // ---------------------------------------------------------------------
  // The rules

  predicate IsMobile(e: Event) { e.deviceType == Some("mobile") }

  /** `(mobile / total) * 100` when there are mobile events, else 0. */
  function MobileBounce(w: seq<Event>): (b: real)
    ensures 0.0 <= b <= 100.0
    ensures b > 0.0 <==> |Filter(w, IsMobile)| > 0
    ensures b > 60.0 <==> 100 * |Filter(w, IsMobile)| > 60 * |w|
  {
    var m := |Filter(w, IsMobile)|;
    var b := Share(m, |w|);
    b
  }

  /** `m > 0 ? (m / n) * 100 : 0` for a part `m` of `n`. */
  function Share(m: int, n: int): (b: real)
    requires 0 <= m <= n
    ensures 0.0 <= b <= 100.0
    ensures b > 0.0 <==> m > 0
    ensures b > 60.0 <==> 100 * m > 60 * n
    ensures m > 0 ==> b * n as real == 100.0 * m as real
  {
    if m > 0 then
      ShareWithin(m, n);
      (m as real / n as real) * 100.0
    else 0.0
  }

  lemma ShareWithin(m: int, n: int)
    requires 0 < m <= n
    ensures 0.0 < (m as real / n as real) * 100.0 <= 100.0
    ensures (m as real / n as real) * 100.0 * n as real == 100.0 * m as real
    ensures (m as real / n as real) * 100.0 > 60.0 <==> 100 * m > 60 * n
  {
    var q := m as real / n as real;
    assert q * n as real == m as real;
    QuotientWithin(m as real, n as real, 0.0, 1.0);
    SignOfExcess(m as real, n as real);
  }

  /** `(m / n) * 100 > 60` exactly when `100·m > 60·n`, for positive `n`. */
  lemma SignOfExcess(m: real, n: real)
    requires n > 0.0
    ensures (m / n) * 100.0 > 60.0 <==> 100.0 * m > 60.0 * n
  {
    var q := m / n;
    assert q * n == m;
    var e := q * 100.0 - 60.0;
    assert e * n == 100.0 * m - 60.0 * n;
    if e > 0.0 {
      assert e * n > 0.0;
    } else {
      assert e * n <= 0.0;
    }
  }

  function MobileInsight(bounce: real, toFixed1: real -> string): Insight
  {
    Insight("UX", "high", "モバイル直帰率が高い",
            "モバイルユーザーの直帰率が" + toFixed1(bounce) + "%と高くなっています。モバイル体験の改善が必要です。",
            ["ページの読み込み速度を最適化", "モバイルでの操作性を改善", "コンテンツの可読性を向上"])
  }

  function CollectingInsight(): Insight
  {
    Insight("SEO", "medium", "データ収集中", "より詳細な分析のため、しばらくデータを収集してください。",
            ["トラッキングコードが正しく設置されているか確認", "数日後に再度分析を実行"])
  }

  /** The rule-based fallback: exactly one insight, about mobile visitors
      when more than 60% of the events come from phones, else the
      data-collection notice. */
  function RuleInsights(bounce: real, toFixed1: real -> string): (r: seq<Insight>)
    ensures |r| == 1
    ensures r[0].category == "UX" <==> bounce > 60.0
    ensures bounce > 60.0 ==> r[0] == MobileInsight(bounce, toFixed1)
    ensures bounce <= 60.0 ==> r[0] == CollectingInsight()
  {
    if bounce > 60.0 then [MobileInsight(bounce, toFixed1)] else [CollectingInsight()]
  }

  // ---------------------------------------------------------------------
  // SEO first

  predicate IsSeo(i: Insight) { i.category == "SEO" }
  predicate IsOther(i: Insight) { i.category != "SEO" }

  /** `[...seo, ...other].slice(0, 3)`. */
  function SeoFirst(ai: seq<Insight>): (r: seq<Insight>)
    ensures |r| <= MaxInsights
    ensures r <= Filter(ai, IsSeo) + Filter(ai, IsOther)
  {
    Take(Filter(ai, IsSeo) + Filter(ai, IsOther), MaxInsights)
  }

  lemma {:induction false} PartitionPermutes(xs: seq<Insight>)
    ensures multiset(Filter(xs, IsSeo) + Filter(xs, IsOther)) == multiset(xs)
  {
    if |xs| > 0 {
      var ys := xs[..|xs| - 1];
      var x := xs[|xs| - 1];
      PartitionPermutes(ys);
      MultisetOfLast(xs);
      PartitionStep(Filter(ys, IsSeo), Filter(ys, IsOther), ys, x, IsSeo(x));
    }
  }

  /** A list's multiset is that of all but its last element, plus the last. */
  lemma {:induction false} MultisetOfLast(xs: seq<Insight>)
    requires |xs| > 0
    ensures multiset(xs) == multiset(xs[..|xs| - 1]) + multiset{xs[|xs| - 1]}
  {
    assert xs == xs[..|xs| - 1] + [xs[|xs| - 1]];
  }

  /** One more element, placed at the end of the part it belongs to, keeps
      the parts a permutation of the list. */
  lemma {:induction false} PartitionStep(a: seq<Insight>, b: seq<Insight>, ys: seq<Insight>, x: Insight, seo: bool)
    requires multiset(a + b) == multiset(ys)
    ensures multiset((a + (if seo then [x] else [])) + (b + (if !seo then [x] else []))) == multiset(ys) + multiset{x}
  {
    assert multiset(a + b) == multiset(a) + multiset(b);
    if seo {
      assert multiset((a + [x]) + (b + [])) == multiset(a) + multiset{x} + multiset(b);
    } else {
      assert multiset((a + []) + (b + [x])) == multiset(a) + multiset(b) + multiset{x};
    }
  }

  /** The reordering keeps every suggestion, puts no other category before
      an SEO one and keeps the model's order within each group. */
  lemma SeoFirstFacts(ai: seq<Insight>)
    ensures var all := Filter(ai, IsSeo) + Filter(ai, IsOther);
      multiset(all) == multiset(ai)
      && (forall i, j :: 0 <= i < j < |all| && IsSeo(all[j]) ==> IsSeo(all[i]))
      && SeoFirst(ai) == Take(all, MaxInsights)
      && (|ai| <= MaxInsights ==> multiset(SeoFirst(ai)) == multiset(ai))
  {
    PartitionPermutes(ai);
    var seo := Filter(ai, IsSeo);
    var other := Filter(ai, IsOther);
    var all := seo + other;
    forall k | 0 <= k < |seo| ensures IsSeo(all[k]) {
      assert all[k] == seo[k] && seo[k] in seo;
    }
    forall k | |seo| <= k < |all| ensures !IsSeo(all[k]) {
      assert all[k] == other[k - |seo|] && other[k - |seo|] in other;
    }
    if |ai| <= MaxInsights {
      assert |all| == |multiset(ai)|;
    }
  }

  /** A non-empty answer keeps at least one suggestion. */
  lemma SeoFirstNonEmpty(ai: seq<Insight>)
    requires |ai| > 0
    ensures 1 <= |SeoFirst(ai)| <= MaxInsights
  {
    PartitionPermutes(ai);
    assert |Filter(ai, IsSeo) + Filter(ai, IsOther)| == |multiset(ai)|;
  }

  // ---------------------------------------------------------------------
  // The route

  /** `Demo` is the fixed reply for the demo site, whose one insight is
      `DemoInsight()`. */
  datatype InsightsReply = MissingSiteId | SiteNotFound | ServerError | Demo | Insights(insights: seq<Insight>)

  /** The `insights` array of a 200 reply; none for an error. */
  function Shown(r: InsightsReply): seq<Insight>
  {
    match r
    case Demo => [DemoInsight()]
    case Insights(xs) => xs
    case _ => []
  }

  function DemoInsight(): Insight
  {
    Insight("SEO", "high", "関連検索クエリの順位とCTR向上",
            "\"youtube サムネ ai\"などの関連キーワードで平均順位が2位台、クリック率（CTR）: 検索結果に表示された回数に対して、実際にクリックされた割合が8%程度です。上位表示を維持しつつ、メタタイトルとディスクリプションを最適化してCTRを10%以上に向上させましょう。",
            ["メタタイトルに数字や具体的なベネフィットを追加（例: 「AIで3秒生成」）",
             "ディスクリプションにCTA（Call to Action）を追加",
             "構造化データ（Schema.org）を追加してリッチスニペットを狙う"])
  }

  /** The external services a request reaches: the clock, the demo data's
      randomness, the hostname parser the sources route uses, the GSC stats
      request, the model and the number formatter. */
  datatype Services = Services(
    nowMs: int,
    today: Day,
    random: int -> real,
    host: string -> Option<string>,
    gsc: GscFetch,
    hasKey: bool,
    ask: (AnalyticsData, string) -> ModelReply,
    parse: string -> Option<seq<Insight>>,
    toFixed1: real -> string)

  /** The events the route counts: the site's since the period start. */
  function CountedEvents(log: seq<Event>, site: Site, period: string, nowMs: int): (w: seq<Event>)
    ensures forall e :: e in w <==> e in log && e.siteId == site.id && e.timestamp >= Stats.WindowStart(nowMs, Stats.PeriodDays(period))
  {
    Stats.InWindow(log, site.id, Stats.WindowStart(nowMs, Stats.PeriodDays(period)))
  }

  /** What the route hands the model for an owned site, with the stats
      requested under `statsId`. */
  function AnalyticsFor(sites: seq<Site>, log: seq<Event>, site: Site, statsId: string, period: string, env: Services): AnalyticsData
  {
    Analytics(StatsFor(sites, log, statsId, period, env.nowMs, env.today, env.random, env.host),
              |CountedEvents(log, site, period, env.nowMs)|, GscForSite(site, env.gsc))
  }

  /** The answer for an owned site given the model's list: that list with
      SEO first when it is non-empty, else the rules. */
  function Answer(ai: seq<Insight>, bounce: real, toFixed1: real -> string): (r: seq<Insight>)
    ensures 1 <= |r| <= MaxInsights
    ensures ai != [] ==> r == SeoFirst(ai)
    ensures ai == [] ==> r == RuleInsights(bounce, toFixed1)
  {
    if |ai| > 0 then
      SeoFirstNonEmpty(ai);
      SeoFirst(ai)
    else RuleInsights(bounce, toFixed1)
  }

  /** `GET /api/ai/insights` as written; `session` is the signed-in user's
      id, `None` when the guard throws. */
  function InsightsRoute(sites: seq<Site>, log: seq<Event>, siteIdParam: Option<string>, periodParam: Option<string>,
                         session: Option<string>, env: Services): (r: InsightsReply)
    ensures r == MissingSiteId <==> !Filled(siteIdParam)
    ensures Filled(siteIdParam) && siteIdParam.value == "demo" ==> r == Demo
    ensures Filled(siteIdParam) && siteIdParam.value != "demo" ==>
      (session.None? ==> r == ServerError)
      && (session.Some? ==>
            (r == SiteNotFound <==> SiteById(sites, siteIdParam.value).None? || SiteById(sites, siteIdParam.value).value.userId != session.value))
    ensures r.Insights? ==> 1 <= |r.insights| <= MaxInsights
  {
    if !Filled(siteIdParam) then MissingSiteId
    else
      var siteId := siteIdParam.value;
      if siteId == "demo" then Demo
      else if session.None? then ServerError
      else match SiteById(sites, siteId)
        case None => SiteNotFound
        case Some(site) =>
          if site.userId != session.value then SiteNotFound
          else Insights(OwnedAnswer(sites, log, site, siteId, periodParam, env))
  }

  /** The insights for a site the user owns, its stats requested under
      `statsId`. */
  function OwnedAnswer(sites: seq<Site>, log: seq<Event>, site: Site, statsId: string, periodParam: Option<string>, env: Services): (r: seq<Insight>)
    ensures 1 <= |r| <= MaxInsights
  {
    var period := Stats.PeriodParam(periodParam);
    var w := CountedEvents(log, site, period, env.nowMs);
    var data := AnalyticsFor(sites, log, site, statsId, period, env);
    Answer(GenerateInsights(data, env.hasKey, env.ask, env.parse).0, MobileBounce(w), env.toFixed1)
  }

  /** With no usable answer from the model, an owned site gets exactly one
      insight, about mobile visitors exactly when more than 60% of the
      period's events are mobile ones. */
  lemma FallbackIsOneRule(sites: seq<Site>, log: seq<Event>, siteId: string, periodParam: Option<string>,
                          user: string, env: Services)
    requires siteId != "" && siteId != "demo"
    requires SiteById(sites, siteId).Some? && SiteById(sites, siteId).value.userId == user
    requires !env.hasKey
    ensures var r := InsightsRoute(sites, log, Some(siteId), periodParam, Some(user), env);
      var w := CountedEvents(log, SiteById(sites, siteId).value, Stats.PeriodParam(periodParam), env.nowMs);
      r.Insights? && |r.insights| == 1
      && (r.insights[0].category == "UX" <==> 100 * |Filter(w, IsMobile)| > 60 * |w|)
  {
    var site := SiteById(sites, siteId).value;
    var period := Stats.PeriodParam(periodParam);
    var w := CountedEvents(log, site, period, env.nowMs);
    var data := AnalyticsFor(sites, log, site, siteId, period, env);
    assert GenerateInsights(data, env.hasKey, env.ask, env.parse).0 == [];
  }

  /** The model's suggestions reach the reply, SEO ones first. */
  lemma ModelAnswerIsShown(sites: seq<Site>, log: seq<Event>, siteId: string, periodParam: Option<string>,
                           user: string, env: Services)
    requires siteId != "" && siteId != "demo"
    requires SiteById(sites, siteId).Some? && SiteById(sites, siteId).value.userId == user
    ensures var site := SiteById(sites, siteId).value;
      var data := AnalyticsFor(sites, log, site, siteId, Stats.PeriodParam(periodParam), env);
      var ai := GenerateInsights(data, env.hasKey, env.ask, env.parse).0;
      ai != [] ==> InsightsRoute(sites, log, Some(siteId), periodParam, Some(user), env) == Insights(SeoFirst(ai))
  {
  }

  // ---------------------------------------------------------------------
  // The stats requests, as written and as intended

  /** As written the stats are requested under the site's internal id, but
      the stats routes look a site up by its tracking id: unless some site's
      tracking id happens to equal that id, every request is answered 404 and
      the model is told the site has no visitors and no pageviews. */
  lemma StatsRequestedUnderWrongId(sites: seq<Site>, log: seq<Event>, site: Site, period: string, env: Services)
    requires site.id != "" && site.id != "demo"
    requires forall s :: s in sites ==> s.trackingId != Some(site.id)
    ensures var d := AnalyticsFor(sites, log, site, site.id, period, env);
      d.totalVisitors == 0 && d.totalPageviews == 0 && d.topPages == [] && d.topSources == []
  {
    assert Stats.Resolve(sites, Some(site.id)) == Stats.Unknown;
  }

  /** The id the requests evidently mean: the site's tracking id. */
  function StatsId(site: Site): string
  {
    if site.trackingId.Some? then site.trackingId.value else ""
  }

  /** Requested under the tracking id, a tracked site's totals are the stats
      routes' figures over its own events. */
  lemma StatsUnderTrackingId(sites: seq<Site>, log: seq<Event>, site: Site, period: string, env: Services)
    requires site in sites && UniqueTrackingIds(sites)
    requires site.trackingId.Some? && site.trackingId.value != "" && site.trackingId.value != "demo"
    ensures var d := AnalyticsFor(sites, log, site, StatsId(site), period, env);
      var w := Stats.InWindow(log, site.id, Stats.WindowStart(env.nowMs, Stats.PeriodDays(Stats.PeriodParam(Some(period)))));
      d.totalVisitors == Stats.DistinctVisitors(w) && d.totalPageviews == |Stats.Pageviews(w)|
  {
    SiteByTrackingIdUnique(sites, site);
  }

  lemma SiteByTrackingIdUnique(sites: seq<Site>, site: Site)
    requires site in sites && UniqueTrackingIds(sites) && site.trackingId.Some?
    ensures SiteByTrackingId(sites, site.trackingId.value) == Some(site)
  {
    var r := SiteByTrackingId(sites, site.trackingId.value);
    assert r.Some?;
    var i :| 0 <= i < |sites| && sites[i] == site;
    var j :| 0 <= j < |sites| && sites[j] == r.value;
    if i < j {
      assert sites[i].trackingId != sites[j].trackingId;
    } else if j < i {
      assert sites[j].trackingId != sites[i].trackingId;
    }
  }
}

=== FILE: onboarding.dfy ===
/** The onboarding draft kept in `sessionStorage` under
    `onboarding_site_data` while a site is being set up, and the temporary
    site id used in its URLs. The storage is a map, `hasWindow` says whether
    the code runs in a browser, and `JSON.stringify` / `JSON.parse` are the
    inputs `encode` / `decode`. */
module Onboarding {
  import opened Common
  import opened Radix
  import opened Schema

  const StorageKey: string := "onboarding_site_data"
  const TempPrefix: string := "temp_"

  type Storage = map<string, string>

  datatype Features = Features(basicTracking: bool, gsc: bool, ga4: bool)

  /** A `Partial<OnboardingSiteData>`: each field present or absent. */
  datatype Draft = Draft(domain: Option<string>, name: Option<string>, features: Option<Features>)

  const EmptyDraft: Draft := Draft(None, None, None)

  /** `JSON.stringify` and `JSON.parse`; `decode` gives `None` where the parse
      throws. */
  datatype Codec = Codec(encode: Draft -> string, decode: string -> Option<Draft>)

  /** What `JSON.stringify` of an object and `JSON.parse` promise: the text
      is never empty (at least `{}`) and parses back to the draft. */
  ghost predicate RoundTrips(c: Codec)
  {
    forall d :: c.encode(d) != "" && c.decode(c.encode(d)) == Some(d)
  }

  /** `{ ...existing, ...data }`: each field of `data` that is present wins;
      `features` is replaced whole, not merged. */
  function Merge(existing: Draft, data: Draft): (r: Draft)
    ensures data.domain.Some? ==> r.domain == data.domain
    ensures data.domain.None? ==> r.domain == existing.domain
    ensures data.name.Some? ==> r.name == data.name
    ensures data.name.None? ==> r.name == existing.name
    ensures data.features.Some? ==> r.features == data.features
    ensures data.features.None? ==> r.features == existing.features
  {
    Draft(if data.domain.Some? then data.domain else existing.domain,
          if data.name.Some? then data.name else existing.name,
          if data.features.Some? then data.features else existing.features)
  }

  /** `getOnboardingData()`: nothing outside a browser, nothing when the key
      is missing or empty, nothing when the text does not parse. */
  function GetDraft(hasWindow: bool, storage: Storage, codec: Codec): (r: Option<Draft>)
    ensures !hasWindow ==> r.None?
    ensures hasWindow && (StorageKey !in storage || storage[StorageKey] == "") ==> r.None?
    ensures hasWindow && StorageKey in storage && storage[StorageKey] != "" ==> r == codec.decode(storage[StorageKey])
  {
    if !hasWindow || StorageKey !in storage || storage[StorageKey] == "" then None
    else codec.decode(storage[StorageKey])
  }

  /** `saveOnboardingData(data)`: the stored draft merged with `data`
      (spreading `null` adds nothing), written back. */
  function SaveDraft(hasWindow: bool, storage: Storage, data: Draft, codec: Codec): (r: Storage)
    ensures !hasWindow ==> r == storage
    ensures hasWindow ==>
      var base := GetDraft(hasWindow, storage, codec);
      r == storage[StorageKey := codec.encode(Merge(if base.Some? then base.value else EmptyDraft, data))]
  {
    if !hasWindow then storage
    else
      var existing := GetDraft(hasWindow, storage, codec);
      storage[StorageKey := codec.encode(Merge(if existing.Some? then existing.value else EmptyDraft, data))]
  }

  /** `clearOnboardingData()`. */
  function ClearDraft(hasWindow: bool, storage: Storage): (r: Storage)
    ensures !hasWindow ==> r == storage
    ensures hasWindow ==> StorageKey !in r && forall k :: k != StorageKey ==> (k in r <==> k in storage)
  {
    if !hasWindow then storage else storage - {StorageKey}
  }

  /** With a codec that reads back what it writes, a save followed by a read
      gives the stored draft merged with the saved fields. */
  lemma SaveThenGet(storage: Storage, data: Draft, codec: Codec)
    requires RoundTrips(codec)
    ensures var before := GetDraft(true, storage, codec);
      GetDraft(true, SaveDraft(true, storage, data, codec), codec)
        == Some(Merge(if before.Some? then before.value else EmptyDraft, data))
  {
    var before := GetDraft(true, storage, codec);
    var d := Merge(if before.Some? then before.value else EmptyDraft, data);
    assert codec.encode(d) != "" && codec.decode(codec.encode(d)) == Some(d);
  }

  /** Two saves in a row: the second's fields win, the first's others stay. */
  lemma SavesAccumulate(storage: Storage, first: Draft, second: Draft, codec: Codec)
    requires RoundTrips(codec)
    requires StorageKey !in storage
    ensures GetDraft(true, SaveDraft(true, SaveDraft(true, storage, first, codec), second, codec), codec)
            == Some(Merge(first, second))
  {
    SaveThenGet(storage, first, codec);
    assert Merge(EmptyDraft, first) == first;
    SaveThenGet(SaveDraft(true, storage, first, codec), second, codec);
  }

  /** Saving touches only the draft's key. */
  lemma SaveKeepsOtherKeys(storage: Storage, data: Draft, codec: Codec, k: string)
    requires k != StorageKey
    ensures k in SaveDraft(true, storage, data, codec) <==> k in storage
    ensures k in storage ==> SaveDraft(true, storage, data, codec)[k] == storage[k]
  {
  }

  /** After clearing there is no draft. */
  lemma ClearThenGet(storage: Storage, codec: Codec)
    ensures GetDraft(true, ClearDraft(true, storage), codec).None?
  {
  }

  /** A draft that does not parse reads as none, and the next save starts
      afresh from the saved fields alone. */
  lemma UnparsableDraftIsDropped(storage: Storage, data: Draft, codec: Codec)
    requires RoundTrips(codec)
    requires StorageKey in storage && codec.decode(storage[StorageKey]).None?
    ensures GetDraft(true, storage, codec).None?
    ensures GetDraft(true, SaveDraft(true, storage, data, codec), codec) == Some(data)
  {
    SaveThenGet(storage, data, codec);
    assert Merge(EmptyDraft, data) == data;
  }

  // ---------------------------------------------------------------------
  // Temporary site ids

  /** `s.substring(from, to)` for `0 <= from <= to`, both clamped to the
      length. */
  function Substring(s: string, from: nat, to: nat): (r: string)
    requires from <= to
    ensures |r| <= to - from
  {
    var a := if from < |s| then from else |s|;
    var b := if to < |s| then to else |s|;
    s[a..b]
  }

  /** `temp_${Date.now()}_${Math.random().toString(36).substring(2, 9)}`,
      with the clock and the base-36 text of the random number as inputs. */
  function TempSiteId(nowMs: int, random36: string): (id: string)
    ensures TempPrefix <= id
  {
    TempPrefix + IntToString(nowMs) + "_" + Substring(random36, 2, 9)
  }

  /** A temporary id never equals a stored site id: those are lower-case
      hex and `t` is not a hex digit. */
  lemma TempIdIsNeverASiteId(nowMs: int, random36: string, bytes: seq<bv8>)
    ensures TempSiteId(nowMs, random36) != DefaultTrackingId(bytes)
  {
    var id := TempSiteId(nowMs, random36);
    assert id[0] == 't';
  }
}

=== FILE: overview.dfy ===
/** The dashboard overview cards: this week's visitors and pageviews with a
    percentage change against "last week", which the component derives as
    the `'14d'` total minus the `'7d'` total. */
module Overview {
  import opened Common
  import opened Schema
  import opened Grouping
  import opened Stats

  /** What one `fetch(...).json()` gives the component: nothing when the
      request or the JSON parse throws, else the body's `total` (absent in an
      error body). */
  datatype Fetched = Unreachable | Answer(total: Option<int>)

  datatype Card = Card(value: int, change: real)
  datatype Cards = Cards(visitors: Card, pageviews: Card) | ErrorCards

  /** `((current - prev) / prev) * 100`. */
  function Percent(current: int, prev: int): real
    requires prev > 0
  {
    (current - prev) as real / prev as real * 100.0
  }

  /** The change shown on a card. `prev = total14 - total7`; with an absent
      total the difference is NaN, and `NaN > 0` is false. */
  function Change(total7: Option<int>, total14: Option<int>): (r: real)
    ensures total7.None? || total14.None? || total14.value - total7.value <= 0 ==> r == 0.0
    ensures total7.Some? && total14.Some? && total14.value - total7.value > 0 ==>
      r == Percent(total7.value, total14.value - total7.value)
    ensures r > 0.0 <==> total7.Some? && total14.Some? && 0 < total14.value - total7.value < total7.value
    ensures r < 0.0 <==> total7.Some? && total14.Some? && 0 < total14.value - total7.value
                          && total7.value < total14.value - total7.value
    ensures total7.Some? && total7.value >= 0 ==> r >= -100.0
  {
    if total7.Some? && total14.Some? && total14.value - total7.value > 0 then
      PercentSign(total7.value, total14.value - total7.value);
      Percent(total7.value, total14.value - total7.value)
    else 0.0
  }

  /** The change has the sign of `current - prev`, and is never below -100%
      for a non-negative current value. */
  lemma PercentSign(current: int, prev: int)
    requires prev > 0
    ensures Percent(current, prev) > 0.0 <==> current > prev
    ensures Percent(current, prev) == 0.0 <==> current == prev
    ensures Percent(current, prev) < 0.0 <==> current < prev
    ensures current >= 0 ==> Percent(current, prev) >= -100.0
  {
    var d := (current - prev) as real / prev as real;
    assert Percent(current, prev) == d * 100.0;
    assert d * prev as real == (current - prev) as real;
  }

  /** `total?.toLocaleString() || 0`, without the digit grouping. */
  function Shown(total: Option<int>): int
  {
    match total
    case Some(t) => t
    case None => 0
  }

  /** The component: any throwing fetch renders the four error cards. */
  function OverviewCards(v7: Fetched, p7: Fetched, v14: Fetched, p14: Fetched): (r: Cards)
    ensures r == ErrorCards <==> v7.Unreachable? || p7.Unreachable? || v14.Unreachable? || p14.Unreachable?
    ensures r.Cards? ==>
      r.visitors == Card(Shown(v7.total), Change(v7.total, v14.total))
      && r.pageviews == Card(Shown(p7.total), Change(p7.total, p14.total))
  {
    if v7.Unreachable? || p7.Unreachable? || v14.Unreachable? || p14.Unreachable? then ErrorCards
    else Cards(Card(Shown(v7.total), Change(v7.total, v14.total)), Card(Shown(p7.total), Change(p7.total, p14.total)))
  }

  function VisitorTotal(r: Reply<VisitorStats>): Fetched
  {
    if r.Ok? then Answer(Some(r.body.total)) else Answer(None)
  }

  function PageviewTotal(r: Reply<PageviewStats>): Fetched
  {
    if r.Ok? then Answer(Some(r.body.total)) else Answer(None)
  }

  /** The overview as written, over the stats routes it calls. */
  function OverviewAsWritten(sites: seq<Site>, log: seq<Event>, siteId: string, nowMs: int, today: Day, random: int -> real): Cards
  {
    OverviewCards(
      VisitorTotal(VisitorsRoute(sites, log, Some(siteId), Some("7d"), nowMs, today, random)),
      PageviewTotal(PageviewsRoute(sites, log, Some(siteId), Some("7d"), nowMs, today, random)),
      VisitorTotal(VisitorsRoute(sites, log, Some(siteId), Some("14d"), nowMs, today, random)),
      PageviewTotal(PageviewsRoute(sites, log, Some(siteId), Some("14d"), nowMs, today, random)))
  }

  // ---------------------------------------------------------------------
  // Window counts

  function PageviewsSince(log: seq<Event>, siteId: string, start: int): int
  {
    |Pageviews(InWindow(log, siteId, start))|
  }

  /** Pageviews of the site with `lo <= timestamp < hi`. */
  function PageviewsBetween(log: seq<Event>, siteId: string, lo: int, hi: int): int
  {
    if |log| == 0 then 0
    else
      var e := log[|log| - 1];
      PageviewsBetween(log[..|log| - 1], siteId, lo, hi)
        + (if e.siteId == siteId && lo <= e.timestamp < hi && IsPageview(e) then 1 else 0)
  }

  /** Events of the site with `lo <= timestamp < hi`. */
  function EventsBetween(log: seq<Event>, siteId: string, lo: int, hi: int): (r: seq<Event>)
    ensures forall e :: e in r <==> e in log && e.siteId == siteId && lo <= e.timestamp < hi
  {
    Filter(log, (e: Event) => e.siteId == siteId && lo <= e.timestamp < hi)
  }

  lemma PageviewsSnoc(ys: seq<Event>, x: Event, siteId: string, start: int)
    ensures PageviewsSince(ys + [x], siteId, start)
         == PageviewsSince(ys, siteId, start) + (if x.siteId == siteId && x.timestamp >= start && IsPageview(x) then 1 else 0)
  {
    var xs := ys + [x];
    assert xs[..|xs| - 1] == ys;
    var w := InWindow(ys, siteId, start);
    if x.siteId == siteId && x.timestamp >= start {
      assert InWindow(xs, siteId, start) == w + [x];
      assert (w + [x])[..|w + [x]| - 1] == w;
    } else {
      assert InWindow(xs, siteId, start) == w;
    }
  }

  /** Pageviews are additive over adjacent windows: the pageviews since `lo`
      are those since `hi` plus those in between. */
  lemma {:induction false} PageviewsSplit(log: seq<Event>, siteId: string, lo: int, hi: int)
    requires lo <= hi
    ensures PageviewsSince(log, siteId, lo) == PageviewsSince(log, siteId, hi) + PageviewsBetween(log, siteId, lo, hi)
    decreases |log|
  {
    if |log| == 0 {
      assert InWindow(log, siteId, lo) == [] && InWindow(log, siteId, hi) == [];
    } else {
      var ys := log[..|log| - 1];
      var x := log[|log| - 1];
      assert log == ys + [x];
      PageviewsSplit(ys, siteId, lo, hi);
      PageviewsSnoc(ys, x, siteId, lo);
      PageviewsSnoc(ys, x, siteId, hi);
    }
  }

  /** The distinct visitors since `lo` exceed those since `hi` by at most the
      distinct visitors in between. */
  lemma VisitorsSplitBound(log: seq<Event>, siteId: string, lo: int, hi: int)
    requires lo <= hi
    ensures 0 <= DistinctVisitors(InWindow(log, siteId, lo)) - DistinctVisitors(InWindow(log, siteId, hi))
              <= |KeySet(EventsBetween(log, siteId, lo, hi), Visitor)|
  {
    var wide := InWindow(log, siteId, lo);
    var near := InWindow(log, siteId, hi);
    var mid := EventsBetween(log, siteId, lo, hi);
    VisitorsMonotone(log, siteId, hi, lo);
    assert KeySet(wide, Visitor) <= KeySet(near, Visitor) + KeySet(mid, Visitor) by {
      forall v | v in KeySet(wide, Visitor) ensures v in KeySet(near, Visitor) + KeySet(mid, Visitor) {
        var i :| 0 <= i < |wide| && Visitor(wide[i]) == v;
        var e := wide[i];
        assert e in wide;
        if e.timestamp >= hi {
          KeySetHas(near, Visitor, e);
        } else {
          KeySetHas(mid, Visitor, e);
        }
      }
    }
    SubsetCard(KeySet(wide, Visitor), KeySet(near, Visitor) + KeySet(mid, Visitor));
    assert |KeySet(near, Visitor) + KeySet(mid, Visitor)| <= |KeySet(near, Visitor)| + |KeySet(mid, Visitor)|;
  }

  // ---------------------------------------------------------------------
  // "Last week" as written and as intended

  /** As written, "last week" is `'14d'` minus `'7d'`, and `'14d'` selects the
      90-day window, so it is really the 83 days before this week. */
  function PreviousPageviewsAsWritten(log: seq<Event>, siteId: string, nowMs: int): int
  {
    PageviewsSince(log, siteId, WindowStart(nowMs, PeriodDays("14d"))) - PageviewsSince(log, siteId, WindowStart(nowMs, 7))
  }

  /** As intended: the 14-day total minus the 7-day total. */
  function PreviousPageviews(log: seq<Event>, siteId: string, nowMs: int): int
  {
    PageviewsSince(log, siteId, WindowStart(nowMs, 14)) - PageviewsSince(log, siteId, WindowStart(nowMs, 7))
  }

  function PreviousVisitors(log: seq<Event>, siteId: string, nowMs: int): int
  {
    DistinctVisitors(InWindow(log, siteId, WindowStart(nowMs, 14))) - DistinctVisitors(InWindow(log, siteId, WindowStart(nowMs, 7)))
  }

  /** The overview over a tracked site compares this week with the as-written
      "last week" of the routes: the `'14d'` request is a 90-day one. */
  lemma OverviewUsesNinetyDays(sites: seq<Site>, log: seq<Event>, siteId: string, nowMs: int, today: Day, random: int -> real)
    requires siteId != "" && siteId != "demo" && SiteByTrackingId(sites, siteId).Some?
    ensures var id := SiteByTrackingId(sites, siteId).value.id;
      var c := OverviewAsWritten(sites, log, siteId, nowMs, today, random);
      c.Cards? && c.pageviews.value == PageviewsSince(log, id, WindowStart(nowMs, 7))
      && c.pageviews.change == Change(Some(PageviewsSince(log, id, WindowStart(nowMs, 7))),
                                      Some(PageviewsSince(log, id, WindowStart(nowMs, 90))))
      && PreviousPageviewsAsWritten(log, id, nowMs) == PageviewsSince(log, id, WindowStart(nowMs, 90)) - PageviewsSince(log, id, WindowStart(nowMs, 7))
  {
  }

  /** A single pageview 30 days ago: the as-written "last week" counts it,
      although it lies outside the 7 days before this week. */
  lemma OldPageviewCountsAsLastWeek()
    ensures var nowMs := 100 * SecondsPerDay * 1000;
      var e := Event("s", "pageview", "v", "x", None, None, None, None, None, None, None, None, None, None, JNull, 70 * SecondsPerDay);
      PreviousPageviewsAsWritten([e], "s", nowMs) == 1
      && PageviewsBetween([e], "s", WindowStart(nowMs, 14), WindowStart(nowMs, 7)) == 0
      && PreviousPageviews([e], "s", nowMs) == 0
  {
    var nowMs := 100 * SecondsPerDay * 1000;
    var e := Event("s", "pageview", "v", "x", None, None, None, None, None, None, None, None, None, None, JNull, 70 * SecondsPerDay);
    assert WindowStart(nowMs, 90) == 10 * SecondsPerDay;
    assert WindowStart(nowMs, 14) == 86 * SecondsPerDay;
    assert WindowStart(nowMs, 7) == 93 * SecondsPerDay;
    OneEventSince(e, "s", 10 * SecondsPerDay);
    OneEventSince(e, "s", 86 * SecondsPerDay);
    OneEventSince(e, "s", 93 * SecondsPerDay);
    assert [e][..0] == [];
  }

  /** A one-event log counts its event exactly when it is a pageview of the site in the window. */
  lemma {:induction false} OneEventSince(e: Event, siteId: string, start: int)
    ensures PageviewsSince([e], siteId, start) == if e.siteId == siteId && e.timestamp >= start && IsPageview(e) then 1 else 0
  {
    PageviewsSnoc([], e, siteId, start);
    assert [] + [e] == [e];
  }

  /** The intended "last week" pageviews are exactly the pageviews of the seven
      days before this week, and the intended visitor figure is between zero
      and that week's distinct visitors. */
  lemma PreviousWeekIsLastSevenDays(log: seq<Event>, siteId: string, nowMs: int)
    ensures PreviousPageviews(log, siteId, nowMs)
         == PageviewsBetween(log, siteId, WindowStart(nowMs, 14), WindowStart(nowMs, 7))
    ensures 0 <= PreviousVisitors(log, siteId, nowMs)
             <= |KeySet(EventsBetween(log, siteId, WindowStart(nowMs, 14), WindowStart(nowMs, 7)), Visitor)|
  {
    PageviewsSplit(log, siteId, WindowStart(nowMs, 14), WindowStart(nowMs, 7));
    VisitorsSplitBound(log, siteId, WindowStart(nowMs, 14), WindowStart(nowMs, 7));
  }
}

=== FILE: pages_change.dfy ===
/** The GSC pages list: the top pages by clicks, each with its position and
    click-through change against the same page in a previous period. The two
    requests to `/api/gsc/stats` are inputs: `current` and `previous` rows, or
    `pagesOf(start, end)` for the pages of a date range. */
module PagesChange {
  import opened Common
  import opened Grouping
  import opened GscSummary

  const DefaultLimit: int := 10

  datatype PageChange = PageChange(row: SearchRow, positionChange: Option<real>, ctrChange: Option<real>, changeScore: real)

  /** `ctr` as a number; the rows of the search API always carry it. */
  function CtrOf(r: SearchRow): real { if r.ctr.Some? then r.ctr.value else 0.0 }

  /** `page.keys[0] || ""`. */
  function PageKey(r: SearchRow): string
  {
    if |r.keys| > 0 then r.keys[0] else ""
  }

  /** `pp.keys[0] === pageKey`: a previous row without keys matches nothing,
      not even the empty key. */
  function SamePage(key: string): SearchRow -> bool
  {
    (pp: SearchRow) => |pp.keys| > 0 && pp.keys[0] == key
  }

  /** The first previous row for the page (`prevPages.find`). */
  function PreviousOf(previous: seq<SearchRow>, key: string): (r: Option<SearchRow>)
    ensures r.Some? ==> r.value in previous && |r.value.keys| > 0 && r.value.keys[0] == key
    ensures r.None? ==> forall pp :: pp in previous ==> !(|pp.keys| > 0 && pp.keys[0] == key)
  {
    match FirstIndex(previous, SamePage(key), 0)
    case None => None
    case Some(i) => Some(previous[i])
  }

  /** One page with its changes: position change `prev - current` (positive
      means the page climbed), CTR change in percentage points, and a change
      score `|position change| + 0.5·|CTR change|`, 0 without a previous row. */
  function WithChange(page: SearchRow, previous: seq<SearchRow>): (c: PageChange)
    ensures c.row == page
    ensures c.changeScore >= 0.0
    ensures c.positionChange.Some? <==> PreviousOf(previous, PageKey(page)).Some?
    ensures c.ctrChange.Some? <==> c.positionChange.Some?
    ensures c.positionChange.None? ==> c.changeScore == 0.0
    ensures c.positionChange.Some? ==>
      var pp := PreviousOf(previous, PageKey(page)).value;
      c.positionChange.value + PositionOf(page) == PositionOf(pp)
      && c.ctrChange.value == 100.0 * (CtrOf(page) - CtrOf(pp))
      && c.changeScore == AbsReal(c.positionChange.value) + 0.5 * AbsReal(c.ctrChange.value)
  {
    match PreviousOf(previous, PageKey(page))
    case None => PageChange(page, None, None, 0.0)
    case Some(pp) =>
      var pc := PositionOf(pp) - PositionOf(page);
      var cc := (CtrOf(page) - CtrOf(pp)) * 100.0;
      PageChange(page, Some(pc), Some(cc), AbsReal(pc) + AbsReal(cc) * 0.5)
  }

  function WithChanges(current: seq<SearchRow>, previous: seq<SearchRow>): (cs: seq<PageChange>)
    ensures |cs| == |current|
    ensures forall i :: 0 <= i < |current| ==> cs[i] == WithChange(current[i], previous)
  {
    seq(|current|, i requires 0 <= i < |current| => WithChange(current[i], previous))
  }

  function ClickRank(c: PageChange): real { ClicksOf(c.row) as real }

  /** Pages by descending clicks (ties in input order), `slice(0, limit)`. */
  function PagesList(current: seq<SearchRow>, previous: seq<SearchRow>, limit: int): seq<PageChange>
  {
    JsSlice(SortDesc(WithChanges(current, previous), ClickRank), limit)
  }

  /** The list holds current pages only, most clicked first, at most `limit`
      of them, each with the changes against its own previous row; with room
      for all, every current page is listed. */
  lemma PagesListFacts(current: seq<SearchRow>, previous: seq<SearchRow>, limit: int)
    ensures var out := PagesList(current, previous, limit);
      SortedDesc(out, ClickRank)
      && (limit >= 0 ==> |out| <= limit)
      && (forall c :: c in out ==> c.row in current && c == WithChange(c.row, previous))
      && (limit >= |current| ==> forall p :: p in current ==> WithChange(p, previous) in out)
  {
    var cs := WithChanges(current, previous);
    var s := SortDesc(cs, ClickRank);
    var out := PagesList(current, previous, limit);
    assert out == s[..|out|];
    forall i, j | 0 <= i < j < |out| ensures ClickRank(out[i]) >= ClickRank(out[j]) {
      assert out[i] == s[i] && out[j] == s[j];
    }
    forall c | c in out ensures c.row in current && c == WithChange(c.row, previous) {
      assert c in s;
      assert c in multiset(cs);
      var i :| 0 <= i < |cs| && cs[i] == c;
    }
    if limit >= |current| {
      assert out == s;
      forall p | p in current ensures WithChange(p, previous) in out {
        var i :| 0 <= i < |current| && current[i] == p;
        assert cs[i] in multiset(cs);
      }
    }
  }

  /** A failed previous request leaves no previous rows: every page is listed
      without changes and with change score 0. */
  lemma NoPreviousNoChanges(current: seq<SearchRow>, limit: int)
    ensures forall c :: c in PagesList(current, [], limit) ==> c.positionChange.None? && c.ctrChange.None? && c.changeScore == 0.0
  {
    PagesListFacts(current, [], limit);
  }

  // ---------------------------------------------------------------------
  // The previous period, as written and as intended

  function PeriodDays(period: string): (n: int)
    ensures n == 7 || n == 30 || n == 90
  {
    if period == "7d" then 7 else if period == "30d" then 30 else 90
  }

  /** As written the previous request sends `startDate` and `endDate` but no
      `period`; the stats route reads neither date and answers with its
      default period, the seven days up to today. */
  function AsWrittenPreviousWindow(today: int): (int, int)
  {
    (today - SummaryPeriodDays(None), today)
  }

  /** The window the component computes and means to ask for: it ends the day
      before the current period starts and is as long as the period. */
  function PreviousWindow(today: int, period: string): (w: (int, int))
    ensures w.1 == today - PeriodDays(period) - 1
    ensures w.1 - w.0 == PeriodDays(period)
  {
    var prevEnd := today - PeriodDays(period) - 1;
    (prevEnd - PeriodDays(period), prevEnd)
  }

  function PagesListAsWritten(pagesOf: (int, int) -> seq<SearchRow>, today: int, period: string, limit: int): seq<PageChange>
  {
    var w := AsWrittenPreviousWindow(today);
    PagesList(pagesOf(today - PeriodDays(period), today), pagesOf(w.0, w.1), limit)
  }

  function PagesListIntended(pagesOf: (int, int) -> seq<SearchRow>, today: int, period: string, limit: int): seq<PageChange>
  {
    var w := PreviousWindow(today, period);
    PagesList(pagesOf(today - PeriodDays(period), today), pagesOf(w.0, w.1), limit)
  }

  /** Rows whose keys are present and pairwise distinct. */
  predicate DistinctPages(rows: seq<SearchRow>)
  {
    (forall i :: 0 <= i < |rows| ==> |rows[i].keys| > 0)
    && forall i, j :: 0 <= i < j < |rows| ==> rows[i].keys[0] != rows[j].keys[0]
  }

  /** As written, a 7-day list compares every page with itself: all changes
      are 0. */
  lemma SevenDayListComparesWithItself(pagesOf: (int, int) -> seq<SearchRow>, today: int, limit: int)
    requires DistinctPages(pagesOf(today - 7, today))
    ensures forall c :: c in PagesListAsWritten(pagesOf, today, "7d", limit) ==>
      c.positionChange == Some(0.0) && c.ctrChange == Some(0.0) && c.changeScore == 0.0
  {
    var rows := pagesOf(today - 7, today);
    assert AsWrittenPreviousWindow(today) == (today - 7, today);
    assert PagesListAsWritten(pagesOf, today, "7d", limit) == PagesList(rows, rows, limit);
    PagesListFacts(rows, rows, limit);
    forall c | c in PagesList(rows, rows, limit)
      ensures c.positionChange == Some(0.0) && c.ctrChange == Some(0.0) && c.changeScore == 0.0
    {
      var i :| 0 <= i < |rows| && rows[i] == c.row;
      SelfChangeIsZero(rows, i);
    }
  }

  /** A page compared with its own row has no change. */
  lemma SelfChangeIsZero(rows: seq<SearchRow>, i: int)
    requires DistinctPages(rows) && 0 <= i < |rows|
    ensures var c := WithChange(rows[i], rows);
      c.positionChange == Some(0.0) && c.ctrChange == Some(0.0) && c.changeScore == 0.0
  {
    FirstMatchIsItself(rows, i);
  }

  lemma FirstMatchIsItself(rows: seq<SearchRow>, i: int)
    requires DistinctPages(rows) && 0 <= i < |rows|
    ensures PreviousOf(rows, PageKey(rows[i])) == Some(rows[i])
  {
    var k := PageKey(rows[i]);
    assert SamePage(k)(rows[i]);
    forall m | 0 <= m < |rows| && m != i ensures !SamePage(k)(rows[m]) {
      if m < i {
        assert rows[m].keys[0] != rows[i].keys[0];
      } else {
        assert rows[i].keys[0] != rows[m].keys[0];
      }
    }
  }

  /** As intended, the previous rows come from the period just before the
      current one, which ends the day before the current period starts and
      does not overlap it. */
  lemma IntendedComparesPrecedingPeriod(pagesOf: (int, int) -> seq<SearchRow>, today: int, period: string, limit: int)
    ensures var w := PreviousWindow(today, period);
      w.1 < today - PeriodDays(period)
      && w.1 - w.0 == PeriodDays(period)
      && PagesListIntended(pagesOf, today, period, limit)
         == PagesList(pagesOf(today - PeriodDays(period), today), pagesOf(w.0, w.1), limit)
  {
  }

  /** A page at 5th now and 9th in the preceding week climbed 4 places; the
      list as written reports no change. */
  lemma ClimbIsInvisible(today: int)
    ensures var pagesOf := ClimbPages(today);
      PagesListAsWritten(pagesOf, today, "7d", 10)[0].positionChange == Some(0.0)
      && PagesListIntended(pagesOf, today, "7d", 10)[0].positionChange == Some(4.0)
  {
    ClimbAsWritten(today);
    ClimbIntended(today);
  }

  /** The as-written list compares the current week with itself. */
  lemma ClimbAsWritten(today: int)
    ensures PagesListAsWritten(ClimbPages(today), today, "7d", 10)[0].positionChange == Some(0.0)
  {
    assert AsWrittenPreviousWindow(today) == (today - 7, today);
    assert PagesListAsWritten(ClimbPages(today), today, "7d", 10) == PagesList([ClimbNow], [ClimbNow], 10);
    SinglePageList(ClimbNow, [ClimbNow]);
    assert SamePage("/a")(ClimbNow);
  }

  /** The intended list compares the current week with the week before. */
  lemma ClimbIntended(today: int)
    ensures PagesListIntended(ClimbPages(today), today, "7d", 10)[0].positionChange == Some(4.0)
  {
    assert PreviousWindow(today, "7d") == (today - 15, today - 8);
    assert PagesListIntended(ClimbPages(today), today, "7d", 10) == PagesList([ClimbNow], [ClimbBefore], 10);
    SinglePageList(ClimbNow, [ClimbBefore]);
    assert SamePage("/a")(ClimbBefore);
  }

  const ClimbNow: SearchRow := SearchRow(["/a"], Some(10), Some(100), Some(0.1), Some(5.0))
  const ClimbBefore: SearchRow := SearchRow(["/a"], Some(4), Some(100), Some(0.04), Some(9.0))

  /** The current week holds the page at 5th, any other range at 9th. */
  function ClimbPages(today: int): (int, int) -> seq<SearchRow>
  {
    (s: int, e: int) => if s == today - 7 && e == today then [ClimbNow] else [ClimbBefore]
  }

  /** A list of one page is that page with its change. */
  lemma SinglePageList(page: SearchRow, previous: seq<SearchRow>)
    ensures PagesList([page], previous, 10) == [WithChange(page, previous)]
  {
    assert WithChanges([page], previous) == [WithChange(page, previous)];
    assert SortDesc([WithChange(page, previous)], ClickRank) == [WithChange(page, previous)] by {
      assert [WithChange(page, previous)][..0] == [];
    }
  }
}

=== FILE: payload.dfy ===
/** The event body `track` posts. The page's location, title and referrer,
    the clock and the fingerprint signals are inputs. */
module Payload {
  import opened Common
  import opened Beacon
  import opened Session

  /** What `track` reads from the page. `referrer` is `None` when the document
      reports none. */
  datatype Page = Page(href: string, pathname: string, title: string, referrer: Option<string>)

  datatype Payload = Payload(
    siteId: string,
    eventType: Json,
    visitorHash: string,
    sessionHash: string,
    url: string,
    path: string,
    title: string,
    referrer: string,
    deviceType: string,
    screenSize: string,
    browser: string,
    os: string,
    eventName: Json,
    eventValue: Json,
    timestamp: int)

  /** `eventType || 'pageview'`. */
  function EventTypeOrPageview(v: Json): (r: Json)
    ensures Truthy(r)
    ensures Truthy(v) ==> r == v
    ensures !Truthy(v) ==> r == JStr("pageview")
  {
    if Truthy(v) then v else JStr("pageview")
  }

  /** The body for one event, given the session hash to send. */
  function Build(siteId: string, env: Environment, page: Page, sessionHash: string, nowMs: int,
                 eventType: Json, eventName: Json, eventValue: Json): (p: Payload)
    ensures p.siteId == siteId && p.visitorHash == Fingerprint(env) && p.sessionHash == sessionHash
    ensures p.url == page.href && p.path == page.pathname && p.title == page.title
    ensures p.referrer == (if page.referrer.Some? then page.referrer.value else "")
    ensures p.eventType == EventTypeOrPageview(eventType)
    ensures p.eventName == JsonOrNull(eventName) && p.eventValue == JsonOrNull(eventValue)
    ensures p.timestamp * 1000 <= nowMs < (p.timestamp + 1) * 1000
    ensures var d := GetDeviceInfo(env.userAgent, env.screenWidth, env.screenHeight);
      p.deviceType == d.deviceType && p.screenSize == d.screenSize && p.browser == d.browser && p.os == d.os
  {
    var d := GetDeviceInfo(env.userAgent, env.screenWidth, env.screenHeight);
    Payload(
      siteId,
      EventTypeOrPageview(eventType),
      Fingerprint(env),
      sessionHash,
      page.href,
      page.pathname,
      page.title,
      match page.referrer case Some(r) => r case None => "",
      d.deviceType, d.screenSize, d.browser, d.os,
      JsonOrNull(eventName),
      JsonOrNull(eventValue),
      nowMs / 1000)
  }

  /** `track` as written: when `getSessionHash` throws, nothing is sent. Both
      clock reads are taken at the same instant `nowMs`. */
  function TrackAsWritten(siteId: string, env: Environment, page: Page, storage: Storage, nowMs: int,
                          eventType: Json, eventName: Json, eventValue: Json): (r: (Option<Payload>, Storage))
    ensures GetSessionAsWritten(storage, env, nowMs).Throws? ==> r == (None, storage)
    ensures GetSessionAsWritten(storage, env, nowMs).Session? ==>
      r.0 == Some(Build(siteId, env, page, GetSessionAsWritten(storage, env, nowMs).hash, nowMs, eventType, eventName, eventValue))
  {
    match GetSessionAsWritten(storage, env, nowMs)
    case Throws(s) => (None, s)
    case Session(h, s) => (Some(Build(siteId, env, page, h, nowMs, eventType, eventName, eventValue)), s)
  }

  /** `track` with the corrected session rule: every call sends one body. */
  function Track(siteId: string, env: Environment, page: Page, storage: Storage, nowMs: int,
                 eventType: Json, eventName: Json, eventValue: Json): (r: (Payload, Storage))
    ensures r.0.sessionHash == GetSession(storage, env, nowMs).hash
    ensures r.1 == GetSession(storage, env, nowMs).storage
    ensures r.0 == Build(siteId, env, page, r.0.sessionHash, nowMs, eventType, eventName, eventValue)
  {
    var s := GetSession(storage, env, nowMs);
    (Build(siteId, env, page, s.hash, nowMs, eventType, eventName, eventValue), s.storage)
  }

  /** A stored session the beacon could have written: absent, empty, or not
      starting with the '_' separator. */
  predicate WellFormedStorage(storage: Storage)
  {
    HasSession(storage) ==> storage[SessionKey][0] != '_'
  }

  /** Every `getSessionHash` call keeps the storage well formed. */
  lemma GetSessionKeepsStorage(storage: Storage, env: Environment, nowMs: int)
    requires WellFormedStorage(storage)
    ensures WellFormedStorage(GetSession(storage, env, nowMs).storage)
  {
    var h := MintHash(env, nowMs);
    assert Record(h, nowMs)[0] == h[0];
  }

  /** A body from the beacon always carries the four fields the ingestion
      endpoint insists on: the event type is truthy and both hashes are
      non-empty, and the site id is the tracking id, which is never empty. */
  lemma TrackedBodyHasRequiredFields(id: string, env: Environment, page: Page, storage: Storage, nowMs: int,
                                     eventType: Json, eventName: Json, eventValue: Json)
    requires id != ""
    requires WellFormedStorage(storage)
    ensures var p := Track(id, env, page, storage, nowMs, eventType, eventName, eventValue).0;
      p.siteId != "" && Truthy(p.eventType) && p.visitorHash != "" && p.sessionHash != ""
  {
    var s := GetSession(storage, env, nowMs);
    assert s.hash != "" by {
      if HasSession(storage) && !Expired(nowMs, StoredParts(storage[SessionKey]).1) {
        SessionHeadNonEmpty(storage[SessionKey]);
      } else {
        assert s.hash == MintHash(env, nowMs);
      }
    }
    var p := Track(id, env, page, storage, nowMs, eventType, eventName, eventValue).0;
    assert p.sessionHash == s.hash;
    assert p.siteId == id && p.visitorHash == Fingerprint(env);
  }

  /** The first '_'-separated piece of a value that does not start with '_' is non-empty. */
  lemma SessionHeadNonEmpty(v: string)
    requires v != "" && v[0] != '_'
    ensures Split(v, '_')[0] != ""
  {
    match IndexOf(v, ['_'])
    case None =>
    case Some(i) =>
      assert v[i..i + 1] == ['_'];
      assert i != 0 by {
        assert v[0..1] == [v[0]];
      }
  }
}

=== FILE: radix.dfy ===
/** Number-to-text conversions: `Number.prototype.toString(radix)` for
    non-negative integers and `parseInt` without a radix. */
module Radix {
  import opened Common

  /** The two radices the beacon uses: 10 for `String(n)` and 36 for the hash text. */
  predicate IsRadix(base: nat)
  {
    base == 10 || base == 36
  }

  predicate IsDecimalDigit(c: char)
  {
    '0' <= c <= '9'
  }

  function DigitValue(c: char): nat
  {
    if '0' <= c <= '9' then c as int - '0' as int
    else if 'a' <= c <= 'z' then c as int - 'a' as int + 10
    else if 'A' <= c <= 'Z' then c as int - 'A' as int + 10
    else 0
  }

  /** A character `toString(base)` can produce: a digit or lower-case letter worth less than the base. */
  predicate IsDigitOf(c: char, base: nat)
  {
    (IsDecimalDigit(c) || 'a' <= c <= 'z') && DigitValue(c) < base
  }

  function DigitChar(d: nat): (c: char)
    requires d < 36
    ensures DigitValue(c) == d
    ensures IsDigitOf(c, d + 1)
  {
    if d < 10 then ('0' as int + d) as char else ('a' as int + d - 10) as char
  }

  /** Euclidean division facts for a radix. */
  lemma DivModBase(n: nat, base: nat)
    requires IsRadix(base)
    ensures n == (n / base) * base + n % base
    ensures 0 <= n % base < base
    ensures n >= base ==> 1 <= n / base < n
    ensures n < base ==> n / base == 0 && n % base == n
  {
    if base == 10 {
    } else {
    }
  }

  /** `n.toString(base)` for a non-negative integer `n`. */
  function ToBase(n: nat, base: nat): (s: string)
    requires IsRadix(base)
    ensures |s| >= 1
    ensures forall i :: 0 <= i < |s| ==> IsDigitOf(s[i], base)
    ensures n == 0 <==> s == "0"
    ensures n > 0 ==> s[0] != '0'
    decreases n
  {
    DivModBase(n, base);
    if n < base then [DigitChar(n)]
    else ToBase(n / base, base) + [DigitChar(n % base)]
  }

  /** The value of a digit string in the given base, most significant digit first. */
  function FromBase(s: string, base: nat): nat
  {
    if |s| == 0 then 0 else FromBase(s[..|s| - 1], base) * base + DigitValue(s[|s| - 1])
  }

  /** Reading back what `toString(base)` printed gives the number again. */
  lemma {:induction false} FromToBase(n: nat, base: nat)
    requires IsRadix(base)
    ensures FromBase(ToBase(n, base), base) == n
    decreases n
  {
    DivModBase(n, base);
    if n >= base {
      var s := ToBase(n, base);
      assert s[..|s| - 1] == ToBase(n / base, base);
      FromToBase(n / base, base);
    }
  }

  /** Two numbers with the same text are equal: `toString(base)` loses nothing. */
  lemma ToBaseInjective(m: nat, n: nat, base: nat)
    requires IsRadix(base)
    requires ToBase(m, base) == ToBase(n, base)
    ensures m == n
  {
    FromToBase(m, base);
    FromToBase(n, base);
  }

  /** `String(i)` for an integer. */
  function IntToString(i: int): (s: string)
    ensures |s| >= 1
    ensures i < 0 <==> s[0] == '-'
  {
    if i < 0 then "-" + ToBase(-i, 10) else ToBase(i, 10)
  }

  /** A character `parseInt` accepts as a digit of `radix`: a decimal digit or a
      letter of either case, worth less than the radix. */
  predicate IsParseDigit(c: char, radix: nat)
  {
    (IsDecimalDigit(c) || 'a' <= c <= 'z' || 'A' <= c <= 'Z') && DigitValue(c) < radix
  }

  /** The longest prefix of digits of `radix`. */
  function LeadingDigits(s: string, radix: nat): (d: string)
    ensures d <= s
    ensures forall i :: 0 <= i < |d| ==> IsParseDigit(d[i], radix)
    ensures |d| < |s| ==> !IsParseDigit(s[|d|], radix)
  {
    if |s| > 0 && IsParseDigit(s[0], radix) then [s[0]] + LeadingDigits(s[1..], radix) else ""
  }

  /** Whether the text after the sign carries the `0x` or `0X` prefix. */
  predicate HasHexPrefix(u: string)
  {
    |u| >= 2 && u[0] == '0' && (u[1] == 'x' || u[1] == 'X')
  }

  /** The digits after the sign: base 16 after a `0x` or `0X` prefix, base 10
      otherwise, read up to the first character that is no digit of that base. */
  function ParseUnsigned(u: string): (r: Option<nat>)
    ensures r.Some? ==> |u| > 0
  {
    var radix := if HasHexPrefix(u) then 16 else 10;
    var d := LeadingDigits(if HasHexPrefix(u) then u[2..] else u, radix);
    if |d| == 0 then None else Some(FromBase(d, radix))
  }

  /** `parseInt(s)` without a radix, as section 19.2.5 of ECMA-262 defines it:
      leading white space, an optional sign, then the digits; `None` stands
      for NaN. */
  function ParseInt(s: string): (r: Option<int>)
    ensures TrimStart(s) == "" ==> r.None?
    ensures r.Some? && r.value < 0 ==> |TrimStart(s)| > 0 && TrimStart(s)[0] == '-'
  {
    var t := TrimStart(s);
    var signed := |t| > 0 && (t[0] == '-' || t[0] == '+');
    match ParseUnsigned(if signed then t[1..] else t)
    case None => None
    case Some(v) => Some(if signed && t[0] == '-' then -(v as int) else v)
  }

  /** A run of digits followed by nothing or by a non-digit is read whole. */
  lemma {:induction false} LeadingDigitsRun(d: string, rest: string, radix: nat)
    requires forall i :: 0 <= i < |d| ==> IsParseDigit(d[i], radix)
    requires |rest| == 0 || !IsParseDigit(rest[0], radix)
    ensures LeadingDigits(d + rest, radix) == d
  {
    if |d| > 0 {
      assert (d + rest)[1..] == d[1..] + rest;
      LeadingDigitsRun(d[1..], rest, radix);
    } else {
      assert d + rest == rest;
    }
  }

  lemma DecimalIsParseDigit(c: char)
    requires IsDecimalDigit(c)
    ensures IsParseDigit(c, 10) && !IsJsSpace(c) && c != '-' && c != '+'
  {
  }

  lemma TrimStartKeeps(s: string)
    requires |s| > 0 && !IsJsSpace(s[0])
    ensures TrimStart(s) == s
  {
  }

  /** Decimal digits are read up to the first non-digit; a lone `0`
      followed by `x` or `X` is the hexadecimal prefix instead. */
  lemma {:induction false} UnsignedDecimal(d: string, rest: string)
    requires |d| > 0 && forall i :: 0 <= i < |d| ==> IsDecimalDigit(d[i])
    requires |rest| == 0 || !IsDecimalDigit(rest[0])
    requires !(d == "0" && |rest| > 0 && (rest[0] == 'x' || rest[0] == 'X'))
    ensures ParseUnsigned(d + rest) == Some(FromBase(d, 10))
  {
    forall i | 0 <= i < |d| ensures IsParseDigit(d[i], 10) {
      DecimalIsParseDigit(d[i]);
    }
    LeadingDigitsRun(d, rest, 10);
    NoHexPrefix(d, rest);
  }

  lemma {:induction false} NoHexPrefix(d: string, rest: string)
    requires |d| > 0 && forall i :: 0 <= i < |d| ==> IsDecimalDigit(d[i])
    requires !(d == "0" && |rest| > 0 && (rest[0] == 'x' || rest[0] == 'X'))
    ensures !HasHexPrefix(d + rest)
  {
    var s := d + rest;
    if |s| >= 2 && s[0] == '0' {
      if |d| >= 2 {
        assert s[1] == d[1];
      } else {
        assert d == "0";
        assert s[1] == rest[0];
      }
    }
  }

  /** After a `0x` or `0X` prefix the digits are read in base 16, of either case. */
  lemma {:induction false} UnsignedHex(x: char, h: string)
    requires x == 'x' || x == 'X'
    requires |h| > 0 && forall i :: 0 <= i < |h| ==> IsParseDigit(h[i], 16)
    ensures ParseUnsigned(['0', x] + h) == Some(FromBase(h, 16))
  {
    var u := ['0', x] + h;
    assert HasHexPrefix(u);
    assert u[2..] == h + "";
    LeadingDigitsRun(h, "", 16);
  }

  /** Text that starts with neither white space nor a sign is read unsigned. */
  lemma {:induction false} ParseIntUnsigned(s: string, v: nat)
    requires |s| > 0 && !IsJsSpace(s[0]) && s[0] != '-' && s[0] != '+'
    requires ParseUnsigned(s) == Some(v)
    ensures ParseInt(s) == Some(v)
  {
    TrimStartKeeps(s);
  }

  /** Text that starts with a sign is read unsigned after it, negated for `-`. */
  lemma {:induction false} ParseIntSigned(c: char, u: string, v: nat)
    requires c == '-' || c == '+'
    requires ParseUnsigned(u) == Some(v)
    ensures ParseInt([c] + u) == Some(if c == '-' then -(v as int) else v)
  {
    var s := [c] + u;
    TrimStartKeeps(s);
    assert s[1..] == u;
  }

  /** `parseInt` reads decimal digits up to the first non-digit; a lone `0`
      followed by `x` or `X` is the hexadecimal prefix instead. */
  lemma {:induction false} ParseIntDecimalPrefix(d: string, rest: string)
    requires |d| > 0 && forall i :: 0 <= i < |d| ==> IsDecimalDigit(d[i])
    requires |rest| == 0 || !IsDecimalDigit(rest[0])
    requires !(d == "0" && |rest| > 0 && (rest[0] == 'x' || rest[0] == 'X'))
    ensures ParseInt(d + rest) == Some(FromBase(d, 10))
  {
    var s := d + rest;
    assert s[0] == d[0];
    DecimalIsParseDigit(d[0]);
    UnsignedDecimal(d, rest);
    ParseIntUnsigned(s, FromBase(d, 10));
  }

  /** `parseInt` reads a plain digit string as its decimal value. */
  lemma {:induction false} ParseIntDigits(s: string)
    requires |s| > 0
    requires forall i :: 0 <= i < |s| ==> IsDecimalDigit(s[i])
    ensures ParseInt(s) == Some(FromBase(s, 10))
  {
    assert s + "" == s;
    ParseIntDecimalPrefix(s, "");
  }

  /** After a `0x` or `0X` prefix the digits are read in base 16 of either case. */
  lemma {:induction false} ParseIntHex(x: char, h: string)
    requires x == 'x' || x == 'X'
    requires |h| > 0 && forall i :: 0 <= i < |h| ==> IsParseDigit(h[i], 16)
    ensures ParseInt(['0', x] + h) == Some(FromBase(h, 16))
  {
    UnsignedHex(x, h);
    ParseIntUnsigned(['0', x] + h, FromBase(h, 16));
  }

  /** `parseInt(String(i))` is `i` for every integer. */
  lemma ParseIntToString(i: int)
    ensures ParseInt(IntToString(i)) == Some(i)
  {
    var n: nat := if i < 0 then -i else i;
    var s := ToBase(n, 10);
    forall k | 0 <= k < |s| ensures IsDecimalDigit(s[k]) {
      assert IsDigitOf(s[k], 10);
    }
    FromToBase(n, 10);
    if i >= 0 {
      ParseIntDigits(s);
    } else {
      assert s + "" == s;
      UnsignedDecimal(s, "");
      ParseIntSigned('-', s, n);
      assert IntToString(i) == ['-'] + s;
    }
  }
}

=== FILE: schema.dfy ===
/** The tables the core reads and writes (`sites`, `events`, `gsc_data`) as
    immutable rows, with the constraints the schema declares: not-null
    columns, column defaults, generated date and hour, the unique tracking id,
    the `gsc_data` unique index and cascading deletes. Dates are day numbers
    since the Unix epoch and timestamps are Unix seconds. */
module Schema {
  import opened Common

  type Day = int

  /** The parts of `sites.gsc_config` (a JSON column) the core reads or writes. */
  datatype GscConfig = GscConfig(
    siteUrl: Option<string>,
    accessToken: Option<string>,
    permissionLevel: Option<string>,
    connectedAt: Option<string>)

  datatype Site = Site(
    id: string,
    userId: string,
    domain: string,
    name: Option<string>,
    trackingId: Option<string>,
    trackingEnabled: Option<bool>,
    gscEnabled: Option<bool>,
    gscConfig: Option<GscConfig>)

  /** A stored event. The four not-null text columns are plain strings; the
      others are nullable. */
  datatype Event = Event(
    siteId: string,
    eventType: string,
    visitorHash: string,
    sessionHash: string,
    url: Option<string>,
    path: Option<string>,
    title: Option<string>,
    referrer: Option<string>,
    deviceType: Option<string>,
    screenSize: Option<string>,
    browser: Option<string>,
    os: Option<string>,
    country: Option<string>,
    eventName: Option<string>,
    eventValue: Json,
    timestamp: int)

  /** A `gsc_data` row; the four dimensions are nullable. */
  datatype GscRow = GscRow(
    siteId: string,
    date: Day,
    query: Option<string>,
    page: Option<string>,
    country: Option<string>,
    device: Option<string>,
    clicks: Option<int>,
    impressions: Option<int>,
    ctr: Option<real>,
    position: Option<real>)

  datatype Db = Db(sites: seq<Site>, events: seq<Event>, gsc: seq<GscRow>)

  const SecondsPerDay: int := 86400
  const SecondsPerHour: int := 3600

  /** The generated `date` column: the UTC calendar day of the timestamp. */
  function EventDate(e: Event): (d: Day)
    ensures d * SecondsPerDay <= e.timestamp < (d + 1) * SecondsPerDay
  {
    e.timestamp / SecondsPerDay
  }

  /** The generated `hour` column: the UTC hour of the timestamp. */
  function EventHour(e: Event): (h: int)
    ensures 0 <= h <= 23
    ensures EventDate(e) * SecondsPerDay + h * SecondsPerHour <= e.timestamp
    ensures e.timestamp < EventDate(e) * SecondsPerDay + (h + 1) * SecondsPerHour
  {
    (e.timestamp % SecondsPerDay) / SecondsPerHour
  }

  /** `select … from sites where tracking_id = ? limit 1`: the first row with that tracking id. */
  function SiteByTrackingId(sites: seq<Site>, trackingId: string): (r: Option<Site>)
    ensures r.Some? ==> r.value in sites && r.value.trackingId == Some(trackingId)
    ensures r.None? ==> forall s :: s in sites ==> s.trackingId != Some(trackingId)
  {
    if |sites| == 0 then None
    else if sites[0].trackingId == Some(trackingId) then Some(sites[0])
    else SiteByTrackingId(sites[1..], trackingId)
  }

  /** `select … from sites where id = ? limit 1`. */
  function SiteById(sites: seq<Site>, id: string): (r: Option<Site>)
    ensures r.Some? ==> r.value in sites && r.value.id == id
    ensures r.None? ==> forall s :: s in sites ==> s.id != id
  {
    if |sites| == 0 then None
    else if sites[0].id == id then Some(sites[0])
    else SiteById(sites[1..], id)
  }

  /** `tracking_id` is UNIQUE; SQL NULLs never collide. */
  predicate UniqueTrackingIds(sites: seq<Site>)
  {
    forall i, j :: 0 <= i < j < |sites| && sites[i].trackingId.Some? ==> sites[i].trackingId != sites[j].trackingId
  }

  /** `lower(hex(randomblob(8)))`: the random bytes are an input. */
  function DefaultTrackingId(bytes: seq<bv8>): (r: string)
    ensures |r| == 2 * |bytes|
    ensures forall i :: 0 <= i < |r| ==> ('0' <= r[i] <= '9' || 'a' <= r[i] <= 'f')
  {
    if |bytes| == 0 then ""
    else HexByte(bytes[0]) + DefaultTrackingId(bytes[1..])
  }

  function HexDigit(d: int): (c: char)
    requires 0 <= d < 16
    ensures '0' <= c <= '9' || 'a' <= c <= 'f'
  {
    if d < 10 then ('0' as int + d) as char else ('a' as int + d - 10) as char
  }

  function HexByte(b: bv8): (r: string)
    ensures |r| == 2
    ensures forall i :: 0 <= i < 2 ==> ('0' <= r[i] <= '9' || 'a' <= r[i] <= 'f')
  {
    [HexDigit(b as int / 16), HexDigit(b as int % 16)]
  }

  /** A new `sites` row with the declared defaults: tracking on, GSC off, no configuration. */
  function NewSite(id: string, userId: string, domain: string, name: Option<string>, idBytes: seq<bv8>): (s: Site)
    requires |idBytes| == 8
    ensures s.trackingEnabled == Some(true) && s.gscEnabled == Some(false) && s.gscConfig.None?
    ensures s.trackingId.Some? && |s.trackingId.value| == 16
    ensures forall i :: 0 <= i < 16 ==> s.trackingId.value[i] != '.'
  {
    var t := DefaultTrackingId(idBytes);
    assert forall i :: 0 <= i < 16 ==> t[i] != '.' by {
      forall i | 0 <= i < 16 ensures t[i] != '.' {
        assert '0' <= t[i] <= '9' || 'a' <= t[i] <= 'f';
      }
    }
    Site(id, userId, domain, name, Some(t), Some(true), Some(false), None)
  }

  /** The `idx_gsc_unique` index on (site, date, query, page) as SQLite enforces
      it: rows with a NULL in any indexed column never conflict. */
  predicate SatisfiesGscUniqueIndex(rows: seq<GscRow>)
  {
    forall i, j :: 0 <= i < j < |rows| ==> !IndexCollision(rows[i], rows[j])
  }

  predicate IndexCollision(a: GscRow, b: GscRow)
  {
    a.siteId == b.siteId && a.date == b.date
    && a.query.Some? && a.query == b.query
    && a.page.Some? && a.page == b.page
  }

  /** Two site-wide rows (NULL query and page) for the same site and day do
      not violate the index, so the database does not prevent the duplicate. */
  lemma SiteWideDuplicatesAllowed(r: GscRow)
    requires r.query.None? && r.page.None?
    ensures SatisfiesGscUniqueIndex([r, r])
  {
  }

  /** Deleting a site deletes its events and GSC rows (`ON DELETE CASCADE`). */
  function DeleteSite(db: Db, siteId: string): (r: Db)
    ensures forall s :: s in r.sites <==> s in db.sites && s.id != siteId
    ensures forall e :: e in r.events <==> e in db.events && e.siteId != siteId
    ensures forall g :: g in r.gsc <==> g in db.gsc && g.siteId != siteId
  {
    Db(SitesWithout(db.sites, siteId), EventsWithout(db.events, siteId), GscWithout(db.gsc, siteId))
  }

  function SitesWithout(xs: seq<Site>, id: string): (r: seq<Site>)
    ensures forall s :: s in r <==> s in xs && s.id != id
  {
    if |xs| == 0 then []
    else (if xs[0].id != id then [xs[0]] else []) + SitesWithout(xs[1..], id)
  }

  function EventsWithout(xs: seq<Event>, id: string): (r: seq<Event>)
    ensures forall e :: e in r <==> e in xs && e.siteId != id
  {
    if |xs| == 0 then []
    else (if xs[0].siteId != id then [xs[0]] else []) + EventsWithout(xs[1..], id)
  }

  function GscWithout(xs: seq<GscRow>, id: string): (r: seq<GscRow>)
    ensures forall g :: g in r <==> g in xs && g.siteId != id
  {
    if |xs| == 0 then []
    else (if xs[0].siteId != id then [xs[0]] else []) + GscWithout(xs[1..], id)
  }

  /** Every event and GSC row references an existing site. */
  predicate ReferentiallyIntact(db: Db)
  {
    (forall e :: e in db.events ==> exists s :: s in db.sites && s.id == e.siteId)
    && (forall g :: g in db.gsc ==> exists s :: s in db.sites && s.id == g.siteId)
  }

  /** Cascading delete leaves no dangling references behind. */
  lemma DeleteKeepsIntegrity(db: Db, siteId: string)
    requires ReferentiallyIntact(db)
    ensures ReferentiallyIntact(DeleteSite(db, siteId))
  {
    var r := DeleteSite(db, siteId);
    forall e | e in r.events ensures exists s :: s in r.sites && s.id == e.siteId {
      var s :| s in db.sites && s.id == e.siteId;
      assert s in r.sites;
    }
    forall g | g in r.gsc ensures exists s :: s in r.sites && s.id == g.siteId {
      var s :| s in db.sites && s.id == g.siteId;
      assert s in r.sites;
    }
  }
}

=== FILE: seo_views.dfy ===
/** The three SEO views over the stored `gsc_data` rows: the position trend
    of one query or of the whole site, the keyword ranking, and the daily
    click-through series. None of them checks a session: any caller who knows
    a site id reads that site's rows. "Today" is the input `today`. */
module SeoViews {
  import opened Common
  import opened Schema
  import opened Grouping
  import Stats

  const NotEnabled: string := "GSC連携が有効になっていません"
  const OverallLabel: string := "全体"

  /** The outcomes shared by the three routes: 400 without a site id, 404 for
      an unknown site, 400 when the site has not turned GSC on, 500 when the
      query fails. */
  datatype SeoReply<T> = MissingSiteId | SiteNotFound | GscOff | Failed | Ok(body: T)

  datatype Gated = NoSiteId | NoSite | Off | Open(site: Site)

  /** The guards in the order the routes apply them. */
  function Gate(sites: seq<Site>, siteIdParam: Option<string>): (g: Gated)
    ensures g == NoSiteId <==> !Filled(siteIdParam)
    ensures g == NoSite <==> Filled(siteIdParam) && SiteById(sites, siteIdParam.value).None?
    ensures g == Off <==> Filled(siteIdParam) && SiteById(sites, siteIdParam.value).Some?
                          && SiteById(sites, siteIdParam.value).value.gscEnabled != Some(true)
    ensures g.Open? ==> Filled(siteIdParam) && SiteById(sites, siteIdParam.value) == Some(g.site)
                        && g.site.id == siteIdParam.value && g.site.gscEnabled == Some(true)
  {
    if !Filled(siteIdParam) then NoSiteId
    else match SiteById(sites, siteIdParam.value)
      case None => NoSite
      case Some(site) => if site.gscEnabled != Some(true) then Off else Open(site)
  }

  /** `period || fallback`. */
  function PeriodOr(param: Option<string>, fallback: string): (r: string)
    ensures Filled(param) ==> r == param.value
    ensures !Filled(param) ==> r == fallback
  {
    if Filled(param) then param.value else fallback
  }

  /** `"7d"` is seven days, `"30d"` thirty, anything else ninety. */
  function SeoPeriodDays(period: string): (days: int)
    ensures days == 7 <==> period == "7d"
    ensures days == 30 <==> period == "30d"
    ensures days == 90 <==> period != "7d" && period != "30d"
  {
    if period == "7d" then 7 else if period == "30d" then 30 else 90
  }

  // ---------------------------------------------------------------------
  // Column projections

  function RowDate(r: GscRow): int { r.date }
  function RowQuery(r: GscRow): Option<string> { r.query }
  function RowClicks(r: GscRow): Option<int> { r.clicks }
  function RowImpressions(r: GscRow): Option<int> { r.impressions }
  function RowCtr(r: GscRow): Option<real> { r.ctr }
  function RowPosition(r: GscRow): Option<real> { r.position }

  function RowDates(w: seq<GscRow>): (ds: seq<int>)
    ensures |ds| == |w|
    ensures forall i :: 0 <= i < |w| ==> ds[i] == w[i].date
  {
    seq(|w|, i requires 0 <= i < |w| => w[i].date)
  }

  /** The ascending distinct dates of the rows (`GROUP BY date ORDER BY date`). */
  function DaysOf(w: seq<GscRow>): (ds: seq<Day>)
    ensures StrictlyAscending(ds) && NoDup(ds)
    ensures forall d :: d in ds <==> exists r :: r in w && r.date == d
  {
    var xs := RowDates(w);
    var ds := AscendingKeys(xs);
    AscendingNoDup(ds);
    forall d ensures d in ds <==> exists r :: r in w && r.date == d {
      if d in ds {
        var i :| 0 <= i < |xs| && xs[i] == d;
        assert w[i] in w;
      }
      if exists r :: r in w && r.date == d {
        var r :| r in w && r.date == d;
        var i :| 0 <= i < |w| && w[i] == r;
        assert xs[i] == d;
      }
    }
    ds
  }

  // ---------------------------------------------------------------------
  // Row selection

  /** The rows a dated view aggregates: the site's rows from `start` on with
      NULL page, country and device, and the given query (`None` for the
      site-wide rows). */
  function SliceRows(gsc: seq<GscRow>, siteId: string, query: Option<string>, start: Day): (w: seq<GscRow>)
    ensures forall r :: r in w <==> (r in gsc && r.siteId == siteId && r.query == query
                                   && r.page.None? && r.country.None? && r.device.None? && r.date >= start)
  {
    Filter(gsc, (r: GscRow) => r.siteId == siteId && r.query == query
                               && r.page.None? && r.country.None? && r.device.None? && r.date >= start)
  }

  /** The rows the keyword ranking aggregates: the site's rows with a query,
      from `start` on, whatever their page, country or device. */
  function QueryRows(gsc: seq<GscRow>, siteId: string, start: Day): (w: seq<GscRow>)
    ensures forall r :: r in w <==> r in gsc && r.siteId == siteId && r.query.Some? && r.date >= start
  {
    Filter(gsc, InQueryWindow(siteId, start))
  }

  function InQueryWindow(siteId: string, start: Day): GscRow -> bool
  {
    (r: GscRow) => r.siteId == siteId && r.query.Some? && r.date >= start
  }


  // ---------------------------------------------------------------------
  // Position trend

  datatype PositionPoint = PositionPoint(date: Day, position: real, clicks: int, impressions: int)
  datatype PositionsBody = PositionsBody(positions: seq<PositionPoint>, period: string, query: string)

  function PositionPointOf(w: seq<GscRow>, d: Day): PositionPoint
  {
    var day := Members(w, RowDate, d);
    PositionPoint(d, AvgSome(day, RowPosition), SumSome(day, RowClicks), SumSome(day, RowImpressions))
  }

  function PositionSeries(w: seq<GscRow>): (ps: seq<PositionPoint>)
    ensures |ps| == |DaysOf(w)|
    ensures forall i :: 0 <= i < |ps| ==> ps[i] == PositionPointOf(w, DaysOf(w)[i])
  {
    var ds := DaysOf(w);
    seq(|ds|, i requires 0 <= i < |ds| => PositionPointOf(w, ds[i]))
  }

  function PointDates(ps: seq<PositionPoint>): (ds: seq<Day>)
    ensures |ds| == |ps| && forall i :: 0 <= i < |ps| ==> ds[i] == ps[i].date
  {
    seq(|ps|, i requires 0 <= i < |ps| => ps[i].date)
  }

  function PointClicks(ps: seq<PositionPoint>): (cs: seq<int>)
    ensures |cs| == |ps| && forall i :: 0 <= i < |ps| ==> cs[i] == ps[i].clicks
  {
    seq(|ps|, i requires 0 <= i < |ps| => ps[i].clicks)
  }

  function PointImpressions(ps: seq<PositionPoint>): (cs: seq<int>)
    ensures |cs| == |ps| && forall i :: 0 <= i < |ps| ==> cs[i] == ps[i].impressions
  {
    seq(|ps|, i requires 0 <= i < |ps| => ps[i].impressions)
  }

  /** The trend has one point per day that has rows, in ascending date order,
      and its clicks and impressions add up to the totals of the rows. */
  lemma PositionSeriesFacts(w: seq<GscRow>)
    ensures var ps := PositionSeries(w);
      StrictlyAscending(PointDates(ps))
      && (forall r :: r in w ==> r.date in PointDates(ps))
      && (forall i :: 0 <= i < |ps| ==> exists r :: r in w && r.date == ps[i].date)
      && SumInt(PointClicks(ps)) == SumSome(w, RowClicks)
      && SumInt(PointImpressions(ps)) == SumSome(w, RowImpressions)
  {
    SeriesDays(w);
    SeriesTotals(w);
  }

  lemma SeriesDays(w: seq<GscRow>)
    ensures var ps := PositionSeries(w);
      StrictlyAscending(PointDates(ps))
      && (forall r :: r in w ==> r.date in PointDates(ps))
      && (forall i :: 0 <= i < |ps| ==> exists r :: r in w && r.date == ps[i].date)
  {
    var ps := PositionSeries(w);
    var ds := DaysOf(w);
    SeriesDates(w);
    forall i | 0 <= i < |ps| ensures exists r :: r in w && r.date == ps[i].date {
      assert PointDates(ps)[i] == ps[i].date;
      assert ds[i] in ds;
    }
  }

  lemma SeriesTotals(w: seq<GscRow>)
    ensures var ps := PositionSeries(w);
      SumInt(PointClicks(ps)) == SumSome(w, RowClicks)
      && SumInt(PointImpressions(ps)) == SumSome(w, RowImpressions)
  {
    var ds := DaysOf(w);
    SeriesSums(w);
    GroupSumsPartition(w, RowDate, ds, RowClicks);
    GroupSumsPartition(w, RowDate, ds, RowImpressions);
  }

  lemma SeriesDates(w: seq<GscRow>)
    ensures PointDates(PositionSeries(w)) == DaysOf(w)
  {
    var ps := PositionSeries(w);
    assert forall i :: 0 <= i < |ps| ==> PointDates(ps)[i] == DaysOf(w)[i];
  }

  lemma SeriesSums(w: seq<GscRow>)
    ensures PointClicks(PositionSeries(w)) == GroupSums(w, RowDate, DaysOf(w), RowClicks)
    ensures PointImpressions(PositionSeries(w)) == GroupSums(w, RowDate, DaysOf(w), RowImpressions)
  {
    var ps := PositionSeries(w);
    assert forall i :: 0 <= i < |ps| ==> PointClicks(ps)[i] == GroupSums(w, RowDate, DaysOf(w), RowClicks)[i];
    assert forall i :: 0 <= i < |ps| ==> PointImpressions(ps)[i] == GroupSums(w, RowDate, DaysOf(w), RowImpressions)[i];
  }

  /** A point's position is the mean of that day's stored positions, so it
      stays within their range; a day without any position shows 0. */
  lemma PositionWithinStored(w: seq<GscRow>, lo: real, hi: real)
    requires forall i :: 0 <= i < |w| && w[i].position.Some? ==> lo <= w[i].position.value <= hi
    ensures forall p :: p in PositionSeries(w) ==> p.position == 0.0 || lo <= p.position <= hi
  {
    forall p | p in PositionSeries(w) ensures p.position == 0.0 || lo <= p.position <= hi {
      var ps := PositionSeries(w);
      var i :| 0 <= i < |ps| && ps[i] == p;
      var day := Members(w, RowDate, DaysOf(w)[i]);
      if CountSome(day, RowPosition) > 0 {
        forall j | 0 <= j < |day| && RowPosition(day[j]).Some?
          ensures lo <= RowPosition(day[j]).value <= hi
        {
          assert day[j] in w;
          var k :| 0 <= k < |w| && w[k] == day[j];
        }
        AvgSomeWithin(day, RowPosition, lo, hi);
      }
    }
  }

  /** `query` as the filter: a non-empty query selects its rows, otherwise the
      site-wide rows. */
  function QueryFilter(queryParam: Option<string>): (q: Option<string>)
    ensures q.Some? <==> Filled(queryParam)
    ensures q.Some? ==> q == queryParam
  {
    if Filled(queryParam) then queryParam else None
  }

  /** `GET /api/seo/positions`. */
  function PositionsRoute(sites: seq<Site>, gsc: seq<GscRow>, siteIdParam: Option<string>, queryParam: Option<string>,
                          periodParam: Option<string>, today: Day): (r: SeoReply<PositionsBody>)
    ensures r == MissingSiteId <==> Gate(sites, siteIdParam) == NoSiteId
    ensures r == SiteNotFound <==> Gate(sites, siteIdParam) == NoSite
    ensures r == GscOff <==> Gate(sites, siteIdParam) == Off
    ensures r.Failed? ==> false
    ensures r.Ok? ==>
      var period := PeriodOr(periodParam, "30d");
      r.body.period == period
      && r.body.query == (if Filled(queryParam) then queryParam.value else OverallLabel)
      && r.body.positions
         == PositionSeries(SliceRows(gsc, siteIdParam.value, QueryFilter(queryParam), today - SeoPeriodDays(period)))
  {
    match Gate(sites, siteIdParam)
    case NoSiteId => MissingSiteId
    case NoSite => SiteNotFound
    case Off => GscOff
    case Open(site) =>
      var period := PeriodOr(periodParam, "30d");
      var start := today - SeoPeriodDays(period);
      var w := SliceRows(gsc, site.id, QueryFilter(queryParam), start);
      Ok(PositionsBody(PositionSeries(w), period, if Filled(queryParam) then queryParam.value else OverallLabel))
  }

  // ---------------------------------------------------------------------
  // Daily click-through

  datatype CtrPoint = CtrPoint(date: Day, clicks: int, impressions: int, ctr: real, position: real)
  datatype CtrBody = CtrBody(daily: seq<CtrPoint>, period: string)

  function CtrPointOf(w: seq<GscRow>, d: Day): CtrPoint
  {
    var day := Members(w, RowDate, d);
    CtrPoint(d, SumSome(day, RowClicks), SumSome(day, RowImpressions), AvgSome(day, RowCtr), AvgSome(day, RowPosition))
  }

  function CtrSeries(w: seq<GscRow>): (ps: seq<CtrPoint>)
    ensures |ps| == |DaysOf(w)|
    ensures forall i :: 0 <= i < |ps| ==> ps[i] == CtrPointOf(w, DaysOf(w)[i])
  {
    var ds := DaysOf(w);
    seq(|ds|, i requires 0 <= i < |ds| => CtrPointOf(w, ds[i]))
  }

  /** `GET /api/seo/ctr`: the site-wide rows, one point per day. */
  function CtrRoute(sites: seq<Site>, gsc: seq<GscRow>, siteIdParam: Option<string>, periodParam: Option<string>,
                    today: Day): (r: SeoReply<CtrBody>)
    ensures r == MissingSiteId <==> Gate(sites, siteIdParam) == NoSiteId
    ensures r == SiteNotFound <==> Gate(sites, siteIdParam) == NoSite
    ensures r == GscOff <==> Gate(sites, siteIdParam) == Off
    ensures r.Failed? ==> false
    ensures r.Ok? ==>
      var period := PeriodOr(periodParam, "30d");
      r.body.period == period
      && r.body.daily == CtrSeries(SliceRows(gsc, siteIdParam.value, None, today - SeoPeriodDays(period)))
  {
    match Gate(sites, siteIdParam)
    case NoSiteId => MissingSiteId
    case NoSite => SiteNotFound
    case Off => GscOff
    case Open(site) =>
      var period := PeriodOr(periodParam, "30d");
      Ok(CtrBody(CtrSeries(SliceRows(gsc, site.id, None, today - SeoPeriodDays(period))), period))
  }

  /** Without a query the position trend and the click-through series read the
      same rows: for the same site and period they list the same days with the
      same clicks, impressions and positions. */
  lemma OverallTrendMatchesCtr(sites: seq<Site>, gsc: seq<GscRow>, siteIdParam: Option<string>, periodParam: Option<string>, today: Day)
    requires Gate(sites, siteIdParam).Open?
    ensures var p := PositionsRoute(sites, gsc, siteIdParam, None, periodParam, today);
      var c := CtrRoute(sites, gsc, siteIdParam, periodParam, today);
      p.Ok? && c.Ok? && p.body.query == OverallLabel
      && |p.body.positions| == |c.body.daily|
      && forall i :: 0 <= i < |c.body.daily| ==>
           p.body.positions[i].date == c.body.daily[i].date
           && p.body.positions[i].clicks == c.body.daily[i].clicks
           && p.body.positions[i].impressions == c.body.daily[i].impressions
           && p.body.positions[i].position == c.body.daily[i].position
  {
  }

  // ---------------------------------------------------------------------
  // Keyword ranking

  datatype KeywordRow = KeywordRow(query: Option<string>, clicks: int, impressions: int, ctr: real, position: real)
  datatype KeywordsBody = KeywordsBody(keywords: seq<KeywordRow>, period: string)

  function KeywordOf(w: seq<GscRow>, q: Option<string>): KeywordRow
  {
    var rows := Members(w, RowQuery, q);
    KeywordRow(q, SumSome(rows, RowClicks), SumSome(rows, RowImpressions), AvgSome(rows, RowCtr), AvgSome(rows, RowPosition))
  }

  /** One row per distinct query, in first-seen order. */
  function KeywordGroups(w: seq<GscRow>): (ks: seq<KeywordRow>)
    ensures |ks| == |GroupKeys(w, RowQuery)|
    ensures forall i :: 0 <= i < |ks| ==> ks[i] == KeywordOf(w, GroupKeys(w, RowQuery)[i])
  {
    var qs := GroupKeys(w, RowQuery);
    seq(|qs|, i requires 0 <= i < |qs| => KeywordOf(w, qs[i]))
  }

  function ClickRank(k: KeywordRow): real { k.clicks as real }
  function KeywordQuery(k: KeywordRow): Option<string> { k.query }

  /** `GROUP BY query ORDER BY sum(clicks) DESC LIMIT n`. */
  function TopKeywords(w: seq<GscRow>, n: int): seq<KeywordRow>
  {
    SqlLimit(SortDesc(KeywordGroups(w), ClickRank), n)
  }

  /** The ranking lists distinct queries of the rows, each with the totals of
      its own rows, most clicked first, at most `n` of them; with room for all
      (or a negative limit) every query of the rows is listed. */
  lemma TopKeywordsFacts(w: seq<GscRow>, n: int)
    ensures var ks := TopKeywords(w, n);
      SortedDesc(ks, ClickRank)
      && (n >= 0 ==> |ks| <= n)
      && (forall i :: 0 <= i < |ks| ==> ks[i] == KeywordOf(w, ks[i].query)
                                        && exists r :: r in w && r.query == ks[i].query)
      && (forall i, j :: 0 <= i < j < |ks| ==> ks[i].query != ks[j].query)
      && ((n < 0 || n >= |KeySet(w, RowQuery)|) ==> forall r :: r in w ==> exists i :: 0 <= i < |ks| && ks[i].query == r.query)
  {
    TopKeywordsOrder(w, n);
    TopKeywordsTotals(w, n);
    if n < 0 || n >= |KeySet(w, RowQuery)| {
      TopKeywordsComplete(w, n);
    }
  }

  lemma TopKeywordsOrder(w: seq<GscRow>, n: int)
    ensures var ks := TopKeywords(w, n);
      SortedDesc(ks, ClickRank)
      && (n >= 0 ==> |ks| <= n)
      && (forall i, j :: 0 <= i < j < |ks| ==> ks[i].query != ks[j].query)
  {
    var ks := TopKeywords(w, n);
    KeywordGroupsDistinct(w);
    TopNSorted(KeywordGroups(w), ClickRank, n);
    TopNDistinct(KeywordGroups(w), ClickRank, n, KeywordQuery, ks);
    DistinctByQuery(ks, KeywordQuery);
  }

  /** Rows whose `KeywordQuery` keys differ have different queries. */
  lemma DistinctByQuery(ks: seq<KeywordRow>, key: KeywordRow -> Option<string>)
    requires forall k :: key(k) == k.query
    requires forall i, j :: 0 <= i < j < |ks| ==> key(ks[i]) != key(ks[j])
    ensures forall i, j :: 0 <= i < j < |ks| ==> ks[i].query != ks[j].query
  {
    forall i, j | 0 <= i < j < |ks| ensures ks[i].query != ks[j].query {
      assert key(ks[i]) != key(ks[j]);
    }
  }

  /** Each query makes one group. */
  lemma KeywordGroupsDistinct(w: seq<GscRow>)
    ensures var g := KeywordGroups(w);
      forall i, j :: 0 <= i < j < |g| ==> KeywordQuery(g[i]) != KeywordQuery(g[j])
  {
    var g := KeywordGroups(w);
    var qs := GroupKeys(w, RowQuery);
    assert forall i :: 0 <= i < |g| ==> KeywordQuery(g[i]) == qs[i];
  }

  lemma TopKeywordsTotals(w: seq<GscRow>, n: int)
    ensures var ks := TopKeywords(w, n);
      forall i :: 0 <= i < |ks| ==> ks[i] == KeywordOf(w, ks[i].query) && exists r :: r in w && r.query == ks[i].query
  {
    var g := KeywordGroups(w);
    var qs := GroupKeys(w, RowQuery);
    var ks := TopKeywords(w, n);
    TopNFromInput(g, ClickRank, n);
    forall i | 0 <= i < |ks| ensures ks[i] == KeywordOf(w, ks[i].query) && exists r :: r in w && r.query == ks[i].query {
      assert ks[i] in ks;
      var k :| 0 <= k < |g| && g[k] == ks[i];
      assert qs[k] in qs;
      assert qs[k] in KeySet(w, RowQuery);
      var j :| 0 <= j < |w| && RowQuery(w[j]) == qs[k];
      assert w[j] in w;
    }
  }

  lemma TopKeywordsComplete(w: seq<GscRow>, n: int)
    requires n < 0 || n >= |KeySet(w, RowQuery)|
    ensures var ks := TopKeywords(w, n);
      forall r :: r in w ==> exists i :: 0 <= i < |ks| && ks[i].query == r.query
  {
    var g := KeywordGroups(w);
    var qs := GroupKeys(w, RowQuery);
    var ks := TopKeywords(w, n);
    TopKeywordsAll(w, n);
    assert ks == SortDesc(g, ClickRank);
    forall r | r in w ensures exists i :: 0 <= i < |ks| && ks[i].query == r.query {
      KeySetHas(w, RowQuery, r);
      var k :| 0 <= k < |qs| && qs[k] == r.query;
      SortedHasEach(g, ClickRank, k);
      var i :| 0 <= i < |ks| && ks[i] == g[k];
    }
  }

  /** With room for every query nothing is cut. */
  lemma TopKeywordsAll(w: seq<GscRow>, n: int)
    requires n < 0 || n >= |KeySet(w, RowQuery)|
    ensures TopKeywords(w, n) == SortDesc(KeywordGroups(w), ClickRank)
  {
    var qs := GroupKeys(w, RowQuery);
    KeySetCard(w, RowQuery);
    assert |qs| <= |KeySet(w, RowQuery)| by {
      assert forall q :: q in qs ==> q in KeySet(w, RowQuery);
      DistinctCard(qs, KeySet(w, RowQuery));
    }
  }

  /** A list of distinct values drawn from a set is no longer than the set. */
  lemma {:induction false} DistinctCard<K(!new)>(qs: seq<K>, s: set<K>)
    requires NoDup(qs)
    requires forall q :: q in qs ==> q in s
    ensures |qs| <= |s|
    decreases |qs|
  {
    if |qs| > 0 {
      var q := qs[|qs| - 1];
      var init := qs[..|qs| - 1];
      forall i | 0 <= i < |init| ensures init[i] != q {
        assert init[i] == qs[i];
      }
      assert NoDup(init) by {
        forall i, j | 0 <= i < j < |init| ensures init[i] != init[j] {
          assert init[i] == qs[i] && init[j] == qs[j];
        }
      }
      forall x | x in init ensures x in s - {q} {
        assert x in qs;
      }
      DistinctCard(init, s - {q});
    }
  }

  /** `GET /api/seo/keywords`. A limit that does not parse writes no `LIMIT`
      clause, so every query of the window is ranked. */
  function KeywordsRoute(sites: seq<Site>, gsc: seq<GscRow>, siteIdParam: Option<string>, periodParam: Option<string>,
                         limitParam: Option<string>, today: Day): (r: SeoReply<KeywordsBody>)
    ensures r == MissingSiteId <==> Gate(sites, siteIdParam) == NoSiteId
    ensures r == SiteNotFound <==> Gate(sites, siteIdParam) == NoSite
    ensures r == GscOff <==> Gate(sites, siteIdParam) == Off
    ensures r.Ok? <==> Gate(sites, siteIdParam).Open?
    ensures r.Ok? ==>
      var period := PeriodOr(periodParam, "7d");
      var w := QueryRows(gsc, siteIdParam.value, today - SeoPeriodDays(period));
      r.body.period == period
      && r.body.keywords == TopKeywords(w, BuilderLimit(Stats.LimitParam(limitParam)))
      && (Stats.LimitParam(limitParam).None? ==> r.body.keywords == SortDesc(KeywordGroups(w), ClickRank))
  {
    match Gate(sites, siteIdParam)
    case NoSiteId => MissingSiteId
    case NoSite => SiteNotFound
    case Off => GscOff
    case Open(site) =>
      var period := PeriodOr(periodParam, "7d");
      Ok(KeywordsBody(TopKeywords(QueryRows(gsc, site.id, today - SeoPeriodDays(period)), BuilderLimit(Stats.LimitParam(limitParam))), period))
  }

  /** The default ranking is the top ten of the last seven days. */
  lemma KeywordsDefaults(sites: seq<Site>, gsc: seq<GscRow>, siteIdParam: Option<string>, today: Day)
    requires Gate(sites, siteIdParam).Open?
    ensures var r := KeywordsRoute(sites, gsc, siteIdParam, None, None, today);
      r.Ok? && r.body.period == "7d" && |r.body.keywords| <= 10
      && r.body.keywords == TopKeywords(QueryRows(gsc, siteIdParam.value, today - 7), 10)
  {
    TopKeywordsFacts(QueryRows(gsc, siteIdParam.value, today - 7), 10);
  }

  /** The stored query rows are each a whole-window aggregate filed under the
      day of the sync run, so two runs inside the ranking's window both count:
      a query with 5 clicks in each of two snapshots ranks with 10. */
  lemma SnapshotsAddUp(siteId: string, q: string, d: Day)
    ensures var a := GscRow(siteId, d, Some(q), None, None, None, Some(5), Some(40), Some(0.125), Some(3.0));
      var b := GscRow(siteId, d + 1, Some(q), None, None, None, Some(5), Some(40), Some(0.125), Some(3.0));
      KeywordOf(QueryRows([a, b], siteId, d), Some(q)).clicks == 10
  {
    var a := GscRow(siteId, d, Some(q), None, None, None, Some(5), Some(40), Some(0.125), Some(3.0));
    var b := GscRow(siteId, d + 1, Some(q), None, None, None, Some(5), Some(40), Some(0.125), Some(3.0));
    FilterAll([a, b], InQueryWindow(siteId, d));
    assert QueryRows([a, b], siteId, d) == [a, b];
    MembersAll([a, b], RowQuery, Some(q));
    SumSomeSnoc([], a, RowClicks);
    assert [] + [a] == [a] && [a] + [b] == [a, b];
    SumSomeSnoc([a], b, RowClicks);
  }
}

=== FILE: session.dfy ===
/** The beacon's session hash kept in `sessionStorage` under `ca_session` as
    `<hash>_<mint time in ms>`, renewed 30 minutes after it was minted. The
    storage is a map and the clock and fingerprint signals are inputs. */
module Session {
  import opened Common
  import opened Radix
  import opened Beacon

  const SessionKey: string := "ca_session"
  const SessionTimeoutMs: int := 30 * 60 * 1000

  type Storage = map<string, string>

  /** The signals `getFingerprint` joins with '|' before hashing. */
  datatype Environment = Environment(
    userAgent: string,
    language: string,
    screenWidth: int,
    screenHeight: int,
    timezoneOffset: int,
    canvasData: string)

  /** The outcome of `getSessionHash`: a hash with the storage afterwards, or a
      thrown error with the storage as it was when the error was raised. */
  datatype SessionResult = Session(hash: string, storage: Storage) | Throws(storage: Storage)

  function FingerprintText(env: Environment): string
  {
    Join([env.userAgent, env.language, ScreenSize(env.screenWidth, env.screenHeight),
          IntToString(env.timezoneOffset), env.canvasData], '|')
  }

  /** `getFingerprint()`: the visitor hash. */
  function Fingerprint(env: Environment): (r: string)
    ensures |r| >= 1
  {
    Hash(FingerprintText(env))
  }

  /** `hash(getFingerprint() + now)`: a freshly minted session hash. */
  function MintHash(env: Environment, now: int): (r: string)
    ensures |r| >= 1
    ensures forall i :: 0 <= i < |r| ==> r[i] != '_'
  {
    HashHasNoSeparators(Fingerprint(env) + IntToString(now));
    Hash(Fingerprint(env) + IntToString(now))
  }

  /** The stored text `session + '_' + now`. */
  function Record(h: string, now: int): string
  {
    h + "_" + IntToString(now)
  }

  /** `const [hash, timestamp] = session.split('_')` followed by
      `parseInt(timestamp)`; a missing second piece or one without leading
      digits parses to NaN, written `None`. */
  function StoredParts(v: string): (r: (string, Option<int>))
    ensures r.0 == Split(v, '_')[0]
  {
    var parts := Split(v, '_');
    (parts[0], if |parts| >= 2 then ParseInt(parts[1]) else None)
  }

  /** `now - parseInt(timestamp) > 30 * 60 * 1000`; a comparison with NaN is false. */
  predicate Expired(now: int, minted: Option<int>)
  {
    minted.Some? && now - minted.value > SessionTimeoutMs
  }

  /** A stored value the script treats as present (`!session` is false). */
  predicate HasSession(storage: Storage)
  {
    SessionKey in storage && storage[SessionKey] != ""
  }

  function Mint(storage: Storage, env: Environment, now: int): (r: SessionResult)
    ensures r.Session? && r.hash == MintHash(env, now)
    ensures r.storage == storage[SessionKey := Record(MintHash(env, now), now)]
  {
    var h := MintHash(env, now);
    Session(h, storage[SessionKey := Record(h, now)])
  }

  /** `getSessionHash` as written. In the expiry branch the destructured `hash`
      string shadows the hash function, so `hash(...)` raises a TypeError
      before anything is stored. */
  function GetSessionAsWritten(storage: Storage, env: Environment, now: int): (r: SessionResult)
    ensures !HasSession(storage) ==> r == Mint(storage, env, now)
    ensures HasSession(storage) && Expired(now, StoredParts(storage[SessionKey]).1) ==> r == Throws(storage)
    ensures HasSession(storage) && !Expired(now, StoredParts(storage[SessionKey]).1) ==>
      r == Session(StoredParts(storage[SessionKey]).0, storage)
  {
    if !HasSession(storage) then Mint(storage, env, now)
    else
      var (h, minted) := StoredParts(storage[SessionKey]);
      if Expired(now, minted) then Throws(storage) else Session(h, storage)
  }

  /** `getSessionHash` as evidently intended: an expired session is replaced by a new one. */
  function GetSession(storage: Storage, env: Environment, now: int): (r: SessionResult)
    ensures r.Session?
    ensures !HasSession(storage) ==> r == Mint(storage, env, now)
    ensures HasSession(storage) && Expired(now, StoredParts(storage[SessionKey]).1) ==> r == Mint(storage, env, now)
    ensures HasSession(storage) && !Expired(now, StoredParts(storage[SessionKey]).1) ==>
      r == Session(StoredParts(storage[SessionKey]).0, storage)
  {
    if !HasSession(storage) then Mint(storage, env, now)
    else
      var (h, minted) := StoredParts(storage[SessionKey]);
      if Expired(now, minted) then Mint(storage, env, now) else Session(h, storage)
  }

  /** The stored record reads back as the hash and mint time that wrote it. */
  lemma RecordParts(h: string, now: nat)
    requires forall i :: 0 <= i < |h| ==> h[i] != '_'
    ensures StoredParts(Record(h, now)) == (h, Some(now as int))
  {
    var t := IntToString(now);
    assert t == ToBase(now, 10);
    forall i | 0 <= i < |t| ensures t[i] != '_' {
      assert IsDigitOf(t[i], 10);
    }
    SplitNoSep(t, '_');
    SplitFirst(h, t, '_');
    assert Record(h, now) == h + ['_'] + t;
    ParseIntToString(now);
  }

  /** Within 30 minutes of minting, the same hash comes back and storage is not
      rewritten, however often it is asked for. */
  lemma {:induction false} ReuseWithinWindow(storage: Storage, env: Environment, minted: nat, now: int)
    requires SessionKey in storage && storage[SessionKey] == Record(MintHash(env, minted), minted)
    requires now - minted <= SessionTimeoutMs
    ensures GetSession(storage, env, now) == Session(MintHash(env, minted), storage)
    ensures GetSessionAsWritten(storage, env, now) == Session(MintHash(env, minted), storage)
  {
    RecordParts(MintHash(env, minted), minted);
  }

  /** The window is anchored to the mint time: reads in between leave storage as
      it was, so the first read more than 30 minutes after minting expires
      whatever happened before it. */
  lemma {:induction false} WindowAnchoredToMint(storage: Storage, env: Environment, minted: nat, times: seq<int>, now: int)
    requires SessionKey in storage && storage[SessionKey] == Record(MintHash(env, minted), minted)
    requires forall i :: 0 <= i < |times| ==> times[i] - minted <= SessionTimeoutMs
    requires now - minted > SessionTimeoutMs
    ensures ReadAll(storage, env, times) == storage
    ensures GetSession(ReadAll(storage, env, times), env, now) == Mint(storage, env, now)
    ensures GetSessionAsWritten(ReadAll(storage, env, times), env, now) == Throws(storage)
  {
    ReadsKeepStorage(storage, env, minted, times);
    RecordParts(MintHash(env, minted), minted);
  }

  /** Reads within 30 minutes of minting leave storage as it was. */
  lemma {:induction false} ReadsKeepStorage(storage: Storage, env: Environment, minted: nat, times: seq<int>)
    requires SessionKey in storage && storage[SessionKey] == Record(MintHash(env, minted), minted)
    requires forall i :: 0 <= i < |times| ==> times[i] - minted <= SessionTimeoutMs
    ensures ReadAll(storage, env, times) == storage
    decreases |times|
  {
    if |times| > 0 {
      ReuseWithinWindow(storage, env, minted, times[0]);
      assert forall i :: 0 <= i < |times[1..]| ==> times[1..][i] == times[i + 1];
      ReadsKeepStorage(storage, env, minted, times[1..]);
    }
  }

  /** Storage after a series of corrected `getSessionHash` calls. */
  function ReadAll(storage: Storage, env: Environment, times: seq<int>): Storage
    decreases |times|
  {
    if |times| == 0 then storage
    else ReadAll(GetSession(storage, env, times[0]).storage, env, times[1..])
  }

  /** The defect: once the stored session is more than 30 minutes old the
      as-written code throws on every call and never stores a new session,
      while the corrected one mints and stores a fresh hash. */
  lemma ExpiredSessionThrows(storage: Storage, env: Environment, minted: nat, now: int)
    requires SessionKey in storage && storage[SessionKey] == Record(MintHash(env, minted), minted)
    requires now - minted > SessionTimeoutMs
    ensures GetSessionAsWritten(storage, env, now) == Throws(storage)
    ensures GetSession(storage, env, now).storage[SessionKey] == Record(MintHash(env, now), now)
  {
    RecordParts(MintHash(env, minted), minted);
  }

  /** The two versions differ only on the expiry branch. */
  lemma AsWrittenAgreesUnlessExpired(storage: Storage, env: Environment, now: int)
    requires !(HasSession(storage) && Expired(now, StoredParts(storage[SessionKey]).1))
    ensures GetSessionAsWritten(storage, env, now) == GetSession(storage, env, now)
  {
  }
}

=== FILE: sites.dfy ===
/** `GET /api/sites` lists the signed-in user's sites and `POST /api/sites`
    registers a domain for them. The table is a sequence of rows in insertion
    order; the random bytes of the generated `id` and `tracking_id` are
    inputs, and `session` is the signed-in user's id, `None` when the guard
    throws. */
module Sites {
  import opened Common
  import opened Schema
  import opened Grouping

  datatype ListReply = ListFailed | Listed(sites: seq<Site>)

  function OwnedBy(userId: string): Site -> bool
  {
    (s: Site) => s.userId == userId
  }

  /** `GET`: the caller's sites, in table order. */
  function ListSites(sites: seq<Site>, session: Option<string>): (r: ListReply)
    ensures r.ListFailed? <==> session.None?
    ensures r.Listed? ==> forall s :: s in r.sites <==> s in sites && s.userId == session.value
    ensures r.Listed? ==> r.sites == Filter(sites, OwnedBy(session.value))
  {
    match session
    case None => ListFailed
    case Some(u) => Listed(Filter(sites, OwnedBy(u)))
  }

  /** The parts of the request body the route reads; `domain` keeps its JSON
      type because the route checks it. */
  datatype RegisterBody = RegisterBody(domain: Json, name: Json)

  datatype RegisterReply =
    | RegisterFailed
    | DomainRequired
    | DomainTaken
    | AlreadyRegistered(site: Site)
    | Created(site: Site)

  function Status(r: RegisterReply): int
  {
    match r
    case RegisterFailed => 500
    case DomainRequired => 400
    case DomainTaken => 400
    case AlreadyRegistered(_) => 200
    case Created(_) => 201
  }

  /** Drop one leading `http://` or `https://`, then one trailing `/`, then
      lower-case, then trim. Trimming comes last, so a leading space keeps
      the scheme in place. `www.` is kept. */
  function Normalize(domain: string): (d: string)
    ensures |d| <= |domain|
    ensures forall i :: 0 <= i < |d| ==> !('A' <= d[i] <= 'Z')
    ensures SpaceFreeEnds(d)
  {
    var lowered := Lowered(domain);
    TrimKeepsNoCapitals(lowered);
    Trim(lowered)
  }

  /** The steps before trimming. */
  function Lowered(domain: string): (r: string)
    ensures |r| <= |domain|
    ensures forall i :: 0 <= i < |r| ==> !('A' <= r[i] <= 'Z')
  {
    var stripped := StripTrailingSlash(StripHttpScheme(domain));
    assert |stripped| <= |domain|;
    LowerAsciiHasNoCapitals(stripped);
    LowerAscii(stripped)
  }

  /** The domain part `u` of any of the written forms of a site, with or
      without a scheme and with or without one trailing slash, comes out
      lower-cased and otherwise as it is; a leading `www.` stays. */
  lemma {:induction false} NormalizeCanonical(scheme: string, u: string, slash: string)
    requires scheme == "" || scheme == "http://" || scheme == "https://"
    requires slash == "" || slash == "/"
    requires !("http://" <= u) && !("https://" <= u)
    requires SpaceFreeEnds(u) && (|u| > 0 ==> u[|u| - 1] != '/')
    ensures Normalize(scheme + u + slash) == LowerAscii(u)
    ensures "www." <= u ==> "www." <= Normalize(scheme + u + slash)
  {
    LoweredCanonical(scheme, u, slash);
    LowerKeepsSpaceFreeEnds(u);
    TrimKeeps(LowerAscii(u));
    if "www." <= u {
      LowerKeepsWww(u);
    }
  }

  lemma {:induction false} LowerKeepsWww(u: string)
    requires "www." <= u
    ensures "www." <= LowerAscii(u)
  {
    var l := LowerAscii(u);
    assert l[0] == LowerChar(u[0]) && l[1] == LowerChar(u[1]);
    assert l[2] == LowerChar(u[2]) && l[3] == LowerChar(u[3]);
    assert u[..4] == "www." && l[..4] == [l[0], l[1], l[2], l[3]];
  }

  lemma {:induction false} LoweredCanonical(scheme: string, u: string, slash: string)
    requires scheme == "" || scheme == "http://" || scheme == "https://"
    requires slash == "" || slash == "/"
    requires !("http://" <= u) && !("https://" <= u)
    requires |u| > 0 ==> u[|u| - 1] != '/'
    ensures Lowered(scheme + u + slash) == LowerAscii(u)
  {
    assert scheme + u + slash == scheme + (u + slash);
    if scheme == "" {
      NotPrefixOfSlashed("http://", u, slash);
      NotPrefixOfSlashed("https://", u, slash);
    }
    StripSchemeOf(scheme, u + slash);
    StripSlashOf(u, slash);
  }

  lemma {:induction false} LowerKeepsSpaceFreeEnds(u: string)
    requires SpaceFreeEnds(u)
    ensures SpaceFreeEnds(LowerAscii(u))
  {
    if |u| > 0 {
      var l := LowerAscii(u);
      assert l[0] == LowerChar(u[0]) && l[|l| - 1] == LowerChar(u[|u| - 1]);
    }
  }

  /** Trimming cannot bring in a capital. */
  lemma {:induction false} TrimKeepsNoCapitals(s: string)
    requires forall i :: 0 <= i < |s| ==> !('A' <= s[i] <= 'Z')
    ensures forall i :: 0 <= i < |Trim(s)| ==> !('A' <= Trim(s)[i] <= 'Z')
  {
    var d := Trim(s);
    var k :| TrimmedAt(s, d, k);
    SliceHasNoCapitals(s, k, k + |d|);
  }

  lemma {:induction false} SliceHasNoCapitals(s: string, a: int, b: int)
    requires 0 <= a <= b <= |s|
    requires forall i :: 0 <= i < |s| ==> !('A' <= s[i] <= 'Z')
    ensures forall i :: 0 <= i < b - a ==> !('A' <= s[a..b][i] <= 'Z')
  {
    forall i | 0 <= i < b - a ensures !('A' <= s[a..b][i] <= 'Z') {
      assert s[a..b][i] == s[a + i];
    }
  }

  lemma LowerAsciiHasNoCapitals(s: string)
    ensures forall i :: 0 <= i < |LowerAscii(s)| ==> !('A' <= LowerAscii(s)[i] <= 'Z')
  {
    forall i | 0 <= i < |s| ensures !('A' <= LowerChar(s[i]) <= 'Z') {
      if 'A' <= s[i] <= 'Z' {
        assert LowerChar(s[i]) as int == s[i] as int + 32;
      }
    }
  }

  /** A scheme, upper-case letters and a trailing slash are dropped. */
  lemma NormalizeDropsSchemeAndSlash()
    ensures Normalize("https://Example.com/") == "example.com"
  {
    var s := "https://Example.com/";
    assert s[..8] == "https://";
    var a := "Example.com/";
    assert s[8..] == a;
    assert StripHttpScheme(s) == a;
    var b := "Example.com";
    assert a == b + "/";
    assert StripTrailingSlash(a) == b;
    var c := "example.com";
    assert LowerAscii(b) == c by {
      assert |LowerAscii(b)| == |c|;
      forall i | 0 <= i < |b| ensures LowerAscii(b)[i] == c[i] {
        assert LowerAscii(b)[i] == LowerChar(b[i]);
      }
    }
    assert !IsJsSpace(c[0]) && !IsJsSpace(c[|c| - 1]);
    assert TrimStart(c) == c;
    assert TrimEnd(c) == c;
  }

  /** A leading space is trimmed only after the scheme test: a lower-case
      `u` behind one space comes out as `u`, so a scheme at its start stays. */
  lemma LeadingSpaceKeepsScheme(u: string)
    requires |u| > 0 && !IsJsSpace(u[0]) && u[|u| - 1] != '/' && !IsJsSpace(u[|u| - 1])
    requires forall i :: 0 <= i < |u| ==> !('A' <= u[i] <= 'Z')
    ensures Normalize(" " + u) == u
  {
    var s := " " + u;
    assert s[|s| - 1] == u[|u| - 1];
    SpacedSchemeStays(s);
    forall i | 0 <= i < |s| ensures !('A' <= s[i] <= 'Z') {
      if i >= 1 {
        assert s[i] == u[i - 1];
      }
    }
    LowerAsciiKeepsLower(s);
    TrimLeadingSpace(u);
  }

  lemma SpacedSchemeStays(s: string)
    requires |s| > 0 && s[0] == ' ' && s[|s| - 1] != '/'
    ensures StripTrailingSlash(StripHttpScheme(s)) == s
  {
    assert s[0] != "https://"[0] && s[0] != "http://"[0];
  }

  lemma LowerAsciiKeepsLower(s: string)
    requires forall i :: 0 <= i < |s| ==> !('A' <= s[i] <= 'Z')
    ensures LowerAscii(s) == s
  {
  }

  lemma TrimLeadingSpace(u: string)
    requires |u| > 0 && !IsJsSpace(u[0]) && !IsJsSpace(u[|u| - 1])
    ensures Trim(" " + u) == u
  {
    assert (" " + u)[1..] == u;
    assert TrimStart(" " + u) == u;
    assert TrimEnd(u) == u;
  }

  /** The check runs before normalising: a lone slash passes it and
      normalises to the empty domain. */
  lemma SlashNormalisesToEmpty()
    ensures DomainOf(RegisterBody(JStr("/"), JNull)) == Some("")
  {
    assert StripHttpScheme("/") == "/";
    assert StripTrailingSlash("/") == "";
  }

  /** `where domain = ? limit 1`: the first row with the domain. */
  function SiteByDomain(sites: seq<Site>, domain: string): (r: Option<Site>)
    ensures r.Some? ==> r.value in sites && r.value.domain == domain
    ensures r.None? ==> forall s :: s in sites ==> s.domain != domain
  {
    if |sites| == 0 then None
    else if sites[0].domain == domain then Some(sites[0])
    else SiteByDomain(sites[1..], domain)
  }

  /** The domain the route registers, when the body has a usable one. */
  function DomainOf(body: RegisterBody): (d: Option<string>)
    ensures d.Some? <==> body.domain.JStr? && body.domain.s != ""
    ensures d.Some? ==> d.value == Normalize(body.domain.s)
  {
    if body.domain.JStr? && body.domain.s != "" then Some(Normalize(body.domain.s)) else None
  }

  /** `name || normalizedDomain`: any truthy name is kept. `stored` is the
      text the database driver keeps for a truthy name that is not a string,
      `None` when it refuses to bind the value. */
  function NameOf(body: RegisterBody, domain: string, stored: Json -> Option<string>): (n: Option<string>)
    ensures !Truthy(body.name) ==> n == Some(domain)
    ensures body.name.JStr? && body.name.s != "" ==> n == Some(body.name.s)
    ensures Truthy(body.name) && !body.name.JStr? ==> n == stored(body.name)
  {
    if !Truthy(body.name) then Some(domain)
    else if body.name.JStr? then Some(body.name.s)
    else stored(body.name)
  }

  /** Whether the insert would break the primary key or the unique
      `tracking_id`: the database refuses such a row. */
  predicate Collides(sites: seq<Site>, row: Site)
  {
    exists s :: s in sites && (s.id == row.id || s.trackingId == row.trackingId)
  }

  /** `POST`: the reply and the table afterwards. `body` is `None` when the
      request body is not JSON; `idBytes` and `trackingBytes` are the
      `randomblob(16)` and `randomblob(8)` of the column defaults. */
  function Register(sites: seq<Site>, session: Option<string>, body: Option<RegisterBody>,
                    idBytes: seq<bv8>, trackingBytes: seq<bv8>, stored: Json -> Option<string>): (r: (RegisterReply, seq<Site>))
    requires |idBytes| == 16 && |trackingBytes| == 8
    ensures !r.0.Created? ==> r.1 == sites
    ensures session.None? || body.None? ==> r.0 == RegisterFailed
    ensures session.Some? && body.Some? ==>
      (r.0 == DomainRequired <==> DomainOf(body.value).None?)
    ensures session.Some? && body.Some? && DomainOf(body.value).Some? ==>
      var d := DomainOf(body.value).value;
      (SiteByDomain(sites, d).Some? && SiteByDomain(sites, d).value.userId == session.value ==>
         r.0 == AlreadyRegistered(SiteByDomain(sites, d).value))
      && (SiteByDomain(sites, d).Some? && SiteByDomain(sites, d).value.userId != session.value ==> r.0 == DomainTaken)
      && (SiteByDomain(sites, d).None? && NameOf(body.value, d, stored).None? ==> r.0 == RegisterFailed)
    ensures session.Some? && body.Some? && DomainOf(body.value).Some?
            && SiteByDomain(sites, DomainOf(body.value).value).None?
            && NameOf(body.value, DomainOf(body.value).value, stored).Some? ==>
      var d := DomainOf(body.value).value;
      var row := NewSite(DefaultTrackingId(idBytes), session.value, d, NameOf(body.value, d, stored), trackingBytes);
      (r.0 == Created(row) <==> !Collides(sites, row)) && (Collides(sites, row) ==> r.0 == RegisterFailed)
    ensures r.0.Created? ==>
      session.Some? && body.Some? && DomainOf(body.value).Some?
      && SiteByDomain(sites, DomainOf(body.value).value).None?
      && r.1 == sites + [r.0.site]
      && r.0.site.userId == session.value
      && r.0.site.domain == DomainOf(body.value).value
      && r.0.site.name == NameOf(body.value, DomainOf(body.value).value, stored)
      && r.0.site.name.Some?
      && r.0.site.trackingEnabled == Some(true) && r.0.site.gscEnabled == Some(false)
      && !Collides(sites, r.0.site)
  {
    if session.None? || body.None? then (RegisterFailed, sites)
    else match DomainOf(body.value)
      case None => (DomainRequired, sites)
      case Some(d) =>
        match SiteByDomain(sites, d)
        case Some(existing) =>
          if existing.userId == session.value then (AlreadyRegistered(existing), sites) else (DomainTaken, sites)
        case None =>
          match NameOf(body.value, d, stored)
          case None => (RegisterFailed, sites)
          case Some(n) =>
            var row := NewSite(DefaultTrackingId(idBytes), session.value, d, Some(n), trackingBytes);
            if Collides(sites, row) then (RegisterFailed, sites) else (Created(row), sites + [row])
  }

  /** A registered site is in its owner's list. */
  lemma CreatedIsListed(sites: seq<Site>, user: string, body: RegisterBody, idBytes: seq<bv8>, trackingBytes: seq<bv8>,
                        stored: Json -> Option<string>)
    requires |idBytes| == 16 && |trackingBytes| == 8
    ensures var r := Register(sites, Some(user), Some(body), idBytes, trackingBytes, stored);
      r.0.Created? ==> ListSites(r.1, Some(user)).Listed? && r.0.site in ListSites(r.1, Some(user)).sites
  {
  }

  /** A domain nobody has registered, with a name the driver stores and
      random ids no row holds yet, is created under those ids, appended, and
      listed for its owner. */
  lemma FreshDomainIsCreated(sites: seq<Site>, user: string, body: RegisterBody, idBytes: seq<bv8>, trackingBytes: seq<bv8>,
                             stored: Json -> Option<string>)
    requires |idBytes| == 16 && |trackingBytes| == 8
    requires DomainOf(body).Some? && SiteByDomain(sites, DomainOf(body).value).None?
    requires NameOf(body, DomainOf(body).value, stored).Some?
    requires forall s :: s in sites ==>
      s.id != DefaultTrackingId(idBytes) && s.trackingId != Some(DefaultTrackingId(trackingBytes))
    ensures var row := NewSite(DefaultTrackingId(idBytes), user, DomainOf(body).value,
                               NameOf(body, DomainOf(body).value, stored), trackingBytes);
      Register(sites, Some(user), Some(body), idBytes, trackingBytes, stored) == (Created(row), sites + [row])
      && row.id == DefaultTrackingId(idBytes) && row.trackingId == Some(DefaultTrackingId(trackingBytes))
      && ListSites(sites + [row], Some(user)).Listed? && row in ListSites(sites + [row], Some(user)).sites
  {
    var d := DomainOf(body).value;
    var row := NewSite(DefaultTrackingId(idBytes), user, d, NameOf(body, d, stored), trackingBytes);
    FreshIdsDoNotCollide(sites, row);
    var r := Register(sites, Some(user), Some(body), idBytes, trackingBytes, stored);
    assert r.0 == Created(row);
    assert r.1 == sites + [row];
    CreatedIsListed(sites, user, body, idBytes, trackingBytes, stored);
  }

  lemma FreshIdsDoNotCollide(sites: seq<Site>, row: Site)
    requires forall s :: s in sites ==> s.id != row.id && s.trackingId != row.trackingId
    ensures !Collides(sites, row)
  {
  }

  /** Registering the same domain again returns the site already made and
      inserts nothing. */
  lemma RegisterTwice(sites: seq<Site>, user: string, body: RegisterBody, idBytes: seq<bv8>, trackingBytes: seq<bv8>,
                      idBytes': seq<bv8>, trackingBytes': seq<bv8>, stored: Json -> Option<string>)
    requires |idBytes| == 16 && |trackingBytes| == 8 && |idBytes'| == 16 && |trackingBytes'| == 8
    ensures var first := Register(sites, Some(user), Some(body), idBytes, trackingBytes, stored);
      first.0.Created? ==>
        Register(first.1, Some(user), Some(body), idBytes', trackingBytes', stored) == (AlreadyRegistered(first.0.site), first.1)
  {
    var first := Register(sites, Some(user), Some(body), idBytes, trackingBytes, stored);
    if first.0.Created? {
      var d := DomainOf(body).value;
      SiteByDomainAppend(sites, first.0.site, d);
    }
  }

  /** A domain not in the table is found in the row appended for it. */
  lemma {:induction false} SiteByDomainAppend(sites: seq<Site>, row: Site, d: string)
    requires SiteByDomain(sites, d).None? && row.domain == d
    ensures SiteByDomain(sites + [row], d) == Some(row)
  {
    if |sites| > 0 {
      assert (sites + [row])[1..] == sites[1..] + [row];
      assert sites[0] in sites;
      SiteByDomainAppend(sites[1..], row, d);
    } else {
      assert sites + [row] == [row];
    }
  }

  /** Another user's domain is refused and the table is left alone. */
  lemma OthersDomainRefused(sites: seq<Site>, user: string, body: RegisterBody, idBytes: seq<bv8>, trackingBytes: seq<bv8>,
                            stored: Json -> Option<string>)
    requires |idBytes| == 16 && |trackingBytes| == 8
    requires DomainOf(body).Some? && SiteByDomain(sites, DomainOf(body).value).Some?
    requires SiteByDomain(sites, DomainOf(body).value).value.userId != user
    ensures Register(sites, Some(user), Some(body), idBytes, trackingBytes, stored) == (DomainTaken, sites)
  {
  }

  /** Registration keeps the tracking ids unique. */
  lemma RegisterKeepsTrackingIdsUnique(sites: seq<Site>, session: Option<string>, body: Option<RegisterBody>,
                                       idBytes: seq<bv8>, trackingBytes: seq<bv8>, stored: Json -> Option<string>)
    requires |idBytes| == 16 && |trackingBytes| == 8
    requires UniqueTrackingIds(sites)
    ensures UniqueTrackingIds(Register(sites, session, body, idBytes, trackingBytes, stored).1)
  {
    var r := Register(sites, session, body, idBytes, trackingBytes, stored);
    if r.0.Created? {
      var row := r.0.site;
      var ss := sites + [row];
      forall i, j | 0 <= i < j < |ss| && ss[i].trackingId.Some? ensures ss[i].trackingId != ss[j].trackingId {
        if j == |sites| {
          assert ss[i] in sites;
        } else {
          assert ss[i] == sites[i] && ss[j] == sites[j];
        }
      }
    }
  }
}

=== FILE: snippet.dfy ===
/** The dashboard's tracking snippet: which server URL it embeds, the exact
    `<script>` tag, and where the "next step" button leads. Together with
    `Beacon.TrackingId` it forms a round trip: the id written into the tag is
    the id the beacon reads back. */
module Snippet {
  import opened Common
  import opened Beacon

  /** `trackingServerUrl || (browser ? (env || window origin) : (env || 'http://localhost:3000'))`;
      an unset environment variable is the empty string. */
  function ServerUrl(prop: string, envUrl: string, inBrowser: bool, windowOrigin: string): (r: string)
    ensures prop != "" ==> r == prop
    ensures prop == "" && envUrl != "" ==> r == envUrl
    ensures prop == "" && envUrl == "" && inBrowser ==> r == windowOrigin
    ensures prop == "" && envUrl == "" && !inBrowser ==> r == "http://localhost:3000"
  {
    OrElse(prop, if inBrowser then OrElse(envUrl, windowOrigin) else OrElse(envUrl, "http://localhost:3000"))
  }

  /** The script URL inside the tag. */
  function ScriptSrc(serverUrl: string, trackingId: string): string
  {
    serverUrl + "/js/ca-" + trackingId + ".js"
  }

  /** The tag the user copies. */
  function TrackingCode(serverUrl: string, trackingId: string): (r: string)
    ensures r == "<script async src=\"" + ScriptSrc(serverUrl, trackingId) + "\"></script>"
  {
    "<script async src=\"" + serverUrl + "/js/ca-" + trackingId + ".js\"></script>"
  }

  predicate DotFree(s: string)
  {
    forall j :: 0 <= j < |s| ==> s[j] != '.'
  }

  /** No "ca-" starts anywhere before the one the snippet writes. */
  lemma NoEarlierCa(serverUrl: string, trackingId: string, j: nat)
    requires !Contains(serverUrl, "ca-")
    requires j < |serverUrl| + 4
    ensures !OccursAt(ScriptSrc(serverUrl, trackingId), "ca-", j)
  {
    var src := ScriptSrc(serverUrl, trackingId);
    var n := |serverUrl|;
    assert src[n..n + 7] == "/js/ca-";
    if j + 3 <= n {
      assert src[j..j + 3] == serverUrl[j..j + 3];
      if OccursAt(serverUrl, "ca-", j) {
        ContainsAt(serverUrl, "ca-", j);
      }
    } else if j + 3 <= |src| {
      if j == n - 2 {
        assert src[j + 2] == '/';
      } else if j == n - 1 {
        assert src[j + 1] == '/';
      } else {
        assert src[j] == src[n..n + 7][j - n];
      }
      assert src[j..j + 3] != "ca-" by {
        assert src[j..j + 3][0] == src[j] && src[j..j + 3][1] == src[j + 1] && src[j..j + 3][2] == src[j + 2];
      }
    }
  }

  /** The round trip: the beacon reads back the id the snippet wrote, when the id
      is non-empty and dot-free (the schema default is 16 hex digits) and the
      server URL contains no "ca-". */
  lemma SnippetRoundTrip(serverUrl: string, trackingId: string)
    requires trackingId != "" && DotFree(trackingId)
    requires !Contains(serverUrl, "ca-")
    ensures TrackingId(ScriptSrc(serverUrl, trackingId)) == Some(trackingId)
  {
    var src := ScriptSrc(serverUrl, trackingId);
    var at := |serverUrl| + 4;
    forall j | 0 <= j < at ensures MatchAt(src, j).None? {
      NoEarlierCa(serverUrl, trackingId, j);
    }
    assert src[at..] == "ca-" + trackingId + ".js";
    assert PatternAt(src, at, trackingId) by {
      assert src[at..at + |trackingId| + 6] == "ca-" + trackingId + ".js";
    }
    PatternGivesMatch(src, at, trackingId);
    assert MatchStart(src, 0) == Some(at) by {
      MatchStartFirst(src, 0, at);
    }
  }

  /** The leftmost search finds `at` when nothing matches before it. */
  lemma {:induction false} MatchStartFirst(s: string, from: nat, at: nat)
    requires from <= at <= |s|
    requires MatchAt(s, at).Some?
    requires forall j :: from <= j < at ==> MatchAt(s, j).None?
    ensures MatchStart(s, from) == Some(at)
    decreases at - from
  {
    if from < at {
      MatchStartFirst(s, from + 1, at);
    }
  }

  /** The destination of the "next step" button. */
  datatype NextStep = CallHandler | Navigate(path: string) | Stay

  /** `onNextStep` if given, else `nextStepPath` if non-empty, else the site's
      dashboard if `siteId` is non-empty, else nothing. */
  function NextStepAction(hasHandler: bool, nextStepPath: string, siteId: string): (r: NextStep)
    ensures hasHandler <==> r == CallHandler
    ensures !hasHandler && nextStepPath != "" ==> r == Navigate(nextStepPath)
    ensures !hasHandler && nextStepPath == "" && siteId != "" ==> r == Navigate("/dashboard/" + siteId)
    ensures r == Stay <==> !hasHandler && nextStepPath == "" && siteId == ""
  {
    if hasHandler then CallHandler
    else if nextStepPath != "" then Navigate(nextStepPath)
    else if siteId != "" then Navigate("/dashboard/" + siteId)
    else Stay
  }
}

=== FILE: sources.dfy ===
/** `GET /api/stats/sources`: referrer groups of the window, the top `limit`
    by distinct visitors, each mapped to a domain, then merged per domain,
    re-sorted and sliced. Parsing a referrer as a URL is the input function
    `host`: `host(r)` is `new URL(r).hostname`, `None` when the constructor throws. */
module Sources {
  import opened Common
  import opened Schema
  import opened Grouping
  import opened Stats

  /** A row of the SQL step: one raw referrer with its distinct visitors and row count. */
  datatype RefGroup = RefGroup(referrer: string, visitors: int, pageviews: int)

  /** A row of the answer after the domain merge. */
  datatype SourceRow = SourceRow(domain: string, visitors: int, pageviews: int)

  predicate HasReferrer(e: Event) { e.referrer.Some? }

  /** The referrer text; every row this is applied to has one. */
  function ReferrerText(e: Event): string
  {
    match e.referrer
    case Some(r) => r
    case None => ""
  }

  function GroupVisitorsRank(g: RefGroup): real { g.visitors as real }
  function SourceVisitorsRank(s: SourceRow): real { s.visitors as real }

  function RefGroupOf(w: seq<Event>, r: string): RefGroup
  {
    RefGroup(r, |KeySet(Members(w, ReferrerText, r), Visitor)|, |Members(w, ReferrerText, r)|)
  }

  /** `where referrer is not null … group by referrer`, in first-seen order. */
  function ReferrerGroups(w: seq<Event>): (gs: seq<RefGroup>)
    ensures |gs| == |GroupKeys(w, ReferrerText)|
    ensures forall i :: 0 <= i < |gs| ==> gs[i] == RefGroupOf(w, GroupKeys(w, ReferrerText)[i])
  {
    var keys := GroupKeys(w, ReferrerText);
    seq(|keys|, i requires 0 <= i < |keys| => RefGroupOf(w, keys[i]))
  }

  /** The domain shown for a referrer: "Direct" for an empty one, the hostname
      with its first "www." removed (wherever it occurs), or the raw text when
      it does not parse. */
  function Domain(referrer: string, host: string -> Option<string>): string
  {
    if referrer == "" then "Direct"
    else match host(referrer)
      case Some(h) => ReplaceFirst(h, "www.", "")
      case None => referrer
  }

  /** `.replace("www.", "")` removes the first "www." even in the middle of a hostname. */
  lemma WwwRemovedAnywhere()
    ensures Domain("https://blog.www.example.com/", (u: string) => Some("blog.www.example.com")) == "blog.example.com"
  {
    var h := "blog.www.example.com";
    assert h[5..9] == "www.";
    forall k | 0 <= k < 5 ensures !OccursAt(h, "www.", k) {
      NotAt(h, "www.", k);
    }
    assert IndexOf(h, "www.") == Some(5);
    assert h[..5] + "" + h[9..] == "blog.example.com";
  }

  function ToRows(gs: seq<RefGroup>, host: string -> Option<string>): (rows: seq<SourceRow>)
    ensures |rows| == |gs|
    ensures forall i :: 0 <= i < |gs| ==>
      rows[i] == SourceRow(Domain(gs[i].referrer, host), gs[i].visitors, gs[i].pageviews)
  {
    seq(|gs|, i requires 0 <= i < |gs| => SourceRow(Domain(gs[i].referrer, host), gs[i].visitors, gs[i].pageviews))
  }

  // ---------------------------------------------------------------------
  // The per-domain merge (`reduce` with `find`)

  predicate DistinctDomains(rows: seq<SourceRow>)
  {
    forall i, j :: 0 <= i < j < |rows| ==> rows[i].domain != rows[j].domain
  }

  /** `acc.find((s) => s.domain === d)`, as an index. */
  function FindDomain(rows: seq<SourceRow>, d: string): (r: Option<nat>)
    ensures r.Some? ==> r.value < |rows| && rows[r.value].domain == d
    ensures r.Some? ==> forall k :: 0 <= k < r.value ==> rows[k].domain != d
    ensures r.None? ==> forall k :: 0 <= k < |rows| ==> rows[k].domain != d
  {
    if |rows| == 0 then None
    else if rows[0].domain == d then Some(0)
    else match FindDomain(rows[1..], d)
      case None => None
      case Some(k) => Some(k + 1)
  }

  /** A domain's merged visitors (0 when it has no row). */
  function VisitorsOf(rows: seq<SourceRow>, d: string): int
  {
    match FindDomain(rows, d)
    case None => 0
    case Some(i) => rows[i].visitors
  }

  function PageviewsOf(rows: seq<SourceRow>, d: string): int
  {
    match FindDomain(rows, d)
    case None => 0
    case Some(i) => rows[i].pageviews
  }

  /** Σ visitors over the rows of one domain. */
  function DomainVisitors(rows: seq<SourceRow>, d: string): int
  {
    if |rows| == 0 then 0
    else DomainVisitors(rows[..|rows| - 1], d) + (if rows[|rows| - 1].domain == d then rows[|rows| - 1].visitors else 0)
  }

  function DomainPageviews(rows: seq<SourceRow>, d: string): int
  {
    if |rows| == 0 then 0
    else DomainPageviews(rows[..|rows| - 1], d) + (if rows[|rows| - 1].domain == d then rows[|rows| - 1].pageviews else 0)
  }

  /** One step of the `reduce`: add to the domain's row, or append a new one. */
  function AddSource(acc: seq<SourceRow>, s: SourceRow): (r: seq<SourceRow>)
    requires DistinctDomains(acc)
    ensures DistinctDomains(r)
    ensures forall d :: FindDomain(r, d).Some? <==> FindDomain(acc, d).Some? || d == s.domain
    ensures forall d :: VisitorsOf(r, d) == VisitorsOf(acc, d) + (if d == s.domain then s.visitors else 0)
    ensures forall d :: PageviewsOf(r, d) == PageviewsOf(acc, d) + (if d == s.domain then s.pageviews else 0)
  {
    match FindDomain(acc, s.domain)
    case None =>
      var r := acc + [s];
      forall d ensures FindDomain(r, d) == (if d == s.domain then Some(|acc|) else FindDomain(acc, d)) {
        FindInPrefixOrLast(acc, s, d);
      }
      r
    case Some(i) =>
      var r := acc[i := SourceRow(acc[i].domain, acc[i].visitors + s.visitors, acc[i].pageviews + s.pageviews)];
      forall d ensures FindDomain(r, d) == FindDomain(acc, d) {
        SameDomainsSameFind(acc, r, d);
      }
      r
  }

  /** In a list of distinct domains, the row of a domain is the one `find` returns. */
  lemma FindDistinct(rows: seq<SourceRow>, i: int)
    requires DistinctDomains(rows) && 0 <= i < |rows|
    ensures FindDomain(rows, rows[i].domain) == Some(i)
  {
    var r := FindDomain(rows, rows[i].domain);
    assert r.Some?;
    assert !(r.value < i) && !(i < r.value);
  }

  lemma FindInPrefixOrLast(acc: seq<SourceRow>, s: SourceRow, d: string)
    requires DistinctDomains(acc) && FindDomain(acc, s.domain).None?
    ensures DistinctDomains(acc + [s])
    ensures FindDomain(acc + [s], d) == (if d == s.domain then Some(|acc|) else FindDomain(acc, d))
  {
    var r := acc + [s];
    assert forall k :: 0 <= k < |acc| ==> r[k] == acc[k];
    if d == s.domain {
      FindDistinct(r, |acc|);
    } else {
      match FindDomain(acc, d)
      case None =>
        assert forall k :: 0 <= k < |r| ==> r[k].domain != d;
      case Some(k) =>
        FindDistinct(r, k);
    }
  }

  /** Changing counts without changing domains does not move any domain's row. */
  lemma SameDomainsSameFind(a: seq<SourceRow>, b: seq<SourceRow>, d: string)
    requires |a| == |b| && forall k :: 0 <= k < |a| ==> a[k].domain == b[k].domain
    ensures FindDomain(a, d) == FindDomain(b, d)
  {
    if |a| > 0 {
      SameDomainsSameFind(a[1..], b[1..], d);
    }
  }

  /** The merged list (`reduce` over the rows in order). */
  function Merge(rows: seq<SourceRow>): (r: seq<SourceRow>)
    ensures DistinctDomains(r)
  {
    if |rows| == 0 then [] else AddSource(Merge(rows[..|rows| - 1]), rows[|rows| - 1])
  }

  /** Some input row has domain `d`. */
  predicate HasDomain(rows: seq<SourceRow>, d: string)
  {
    exists j :: 0 <= j < |rows| && rows[j].domain == d
  }

  lemma HasDomainSplit(rows: seq<SourceRow>, d: string)
    requires |rows| > 0
    ensures HasDomain(rows, d) <==> HasDomain(rows[..|rows| - 1], d) || rows[|rows| - 1].domain == d
  {
    var init := rows[..|rows| - 1];
    if HasDomain(rows, d) {
      var j :| 0 <= j < |rows| && rows[j].domain == d;
      if j < |init| {
        assert init[j].domain == d;
      }
    }
    if HasDomain(init, d) {
      var j :| 0 <= j < |init| && init[j].domain == d;
      assert rows[j].domain == d;
    }
  }

  /** After the merge a domain has a row exactly when some input row has that
      domain, and the row carries the sums of that domain's visitors and
      pageviews. */
  lemma {:induction false} MergeTotals(rows: seq<SourceRow>, d: string)
    ensures FindDomain(Merge(rows), d).Some? <==> HasDomain(rows, d)
    ensures VisitorsOf(Merge(rows), d) == DomainVisitors(rows, d)
    ensures PageviewsOf(Merge(rows), d) == DomainPageviews(rows, d)
    decreases |rows|
  {
    if |rows| > 0 {
      var init := rows[..|rows| - 1];
      var last := rows[|rows| - 1];
      assert Merge(rows) == AddSource(Merge(init), last);
      MergeTotals(init, d);
      HasDomainSplit(rows, d);
    }
  }

  /** The domain list after the merge is sorted by visitors and sliced. */
  function SortAndSlice(rows: seq<SourceRow>, limit: int): seq<SourceRow>
  {
    JsSlice(SortDesc(Merge(rows), SourceVisitorsRank), limit)
  }

  /** Everything after the SQL step, given its groups already ordered by
      visitors: `sqlLimit` groups are kept first, only they are merged, and
      the merged list is sliced at `sliceEnd`. The route passes the same
      limit to both, which differ only for a NaN one. */
  function SourcesFromGroups(sortedGroups: seq<RefGroup>, sqlLimit: int, sliceEnd: int, host: string -> Option<string>): seq<SourceRow>
  {
    SortAndSlice(ToRows(SqlLimit(sortedGroups, sqlLimit), host), sliceEnd)
  }

  /** The answer lists each domain once, most visitors first, at most `limit`
      rows for a non-negative `limit`, and each row's counts are the sums over
      the merged groups of that domain. */
  lemma SourcesFacts(rows: seq<SourceRow>, limit: int)
    ensures var out := SortAndSlice(rows, limit);
      SortedDesc(out, SourceVisitorsRank) && DistinctDomains(out)
      && (limit >= 0 ==> |out| <= limit)
      && forall i :: 0 <= i < |out| ==>
           out[i].visitors == DomainVisitors(rows, out[i].domain) && out[i].pageviews == DomainPageviews(rows, out[i].domain)
  {
    var m := Merge(rows);
    var s := SortDesc(m, SourceVisitorsRank);
    var out := SortAndSlice(rows, limit);
    PermutationKeepsDistinctKeys(s, m, (r: SourceRow) => r.domain);
    assert out == s[..|out|];
    forall i | 0 <= i < |out|
      ensures out[i].visitors == DomainVisitors(rows, out[i].domain) && out[i].pageviews == DomainPageviews(rows, out[i].domain)
    {
      assert out[i] in multiset(s);
      var k :| 0 <= k < |m| && m[k] == out[i];
      FindDistinct(m, k);
      MergeTotals(rows, out[i].domain);
    }
  }

  /** The referrer groups of the truncation example below, already ordered by visitors. */
  function ExampleGroups(): (gs: seq<RefGroup>)
    ensures SortedDesc(gs, GroupVisitorsRank)
  {
    [RefGroup("https://a.com/", 2, 2), RefGroup("https://b.com/1", 1, 1),
     RefGroup("https://b.com/2", 1, 1), RefGroup("https://b.com/3", 1, 1)]
  }

  function ExampleHost(u: string): Option<string>
  {
    if u == "https://a.com/" then Some("a.com") else Some("b.com")
  }

  /** Truncating before merging can hide the domain with the most visitors:
      three one-visitor referrers of b.com lose to one two-visitor referrer of
      a.com when `limit` is 1, although b.com has 3 visitors in total. */
  lemma TruncationBeforeMerge()
    ensures SourcesFromGroups(ExampleGroups(), 1, 1, ExampleHost) == [SourceRow("a.com", 2, 2)]
    ensures DomainVisitors(ToRows(ExampleGroups(), ExampleHost), "b.com") == 3
    ensures DomainVisitors(ToRows(ExampleGroups(), ExampleHost), "a.com") == 2
  {
    ExampleTopGroup();
    ExampleRows();
    var a := SourceRow("a.com", 2, 2);
    var b := SourceRow("b.com", 1, 1);
    assert [a, b, b, b][..3] == [a, b, b] && [a, b, b][..2] == [a, b] && [a, b][..1] == [a] && [a][..0] == [];
    assert DomainVisitors([a], "b.com") == 0;
    assert DomainVisitors([a, b], "b.com") == 1;
    assert DomainVisitors([a, b, b], "b.com") == 2;
    assert DomainVisitors([a], "a.com") == 2;
    assert DomainVisitors([a, b], "a.com") == 2;
    assert DomainVisitors([a, b, b], "a.com") == 2;
  }

  /** With `limit` 1 only the a.com group is kept and merged. */
  lemma ExampleTopGroup()
    ensures SourcesFromGroups(ExampleGroups(), 1, 1, ExampleHost) == [SourceRow("a.com", 2, 2)]
  {
    var gs := ExampleGroups();
    NoFirstChar("a.com", "www.");
    var a := SourceRow("a.com", 2, 2);
    assert SqlLimit(gs, 1) == [gs[0]];
    assert ToRows([gs[0]], ExampleHost) == [a];
    assert Merge([a]) == [a] by {
      assert [a][..0] == [];
    }
    assert SortDesc([a], SourceVisitorsRank) == [a] by {
      assert [a][..0] == [];
    }
  }

  /** All four groups as domain rows. */
  lemma ExampleRows()
    ensures ToRows(ExampleGroups(), ExampleHost) == [SourceRow("a.com", 2, 2), SourceRow("b.com", 1, 1), SourceRow("b.com", 1, 1), SourceRow("b.com", 1, 1)]
  {
    NoFirstChar("a.com", "www.");
    NoFirstChar("b.com", "www.");
  }

  /** Ingestion stores an empty referrer as NULL, so over an ingested log no
      group has an empty referrer and "Direct" never comes from the empty case. */
  lemma NoEmptyReferrerGroups(w: seq<Event>)
    requires forall e :: e in w ==> e.referrer.Some? && e.referrer != Some("")
    ensures forall i :: 0 <= i < |ReferrerGroups(w)| ==> ReferrerGroups(w)[i].referrer != ""
  {
    var gs := ReferrerGroups(w);
    var keys := GroupKeys(w, ReferrerText);
    forall i | 0 <= i < |gs| ensures gs[i].referrer != "" {
      assert keys[i] in keys;
      var j :| 0 <= j < |w| && ReferrerText(w[j]) == keys[i];
      assert w[j] in w;
    }
  }

  datatype SourcesBody = SourcesBody(sources: seq<SourceRow>, period: string)

  function DemoSources(): seq<SourceRow>
  {
    [ SourceRow("Google", 1245, 3456), SourceRow("Direct", 789, 2234), SourceRow("twitter.com", 456, 1234),
      SourceRow("github.com", 234, 678), SourceRow("qiita.com", 189, 567), SourceRow("zenn.dev", 156, 445),
      SourceRow("note.com", 123, 345), SourceRow("hatenablog.com", 98, 234) ]
  }

  /** `GET /api/stats/sources`. The SQL step counts rows of every event type
      that has a referrer, not only pageviews. A NaN limit writes no `LIMIT`
      clause, but its `slice(0, NaN)` empties the merged list. */
  function SourcesRoute(sites: seq<Site>, log: seq<Event>, siteIdParam: Option<string>, periodParam: Option<string>,
                        limitParam: Option<string>, nowMs: int, host: string -> Option<string>): (r: Reply<SourcesBody>)
    ensures Resolve(sites, siteIdParam) == Missing <==> r == BadRequest
    ensures Resolve(sites, siteIdParam) == Unknown <==> r == NotFound
    ensures r.Ok? <==> Resolve(sites, siteIdParam) == DemoSite || Resolve(sites, siteIdParam).Tracked?
    ensures Resolve(sites, siteIdParam) == DemoSite ==>
      r == Ok(SourcesBody(JsSlice(DemoSources(), SliceEnd(LimitParam(limitParam))), PeriodParam(periodParam)))
    ensures Resolve(sites, siteIdParam).Tracked? ==>
      var w := Filter(InWindow(log, Resolve(sites, siteIdParam).site.id, WindowStart(nowMs, PeriodDays(PeriodParam(periodParam)))), HasReferrer);
      var n := LimitParam(limitParam);
      r == Ok(SourcesBody(SourcesFromGroups(SortDesc(ReferrerGroups(w), GroupVisitorsRank), BuilderLimit(n), SliceEnd(n), host), PeriodParam(periodParam)))
    ensures Resolve(sites, siteIdParam).Tracked? && LimitParam(limitParam).None? ==> r.body.sources == []
  {
    var period := PeriodParam(periodParam);
    var limit := LimitParam(limitParam);
    match Resolve(sites, siteIdParam)
    case Missing => BadRequest
    case DemoSite => Ok(SourcesBody(JsSlice(DemoSources(), SliceEnd(limit)), period))
    case Unknown => NotFound
    case Tracked(site) =>
      var w := Filter(InWindow(log, site.id, WindowStart(nowMs, PeriodDays(period))), HasReferrer);
      Ok(SourcesBody(SourcesFromGroups(SortDesc(ReferrerGroups(w), GroupVisitorsRank), BuilderLimit(limit), SliceEnd(limit), host), period))
  }
}

=== FILE: stats.dfy ===
/** The `/api/stats` read routes over the event log: the period window,
    distinct visitors, pageviews, top pages, device buckets and the realtime
    session count, each behind the same `siteId` gate with its demo branch.
    The clock is the input `nowMs`; `Math.random()` draws are the function
    `random` (draw `k` is `random(k)`), and the current UTC day is `today`. */
module Stats {
  import opened Common
  import opened Radix
  import opened Schema
  import opened Grouping

  /** A route's answer: 400, 404, a 500 from the database, or a 200 body. */
  datatype Reply<T> = BadRequest | NotFound | ServerError | Ok(body: T)

  /** `searchParams.get("period") || "7d"`. */
  function PeriodParam(param: Option<string>): (r: string)
    ensures r != ""
    ensures param.Some? && param.value != "" ==> r == param.value
    ensures param.None? || param.value == "" ==> r == "7d"
  {
    match param
    case Some(p) => OrElse(p, "7d")
    case None => "7d"
  }

  /** `period === "7d" ? 7 : period === "30d" ? 30 : 90`: every other token,
      `'14d'` and `'90d'` included, selects 90 days. */
  function PeriodDays(period: string): (days: int)
    ensures days == 7 <==> period == "7d"
    ensures days == 30 <==> period == "30d"
    ensures days == 90 <==> period != "7d" && period != "30d"
  {
    if period == "7d" then 7 else if period == "30d" then 30 else 90
  }

  /** `Math.floor(Date.now() / 1000) - days * 24 * 60 * 60`. */
  function WindowStart(nowMs: int, days: int): (start: int)
    ensures (start + days * SecondsPerDay) * 1000 <= nowMs < (start + days * SecondsPerDay + 1) * 1000
  {
    nowMs / 1000 - days * SecondsPerDay
  }

  /** `where site_id = ? and timestamp >= start`, in log order. */
  function InWindow(log: seq<Event>, siteId: string, start: int): (w: seq<Event>)
    ensures forall e :: e in w <==> e in log && e.siteId == siteId && e.timestamp >= start
  {
    Filter(log, (e: Event) => e.siteId == siteId && e.timestamp >= start)
  }

  /** Moving the window start earlier only adds rows. */
  lemma InWindowWidens(log: seq<Event>, siteId: string, start: int, start': int)
    requires start' <= start
    ensures forall e :: e in InWindow(log, siteId, start) ==> e in InWindow(log, siteId, start')
  {
  }

  predicate IsPageview(e: Event)
  {
    e.eventType == "pageview"
  }

  function Pageviews(w: seq<Event>): (r: seq<Event>)
    ensures forall e :: e in r <==> e in w && IsPageview(e)
  {
    Filter(w, IsPageview)
  }

  function Visitor(e: Event): string { e.visitorHash }
  function SessionOf(e: Event): string { e.sessionHash }

  /** `count(distinct visitor_hash)`. */
  function DistinctVisitors(w: seq<Event>): int
  {
    |KeySet(w, Visitor)|
  }

  /** The distinct `date` values of the rows, ascending (`group by date order by date`). */
  function Dates(w: seq<Event>): (ds: seq<Day>)
    ensures StrictlyAscending(ds) && NoDup(ds)
    ensures forall d :: d in ds <==> exists e :: e in w && EventDate(e) == d
  {
    var xs := seq(|w|, i requires 0 <= i < |w| => EventDate(w[i]));
    var ds := AscendingKeys(xs);
    AscendingNoDup(ds);
    forall d ensures d in ds <==> exists e :: e in w && EventDate(e) == d {
      if d in ds {
        var i :| 0 <= i < |xs| && xs[i] == d;
        assert w[i] in w;
      }
      if exists e :: e in w && EventDate(e) == d {
        var e :| e in w && EventDate(e) == d;
        var i :| 0 <= i < |w| && w[i] == e;
        assert xs[i] == d;
      }
    }
    ds
  }

  /** One `{ date, visitors }` or `{ date, pageviews }` row. */
  datatype DayValue = DayValue(date: Day, value: int)

  function Values(rows: seq<DayValue>): (vs: seq<int>)
    ensures |vs| == |rows| && forall i :: 0 <= i < |rows| ==> vs[i] == rows[i].value
  {
    seq(|rows|, i requires 0 <= i < |rows| => rows[i].value)
  }

  function DaysOf(rows: seq<DayValue>): (ds: seq<Day>)
    ensures |ds| == |rows| && forall i :: 0 <= i < |rows| ==> ds[i] == rows[i].date
  {
    seq(|rows|, i requires 0 <= i < |rows| => rows[i].date)
  }

  /** Distinct visitors per date, ascending by date. */
  function DailyVisitors(w: seq<Event>): (rows: seq<DayValue>)
    ensures DaysOf(rows) == Dates(w)
    ensures Values(rows) == MemberDistinct(w, EventDate, Dates(w), Visitor)
  {
    var ds := Dates(w);
    var rows := seq(|ds|, i requires 0 <= i < |ds| => DayValue(ds[i], |KeySet(Members(w, EventDate, ds[i]), Visitor)|));
    assert DaysOf(rows) == ds;
    assert Values(rows) == MemberDistinct(w, EventDate, ds, Visitor);
    rows
  }

  /** Rows per date, ascending by date. */
  function DailyCounts(w: seq<Event>): (rows: seq<DayValue>)
    ensures DaysOf(rows) == Dates(w)
    ensures Values(rows) == MemberCounts(w, EventDate, Dates(w))
  {
    var ds := Dates(w);
    var rows := seq(|ds|, i requires 0 <= i < |ds| => DayValue(ds[i], |Members(w, EventDate, ds[i])|));
    assert DaysOf(rows) == ds;
    assert Values(rows) == MemberCounts(w, EventDate, ds);
    rows
  }

  /** The `!siteId` / `"demo"` / tracking-id gate every stats route opens with. */
  datatype Gate = Missing | DemoSite | Unknown | Tracked(site: Site)

  function Resolve(sites: seq<Site>, siteIdParam: Option<string>): (g: Gate)
    ensures g == Missing <==> siteIdParam.None? || siteIdParam.value == ""
    ensures g == DemoSite <==> siteIdParam == Some("demo")
    ensures g == Unknown <==>
      siteIdParam.Some? && siteIdParam.value != "" && siteIdParam.value != "demo" && SiteByTrackingId(sites, siteIdParam.value).None?
    ensures g.Tracked? ==> g.site in sites && g.site.trackingId == siteIdParam
  {
    match siteIdParam
    case None => Missing
    case Some(id) =>
      if id == "" then Missing
      else if id == "demo" then DemoSite
      else match SiteByTrackingId(sites, id)
        case None => Unknown
        case Some(s) => Tracked(s)
  }

  // ---------------------------------------------------------------------
  // visitors

  datatype VisitorStats = VisitorStats(total: int, daily: seq<DayValue>, period: string)

  /** `GET /api/stats/visitors`. */
  function VisitorsRoute(sites: seq<Site>, log: seq<Event>, siteIdParam: Option<string>, periodParam: Option<string>,
                         nowMs: int, today: Day, random: int -> real): (r: Reply<VisitorStats>)
    ensures Resolve(sites, siteIdParam) == Missing <==> r == BadRequest
    ensures Resolve(sites, siteIdParam) == Unknown <==> r == NotFound
    ensures Resolve(sites, siteIdParam) == DemoSite ==>
      r == Ok(DemoVisitors(PeriodDays(PeriodParam(periodParam)), today, random, PeriodParam(periodParam)))
    ensures Resolve(sites, siteIdParam).Tracked? ==>
      var w := InWindow(log, Resolve(sites, siteIdParam).site.id, WindowStart(nowMs, PeriodDays(PeriodParam(periodParam))));
      r == Ok(VisitorStats(DistinctVisitors(w), DailyVisitors(w), PeriodParam(periodParam)))
  {
    var period := PeriodParam(periodParam);
    var days := PeriodDays(period);
    match Resolve(sites, siteIdParam)
    case Missing => BadRequest
    case DemoSite => Ok(DemoVisitors(days, today, random, period))
    case Unknown => NotFound
    case Tracked(site) =>
      var w := InWindow(log, site.id, WindowStart(nowMs, days));
      Ok(VisitorStats(DistinctVisitors(w), DailyVisitors(w), period))
  }

  /** Each day's distinct visitors is at most the window's, which is at most
      the sum over days (a visitor seen on two days counts on both). */
  lemma VisitorsDailyBounds(w: seq<Event>)
    ensures forall i :: 0 <= i < |DailyVisitors(w)| ==> DailyVisitors(w)[i].value <= DistinctVisitors(w)
    ensures DistinctVisitors(w) <= SumInt(Values(DailyVisitors(w)))
  {
    var ds := Dates(w);
    var rows := DailyVisitors(w);
    forall i | 0 <= i < |rows| ensures rows[i].value <= DistinctVisitors(w) {
      assert rows[i].value == Values(rows)[i];
      GroupDistinctBound(w, EventDate, ds[i], Visitor);
    }
    GroupDistinctCover(w, EventDate, ds, Visitor);
  }

  /** A wider window never shows fewer distinct visitors. */
  lemma VisitorsMonotone(log: seq<Event>, siteId: string, start: int, start': int)
    requires start' <= start
    ensures DistinctVisitors(InWindow(log, siteId, start)) <= DistinctVisitors(InWindow(log, siteId, start'))
  {
    KeySetMono(InWindow(log, siteId, start), InWindow(log, siteId, start'), Visitor);
  }

  /** The wider of two period tokens' windows never has fewer distinct visitors. */
  lemma VisitorsMonotoneInPeriod(log: seq<Event>, siteId: string, nowMs: int, period: string, period': string)
    requires PeriodDays(period) <= PeriodDays(period')
    ensures DistinctVisitors(InWindow(log, siteId, WindowStart(nowMs, PeriodDays(period))))
         <= DistinctVisitors(InWindow(log, siteId, WindowStart(nowMs, PeriodDays(period'))))
  {
    VisitorsMonotone(log, siteId, WindowStart(nowMs, PeriodDays(period)), WindowStart(nowMs, PeriodDays(period')));
  }

  /** `Math.floor(x)` of the demo's noisy value, never below `floor`. */
  function DemoValue(base: real, spread: real, draw: real, floor: int): (v: int)
    ensures v >= floor
  {
    var x := (base + draw * spread - spread / 2.0).Floor;
    if floor >= x then floor else x
  }

  /** The demo series, oldest day first: entry `k` is the day `today - (days - 1 - k)`
      and carries `max(floor, floor(base0 + (k + 1) * slope + noise))`. */
  function DemoSeries(days: int, today: Day, random: int -> real, base0: real, slope: real, spread: real, floor: int): (rows: seq<DayValue>)
    ensures |rows| == if days > 0 then days else 0
    ensures forall k :: 0 <= k < |rows| ==> rows[k].date == today - (days - 1 - k) && rows[k].value >= floor
  {
    if days <= 0 then [] else seq(days, k requires 0 <= k < days => DemoDay(days, k, today, random, base0, slope, spread, floor))
  }

  function DemoDay(days: int, k: int, today: Day, random: int -> real, base0: real, slope: real, spread: real, floor: int): DayValue
  {
    DayValue(today - (days - 1 - k), DemoValue(base0 + (k + 1) as real * slope, spread, random(k), floor))
  }

  function DemoVisitors(days: int, today: Day, random: int -> real, period: string): (s: VisitorStats)
    ensures s.total == SumInt(Values(s.daily)) && s.period == period
    ensures s.daily == DemoSeries(days, today, random, 600.0, 12.0, 200.0, 500)
  {
    var daily := DemoSeries(days, today, random, 600.0, 12.0, 200.0, 500);
    VisitorStats(SumInt(Values(daily)), daily, period)
  }

  /** The demo visitors series has one row per day of the window ending today,
      each at least 500, and its total is their sum. */
  lemma DemoVisitorsShape(days: int, today: Day, random: int -> real, period: string)
    requires days > 0
    ensures var s := DemoVisitors(days, today, random, period);
      |s.daily| == days && s.daily[days - 1].date == today
      && (forall k :: 0 <= k < days ==> s.daily[k].value >= 500)
      && s.total >= 500 * days
  {
    var s := DemoVisitors(days, today, random, period);
    SumAtLeast(Values(s.daily), 500);
  }

  lemma {:induction false} SumAtLeast(xs: seq<int>, lo: int)
    requires forall i :: 0 <= i < |xs| ==> xs[i] >= lo
    ensures SumInt(xs) >= lo * |xs|
    decreases |xs|
  {
    if |xs| > 0 {
      SumAtLeast(xs[..|xs| - 1], lo);
    }
  }

  // ---------------------------------------------------------------------
  // pageviews

  datatype PageviewStats = PageviewStats(total: int, daily: seq<DayValue>, period: string)

  /** `GET /api/stats/pageviews`. */
  function PageviewsRoute(sites: seq<Site>, log: seq<Event>, siteIdParam: Option<string>, periodParam: Option<string>,
                          nowMs: int, today: Day, random: int -> real): (r: Reply<PageviewStats>)
    ensures Resolve(sites, siteIdParam) == Missing <==> r == BadRequest
    ensures Resolve(sites, siteIdParam) == Unknown <==> r == NotFound
    ensures Resolve(sites, siteIdParam) == DemoSite ==>
      r == Ok(DemoPageviews(PeriodDays(PeriodParam(periodParam)), today, random, PeriodParam(periodParam)))
    ensures Resolve(sites, siteIdParam).Tracked? ==>
      var w := Pageviews(InWindow(log, Resolve(sites, siteIdParam).site.id, WindowStart(nowMs, PeriodDays(PeriodParam(periodParam)))));
      r == Ok(PageviewStats(|w|, DailyCounts(w), PeriodParam(periodParam)))
  {
    var period := PeriodParam(periodParam);
    var days := PeriodDays(period);
    match Resolve(sites, siteIdParam)
    case Missing => BadRequest
    case DemoSite => Ok(DemoPageviews(days, today, random, period))
    case Unknown => NotFound
    case Tracked(site) =>
      var w := Pageviews(InWindow(log, site.id, WindowStart(nowMs, days)));
      Ok(PageviewStats(|w|, DailyCounts(w), period))
  }

  /** The total `count(*)` equals the sum of the per-date counts, because the
      date column splits the filtered rows into disjoint groups. */
  lemma PageviewsTotalIsSum(w: seq<Event>)
    ensures SumInt(Values(DailyCounts(w))) == |w|
  {
    var ds := Dates(w);
    forall e | e in w ensures EventDate(e) in ds {
    }
    GroupCountsPartition(w, EventDate, ds);
  }

  function DemoPageviews(days: int, today: Day, random: int -> real, period: string): (s: PageviewStats)
    ensures s.total == SumInt(Values(s.daily)) && s.period == period
    ensures s.daily == DemoSeries(days, today, random, 1500.0, 30.0, 500.0, 1200)
  {
    var daily := DemoSeries(days, today, random, 1500.0, 30.0, 500.0, 1200);
    PageviewStats(SumInt(Values(daily)), daily, period)
  }

  lemma DemoPageviewsShape(days: int, today: Day, random: int -> real, period: string)
    requires days > 0
    ensures var s := DemoPageviews(days, today, random, period);
      |s.daily| == days && (forall k :: 0 <= k < days ==> s.daily[k].value >= 1200)
      && s.total >= 1200 * days
  {
    var s := DemoPageviews(days, today, random, period);
    SumAtLeast(Values(s.daily), 1200);
  }

  // ---------------------------------------------------------------------
  // pages

  /** `parseInt(searchParams.get("limit") || "10")`; `None` is NaN. */
  function LimitParam(param: Option<string>): (r: Option<int>)
    ensures param.None? || param == Some("") ==> r == Some(10)
    ensures param.Some? && param.value != "" ==> r == ParseInt(param.value)
  {
    ParseIntDigits("10");
    assert FromBase("10", 10) == 10;
    match param
    case None => ParseInt("10")
    case Some(p) => ParseInt(OrElse(p, "10"))
  }

  /** A hexadecimal limit is read as JavaScript reads it: `0x5` is five rows,
      and `-0x5`, a negative limit, is every row. */
  lemma HexLimit()
    ensures LimitParam(Some("0x5")) == Some(5)
    ensures LimitParam(Some("-0x5")) == Some(-5)
  {
    assert "0x5" == ['0', 'x'] + "5";
    assert IsParseDigit('5', 16);
    UnsignedHex('x', "5");
    ParseIntUnsigned("0x5", 5);
    assert "-0x5" == ['-'] + "0x5";
    ParseIntSigned('-', "0x5", 5);
  }

  datatype PageRow = PageRow(path: Option<string>, title: Option<string>, pageviews: int, visitors: int)

  function PageKey(e: Event): (Option<string>, Option<string>) { (e.path, e.title) }
  function PageviewRank(r: PageRow): real { r.pageviews as real }

  function PageRowOf(w: seq<Event>, k: (Option<string>, Option<string>)): PageRow
  {
    PageRow(k.0, k.1, |Members(w, PageKey, k)|, |KeySet(Members(w, PageKey, k), Visitor)|)
  }

  /** One row per distinct (path, title) pair, in first-seen order. */
  function PageGroups(w: seq<Event>): (rows: seq<PageRow>)
    ensures |rows| == |GroupKeys(w, PageKey)|
    ensures forall i :: 0 <= i < |rows| ==> rows[i] == PageRowOf(w, GroupKeys(w, PageKey)[i])
  {
    var keys := GroupKeys(w, PageKey);
    seq(|keys|, i requires 0 <= i < |keys| => PageRowOf(w, keys[i]))
  }

  function PairOf(r: PageRow): (Option<string>, Option<string>) { (r.path, r.title) }

  /** `group by path, title order by count(*) desc limit n`. */
  function TopPages(w: seq<Event>, n: int): (rows: seq<PageRow>)
  {
    SqlLimit(SortDesc(PageGroups(w), PageviewRank), n)
  }

  /** The groups are the window's (path, title) pairs, each once. */
  lemma PageGroupsFacts(w: seq<Event>)
    ensures var g := PageGroups(w);
      (forall i, j :: 0 <= i < j < |g| ==> PairOf(g[i]) != PairOf(g[j]))
      && (forall e :: e in w ==> exists i :: 0 <= i < |g| && PairOf(g[i]) == PageKey(e))
      && (forall i :: 0 <= i < |g| ==> 1 <= g[i].visitors <= g[i].pageviews)
  {
    var g := PageGroups(w);
    var keys := GroupKeys(w, PageKey);
    assert forall i :: 0 <= i < |g| ==> PairOf(g[i]) == keys[i];
    forall e | e in w ensures exists i :: 0 <= i < |g| && PairOf(g[i]) == PageKey(e) {
      KeySetHas(w, PageKey, e);
      var i :| 0 <= i < |keys| && keys[i] == PageKey(e);
      assert PairOf(g[i]) == PageKey(e);
    }
    forall i | 0 <= i < |g| ensures 1 <= g[i].visitors <= g[i].pageviews {
      assert keys[i] in keys;
      MembersNonEmpty(w, PageKey, keys[i], Visitor);
      KeySetCard(Members(w, PageKey, keys[i]), Visitor);
    }
  }

  /** The top-pages rows are (path, title) groups of the window, each pair once,
      most viewed first, at most `n` of them (all of them for a negative `n`),
      and no row has more visitors than views. */
  lemma TopPagesFacts(w: seq<Event>, n: int)
    ensures var rows := TopPages(w, n);
      SortedDesc(rows, PageviewRank)
      && (n >= 0 ==> |rows| == if n < |PageGroups(w)| then n else |PageGroups(w)|)
      && (n < 0 ==> |rows| == |PageGroups(w)|)
      && (forall i :: 0 <= i < |rows| ==> rows[i] in PageGroups(w) && 1 <= rows[i].visitors <= rows[i].pageviews)
      && (forall i, j :: 0 <= i < j < |rows| ==> PairOf(rows[i]) != PairOf(rows[j]))
  {
    var g := PageGroups(w);
    PageGroupsSane(w);
    TopNFromInput(g, PageviewRank, n);
    var rows := TopPages(w, n);
    assert rows == SqlLimit(SortDesc(g, PageviewRank), n);
    TopNDistinct(g, PageviewRank, n, PairOf, rows);
    TopNKeeps(g, PageviewRank, n, CountsSane);
  }

  /** A page row has at least one visitor and no more visitors than views. */
  predicate CountsSane(r: PageRow) { 1 <= r.visitors <= r.pageviews }

  lemma PageGroupsSane(w: seq<Event>)
    ensures var g := PageGroups(w);
      (forall i, j :: 0 <= i < j < |g| ==> PairOf(g[i]) != PairOf(g[j]))
      && (forall i :: 0 <= i < |g| ==> CountsSane(g[i]))
  {
    PageGroupsFacts(w);
  }

  /** The same path under two titles makes two rows. */
  lemma PathWithTwoTitles(w: seq<Event>, a: Event, b: Event)
    requires a in w && b in w && a.path == b.path && a.title != b.title
    ensures exists i, j :: 0 <= i < j < |PageGroups(w)| && PageGroups(w)[i].path == PageGroups(w)[j].path == a.path
  {
    var g := PageGroups(w);
    PageGroupsFacts(w);
    var i :| 0 <= i < |g| && PairOf(g[i]) == PageKey(a);
    var j :| 0 <= j < |g| && PairOf(g[j]) == PageKey(b);
    assert i != j;
    if i < j {
      assert g[i].path == g[j].path == a.path;
    } else {
      assert g[j].path == g[i].path == a.path;
    }
  }

  /** The ten fixed demo rows. */
  function DemoPages(): (rows: seq<PageRow>)
    ensures |rows| == 10 && SortedDesc(rows, PageviewRank)
  {
    [ PageRow(Some("/blog/seo-tips"), Some("SEOのベストプラクティス"), 512, 423),
      PageRow(Some("/blog/ga4-tutorial"), Some("GA4完全ガイド"), 489, 398),
      PageRow(Some("/"), Some("ホームページ"), 423, 356),
      PageRow(Some("/product/pricing"), Some("料金プラン"), 301, 267),
      PageRow(Some("/blog/analytics-101"), Some("Web分析入門"), 278, 234),
      PageRow(Some("/about"), Some("会社概要"), 245, 198),
      PageRow(Some("/contact"), Some("お問い合わせ"), 189, 156),
      PageRow(Some("/blog/privacy-first"), Some("プライバシー重視の分析"), 167, 142),
      PageRow(Some("/features"), Some("機能一覧"), 156, 134),
      PageRow(Some("/docs/getting-started"), Some("はじめに"), 134, 112) ]
  }

  /** `slice(0, limit)` with a NaN limit reads it as 0. */
  function SliceEnd(limit: Option<int>): int
  {
    match limit
    case Some(n) => n
    case None => 0
  }

  datatype PagesBody = PagesBody(pages: seq<PageRow>, period: string)

  /** `GET /api/stats/pages`. A NaN limit writes no `LIMIT` clause, so every
      page is listed, while the demo rows' `slice(0, NaN)` is empty. */
  function PagesRoute(sites: seq<Site>, log: seq<Event>, siteIdParam: Option<string>, periodParam: Option<string>,
                      limitParam: Option<string>, nowMs: int): (r: Reply<PagesBody>)
    ensures Resolve(sites, siteIdParam) == Missing <==> r == BadRequest
    ensures Resolve(sites, siteIdParam) == Unknown <==> r == NotFound
    ensures r.Ok? <==> Resolve(sites, siteIdParam) == DemoSite || Resolve(sites, siteIdParam).Tracked?
    ensures Resolve(sites, siteIdParam) == DemoSite ==>
      r == Ok(PagesBody(JsSlice(DemoPages(), SliceEnd(LimitParam(limitParam))), PeriodParam(periodParam)))
    ensures Resolve(sites, siteIdParam).Tracked? ==>
      var w := Pageviews(InWindow(log, Resolve(sites, siteIdParam).site.id, WindowStart(nowMs, PeriodDays(PeriodParam(periodParam)))));
      r == Ok(PagesBody(TopPages(w, BuilderLimit(LimitParam(limitParam))), PeriodParam(periodParam)))
      && (LimitParam(limitParam).None? ==> r.body.pages == SortDesc(PageGroups(w), PageviewRank))
  {
    var period := PeriodParam(periodParam);
    var limit := LimitParam(limitParam);
    match Resolve(sites, siteIdParam)
    case Missing => BadRequest
    case DemoSite => Ok(PagesBody(JsSlice(DemoPages(), SliceEnd(limit)), period))
    case Unknown => NotFound
    case Tracked(site) =>
      var w := Pageviews(InWindow(log, site.id, WindowStart(nowMs, PeriodDays(period))));
      Ok(PagesBody(TopPages(w, BuilderLimit(limit)), period))
  }

  // ---------------------------------------------------------------------
  // devices

  /** One `{ <field>, count }` row: a field value (NULL included) and its distinct visitors. */
  datatype Bucket = Bucket(value: Option<string>, count: int)

  function DeviceTypeOf(e: Event): Option<string> { e.deviceType }
  function BrowserOf(e: Event): Option<string> { e.browser }
  function OsOf(e: Event): Option<string> { e.os }

  function BucketOf(w: seq<Event>, field: Event -> Option<string>, v: Option<string>): Bucket
  {
    Bucket(v, |KeySet(Members(w, field, v), Visitor)|)
  }

  /** `select field, count(distinct visitor_hash) … group by field`, one row
      per value in first-seen order. */
  function Buckets(w: seq<Event>, field: Event -> Option<string>): (bs: seq<Bucket>)
    ensures |bs| == |GroupKeys(w, field)|
    ensures forall i :: 0 <= i < |bs| ==> bs[i] == BucketOf(w, field, GroupKeys(w, field)[i])
  {
    var keys := GroupKeys(w, field);
    seq(|keys|, i requires 0 <= i < |keys| => BucketOf(w, field, keys[i]))
  }

  function Counts(bs: seq<Bucket>): (cs: seq<int>)
    ensures |cs| == |bs| && forall i :: 0 <= i < |bs| ==> cs[i] == bs[i].count
  {
    seq(|bs|, i requires 0 <= i < |bs| => bs[i].count)
  }

  /** In one view the buckets are the window's values (NULL is one of them),
      each once; every bucket has at least one and at most the window's
      distinct visitors, and the buckets together count every visitor at
      least once (a visitor with two browsers is in both). */
  lemma BucketBounds(w: seq<Event>, field: Event -> Option<string>)
    ensures var bs := Buckets(w, field);
      (forall i, j :: 0 <= i < j < |bs| ==> bs[i].value != bs[j].value)
      && (forall e :: e in w ==> exists i :: 0 <= i < |bs| && bs[i].value == field(e))
      && (forall i :: 0 <= i < |bs| ==> 1 <= bs[i].count <= DistinctVisitors(w))
      && DistinctVisitors(w) <= SumInt(Counts(bs))
  {
    BucketsCover(w, field);
    BucketCountRange(w, field);
    BucketsCountEveryone(w, field);
  }

  lemma BucketsCover(w: seq<Event>, field: Event -> Option<string>)
    ensures var bs := Buckets(w, field);
      (forall i, j :: 0 <= i < j < |bs| ==> bs[i].value != bs[j].value)
      && (forall e :: e in w ==> exists i :: 0 <= i < |bs| && bs[i].value == field(e))
  {
    var bs := Buckets(w, field);
    var ks := GroupKeys(w, field);
    forall e | e in w ensures exists i :: 0 <= i < |bs| && bs[i].value == field(e) {
      KeySetHas(w, field, e);
      var i :| 0 <= i < |ks| && ks[i] == field(e);
      assert bs[i].value == field(e);
    }
  }

  lemma BucketCountRange(w: seq<Event>, field: Event -> Option<string>)
    ensures var bs := Buckets(w, field);
      forall i :: 0 <= i < |bs| ==> 1 <= bs[i].count <= DistinctVisitors(w)
  {
    var bs := Buckets(w, field);
    var ks := GroupKeys(w, field);
    forall i | 0 <= i < |bs| ensures 1 <= bs[i].count <= DistinctVisitors(w) {
      assert ks[i] in ks;
      MembersNonEmpty(w, field, ks[i], Visitor);
      GroupDistinctBound(w, field, ks[i], Visitor);
    }
  }

  lemma BucketsCountEveryone(w: seq<Event>, field: Event -> Option<string>)
    ensures DistinctVisitors(w) <= SumInt(Counts(Buckets(w, field)))
  {
    var bs := Buckets(w, field);
    var ks := GroupKeys(w, field);
    forall e | e in w ensures field(e) in ks {
      KeySetHas(w, field, e);
    }
    GroupDistinctCover(w, field, ks, Visitor);
    assert Counts(bs) == MemberDistinct(w, field, ks, Visitor);
  }

  datatype DevicesBody = DevicesBody(devices: seq<Bucket>, browsers: seq<Bucket>, os: seq<Bucket>, period: string)

  function DemoDevices(period: string): DevicesBody
  {
    DevicesBody(
      [Bucket(Some("desktop"), 1245), Bucket(Some("mobile"), 998), Bucket(Some("tablet"), 134)],
      [Bucket(Some("Chrome"), 1567), Bucket(Some("Safari"), 456), Bucket(Some("Firefox"), 234), Bucket(Some("Edge"), 120)],
      [Bucket(Some("Windows"), 1123), Bucket(Some("macOS"), 678), Bucket(Some("iOS"), 456), Bucket(Some("Android"), 120)],
      period)
  }

  /** `GET /api/stats/devices`: three independent views over the same window. */
  function DevicesRoute(sites: seq<Site>, log: seq<Event>, siteIdParam: Option<string>, periodParam: Option<string>,
                        nowMs: int): (r: Reply<DevicesBody>)
    ensures Resolve(sites, siteIdParam) == Missing <==> r == BadRequest
    ensures Resolve(sites, siteIdParam) == Unknown <==> r == NotFound
    ensures Resolve(sites, siteIdParam) == DemoSite ==> r == Ok(DemoDevices(PeriodParam(periodParam)))
    ensures Resolve(sites, siteIdParam).Tracked? ==>
      var w := InWindow(log, Resolve(sites, siteIdParam).site.id, WindowStart(nowMs, PeriodDays(PeriodParam(periodParam))));
      r == Ok(DevicesBody(Buckets(w, DeviceTypeOf), Buckets(w, BrowserOf), Buckets(w, OsOf), PeriodParam(periodParam)))
  {
    var period := PeriodParam(periodParam);
    match Resolve(sites, siteIdParam)
    case Missing => BadRequest
    case DemoSite => Ok(DemoDevices(period))
    case Unknown => NotFound
    case Tracked(site) =>
      var w := InWindow(log, site.id, WindowStart(nowMs, PeriodDays(period)));
      Ok(DevicesBody(Buckets(w, DeviceTypeOf), Buckets(w, BrowserOf), Buckets(w, OsOf), period))
  }

  // ---------------------------------------------------------------------
  // realtime

  const RealtimeWindowSeconds: int := 30 * 60

  /** Distinct sessions among the site's events of any type in the last 30 minutes. */
  function ActiveSessions(log: seq<Event>, siteId: string, nowMs: int): int
  {
    |KeySet(InWindow(log, siteId, nowMs / 1000 - RealtimeWindowSeconds), SessionOf)|
  }

  /** Every recent event's session is counted, whatever its type, and there are
      never more sessions than recent events. */
  lemma ActiveSessionsFacts(log: seq<Event>, siteId: string, nowMs: int, e: Event)
    requires e in log && e.siteId == siteId && e.timestamp >= nowMs / 1000 - RealtimeWindowSeconds
    ensures 1 <= ActiveSessions(log, siteId, nowMs) <= |InWindow(log, siteId, nowMs / 1000 - RealtimeWindowSeconds)|
    ensures e.sessionHash in KeySet(InWindow(log, siteId, nowMs / 1000 - RealtimeWindowSeconds), SessionOf)
  {
    var w := InWindow(log, siteId, nowMs / 1000 - RealtimeWindowSeconds);
    KeySetCard(w, SessionOf);
    KeySetHas(w, SessionOf, e);
  }

  /** `Math.floor(Math.random() * 10) + 5`. */
  function DemoActive(draw: real): (v: int)
    requires 0.0 <= draw < 1.0
    ensures 5 <= v <= 14
  {
    (draw * 10.0).Floor + 5
  }

  /** `GET /api/stats/realtime`. */
  function RealtimeRoute(sites: seq<Site>, log: seq<Event>, siteIdParam: Option<string>, nowMs: int, draw: real): (r: Reply<int>)
    requires 0.0 <= draw < 1.0
    ensures Resolve(sites, siteIdParam) == Missing <==> r == BadRequest
    ensures Resolve(sites, siteIdParam) == Unknown <==> r == NotFound
    ensures Resolve(sites, siteIdParam) == DemoSite ==> r.Ok? && 5 <= r.body <= 14
    ensures Resolve(sites, siteIdParam).Tracked? ==>
      r == Ok(ActiveSessions(log, Resolve(sites, siteIdParam).site.id, nowMs))
  {
    match Resolve(sites, siteIdParam)
    case Missing => BadRequest
    case DemoSite => Ok(DemoActive(draw))
    case Unknown => NotFound
    case Tracked(site) => Ok(ActiveSessions(log, site.id, nowMs))
  }
}

=== FILE: token_refresh.dfy ===
/** Google OAuth access tokens for the Search Console calls: the stored
    token is used while it has more than five minutes left, and otherwise
    replaced through the refresh-token grant of RFC 6749, section 6. The
    `account` table is an input and, after a refresh, part of the result;
    the token endpoint is a parameter. Times are milliseconds. */
module TokenRefresh {
  import opened Common

  /** The `account` columns the refresh reads and writes. */
  datatype Account = Account(
    id: string,
    userId: string,
    accessToken: Option<string>,
    refreshToken: Option<string>,
    accessTokenExpiresAt: Option<int>,
    scope: Option<string>)

  /** `GOOGLE_CLIENT_ID` and `GOOGLE_CLIENT_SECRET`. */
  datatype OAuthClient = OAuthClient(clientId: Option<string>, clientSecret: Option<string>)

  /** The form-encoded body posted to the token endpoint. */
  datatype RefreshRequest = RefreshRequest(clientId: string, clientSecret: string, refreshToken: string, grantType: string)

  /** A non-OK answer (with the body's `error.message` if any, `None` also
      when the body is not JSON) or a granted token. */
  datatype TokenResponse =
    | Refused(errorMessage: Option<string>, statusText: string)
    | Granted(accessToken: string, expiresIn: Option<int>, scope: Option<string>)

  datatype TokenResult = TokenError(message: string) | Valid(token: string)

  const RefreshMarginMs: int := 5 * 60 * 1000
  const DefaultExpiresIn: int := 3600
  const NoRefreshToken: string := "リフレッシュトークンが見つかりません"
  const OAuthIncomplete: string := "Google OAuth設定が不完全です"
  const NoAccessToken: string := "アクセストークンが見つかりません"
  const NoRefreshTokenRelogin: string := "リフレッシュトークンが見つかりません。再度ログインしてください。"
  const RefreshFailed: string := "トークンリフレッシュに失敗しました: "

  /** `where userId = ? limit 1`: the index of the user's first account. */
  function FirstAccount(accounts: seq<Account>, userId: string): (r: Option<nat>)
    ensures r.Some? ==> (r.value < |accounts| && accounts[r.value].userId == userId
      && forall j :: 0 <= j < r.value ==> accounts[j].userId != userId)
    ensures r.None? ==> forall j :: 0 <= j < |accounts| ==> accounts[j].userId != userId
  {
    if |accounts| == 0 then None
    else if accounts[|accounts| - 1].userId == userId && FirstAccount(accounts[..|accounts| - 1], userId).None?
    then Some(|accounts| - 1)
    else FirstAccount(accounts[..|accounts| - 1], userId)
  }

  /** `!expiresAt || expiresAt <= now + 5 min`. */
  predicate NeedsRefresh(expiresAt: Option<int>, nowMs: int)
  {
    expiresAt.None? || expiresAt.value <= nowMs + RefreshMarginMs
  }

  /** `data.expires_in || 3600`. */
  function ExpiresIn(e: Option<int>): (s: int)
    ensures e.Some? && e.value != 0 ==> s == e.value
    ensures e.None? || e.value == 0 ==> s == DefaultExpiresIn
  {
    if e.Some? && e.value != 0 then e.value else DefaultExpiresIn
  }

  /** The columns a successful refresh sets; the scope only when the answer has one. */
  function Refreshed(a: Account, token: string, expiresAt: int, scope: Option<string>): (b: Account)
    ensures b.id == a.id && b.userId == a.userId && b.refreshToken == a.refreshToken
    ensures b.accessToken == Some(token) && b.accessTokenExpiresAt == Some(expiresAt)
    ensures b.scope == (if Filled(scope) then scope else a.scope)
  {
    a.(accessToken := Some(token), accessTokenExpiresAt := Some(expiresAt), scope := if Filled(scope) then scope else a.scope)
  }

  /** `update account … where id = ?`. */
  function UpdateById(accounts: seq<Account>, id: string, token: string, expiresAt: int, scope: Option<string>): (r: seq<Account>)
    ensures |r| == |accounts|
    ensures forall j :: 0 <= j < |r| ==>
      r[j] == (if accounts[j].id == id then Refreshed(accounts[j], token, expiresAt, scope) else accounts[j])
  {
    seq(|accounts|, j requires 0 <= j < |accounts| =>
      if accounts[j].id == id then Refreshed(accounts[j], token, expiresAt, scope) else accounts[j])
  }

  function RequestFor(a: Account, oauth: OAuthClient): RefreshRequest
    requires Filled(a.refreshToken) && Filled(oauth.clientId) && Filled(oauth.clientSecret)
  {
    RefreshRequest(oauth.clientId.value, oauth.clientSecret.value, a.refreshToken.value, "refresh_token")
  }

  /** `refreshGoogleAccessToken`. A failure writes nothing; a success replaces
      the token and its expiry on the user's first account (and on any row
      sharing its id) and touches no other row. */
  function Refresh(accounts: seq<Account>, userId: string, oauth: OAuthClient, endpoint: RefreshRequest -> TokenResponse, nowMs: int): (r: (TokenResult, seq<Account>))
    ensures r.0.TokenError? ==> r.1 == accounts
    ensures r.0.Valid? <==> (FirstAccount(accounts, userId).Some?
      && Filled(accounts[FirstAccount(accounts, userId).value].refreshToken)
      && Filled(oauth.clientId) && Filled(oauth.clientSecret)
      && endpoint(RequestFor(accounts[FirstAccount(accounts, userId).value], oauth)).Granted?)
    ensures r.0.Valid? ==>
      var i := FirstAccount(accounts, userId).value;
      var g := endpoint(RequestFor(accounts[i], oauth));
      r.0.token == g.accessToken
      && |r.1| == |accounts|
      && r.1[i].accessToken == Some(g.accessToken)
      && r.1[i].accessTokenExpiresAt == Some(nowMs + 1000 * ExpiresIn(g.expiresIn))
      && r.1[i].scope == (if Filled(g.scope) then g.scope else accounts[i].scope)
      && (forall j :: 0 <= j < |accounts| ==> r.1[j].id == accounts[j].id && r.1[j].userId == accounts[j].userId)
      && (forall j :: 0 <= j < |accounts| && accounts[j].id != accounts[i].id ==> r.1[j] == accounts[j])
    ensures FirstAccount(accounts, userId).None? || !Filled(accounts[FirstAccount(accounts, userId).value].refreshToken)
      ==> r.0 == TokenError(NoRefreshToken)
  {
    match FirstAccount(accounts, userId)
    case None => (TokenError(NoRefreshToken), accounts)
    case Some(i) =>
      var a := accounts[i];
      if !Filled(a.refreshToken) then (TokenError(NoRefreshToken), accounts)
      else if !Filled(oauth.clientId) || !Filled(oauth.clientSecret) then (TokenError(OAuthIncomplete), accounts)
      else
        match endpoint(RequestFor(a, oauth))
        case Refused(m, statusText) =>
          (TokenError(RefreshFailed + (if Filled(m) then m.value else statusText)), accounts)
        case Granted(token, expiresIn, scope) =>
          (Valid(token), UpdateById(accounts, a.id, token, nowMs + 1000 * ExpiresIn(expiresIn), scope))
  }

  /** `getValidAccessToken`. */
  function ValidAccessToken(accounts: seq<Account>, userId: string, oauth: OAuthClient, endpoint: RefreshRequest -> TokenResponse, nowMs: int): (r: (TokenResult, seq<Account>))
    ensures FirstAccount(accounts, userId).None? || !Filled(accounts[FirstAccount(accounts, userId).value].accessToken)
      ==> r == (TokenError(NoAccessToken), accounts)
    ensures FirstAccount(accounts, userId).Some? ==>
      var a := accounts[FirstAccount(accounts, userId).value];
      Filled(a.accessToken) ==>
        (!NeedsRefresh(a.accessTokenExpiresAt, nowMs) ==> r == (Valid(a.accessToken.value), accounts))
        && (NeedsRefresh(a.accessTokenExpiresAt, nowMs) && !Filled(a.refreshToken) ==> r == (TokenError(NoRefreshTokenRelogin), accounts))
        && (NeedsRefresh(a.accessTokenExpiresAt, nowMs) && Filled(a.refreshToken) ==> r == Refresh(accounts, userId, oauth, endpoint, nowMs))
  {
    match FirstAccount(accounts, userId)
    case None => (TokenError(NoAccessToken), accounts)
    case Some(i) =>
      var a := accounts[i];
      if !Filled(a.accessToken) then (TokenError(NoAccessToken), accounts)
      else if NeedsRefresh(a.accessTokenExpiresAt, nowMs) then
        if !Filled(a.refreshToken) then (TokenError(NoRefreshTokenRelogin), accounts)
        else Refresh(accounts, userId, oauth, endpoint, nowMs)
      else (Valid(a.accessToken.value), accounts)
  }

  /** The token endpoint is consulted only when a refresh is due and a refresh
      token exists: otherwise any two endpoints give the same answer. */
  lemma NoCallUnlessDue(accounts: seq<Account>, userId: string, oauth: OAuthClient, e1: RefreshRequest -> TokenResponse, e2: RefreshRequest -> TokenResponse, nowMs: int)
    requires FirstAccount(accounts, userId).Some? ==>
      var a := accounts[FirstAccount(accounts, userId).value];
      !NeedsRefresh(a.accessTokenExpiresAt, nowMs) || !Filled(a.refreshToken)
    ensures ValidAccessToken(accounts, userId, oauth, e1, nowMs) == ValidAccessToken(accounts, userId, oauth, e2, nowMs)
    ensures ValidAccessToken(accounts, userId, oauth, e1, nowMs).1 == accounts
  {
  }

  /** After a refresh whose token lives longer than the margin, asking again
      at the same instant returns the new token with no second refresh. */
  lemma RefreshedTokenIsReused(accounts: seq<Account>, userId: string, oauth: OAuthClient, endpoint: RefreshRequest -> TokenResponse, nowMs: int)
    requires FirstAccount(accounts, userId).Some?
    requires var a := accounts[FirstAccount(accounts, userId).value];
      Filled(a.accessToken) && NeedsRefresh(a.accessTokenExpiresAt, nowMs) && Filled(a.refreshToken)
      && Filled(oauth.clientId) && Filled(oauth.clientSecret)
    requires var i := FirstAccount(accounts, userId).value;
      endpoint(RequestFor(accounts[i], oauth)).Granted? && endpoint(RequestFor(accounts[i], oauth)).accessToken != ""
      && 1000 * ExpiresIn(endpoint(RequestFor(accounts[i], oauth)).expiresIn) > RefreshMarginMs
    ensures var r := ValidAccessToken(accounts, userId, oauth, endpoint, nowMs);
      ValidAccessToken(r.1, userId, oauth, endpoint, nowMs) == r
  {
    var r := ValidAccessToken(accounts, userId, oauth, endpoint, nowMs);
    var i := FirstAccount(accounts, userId).value;
    SameUsersSameFirst(accounts, r.1, userId);
    assert FirstAccount(r.1, userId) == Some(i);
  }

  /** A table with the same users row by row has the same first account. */
  lemma {:induction false} SameUsersSameFirst(a: seq<Account>, b: seq<Account>, userId: string)
    requires |a| == |b| && forall j :: 0 <= j < |a| ==> a[j].userId == b[j].userId
    ensures FirstAccount(a, userId) == FirstAccount(b, userId)
    decreases |a|
  {
    if |a| > 0 {
      SameUsersSameFirst(a[..|a| - 1], b[..|b| - 1], userId);
    }
  }
}

=== FILE: trend_chart.dfy ===
/** The 30-day average-position chart: the daily rows of `/api/gsc/stats`
    as chart points sorted by date, the current position, its change against
    1, 7 or 30 days earlier, and the y-axis range. Dates are day numbers;
    `dayOf` reads a row's `YYYY-MM-DD` key (ISO dates compare as strings in
    day order). */
module TrendChart {
  import opened Common
  import opened Grouping
  import opened GscSummary

  const NearWindowDays: int := 3

  datatype ChartPoint = ChartPoint(date: int, position: Option<real>)

  /** A plotted position: the row's position to one decimal when it is
      positive, a gap otherwise. */
  function PlottedPosition(r: SearchRow): (p: Option<real>)
    ensures p.Some? <==> PositionOf(r) > 0.0
    ensures p.Some? ==> p.value == Round1(PositionOf(r))
  {
    if PositionOf(r) > 0.0 then Some(Round1(PositionOf(r))) else None
  }

  /** The rows with a key, as points, in input order. */
  function Points(rows: seq<SearchRow>, dayOf: string -> int): (ps: seq<ChartPoint>)
    ensures |ps| <= |rows|
    ensures forall p :: p in ps ==> exists r :: r in rows && |r.keys| > 0 && p == ChartPoint(dayOf(r.keys[0]), PlottedPosition(r))
  {
    if |rows| == 0 then []
    else
      var init := rows[..|rows| - 1];
      var r := rows[|rows| - 1];
      assert forall x :: x in init ==> x in rows;
      Points(init, dayOf) + (if |r.keys| > 0 then [ChartPoint(dayOf(r.keys[0]), PlottedPosition(r))] else [])
  }

  /** Descending on the negated date is ascending on the date, ties kept in
      input order. */
  function EarlierFirst(p: ChartPoint): real { -(p.date as real) }

  predicate Ascending(data: seq<ChartPoint>)
  {
    forall i, j :: 0 <= i < j < |data| ==> data[i].date <= data[j].date
  }

  function ChartData(rows: seq<SearchRow>, dayOf: string -> int): (data: seq<ChartPoint>)
    ensures Ascending(data)
    ensures multiset(data) == multiset(Points(rows, dayOf))
  {
    var data := SortDesc(Points(rows, dayOf), EarlierFirst);
    assert forall i, j :: 0 <= i < j < |data| ==> EarlierFirst(data[i]) >= EarlierFirst(data[j]);
    data
  }

  /** Every point comes from a keyed row and no keyed row is dropped. */
  lemma ChartDataFacts(rows: seq<SearchRow>, dayOf: string -> int)
    ensures var data := ChartData(rows, dayOf);
      (forall p :: p in data ==> exists r :: r in rows && |r.keys| > 0 && p == ChartPoint(dayOf(r.keys[0]), PlottedPosition(r)))
      && (forall r :: r in rows && |r.keys| > 0 ==> ChartPoint(dayOf(r.keys[0]), PlottedPosition(r)) in data)
  {
    var data := ChartData(rows, dayOf);
    forall p | p in data ensures p in Points(rows, dayOf) {
      assert p in multiset(data);
    }
    forall r | r in rows && |r.keys| > 0 ensures ChartPoint(dayOf(r.keys[0]), PlottedPosition(r)) in data {
      KeyedRowPlotted(rows, dayOf, r);
      assert ChartPoint(dayOf(r.keys[0]), PlottedPosition(r)) in multiset(Points(rows, dayOf));
    }
  }

  lemma {:induction false} KeyedRowPlotted(rows: seq<SearchRow>, dayOf: string -> int, r: SearchRow)
    requires r in rows && |r.keys| > 0
    ensures ChartPoint(dayOf(r.keys[0]), PlottedPosition(r)) in Points(rows, dayOf)
    decreases |rows|
  {
    var init := rows[..|rows| - 1];
    assert rows == init + [rows[|rows| - 1]];
    if r != rows[|rows| - 1] {
      KeyedRowPlotted(init, dayOf, r);
    }
  }

  // ---------------------------------------------------------------------
  // Current position

  /** The index of the latest point with a position (`[...data].reverse().find`). */
  function LastWithValue(data: seq<ChartPoint>): (r: Option<nat>)
    ensures r.Some? ==> r.value < |data| && data[r.value].position.Some?
                        && forall k :: r.value < k < |data| ==> data[k].position.None?
    ensures r.None? ==> forall k :: 0 <= k < |data| ==> data[k].position.None?
  {
    if |data| == 0 then None
    else if data[|data| - 1].position.Some? then Some(|data| - 1)
    else LastWithValue(data[..|data| - 1])
  }

  /** The latest plotted position, else the summary's, each to one decimal. */
  function CurrentPosition(data: seq<ChartPoint>, summaryPosition: Option<real>): (c: Option<real>)
    ensures LastWithValue(data).Some? ==> c == Some(Round1(data[LastWithValue(data).value].position.value))
    ensures LastWithValue(data).None? && summaryPosition.Some? ==> c == Some(Round1(summaryPosition.value))
    ensures c.None? <==> LastWithValue(data).None? && summaryPosition.None?
  {
    match LastWithValue(data)
    case Some(l) => Some(Round1(data[l].position.value))
    case None => if summaryPosition.Some? then Some(Round1(summaryPosition.value)) else None
  }

  // ---------------------------------------------------------------------
  // The comparison point

  function CompareDays(period: string): (d: int)
    ensures d == 1 <==> period == "1d"
    ensures d == 7 <==> period == "7d"
    ensures d == 30 <==> period != "1d" && period != "7d"
  {
    if period == "1d" then 1 else if period == "7d" then 7 else 30
  }

  function Distance(p: ChartPoint, target: int): nat
  {
    if p.date >= target then p.date - target else target - p.date
  }

  predicate Eligible(p: ChartPoint, target: int)
  {
    p.position.Some? && Distance(p, target) <= NearWindowDays
  }

  function ExactAt(target: int): ChartPoint -> bool
  {
    (p: ChartPoint) => p.date == target && p.position.Some?
  }

  /** The nearest point with a position within three days of `target`, the
      earliest in the data among equally near ones (a stable sort by distance,
      then its head). */
  function Nearest(data: seq<ChartPoint>, target: int, from: nat): (r: Option<nat>)
    requires from <= |data|
    ensures r.Some? ==> (from <= r.value < |data| && Eligible(data[r.value], target)
      && (forall k :: from <= k < |data| && Eligible(data[k], target) ==> Distance(data[r.value], target) <= Distance(data[k], target))
      && (forall k :: from <= k < r.value && Eligible(data[k], target) ==> Distance(data[k], target) > Distance(data[r.value], target)))
    ensures r.None? ==> forall k :: from <= k < |data| ==> !Eligible(data[k], target)
    decreases |data| - from
  {
    if from == |data| then None
    else
      var rest := Nearest(data, target, from + 1);
      if !Eligible(data[from], target) then rest
      else if rest.None? || Distance(data[from], target) <= Distance(data[rest.value], target) then Some(from)
      else rest
  }

  /** The point the change is measured against: the first one exactly on
      the target day with a position, else the nearest within three days. */
  function ComparePoint(data: seq<ChartPoint>, target: int): (r: Option<nat>)
    ensures r.Some? ==> r.value < |data| && data[r.value].position.Some? && Distance(data[r.value], target) <= NearWindowDays
    ensures (exists k :: 0 <= k < |data| && data[k].date == target && data[k].position.Some?) ==>
      r.Some? && data[r.value].date == target
    ensures r.None? <==> forall k :: 0 <= k < |data| ==> !Eligible(data[k], target)
  {
    match FirstIndex(data, ExactAt(target), 0)
    case Some(i) => Some(i)
    case None =>
      Nearest(data, target, 0)
  }

  /** The change shown next to the current position: latest minus compared
      position, to one decimal; none without data, without a current position
      or without a point to compare with. */
  function Delta(data: seq<ChartPoint>, current: Option<real>, period: string): (d: Option<real>)
    ensures |data| == 0 || current.None? || LastWithValue(data).None? ==> d.None?
    ensures current.Some? && LastWithValue(data).Some? ==>
      var l := LastWithValue(data).value;
      ComparePoint(data, data[l].date - CompareDays(period)).Some? ==> d.Some?
    ensures d.Some? ==> (LastWithValue(data).Some?
      && var l := LastWithValue(data).value;
      ComparePoint(data, data[l].date - CompareDays(period)).Some?
      && var c := ComparePoint(data, data[l].date - CompareDays(period)).value;
      d.value == Round1(data[l].position.value - data[c].position.value))
  {
    if |data| == 0 || current.None? then None
    else match LastWithValue(data)
      case None => None
      case Some(l) =>
        match ComparePoint(data, data[l].date - CompareDays(period))
        case None => None
        case Some(c) => Some(Round1(data[l].position.value - data[c].position.value))
  }

  /** Without the day before, the one-day comparison can fall back on the
      latest point itself, one day from the target: the change is 0 and is
      not shown. */
  lemma LatestComparedWithItself(d: int, p: real)
    ensures Delta([ChartPoint(d, Some(p))], Some(p), "1d") == Some(0.0)
  {
    var data := [ChartPoint(d, Some(p))];
    assert Eligible(data[0], d - 1);
    assert ComparePoint(data, d - 1) == Some(0);
    RoundOfInt(0);
  }

  datatype Verdict = Improved | Worsened | Hidden

  /** A negative change is an improvement (a smaller position number). */
  function DeltaVerdict(d: Option<real>): (v: Verdict)
    ensures v == Hidden <==> d.None? || d.value == 0.0
    ensures v == Improved <==> d.Some? && d.value < 0.0
  {
    if d.None? || d.value == 0.0 then Hidden else if d.value < 0.0 then Improved else Worsened
  }

  /** The chart says "improved" exactly when the latest position beats the
      compared one by more than 0.05. */
  lemma ImprovedIffBetter(x: real)
    ensures DeltaVerdict(Some(Round1(x))) == Improved <==> x < -0.05
  {
    var k := Round(x * 10.0);
    if x < -0.05 {
      assert x * 10.0 + 0.5 < 0.0;
      assert k < 0;
    }
    if k < 0 {
      assert k <= -1;
    }
  }

  // ---------------------------------------------------------------------
  // Y axis

  function PlottedValues(data: seq<ChartPoint>): (vs: seq<real>)
    ensures forall v :: v in vs <==> exists p :: p in data && p.position == Some(v)
  {
    if |data| == 0 then []
    else
      var init := data[..|data| - 1];
      var p := data[|data| - 1];
      assert data == init + [p];
      PlottedValues(init) + (if p.position.Some? then [p.position.value] else [])
  }

  function MinOf(vs: seq<real>): (m: real)
    requires |vs| > 0
    ensures m in vs && forall v :: v in vs ==> m <= v
  {
    if |vs| == 1 then vs[0]
    else
      var rest := MinOf(vs[1..]);
      assert forall v :: v in vs[1..] ==> v in vs;
      assert forall v :: v in vs ==> v == vs[0] || v in vs[1..];
      MinReal(vs[0], rest)
  }

  function MaxOf(vs: seq<real>): (m: real)
    requires |vs| > 0
    ensures m in vs && forall v :: v in vs ==> v <= m
  {
    if |vs| == 1 then vs[0]
    else
      var rest := MaxOf(vs[1..]);
      assert forall v :: v in vs[1..] ==> v in vs;
      assert forall v :: v in vs ==> v == vs[0] || v in vs[1..];
      MaxReal(vs[0], rest)
  }

  /** `[max(0, floor(min - 2)), max(that + 5, ceil(max + 2))]`, from `[0, 20]`
      without positions. */
  function YDomain(data: seq<ChartPoint>): (dom: (int, int))
    ensures dom.0 >= 0 && dom.1 - dom.0 >= 5
    ensures PlottedValues(data) == [] ==> dom == (0, 20)
    ensures forall p :: p in data && p.position.Some? && p.position.value >= 0.0 ==>
      dom.0 as real <= p.position.value <= dom.1 as real
  {
    var vs := PlottedValues(data);
    var lo0 := if |vs| > 0 then (MinOf(vs) - 2.0).Floor else 0;
    var hi0 := if |vs| > 0 then Ceil(MaxOf(vs) + 2.0) else 20;
    var lo := if lo0 > 0 then lo0 else 0;
    var hi := if lo + 5 > hi0 then lo + 5 else hi0;
    (lo, hi)
  }
}
